=== FILE: README.md ===
# Slime World Manager: the Slime world format and the logic around it

This project models, in Dafny, the core of Slime World Manager, a Minecraft
server plugin that keeps whole worlds in one compact "Slime" file and stores
those files in a database or on disk.  The model covers:

- **The Slime container format.**
  - The writer is `CraftSlimeWorld.serialize` (modules `Encoder`, `SlimeFormat`, `BitSets`, `Bytes`).
  - The reader is `LoaderUtils.deserializeWorld` (module `Decoder`), with every version-gated branch from format 1 to format 9.
  - Round-trip proofs cover the header, the chunk bounds, the chunk-presence bitmask, each chunk and section, each framed blob, and the whole world (modules `ContainerProofs`, `ChunkProofs`, `SectionProofs`, `GridProofs`, `AttachProofs`, `PlanProofs`, `RoundTrip`).
  - Chunk keying (`getChunk`/`updateChunk`) and `clone` are in modules `Worlds` and `Lifecycle`.
- **The nibble array** used for block light, sky light and legacy block data (`Nibbles`).
- **The typed property map**: boolean, int and string properties with defaults, validators, `merge` and `toCompound` (`Properties`).
- **The two vanilla-world importers**: the plugin's `WorldImporter` and the standalone `SWMImporter`. This includes the Anvil region header, the DataVersion table, chunk and section filtering, level.dat defaults and map files (`Regions`, `VanillaChunks`, `PluginImport`, `StandaloneImport`).
- **The 1.13 ⇄ 1.14 world converter** `v1_14WorldUpgrade` (`UpgradeTables`, `BlockScan`, `WorldUpgrade`, `UpgradeProofs`). It covers:
  - the block rename tables;
  - the villager profession tables;
  - a scan of packed block states that retags chest tile entities;
  - the ocelot, cat, villager and banner rewrites;
  - a proof that downgrading an upgraded world gives it back.
- **The MySQL and MongoDB loaders as lease state machines** (`Leases`, `MysqlStore`, `MongoStore`).
  - Each backend is an abstract table of worlds, each holding the world's bytes and the time its lock was last taken.
  - Each backend also keeps the set of worlds this server keeps refreshing.
  - The clock is an explicit parameter.
- **The plugin's lifecycle operations**: `createEmptyWorld`, `loadWorld`, `importWorld`, `migrateWorld` and `generateWorld`, composed from the loaders and the codec (`Lifecycle`).
- **The update checker's `Version`**: parsing and `compareTo` (`Versions`, `Numerals`).
- **The per-world configuration record `WorldData`**: `deserialize`, `serialize`, the default constructor and `toPropertyMap` (`WorldConfig`).

Foreign code is passed in as functions rather than modelled:

- the NBT tag stream (flowpowered's `NBTOutputStream`/`NBTInputStream`);
- zstd compression;
- the gzip/zlib decompression of region chunks;
- `Double.parseDouble`.

The predicate `Foreign.Faithful` states what the model assumes of them, and only for values the Java side can produce:

- reading back the bytes written for a tag gives that tag, and the bytes are not empty, for every tag Java's NBT classes can hold (`Tags.JavaTag`);
- decompressing a compressed buffer at its length gives the buffer back, and an empty buffer decompresses to an empty one.

`Tags.JavaTag` limits each tag to what its Java class can hold:

- byte and int values in range;
- doubles that are binary64 values;
- names and strings whose modified UTF-8 form fits `writeUTF`'s 65535 bytes;
- arrays and lists of at most `Integer.MAX_VALUE` elements;
- unnamed list elements of one type;
- compound entries named by their keys.

Every round-trip lemma that uses `Faithful` names it in its `requires`, together with the `JavaTag` facts it reads back.

Errors are one datatype whose cases are the Java exceptions the code throws, returned through `Result`.  Integers are unbounded; Java's 8-, 16-, 32- and 64-bit wrap-around and its rounding toward zero are written out where the code depends on them.

## Model

| member | source | states |
|---|---|---|
| Nibbles.OfSize | slimeworldmanager-api/src/main/java/com/grinderwolf/swm/api/utils/NibbleArray.java:25-27 | `new NibbleArray(size)` succeeds exactly when `size / 2` (rounded toward zero) is not negative; the array then holds `size / 2` bytes, all zero, and a smaller size is a NegativeArraySizeException |
| Nibbles.Get | slimeworldmanager-api/src/main/java/com/grinderwolf/swm/api/utils/NibbleArray.java:36-39 | a read succeeds exactly when byte `index / 2` exists, and then yields a value in 0..15; otherwise it is an IndexOutOfBounds error |
| Nibbles.Set | slimeworldmanager-api/src/main/java/com/grinderwolf/swm/api/utils/NibbleArray.java:47-56 | a write fails exactly where a read fails; it keeps the backing length and every byte except the one holding `index` |
| Nibbles.GetAfterSet | slimeworldmanager-api/src/main/java/com/grinderwolf/swm/api/utils/NibbleArray.java:47-56 | reading an index just written yields the written value masked to its low four bits |
| Nibbles.GetAfterSetOther | slimeworldmanager-api/src/main/java/com/grinderwolf/swm/api/utils/NibbleArray.java:36-56 | writing one index leaves every other index readable as before, including the other nibble of the same byte |
| Nibbles.NegativeIndexAliases | slimeworldmanager-api/src/main/java/com/grinderwolf/swm/api/utils/NibbleArray.java:36-55 | because Java division rounds toward zero, a write at index -1 lands in the high nibble of byte 0 and is read back at index 1 |
| Nibbles.FreshIsZero | slimeworldmanager-api/src/main/java/com/grinderwolf/swm/api/utils/NibbleArray.java:25-39 | every in-range index of a freshly sized array reads 0 |
| Properties.NewProperty | slimeworldmanager-api/src/main/java/com/grinderwolf/swm/api/world/properties/SlimeProperty.java:39-59 | construction fails with IllegalArgument exactly when a validator is given and rejects the default; on success the name, default and validator are stored unchanged and the default is accepted |
| Properties.BooleanProperty | slimeworldmanager-api/src/main/java/com/grinderwolf/swm/api/world/properties/type/SlimePropertyBoolean.java:22-49 | a boolean property exists exactly when its default passes the validator; it reads a byte tag as `value == 1`, refuses any other tag, and every value it writes reads back as itself |
| Properties.IntProperty | slimeworldmanager-api/src/main/java/com/grinderwolf/swm/api/world/properties/type/SlimePropertyInt.java:22-49 | an int property exists exactly when its default passes the validator; it reads an int tag's value, refuses any other tag, and every value it writes reads back as itself |
| Properties.StringProperty | slimeworldmanager-api/src/main/java/com/grinderwolf/swm/api/world/properties/type/SlimePropertyString.java:22-49 | a string property exists exactly when its default passes the validator; it reads a string tag's value, refuses any other tag, and every value it writes reads back as itself |
| Properties.SetValue | slimeworldmanager-api/src/main/java/com/grinderwolf/swm/api/world/properties/SlimePropertyMap.java:87-92 | a value the validator rejects is an IllegalArgument error; an accepted one stores the property's tag under its name, adds no other key and keeps every other entry |
| Properties.Merge | slimeworldmanager-api/src/main/java/com/grinderwolf/swm/api/world/properties/SlimePropertyMap.java:51-53 | the merged map has the keys of both, the other map's entry winning on a clash, and this map's entry elsewhere |
| Properties.ToCompound | slimeworldmanager-api/src/main/java/com/grinderwolf/swm/api/world/properties/SlimePropertyMap.java:100-102 | the compound is named "properties" and holds exactly the map's entries |
| Properties.GetAfterSet | slimeworldmanager-api/src/main/java/com/grinderwolf/swm/api/world/properties/SlimePropertyMap.java:37-92 | for a property whose writes read back, a value that passes validation is read back unchanged after `setValue`; the read is `getValue` (`Properties.GetValue`), which falls back to the default for an absent name and decodes through `Properties.ReadValue` |
| Properties.GetAfterSetOther | slimeworldmanager-api/src/main/java/com/grinderwolf/swm/api/world/properties/SlimePropertyMap.java:37-92 | setting one property leaves every property with another tag name reading as before |
| Properties.GetAfterMerge | slimeworldmanager-api/src/main/java/com/grinderwolf/swm/api/world/properties/SlimePropertyMap.java:37-53 | after a merge a property reads as in the other map when set there, else as before |
| Properties.MergeIdempotent | slimeworldmanager-api/src/main/java/com/grinderwolf/swm/api/world/properties/SlimePropertyMap.java:51-53 | merging the same map a second time changes nothing |
| Properties.BooleanReadsOnlyOneAsTrue | slimeworldmanager-api/src/main/java/com/grinderwolf/swm/api/world/properties/type/SlimePropertyBoolean.java:40-43 | a boolean stored as any byte other than 1 reads as false, not as the default (`Properties.ReadValue` of the boolean property) |
| Bytes.Wrap32 | slimeworldmanager-plugin/src/main/java/com/grinderwolf/swm/plugin/loaders/LoaderUtils.java:89 | Java `int` arithmetic wraps into the signed 32-bit range and leaves a value already in range unchanged |
| Bytes.Wrap64 | slimeworldmanager-plugin/src/main/java/com/grinderwolf/swm/plugin/loaders/mysql/MysqlLoader.java:128 | Java `long` arithmetic wraps into the signed 64-bit range, agreeing with the exact value modulo 2^64 and leaving a value already in range unchanged |
| Bytes.JavaDiv | slimeworldmanager-plugin/src/main/java/com/grinderwolf/swm/plugin/loaders/LoaderUtils.java:155-156 | Java's `/` by a positive divisor truncates toward zero: quotient times divisor is the multiple of the divisor nearest the dividend on the side of zero, never past the dividend |
| Bytes.JavaRem | slimeworldmanager-plugin/src/main/java/com/grinderwolf/swm/plugin/loaders/LoaderUtils.java:155-156 | the Java remainder is what is left over after truncating division, so quotient times divisor plus remainder gives the dividend back |
| Bytes.ReadSigned | slimeworldmanager-plugin/src/main/java/com/grinderwolf/swm/plugin/loaders/LoaderUtils.java:68-85 | a `DataInputStream` fixed-width read succeeds exactly when enough bytes remain, consumes exactly that many, yields a value in the signed range of that width, and otherwise fails with end of stream (the EOFException) |
| Bytes.ReadInts | slimeworldmanager-plugin/src/main/java/com/grinderwolf/swm/plugin/loaders/LoaderUtils.java:378-381 | reading `n` ints succeeds exactly when `4 * n` bytes remain, yields `n` values and leaves the rest of the stream |
| Bytes.ReadLongs | slimeworldmanager-plugin/src/main/java/com/grinderwolf/swm/plugin/loaders/LoaderUtils.java:317-321 | reading `n` longs yields `n` values and consumes `8 * n` bytes |
| Bytes.FromBigEndianOfBigEndian | slimeworldmanager-nms/common/src/main/java/com/grinderwolf/swm/nms/CraftSlimeWorld.java:79 | decoding the big-endian bytes of an unsigned value of the given width gives the value back |
| Bytes.SignedRoundTrip | slimeworldmanager-nms/common/src/main/java/com/grinderwolf/swm/nms/CraftSlimeWorld.java:248-254 | a signed value written with `DataOutputStream` at some width and read back at that width is the value, and the stream after it is untouched |
| Bytes.IntRoundTrip | slimeworldmanager-nms/common/src/main/java/com/grinderwolf/swm/nms/CraftSlimeWorld.java:79 | `writeInt` then `readInt` is the identity on Java ints |
| Bytes.ShortRoundTrip | slimeworldmanager-nms/common/src/main/java/com/grinderwolf/swm/nms/CraftSlimeWorld.java:248-249 | `writeShort` then `readShort` is the identity on Java shorts |
| Bytes.ByteRoundTrip | slimeworldmanager-nms/common/src/main/java/com/grinderwolf/swm/nms/CraftSlimeWorld.java:242 | `writeByte` then `readByte` is the identity on Java bytes |
| Bytes.BooleanRoundTrip | slimeworldmanager-nms/common/src/main/java/com/grinderwolf/swm/nms/CraftSlimeWorld.java:108 | `writeBoolean` then `readBoolean` is the identity (`Bytes.ReadBoolean`: one byte, true exactly when it is not zero) |
| Bytes.IntsRoundTrip | slimeworldmanager-nms/common/src/main/java/com/grinderwolf/swm/nms/CraftSlimeWorld.java:92-94 | writing a sequence of ints and reading back as many ints yields the same sequence and leaves what follows |
| Bytes.LongsRoundTrip | slimeworldmanager-nms/common/src/main/java/com/grinderwolf/swm/nms/CraftSlimeWorld.java:124-127 | writing a sequence of longs and reading back as many longs yields the same sequence and leaves what follows |
| Bytes.LenientRoundTrip | slimeworldmanager-nms/common/src/main/java/com/grinderwolf/swm/nms/CraftSlimeWorld.java:110 | a raw byte array written and read back into a buffer of its length is the same array, with the rest of the stream left over (`Bytes.ReadLenient`, which never fails and zero-fills past the end of the stream) |
| BitSets.Pack | slimeworldmanager-nms/common/src/main/java/com/grinderwolf/swm/nms/CraftSlimeWorld.java:154-162 | packing a set of bit indices into `n` bytes gives exactly `n` bytes, byte `j` holding bits `8j` to `8j+7` least significant first as `BitSet.toByteArray` lays them out |
| BitSets.TrimZeros | slimeworldmanager-nms/common/src/main/java/com/grinderwolf/swm/nms/CraftSlimeWorld.java:156 | `toByteArray` drops only trailing zero bytes: the result is a prefix of its input, ends in a non-zero byte when non-empty, and everything cut off is zero |
| BitSets.ByteSpan | slimeworldmanager-nms/common/src/main/java/com/grinderwolf/swm/nms/CraftSlimeWorld.java:156 | the length `toByteArray` produces is large enough to hold every set bit |
| BitSets.SetOf | slimeworldmanager-nms/common/src/main/java/com/grinderwolf/swm/nms/CraftSlimeWorld.java:97-100 | the bit set built from a list of indices holds exactly those indices |
| BitSets.TestBitsValue | slimeworldmanager-plugin/src/main/java/com/grinderwolf/swm/plugin/loaders/LoaderUtils.java:92 | bit `m` of a packed byte is set exactly when index `base + m` is in the set |
| BitSets.GetPack | slimeworldmanager-plugin/src/main/java/com/grinderwolf/swm/plugin/loaders/LoaderUtils.java:365 | `BitSet.valueOf` of packed bytes answers every index within them exactly as the original set does |
| BitSets.BitsValueEmpty | slimeworldmanager-nms/common/src/main/java/com/grinderwolf/swm/nms/CraftSlimeWorld.java:156 | a byte covering no set bit is zero |
| BitSets.TrimThenPad | slimeworldmanager-nms/common/src/main/java/com/grinderwolf/swm/nms/CraftSlimeWorld.java:156-161 | trimming trailing zeros and padding back with zeros to the old length restores the array |
| BitSets.PackExtends | slimeworldmanager-nms/common/src/main/java/com/grinderwolf/swm/nms/CraftSlimeWorld.java:158-161 | when every bit fits in `m` bytes, packing into `n >= m` bytes is packing into `m` followed by zero padding |
| BitSets.WriteThenGet | slimeworldmanager-nms/common/src/main/java/com/grinderwolf/swm/nms/CraftSlimeWorld.java:154-162 | when every index fits in `fixedSize` bytes, `writeBitSetAsBytes` writes exactly `fixedSize` bytes and reading bit `i` back is true exactly when `i` was in the index list |
| BitSets.WriteIsPack | slimeworldmanager-nms/common/src/main/java/com/grinderwolf/swm/nms/CraftSlimeWorld.java:154-162 | `writeBitSetAsBytes` (toByteArray plus zero padding) is the fixed-width packing of the set |
| BitSets.SpanFits | slimeworldmanager-nms/common/src/main/java/com/grinderwolf/swm/nms/CraftSlimeWorld.java:158 | when every index fits in `fixedSize` bytes the padding count is not negative |
| BitSets.SpanIsTight | slimeworldmanager-nms/common/src/main/java/com/grinderwolf/swm/nms/CraftSlimeWorld.java:156 | `toByteArray` is no longer than needed: its length is one past the byte holding some set bit, and zero for an empty set |
| SlimeFormat.CeilDiv8 | slimeworldmanager-plugin/src/main/java/com/grinderwolf/swm/plugin/loaders/LoaderUtils.java:89 | `(int) Math.ceil(n / 8.0)` is the least number of bytes holding `n` bits |
| SlimeFormat.LegacyHeightMaps | slimeworldmanager-plugin/src/main/java/com/grinderwolf/swm/plugin/loaders/LoaderUtils.java:378-384 | a pre-1.13 height map becomes an unnamed compound whose only entry is the int array "heightMap", holding the values read |
| Worlds.ChunkKeyOrder | slimeworldmanager-nms/common/src/main/java/com/grinderwolf/swm/nms/CraftSlimeWorld.java:203 | for x in `0..Integer.MAX_VALUE-1` the key `z * Integer.MAX_VALUE + x` orders chunks by z then x, and two such chunks share a key exactly when they share coordinates |
| Worlds.ChunkKeyCollides | slimeworldmanager-nms/common/src/main/java/com/grinderwolf/swm/nms/CraftSlimeWorld.java:203 | outside that range the key is not injective: chunk (-1, 1) and chunk (Integer.MAX_VALUE - 1, 0) get the same key |
| Worlds.GetChunk | slimeworldmanager-nms/common/src/main/java/com/grinderwolf/swm/nms/CraftSlimeWorld.java:201-206 | a chunk is found exactly when one is stored under the packed key of (x, z), and it is that chunk |
| Worlds.UpdateChunk | slimeworldmanager-nms/common/src/main/java/com/grinderwolf/swm/nms/CraftSlimeWorld.java:317-325 | `updateChunk` refuses a chunk of another world (IllegalArgumentException; a chunk with no world name is a NullPointerException), otherwise adds the chunk's key to the key set, changes nothing but the chunk map, and keeps every entry stored under its own chunk's key |
| Worlds.GetAfterUpdate | slimeworldmanager-nms/common/src/main/java/com/grinderwolf/swm/nms/CraftSlimeWorld.java:199-206 | after `updateChunk(c)`, `getChunk` at c's coordinates gives c and at any other in-range coordinates gives what it gave before (the lookup is `Worlds.GetChunk`) |
| Sorting.MinOf | slimeworldmanager-nms/common/src/main/java/com/grinderwolf/swm/nms/CraftSlimeWorld.java:244-247 | the least element of a non-empty set is in the set and below every member |
| Sorting.SortedKeys | slimeworldmanager-nms/common/src/main/java/com/grinderwolf/swm/nms/CraftSlimeWorld.java:225-227 | the chunk keys in ascending order: strictly increasing, the same size as the set and holding exactly its members |
| Sorting.IncreasingUnique | slimeworldmanager-nms/common/src/main/java/com/grinderwolf/swm/nms/CraftSlimeWorld.java:227 | two strictly increasing sequences with the same members are equal, so the sorted order is the only one |
| Encoder.SortedChunks | slimeworldmanager-nms/common/src/main/java/com/grinderwolf/swm/nms/CraftSlimeWorld.java:223-227 | the chunk list is as long as the map, holds every stored chunk and nothing else, and is in increasing key order when every chunk sits under its own key |
| Encoder.DropEmpty | slimeworldmanager-nms/common/src/main/java/com/grinderwolf/swm/nms/CraftSlimeWorld.java:228 | `removeIf` keeps exactly the chunks with at least one section, in their original relative order |
| Encoder.SectionBytes | slimeworldmanager-nms/common/src/main/java/com/grinderwolf/swm/nms/CraftSlimeWorld.java:106-137 | a section encodes exactly when its block format matches the world version; a mismatch is the NullPointerException of reading a missing palette or block array |
| Encoder.SectionsBytes | slimeworldmanager-nms/common/src/main/java/com/grinderwolf/swm/nms/CraftSlimeWorld.java:102-138 | the sections of a chunk encode exactly when every present section matches the world version's block format |
| Encoder.PresentFrom | slimeworldmanager-nms/common/src/main/java/com/grinderwolf/swm/nms/CraftSlimeWorld.java:97-100 | the section bitmask marks, in increasing order, exactly the slots holding a section |
| Encoder.ChunkBytes | slimeworldmanager-nms/common/src/main/java/com/grinderwolf/swm/nms/CraftSlimeWorld.java:75-138 | in a modern world a chunk encodes exactly when every present section is a modern one; in a legacy world only with a 256-int "heightMap"; the only failures are the three Java exceptions |
| Encoder.HeightMapBytes | slimeworldmanager-nms/common/src/main/java/com/grinderwolf/swm/nms/CraftSlimeWorld.java:77-86 | modern height maps always encode; legacy ones need a 256-entry "heightMap" int array |
| Encoder.MinOr0 | slimeworldmanager-nms/common/src/main/java/com/grinderwolf/swm/nms/CraftSlimeWorld.java:244-245 | `min().orElse(0)`: zero for no chunks, otherwise a coordinate of some chunk no greater than any other |
| Encoder.MaxOr0 | slimeworldmanager-nms/common/src/main/java/com/grinderwolf/swm/nms/CraftSlimeWorld.java:246-247 | `max().orElse(0)`: zero for no chunks, otherwise a coordinate of some chunk no less than any other |
| Encoder.MaskIndices | slimeworldmanager-nms/common/src/main/java/com/grinderwolf/swm/nms/CraftSlimeWorld.java:256-260 | every kept chunk gets bit `(z - minZ) * width + x - minX`; a negative index is the IndexOutOfBoundsException of `BitSet.set` |
| Encoder.StoreProperties | slimeworldmanager-nms/common/src/main/java/com/grinderwolf/swm/nms/CraftSlimeWorld.java:229-234 | the extra compound keeps its name and entries and gains (or has replaced) "properties" with the property map's compound |
| Encoder.Serialize | slimeworldmanager-nms/common/src/main/java/com/grinderwolf/swm/nms/CraftSlimeWorld.java:222-315 | serialization either fails or yields a byte array within Java's array size limit; the round trip is stated by RoundTrip.WorldRoundTrip |
| Decoder.ReadWorldVersion | slimeworldmanager-plugin/src/main/java/com/grinderwolf/swm/plugin/loaders/LoaderUtils.java:72-80 | from format 6 the world version is a stored byte; formats 4 and 5 store a boolean meaning 1.13 (4) or older (1); before format 4 nothing is read and the version is 0, to be detected later |
| Decoder.ReadHeader | slimeworldmanager-plugin/src/main/java/com/grinderwolf/swm/plugin/loaders/LoaderUtils.java:62-92 | a header is accepted only with a format version no newer than 9 and a positive width and depth, and its chunk mask is `ceil(width * depth / 8)` bytes; a file not starting with the two magic bytes is a corrupted world |
| Decoder.ReadBlob | slimeworldmanager-plugin/src/main/java/com/grinderwolf/swm/plugin/loaders/LoaderUtils.java:93-97 | a compressed blob is two lengths and the compressed bytes; it fails only at end of input or on a negative length |
| Decoder.ReadBlobs | slimeworldmanager-plugin/src/main/java/com/grinderwolf/swm/plugin/loaders/LoaderUtils.java:93-136 | the entity blob exists only from format 3, the extra blob only from format 2 and the map blob only from format 7; the header is carried through |
| Decoder.Inflate | slimeworldmanager-plugin/src/main/java/com/grinderwolf/swm/plugin/loaders/LoaderUtils.java:141-145 | decompression either yields the blob's bytes or fails as a compression failure |
| Decoder.ReadCompoundTag | slimeworldmanager-plugin/src/main/java/com/grinderwolf/swm/plugin/loaders/LoaderUtils.java:414-423 | an empty array reads as no tag (null), and only an empty array does; otherwise the result is the compound the NBT stream reads. An end of input inside the tag is the stream's EOFException, any other stream failure an IOException, and a tag that is not a compound a ClassCastException |
| Decoder.ToIntArray | slimeworldmanager-plugin/src/main/java/com/grinderwolf/swm/plugin/loaders/LoaderUtils.java:425-430 | `toIntArray` yields one big-endian int per four bytes, dropping a partial tail |
| Decoder.ReadLight | slimeworldmanager-plugin/src/main/java/com/grinderwolf/swm/plugin/loaders/LoaderUtils.java:291-298 | a light array, when present, is 2048 bytes; before format 5 it is always present |
| Decoder.ReadPalette | slimeworldmanager-plugin/src/main/java/com/grinderwolf/swm/plugin/loaders/LoaderUtils.java:307-315 | a palette read succeeds with exactly the announced number of entries |
| Decoder.ReadBlocks | slimeworldmanager-plugin/src/main/java/com/grinderwolf/swm/plugin/loaders/LoaderUtils.java:299-333 | the section is in the 1.13 palette layout exactly when the world version is 4 or more, and carries the block light already read and no sky light yet |
| Decoder.SkipHypixelBlocks | slimeworldmanager-plugin/src/main/java/com/grinderwolf/swm/plugin/loaders/LoaderUtils.java:343-347 | from format 4 on there is no HypixelBlocks field and nothing is skipped; before format 4 the field is a length and that many bytes dropped by `Bytes.Skip`, which stops at the end of the stream |
| Decoder.ReadSection | slimeworldmanager-plugin/src/main/java/com/grinderwolf/swm/plugin/loaders/LoaderUtils.java:291-349 | a section read succeeds only in the block layout the world version selects |
| Decoder.ReadSectionsFrom | slimeworldmanager-plugin/src/main/java/com/grinderwolf/swm/plugin/loaders/LoaderUtils.java:288-351 | the loop over the remaining section slots adds one slot per index up to 16 |
| Decoder.ReadSections | slimeworldmanager-plugin/src/main/java/com/grinderwolf/swm/plugin/loaders/LoaderUtils.java:282-353 | `readChunkSections` always yields exactly 16 slots |
| Decoder.ReadHeightMaps | slimeworldmanager-plugin/src/main/java/com/grinderwolf/swm/plugin/loaders/LoaderUtils.java:366-385 | height maps are always a compound; for a pre-1.13 world it is the "heightMap" compound over 256 ints |
| Decoder.ReadBiomes | slimeworldmanager-plugin/src/main/java/com/grinderwolf/swm/plugin/loaders/LoaderUtils.java:386-402 | a pre-1.13 world has 64 biome ints (256 bytes read as big-endian ints) |
| Decoder.ReadChunkParts | slimeworldmanager-plugin/src/main/java/com/grinderwolf/swm/plugin/loaders/LoaderUtils.java:366-404 | a chunk body read yields 16 section slots |
| Decoder.ReadChunks | slimeworldmanager-plugin/src/main/java/com/grinderwolf/swm/plugin/loaders/LoaderUtils.java:356-412 | a successful read holds a chunk under exactly the keys of the cells whose mask bit is set, each stored under its own key, of the world being read, with sixteen section slots and no entities or tile entities yet |
| Decoder.ReadChunkListShape | slimeworldmanager-plugin/src/main/java/com/grinderwolf/swm/plugin/loaders/LoaderUtils.java:362-410 | a successful scan adds exactly one key per visited cell, and every chunk it adds is stored under its own key as a chunk of the world being read with sixteen section slots and no entities or tile entities |
| Decoder.ReadChunk | slimeworldmanager-plugin/src/main/java/com/grinderwolf/swm/plugin/loaders/LoaderUtils.java:404-407 | a chunk read at cell (x, z) is at `(minX + x, minZ + z)` by the grid, belongs to the world being read, has 16 section slots and starts with no entities and no tile entities |
| Decoder.JavaFloor | slimeworldmanager-plugin/src/main/java/com/grinderwolf/swm/plugin/loaders/LoaderUtils.java:276-279 | `floor` agrees with the mathematical floor on every double inside the int range |
| Decoder.Attach | slimeworldmanager-plugin/src/main/java/com/grinderwolf/swm/plugin/loaders/LoaderUtils.java:150-179 | attaching entities or tile entities never adds or removes a chunk |
| Decoder.ListUnder | slimeworldmanager-plugin/src/main/java/com/grinderwolf/swm/plugin/loaders/LoaderUtils.java:150-153 | no compound means no entities |
| Decoder.MapList | slimeworldmanager-plugin/src/main/java/com/grinderwolf/swm/plugin/loaders/LoaderUtils.java:186-192 | the map list is the "maps" list of the maps compound when there is one |
| Decoder.DetectVersion | slimeworldmanager-plugin/src/main/java/com/grinderwolf/swm/plugin/loaders/LoaderUtils.java:193-204 | a known world version is kept; only an unknown one (0) is detected from the chunks |
| Decoder.ResolveProperties | slimeworldmanager-plugin/src/main/java/com/grinderwolf/swm/plugin/loaders/LoaderUtils.java:205-215 | without a stored "properties" compound the given map is used as is; with one, the result is the stored map overridden by the given one, and the extra compound's "properties" entry holds that merged map too |
| Decoder.InflateAll | slimeworldmanager-plugin/src/main/java/com/grinderwolf/swm/plugin/loaders/LoaderUtils.java:140-145 | the only way decompression of the five blobs fails is a compression failure |
| Decoder.Assemble | slimeworldmanager-plugin/src/main/java/com/grinderwolf/swm/plugin/loaders/LoaderUtils.java:216-217 | the world has the requested name and loader, is read-only as asked, and is locked exactly when it is not read-only |
| Decoder.Deserialize | slimeworldmanager-plugin/src/main/java/com/grinderwolf/swm/plugin/loaders/LoaderUtils.java:56-221 | `deserializeWorld` never lets an end of input escape (it becomes a corrupted world), and a world it returns has the requested name and loader and is locked exactly when writable |
| Decoder.ReadWorld | slimeworldmanager-plugin/src/main/java/com/grinderwolf/swm/plugin/loaders/LoaderUtils.java:60-217 | the world assembled from the container and its blobs has the requested name and loader and is locked exactly when writable |
| ContainerProofs.HeaderFields | slimeworldmanager-nms/common/src/main/java/com/grinderwolf/swm/nms/CraftSlimeWorld.java:242-262 | each header field the writer emits (world version, minX, minZ, width, depth, chunk mask) is read back by the matching reader call, leaving the fields after it |
| ContainerProofs.HeaderShape | slimeworldmanager-nms/common/src/main/java/com/grinderwolf/swm/nms/CraftSlimeWorld.java:239-262 | the header is the magic bytes, format version 9, the world version, the four shorts and the chunk mask, in that order |
| ContainerProofs.HeaderRoundTrip | slimeworldmanager-plugin/src/main/java/com/grinderwolf/swm/plugin/loaders/LoaderUtils.java:62-92 | when its fields fit their widths, the header the writer emits is read back as the same header, with whatever follows untouched |
| ContainerProofs.FrameRoundTrip | slimeworldmanager-plugin/src/main/java/com/grinderwolf/swm/plugin/loaders/LoaderUtils.java:93-97 | a blob framed as compressed length, raw length and compressed bytes is read back as those two lengths and bytes |
| ContainerProofs.EntityFrameRoundTrip | slimeworldmanager-plugin/src/main/java/com/grinderwolf/swm/plugin/loaders/LoaderUtils.java:107-116 | the entity flag the writer emits is read back, and the entity blob is read back exactly when the flag says it is there (`Decoder.ReadBlobIf` consumes nothing when the blob is absent) |
| ContainerProofs.BlobsShape | slimeworldmanager-nms/common/src/main/java/com/grinderwolf/swm/nms/CraftSlimeWorld.java:264-310 | the blob section is chunks, tiles, the flagged entities, extra and maps, in that order |
| ContainerProofs.BlobsRoundTrip | slimeworldmanager-plugin/src/main/java/com/grinderwolf/swm/plugin/loaders/LoaderUtils.java:93-139 | a current-format reader reads back all five blobs the writer framed and then finds the end of input, so the trailing-byte check passes |
| ContainerProofs.ContainerRoundTrip | slimeworldmanager-plugin/src/main/java/com/grinderwolf/swm/plugin/loaders/LoaderUtils.java:60-139 | the whole file the writer emits is read back as the same header and blobs when every length fits its field |
| ContainerProofs.FitsFrames | slimeworldmanager-nms/common/src/main/java/com/grinderwolf/swm/nms/CraftSlimeWorld.java:266-310 | a file within Java's int limits has every frame length within them |
| ContainerProofs.InflateRoundTrip | slimeworldmanager-plugin/src/main/java/com/grinderwolf/swm/plugin/loaders/LoaderUtils.java:141-145 | assuming zstd decompresses what it compressed (`Foreign.Faithful`), decompressing the written blobs gives back the uncompressed data (an absent entity blob decompresses to nothing) |
| ChunkProofs.Bare | slimeworldmanager-plugin/src/main/java/com/grinderwolf/swm/plugin/loaders/LoaderUtils.java:405-406 | the chunk as read back, before entities are attached, keeps the coordinates and sections of the written chunk |
| ChunkProofs.ToIntArrayOfInts | slimeworldmanager-plugin/src/main/java/com/grinderwolf/swm/plugin/loaders/LoaderUtils.java:425-430 | `toIntArray` of ints written big-endian gives back the ints |
| ChunkProofs.HeightMapsRoundTrip | slimeworldmanager-plugin/src/main/java/com/grinderwolf/swm/plugin/loaders/LoaderUtils.java:366-385 | height maps the writer emits (an NBT compound from 1.13, a Java tag when not empty; 256 raw ints before) are read back unchanged, an empty compound included |
| ChunkProofs.BiomesRoundTrip | slimeworldmanager-plugin/src/main/java/com/grinderwolf/swm/plugin/loaders/LoaderUtils.java:386-402 | the biomes the writer emits are read back unchanged by a current-format reader (a count and ints from 1.13, 64 ints packed in 256 bytes before) |
| ChunkProofs.ReadChunkSteps | slimeworldmanager-plugin/src/main/java/com/grinderwolf/swm/plugin/loaders/LoaderUtils.java:366-404 | a chunk body is its height maps, then its biomes, then its sections |
| ChunkProofs.ChunkBytesShape | slimeworldmanager-nms/common/src/main/java/com/grinderwolf/swm/nms/CraftSlimeWorld.java:75-138 | a chunk is written as height maps, biomes, the two-byte section mask and the present sections |
| ChunkProofs.ChunkRoundTrip | slimeworldmanager-plugin/src/main/java/com/grinderwolf/swm/plugin/loaders/LoaderUtils.java:362-408 | a chunk the writer emits is read back with its height maps, biomes and sections unchanged, at its own coordinates, with no entities yet |
| SectionProofs.LightRoundTrip | slimeworldmanager-plugin/src/main/java/com/grinderwolf/swm/plugin/loaders/LoaderUtils.java:291-298 | a light array written with its presence flag is read back unchanged, absent included |
| SectionProofs.CompoundRoundTrip | slimeworldmanager-plugin/src/main/java/com/grinderwolf/swm/plugin/loaders/LoaderUtils.java:414-423 | assuming the tag stream reads back every tag the Java classes can hold (`Foreign.Faithful`), a non-empty compound that is such a tag (`Tags.JavaTag`) is serialized and read back as itself, and no compound stays no compound (the writer is `Encoder.SerializeCompoundTag`, which writes nothing for an empty compound) |
| SectionProofs.PaletteRoundTrip | slimeworldmanager-plugin/src/main/java/com/grinderwolf/swm/plugin/loaders/LoaderUtils.java:307-315 | a palette written as length-prefixed NBT entries is read back entry for entry |
| SectionProofs.PaletteCons | slimeworldmanager-plugin/src/main/java/com/grinderwolf/swm/plugin/loaders/LoaderUtils.java:309-314 | reading a palette is reading its first entry and then the rest of the palette |
| SectionProofs.PaletteBytesCons | slimeworldmanager-nms/common/src/main/java/com/grinderwolf/swm/nms/CraftSlimeWorld.java:117-121 | each palette entry is written as its length followed by its bytes |
| SectionProofs.EntryRoundTrip | slimeworldmanager-plugin/src/main/java/com/grinderwolf/swm/plugin/loaders/LoaderUtils.java:310-313 | a palette entry's length, bytes and tag are each read back |
| SectionProofs.PaletteStep | slimeworldmanager-plugin/src/main/java/com/grinderwolf/swm/plugin/loaders/LoaderUtils.java:309-314 | one palette loop iteration: length, bytes, tag, then the remaining entries |
| SectionProofs.ModernBlocksRoundTrip | slimeworldmanager-plugin/src/main/java/com/grinderwolf/swm/plugin/loaders/LoaderUtils.java:305-323 | a 1.13 palette and block-state array written by the writer are read back unchanged |
| SectionProofs.BlocksRoundTrip | slimeworldmanager-plugin/src/main/java/com/grinderwolf/swm/plugin/loaders/LoaderUtils.java:299-333 | the block data of a section (palette and states, or 4096 block bytes and a data nibble array) is read back unchanged |
| SectionProofs.SectionRoundTrip | slimeworldmanager-plugin/src/main/java/com/grinderwolf/swm/plugin/loaders/LoaderUtils.java:291-349 | a section the writer emits, with palette entries that are Java tags, is read back unchanged by a current-format reader |
| SectionProofs.ReadSectionOf | slimeworldmanager-plugin/src/main/java/com/grinderwolf/swm/plugin/loaders/LoaderUtils.java:291-349 | a section is block light, then block data, then sky light |
| SectionProofs.SectionsUnfold | slimeworldmanager-nms/common/src/main/java/com/grinderwolf/swm/nms/CraftSlimeWorld.java:102-138 | the sections of a chunk are written one after another, skipping empty slots |
| SectionProofs.PresentStep | slimeworldmanager-plugin/src/main/java/com/grinderwolf/swm/plugin/loaders/LoaderUtils.java:288-350 | a slot whose mask bit is set reads the next section from the stream |
| SectionProofs.SectionAt | slimeworldmanager-plugin/src/main/java/com/grinderwolf/swm/plugin/loaders/LoaderUtils.java:291-349 | reading at a written section yields that section and stops right after it |
| SectionProofs.ReadPresent | slimeworldmanager-plugin/src/main/java/com/grinderwolf/swm/plugin/loaders/LoaderUtils.java:289-349 | a set mask bit makes the loop read one section and store it in that slot |
| SectionProofs.AbsentStep | slimeworldmanager-plugin/src/main/java/com/grinderwolf/swm/plugin/loaders/LoaderUtils.java:288-289 | a slot whose mask bit is clear stays empty and consumes nothing |
| SectionProofs.SectionsLoop | slimeworldmanager-plugin/src/main/java/com/grinderwolf/swm/plugin/loaders/LoaderUtils.java:288-351 | from any slot on, the loop reads back exactly the sections written from that slot on |
| SectionProofs.SectionsStep | slimeworldmanager-plugin/src/main/java/com/grinderwolf/swm/plugin/loaders/LoaderUtils.java:288-351 | one loop iteration preserves the read-back of the written suffix |
| SectionProofs.SectionsRoundTrip | slimeworldmanager-plugin/src/main/java/com/grinderwolf/swm/plugin/loaders/LoaderUtils.java:282-353 | the sixteen section slots the writer emits behind their two-byte mask are read back unchanged |
| SectionProofs.MaskMarksPresent | slimeworldmanager-nms/common/src/main/java/com/grinderwolf/swm/nms/CraftSlimeWorld.java:97-101 | the two-byte section mask has bit k set exactly when slot k holds a section |
| SectionProofs.MaskThenSections | slimeworldmanager-plugin/src/main/java/com/grinderwolf/swm/plugin/loaders/LoaderUtils.java:285-289 | the section reader takes two mask bytes and then starts the slot loop at slot 0 |
| GridProofs.CellsIncreasing | slimeworldmanager-nms/common/src/main/java/com/grinderwolf/swm/nms/CraftSlimeWorld.java:256-260 | chunks in increasing key order inside the bounding box get strictly increasing mask bits |
| GridProofs.CellsInside | slimeworldmanager-nms/common/src/main/java/com/grinderwolf/swm/nms/CraftSlimeWorld.java:251-260 | every kept chunk's mask bit lies inside the `width * depth` box the writer computes |
| GridProofs.ScanCell | slimeworldmanager-plugin/src/main/java/com/grinderwolf/swm/plugin/loaders/LoaderUtils.java:364-365 | a scanned cell is next in the written list exactly when its mask bit is set |
| GridProofs.ScanLoop | slimeworldmanager-plugin/src/main/java/com/grinderwolf/swm/plugin/loaders/LoaderUtils.java:362-410 | from any cell on, the cells the reader's scan visits are exactly the remaining written cells, in order |
| GridProofs.VisitedStep | slimeworldmanager-plugin/src/main/java/com/grinderwolf/swm/plugin/loaders/LoaderUtils.java:364-365 | the scan visits a cell exactly when its mask bit is set, then moves to the next cell |
| GridProofs.ScanEnd | slimeworldmanager-plugin/src/main/java/com/grinderwolf/swm/plugin/loaders/LoaderUtils.java:362 | once the scan is past the last cell no written cell is left |
| GridProofs.SpotOf | slimeworldmanager-plugin/src/main/java/com/grinderwolf/swm/plugin/loaders/LoaderUtils.java:364-406 | bit `z * width + x` belongs to chunk `(minX + x, minZ + z)` |
| GridProofs.WalkStep | slimeworldmanager-plugin/src/main/java/com/grinderwolf/swm/plugin/loaders/LoaderUtils.java:362-365 | one step of the nested z/x loop tests exactly the next bit of the mask |
| GridProofs.WalkIsScan | slimeworldmanager-plugin/src/main/java/com/grinderwolf/swm/plugin/loaders/LoaderUtils.java:362-410 | the nested z/x loop visits set bits in the same order as a flat scan of the mask |
| GridProofs.WalkEnd | slimeworldmanager-plugin/src/main/java/com/grinderwolf/swm/plugin/loaders/LoaderUtils.java:362 | the z loop ends after the last row |
| GridProofs.WalkRow | slimeworldmanager-plugin/src/main/java/com/grinderwolf/swm/plugin/loaders/LoaderUtils.java:363 | the end of one row continues at the start of the next |
| GridProofs.WalkCell | slimeworldmanager-plugin/src/main/java/com/grinderwolf/swm/plugin/loaders/LoaderUtils.java:363-365 | one cell of a row continues at the next cell |
| GridProofs.ChunkCells | slimeworldmanager-nms/common/src/main/java/com/grinderwolf/swm/nms/CraftSlimeWorld.java:256-262 | the written mask marks exactly the kept chunks' cells, and those cells map back to the chunks' coordinates |
| GridProofs.ScanRoundTrip | slimeworldmanager-plugin/src/main/java/com/grinderwolf/swm/plugin/loaders/LoaderUtils.java:362-365 | the reader's z/x loop meets the set bits of the written mask at exactly the kept chunks' coordinates, in the writer's order |
| GridProofs.ChunkThenRest | slimeworldmanager-plugin/src/main/java/com/grinderwolf/swm/plugin/loaders/LoaderUtils.java:366-404 | reading a chunk body from the chunk blob stops right where the next chunk begins |
| GridProofs.ChunksReadAs | slimeworldmanager-nms/common/src/main/java/com/grinderwolf/swm/nms/CraftSlimeWorld.java:75-139 | the chunk blob the writer emits reads back as each kept chunk in turn |
| GridProofs.ReadChunkAt | slimeworldmanager-plugin/src/main/java/com/grinderwolf/swm/plugin/loaders/LoaderUtils.java:404-407 | a chunk body read at a written chunk's coordinates yields that chunk without entities |
| GridProofs.ReadListLoop | slimeworldmanager-plugin/src/main/java/com/grinderwolf/swm/plugin/loaders/LoaderUtils.java:362-411 | reading the chunks at the set cells fills the map with each chunk, stripped of entities, under its own key |
| GridProofs.ReadChunksRoundTrip | slimeworldmanager-plugin/src/main/java/com/grinderwolf/swm/plugin/loaders/LoaderUtils.java:356-412 | `readChunks` over the written mask and chunk blob gives back every kept chunk under its key, without entities and named after the world |
| AttachProofs.Give | slimeworldmanager-plugin/src/main/java/com/grinderwolf/swm/plugin/loaders/LoaderUtils.java:162 | giving a chunk tags appends them to its entities (or tile entities) |
| AttachProofs.KeySet | slimeworldmanager-nms/common/src/main/java/com/grinderwolf/swm/nms/CraftSlimeWorld.java:203 | the key set of a chunk list holds exactly the keys of its chunks |
| AttachProofs.PlacedKey | slimeworldmanager-plugin/src/main/java/com/grinderwolf/swm/plugin/loaders/LoaderUtils.java:154-157 | an entity whose position lies in a chunk (or a tile whose x and z do) is filed under that chunk's key |
| AttachProofs.PlacedExactly | slimeworldmanager-plugin/src/main/java/com/grinderwolf/swm/plugin/loaders/LoaderUtils.java:170-172 | an entity or tile lies in exactly one of the in-range chunks |
| AttachProofs.AttachOwn | slimeworldmanager-plugin/src/main/java/com/grinderwolf/swm/plugin/loaders/LoaderUtils.java:153-163 | attaching tags that all belong to one present chunk appends them to that chunk, in order, and changes nothing else |
| AttachProofs.GiveFirst | slimeworldmanager-plugin/src/main/java/com/grinderwolf/swm/plugin/loaders/LoaderUtils.java:162 | appending the first tag and then the rest is appending them all |
| AttachProofs.AttachConcat | slimeworldmanager-plugin/src/main/java/com/grinderwolf/swm/plugin/loaders/LoaderUtils.java:153 | attaching two lists in a row is attaching their concatenation |
| AttachProofs.AttachAll | slimeworldmanager-plugin/src/main/java/com/grinderwolf/swm/plugin/loaders/LoaderUtils.java:150-179 | attaching every chunk's own tags, chunk by chunk as the writer flattened them, gives each chunk back its tags |
| AttachProofs.KeySplit | slimeworldmanager-nms/common/src/main/java/com/grinderwolf/swm/nms/CraftSlimeWorld.java:227 | in increasing order the first chunk's key appears nowhere after it |
| AttachProofs.CollectContents | slimeworldmanager-plugin/src/main/java/com/grinderwolf/swm/plugin/loaders/LoaderUtils.java:407 | `chunkMap.put` over distinct keys holds each chunk under its own key and leaves other keys alone |
| AttachProofs.RestoreContents | slimeworldmanager-plugin/src/main/java/com/grinderwolf/swm/plugin/loaders/LoaderUtils.java:162-177 | giving back tags keeps the key set, gives each listed chunk its own tags and leaves other chunks alone |
| AttachProofs.Reassembled | slimeworldmanager-plugin/src/main/java/com/grinderwolf/swm/plugin/loaders/LoaderUtils.java:147-179 | chunks, then entities, then tile entities reassemble each kept chunk exactly, named after the world being loaded |
| AttachProofs.BareRefilled | slimeworldmanager-plugin/src/main/java/com/grinderwolf/swm/plugin/loaders/LoaderUtils.java:162-177 | a chunk stripped of its entities and given them back, entities then tiles, is the original chunk |
| PlanProofs.KeptMembers | slimeworldmanager-nms/common/src/main/java/com/grinderwolf/swm/nms/CraftSlimeWorld.java:223-228 | the chunks `serialize` keeps are in increasing key order, are stored under their own keys, and are exactly the chunks with at least one section |
| PlanProofs.KeptFacts | slimeworldmanager-nms/common/src/main/java/com/grinderwolf/swm/nms/CraftSlimeWorld.java:223-228 | every kept chunk of a storable world is storable, and kept chunks lie less than 32767 apart on each axis |
| PlanProofs.KeptStorable | slimeworldmanager-nms/common/src/main/java/com/grinderwolf/swm/nms/CraftSlimeWorld.java:244-254 | the kept chunks of a storable world fit the format and their coordinates span a range whose bounds and width fit the header's shorts |
| PlanProofs.Span | slimeworldmanager-nms/common/src/main/java/com/grinderwolf/swm/nms/CraftSlimeWorld.java:251-252 | coordinates that are shorts and less than 32767 apart give a width that is a positive short |
| PlanProofs.CellInside | slimeworldmanager-nms/common/src/main/java/com/grinderwolf/swm/nms/CraftSlimeWorld.java:258 | a chunk inside the grid has a mask bit inside the grid, and it is the writer's `(z - minZ) * width + x - minX` |
| PlanProofs.IndexIsCell | slimeworldmanager-nms/common/src/main/java/com/grinderwolf/swm/nms/CraftSlimeWorld.java:258 | when the grid fits an int, the writer's 32-bit bit index is the exact cell number |
| PlanProofs.Extent | slimeworldmanager-nms/common/src/main/java/com/grinderwolf/swm/nms/CraftSlimeWorld.java:244-252 | the min and max coordinates give a grid whose origin is a short, whose width is a positive short, and which contains every coordinate |
| PlanProofs.MaskCells | slimeworldmanager-nms/common/src/main/java/com/grinderwolf/swm/nms/CraftSlimeWorld.java:256-260 | every kept chunk inside the grid gets its own cell as its bit, and no bit is refused |
| PlanProofs.MaskMarksCells | slimeworldmanager-nms/common/src/main/java/com/grinderwolf/swm/nms/CraftSlimeWorld.java:256-262 | the written chunk mask is `ceil(width * depth / 8)` bytes and marks exactly the kept chunks' cells |
| PlanProofs.AllFitOf | slimeworldmanager-nms/common/src/main/java/com/grinderwolf/swm/nms/CraftSlimeWorld.java:75-139 | when every chunk fits the format, the chunk list does |
| PlanProofs.SmallProduct | slimeworldmanager-nms/common/src/main/java/com/grinderwolf/swm/nms/CraftSlimeWorld.java:256 | the product of two positive shorts fits an int |
| PlanProofs.CoordinatesSpread | slimeworldmanager-nms/common/src/main/java/com/grinderwolf/swm/nms/CraftSlimeWorld.java:244-252 | storable chunks less than 32767 apart have x and z ranges the header can hold |
| PlanProofs.GridBounds | slimeworldmanager-nms/common/src/main/java/com/grinderwolf/swm/nms/CraftSlimeWorld.java:244-253 | the grid the writer computes holds every kept chunk, and its origin, width and depth fit shorts |
| PlanProofs.GridMask | slimeworldmanager-nms/common/src/main/java/com/grinderwolf/swm/nms/CraftSlimeWorld.java:256-262 | no mask index is refused, and the written mask marks exactly the cells of the kept chunks |
| PlanProofs.GridForShape | slimeworldmanager-nms/common/src/main/java/com/grinderwolf/swm/nms/CraftSlimeWorld.java:244-262 | for a storable world the grid the writer computes contains the kept chunks in order, has fields that fit the header, and has a mask of the expected size |
| PlanProofs.PlanShape | slimeworldmanager-nms/common/src/main/java/com/grinderwolf/swm/nms/CraftSlimeWorld.java:222-310 | for a storable world every step before the final size check succeeds, the header fits, and it describes the grid the reader will rebuild |
| PlanProofs.KeptFit | slimeworldmanager-nms/common/src/main/java/com/grinderwolf/swm/nms/CraftSlimeWorld.java:75-139 | every kept chunk of a storable world fits the chunk format |
| RoundTrip.StoredChunks | slimeworldmanager-plugin/src/main/java/com/grinderwolf/swm/plugin/loaders/LoaderUtils.java:405-407 | the chunks a reload returns are exactly the written world's chunks that have a section, each renamed to the loading world |
| RoundTrip.TagRoundTrip | slimeworldmanager-plugin/src/main/java/com/grinderwolf/swm/plugin/loaders/LoaderUtils.java:414-423 | a non-empty compound that is a Java tag (`Tags.JavaTag`), written by the NBT codec, is read back as itself |
| RoundTrip.PlanFields | slimeworldmanager-nms/common/src/main/java/com/grinderwolf/swm/nms/CraftSlimeWorld.java:264-310 | the chunk blob holds the kept chunks, the tile blob all their tiles, the entity blob all their entities (absent when there are none), the extra blob the extra data with the properties stored, and the maps blob the world maps |
| RoundTrip.BlobsFromFields | slimeworldmanager-plugin/src/main/java/com/grinderwolf/swm/plugin/loaders/LoaderUtils.java:141-192 | when the tile, entity, extra and map compounds are Java tags, those blobs are what the reader needs to rebuild the world's chunks, extra data and maps |
| RoundTrip.PlanBlobs | slimeworldmanager-nms/common/src/main/java/com/grinderwolf/swm/nms/CraftSlimeWorld.java:264-310 | the blobs the writer produces for a storable world whose tags are Java tags (`PlanProofs.WorldTagsFit`) are the ones the reader needs |
| RoundTrip.WorldCompoundsAreJava | slimeworldmanager-nms/common/src/main/java/com/grinderwolf/swm/nms/CraftSlimeWorld.java:229-306 | when the world's tags are Java tags, so are the four compounds the writer builds: the tile and entity lists under their names, the extra data with the properties filed in, and the maps list |
| RoundTrip.ListUnderIsJava | slimeworldmanager-nms/common/src/main/java/com/grinderwolf/swm/nms/CraftSlimeWorld.java:270-275 | a compound holding one list of unnamed Java compounds under the list's name is a Java tag |
| RoundTrip.EntitiesBack | slimeworldmanager-plugin/src/main/java/com/grinderwolf/swm/plugin/loaders/LoaderUtils.java:150-153 | the entity list read back is every kept chunk's entities in chunk order, empty when none were written |
| RoundTrip.StoredMap | slimeworldmanager-plugin/src/main/java/com/grinderwolf/swm/plugin/loaders/LoaderUtils.java:147-179 | reading bare chunks and giving back their entities and tiles yields exactly the stored chunks |
| RoundTrip.StoredEqual | slimeworldmanager-plugin/src/main/java/com/grinderwolf/swm/plugin/loaders/LoaderUtils.java:147-179 | a map with the kept keys whose every entry is the renamed kept chunk is the stored-chunk map |
| RoundTrip.PopulateSteps | slimeworldmanager-plugin/src/main/java/com/grinderwolf/swm/plugin/loaders/LoaderUtils.java:147-179 | loading chunks is reading them, attaching entities and then attaching tiles |
| RoundTrip.AttachBoth | slimeworldmanager-plugin/src/main/java/com/grinderwolf/swm/plugin/loaders/LoaderUtils.java:150-179 | attaching the written entities and then the written tiles gives each kept chunk back its own |
| RoundTrip.ChunksBack | slimeworldmanager-plugin/src/main/java/com/grinderwolf/swm/plugin/loaders/LoaderUtils.java:356-412 | the chunk blob of a storable world reads back as the kept chunks without entities, under their keys |
| RoundTrip.ChunksAndTags | slimeworldmanager-plugin/src/main/java/com/grinderwolf/swm/plugin/loaders/LoaderUtils.java:147-179 | chunks, entities and tiles of a storable world read back as its stored chunks |
| RoundTrip.PopulateRoundTrip | slimeworldmanager-plugin/src/main/java/com/grinderwolf/swm/plugin/loaders/LoaderUtils.java:147-179 | the chunk map the reader builds from the written blobs is exactly the stored chunks |
| RoundTrip.PopulateFrom | slimeworldmanager-plugin/src/main/java/com/grinderwolf/swm/plugin/loaders/LoaderUtils.java:147-179 | the tile and entity compounds read back drive the same attachment as the written lists |
| RoundTrip.PropertiesBack | slimeworldmanager-plugin/src/main/java/com/grinderwolf/swm/plugin/loaders/LoaderUtils.java:205-215 | the properties stored by `serialize` come back overridden by the given ones, and the extra compound holds the merged map |
| RoundTrip.VersionBack | slimeworldmanager-plugin/src/main/java/com/grinderwolf/swm/plugin/loaders/LoaderUtils.java:193-204 | a stored world version comes back unchanged; an unknown one (0) becomes legacy (1) exactly when a chunk is stored |
| RoundTrip.AssembleSteps | slimeworldmanager-plugin/src/main/java/com/grinderwolf/swm/plugin/loaders/LoaderUtils.java:205-217 | the world is built from its chunks, the resolved extra data and properties, the map list and the detected version |
| RoundTrip.AssembleRoundTrip | slimeworldmanager-plugin/src/main/java/com/grinderwolf/swm/plugin/loaders/LoaderUtils.java:147-217 | the world assembled from the written blobs is the reloaded form of the written world |
| RoundTrip.ReloadedFields | slimeworldmanager-plugin/src/main/java/com/grinderwolf/swm/plugin/loaders/LoaderUtils.java:216-217 | the reloaded world's fields are those the constructor receives |
| RoundTrip.ReadSteps | slimeworldmanager-plugin/src/main/java/com/grinderwolf/swm/plugin/loaders/LoaderUtils.java:60-217 | `deserializeWorld` is reading the container, decompressing its blobs and assembling the world |
| RoundTrip.LayoutBack | slimeworldmanager-plugin/src/main/java/com/grinderwolf/swm/plugin/loaders/LoaderUtils.java:56-221 | reading the bytes emitted for a storable world whose tags are Java tags gives back its reloaded form |
| RoundTrip.WorldRoundTrip | slimeworldmanager-nms/common/src/main/java/com/grinderwolf/swm/nms/CraftSlimeWorld.java:222-315 | a storable world whose tags are Java tags (`PlanProofs.WorldTagsFit`) either serializes or is too large for a Java array, and when it serializes, `deserializeWorld` of the bytes gives back the same chunks (those with a section, renamed to the loading world) with their entities and tiles, the same maps and extra data, its properties overridden by the given ones, and its world version (0 becomes 1 when a chunk is stored) |
| Regions.SectorOffset | slimeworldmanager-plugin/src/main/java/com/grinderwolf/swm/plugin/world/importer/WorldImporter.java:137 | `entry >>> 8` is the upper 24 bits of the header int, below 2^24 |
| Regions.SectorCount | slimeworldmanager-importer/src/main/java/com/grinderwolf/swm/importer/SWMImporter.java:341-342 | the intended decoding: the sector count is the header int's low 8 bits (the code as written masks with `& 15`; see Findings) |
| Regions.DecodeEntryAsWritten | slimeworldmanager-plugin/src/main/java/com/grinderwolf/swm/plugin/world/importer/WorldImporter.java:136-141 | the importers' decoding with `& 15` agrees with the full decoding on the offset, keeps only the sector count modulo 16, and agrees with the full decoding exactly when the chunk spans fewer than 16 sectors |
| Regions.LowNibble | slimeworldmanager-plugin/src/main/java/com/grinderwolf/swm/plugin/world/importer/WorldImporter.java:138 | `entry & 15` is the sector count modulo 16 |
| Regions.DecodeEntry | slimeworldmanager-importer/src/main/java/com/grinderwolf/swm/importer/SWMImporter.java:340-346 | the intended decoding: a header int decodes to the byte offset `(entry >>> 8) * 4096` (with int wrap-around) and a padded size of 4096 bytes for each of its low-8-bit sectors (the code as written masks with `& 15`; see Findings) |
| Regions.EncodeEntry | slimeworldmanager-importer/src/main/java/com/grinderwolf/swm/importer/SWMImporter.java:340-342 | a sector offset below 2^24 and a count below 256 make a Java int header entry |
| Regions.Window | slimeworldmanager-plugin/src/main/java/com/grinderwolf/swm/plugin/world/importer/WorldImporter.java:148-153 | `new ByteArrayInputStream(buf, offset, length)` over a window inside the file reads exactly that window; a negative offset is an IndexOutOfBoundsException |
| Regions.HeaderInts | slimeworldmanager-plugin/src/main/java/com/grinderwolf/swm/plugin/world/importer/WorldImporter.java:133-136 | the header reads as 1024 ints exactly when the file holds its 4096 bytes, and a shorter file is an EOFException |
| Regions.UsedEntries | slimeworldmanager-plugin/src/main/java/com/grinderwolf/swm/plugin/world/importer/WorldImporter.java:134-144 | the header keeps exactly the decoded entries of its non-zero slots |
| Regions.RegionEntries | slimeworldmanager-importer/src/main/java/com/grinderwolf/swm/importer/SWMImporter.java:336-348 | the header of a region file reads exactly when the file holds 4096 bytes |
| Regions.ReadLevel | slimeworldmanager-plugin/src/main/java/com/grinderwolf/swm/plugin/world/importer/WorldImporter.java:148-164 | reading a chunk payload down to its "Level" compound yields a compound, and otherwise fails as a bounds error, a wrapped IOException or missing "Level" (RuntimeException), or a class cast |
| Regions.DecodeEncode | slimeworldmanager-importer/src/main/java/com/grinderwolf/swm/importer/SWMImporter.java:340-346 | under the intended `& 0xFF` decoding, decoding a header int recovers the offset and count it was built from |
| Regions.ZeroSlotsSkipped | slimeworldmanager-importer/src/main/java/com/grinderwolf/swm/importer/SWMImporter.java:343 | an all-zero header yields no chunk entries |
| Regions.AsWrittenDropsSixteenSectors | slimeworldmanager-importer/src/main/java/com/grinderwolf/swm/importer/SWMImporter.java:341-353 | with `& 15`, a chunk whose sector count is a multiple of 16 gets a padded size of 0, and reading its length from that empty window fails |
| Regions.SixteenSectorChunkExample | slimeworldmanager-plugin/src/main/java/com/grinderwolf/swm/plugin/world/importer/WorldImporter.java:136-153 | a chunk at sector 2 spanning 16 sectors is lost by the code as written but read in full by the intended decoding |
| Regions.DecodedSectorsInFile | slimeworldmanager-plugin/src/main/java/com/grinderwolf/swm/plugin/world/importer/WorldImporter.java:140-149 | with the intended decoding, an entry whose sectors lie inside the file gives a window of at least 5 bytes covering exactly those sectors |
| VanillaChunks.WorldVersionTable | slimeworldmanager-plugin/src/main/java/com/grinderwolf/swm/plugin/world/importer/WorldImporter.java:61-75 | the world version never decreases as the DataVersion grows, takes only the values 1, 2, 3, 4, 5 and 7, and is 1.13 or newer exactly from DataVersion 1501 |
| VanillaChunks.GameRules | slimeworldmanager-plugin/src/main/java/com/grinderwolf/swm/plugin/world/importer/WorldImporter.java:278-282 | the game rules of level.dat read exactly when every rule is a string tag, keep every rule name with its string value, and any other tag is a NoSuchElementException |
| VanillaChunks.ReadLevelData | slimeworldmanager-plugin/src/main/java/com/grinderwolf/swm/plugin/world/importer/WorldImporter.java:268-290 | an unreadable level.dat is an I/O failure, one without a "Data" compound is an invalid world, and otherwise the DataVersion defaults to -1, SpawnX and SpawnZ to 0 and SpawnY to 255 |
| VanillaChunks.ExtraData | slimeworldmanager-plugin/src/main/java/com/grinderwolf/swm/plugin/world/importer/WorldImporter.java:102-108 | the extra compound gets a "gamerules" entry exactly when there are game rules, and nothing else |
| VanillaChunks.RulesCompound | slimeworldmanager-importer/src/main/java/com/grinderwolf/swm/importer/SWMImporter.java:293-294 | each game rule becomes a string tag under its own name |
| VanillaChunks.GameRulesKept | slimeworldmanager-importer/src/main/java/com/grinderwolf/swm/importer/SWMImporter.java:291-296 | the game rules written to the extra compound read back as the same rules |
| VanillaChunks.ToIntArray | slimeworldmanager-plugin/src/main/java/com/grinderwolf/swm/plugin/world/importer/WorldImporter.java:292-297 | one Java int per four bytes, a partial tail dropped |
| VanillaChunks.ToIntArrayOfInts | slimeworldmanager-importer/src/main/java/com/grinderwolf/swm/importer/SWMImporter.java:571-576 | `toIntArray` of ints written big-endian gives back the ints |
| VanillaChunks.LoadMap | slimeworldmanager-plugin/src/main/java/com/grinderwolf/swm/plugin/world/importer/WorldImporter.java:174-185 | a map file whose middle is not a number is a NumberFormatException; a loaded map is a compound whose "id" is the number in its name |
| VanillaChunks.MapFileNameRoundTrip | slimeworldmanager-plugin/src/main/java/com/grinderwolf/swm/plugin/world/importer/WorldImporter.java:176-177 | `map_<id>.dat` matches the map file pattern and parses back to the id |
| VanillaChunks.EmptyMapIdRefused | slimeworldmanager-importer/src/main/java/com/grinderwolf/swm/importer/SWMImporter.java:380-382 | "map_.dat" matches the pattern but its empty id makes `Integer.parseInt` fail |
| VanillaChunks.Wrapped | slimeworldmanager-plugin/src/main/java/com/grinderwolf/swm/plugin/world/importer/WorldImporter.java:243 | the palette keeps every entry in order |
| VanillaChunks.ReadSection | slimeworldmanager-plugin/src/main/java/com/grinderwolf/swm/plugin/world/importer/WorldImporter.java:224-256 | a section tag that is not a compound or lacks "Y" fails; a negative Y is skipped; otherwise the section is placed at slot Y exactly when it holds blocks for the world's format (1.13 palette or legacy block array), and skipped exactly when it holds none |
| VanillaChunks.ReadSections | slimeworldmanager-plugin/src/main/java/com/grinderwolf/swm/plugin/world/importer/WorldImporter.java:222-257 | the sixteen slots end up filled exactly where a section tag placed a section (or one was there already), and every tag was readable |
| VanillaChunks.NoSections | slimeworldmanager-plugin/src/main/java/com/grinderwolf/swm/plugin/world/importer/WorldImporter.java:223 | a fresh section array has 16 empty slots |
| VanillaChunks.ReadBiomes | slimeworldmanager-plugin/src/main/java/com/grinderwolf/swm/plugin/world/importer/WorldImporter.java:196-205 | biomes are read exactly when "Biomes" is an int array or a byte array |
| VanillaChunks.ReadChunk | slimeworldmanager-plugin/src/main/java/com/grinderwolf/swm/plugin/world/importer/WorldImporter.java:187-266 | missing coordinates fail; a protochunk yields nothing; a kept chunk has the level's coordinates, no world name, 16 slots with at least one section, and the level's biomes, height maps, entities and tiles; a full chunk yields nothing exactly when no section tag places a section; the light arrays, height maps and entity lists are read by `VanillaChunks.ReadLight`, `VanillaChunks.ReadHeightMaps` and `VanillaChunks.ListOrEmpty` |
| VanillaChunks.LoadOne | slimeworldmanager-plugin/src/main/java/com/grinderwolf/swm/plugin/world/importer/WorldImporter.java:146-165 | a chunk loaded from a header entry is a full chunk with 16 slots, one of them at least holding blocks |
| VanillaChunks.LoadEntries | slimeworldmanager-plugin/src/main/java/com/grinderwolf/swm/plugin/world/importer/WorldImporter.java:145-171 | the null chunks are filtered out, so no more chunks come out than entries went in |
| VanillaChunks.LoadedFromEntries | slimeworldmanager-plugin/src/main/java/com/grinderwolf/swm/plugin/world/importer/WorldImporter.java:145-171 | every chunk of a region file comes from one of its header entries |
| VanillaChunks.LoadChunks | slimeworldmanager-plugin/src/main/java/com/grinderwolf/swm/plugin/world/importer/WorldImporter.java:130-172 | a file shorter than its header is an EOFException, and every chunk it yields is a full chunk holding blocks |
| PluginImport.RegionFiles | slimeworldmanager-plugin/src/main/java/com/grinderwolf/swm/plugin/world/importer/WorldImporter.java:82 | the files scanned are exactly the directory's files whose name ends in ".mca" |
| PluginImport.ToMap | slimeworldmanager-plugin/src/main/java/com/grinderwolf/swm/plugin/world/importer/WorldImporter.java:83-86 | `Collectors.toMap` over a region's chunks succeeds exactly when their keys are distinct (a duplicate is an IllegalStateException), and then holds each chunk under its own key and nothing else |
| PluginImport.LoadRegions | slimeworldmanager-plugin/src/main/java/com/grinderwolf/swm/plugin/world/importer/WorldImporter.java:81-87 | `putAll` over the region files never loses a key already collected |
| PluginImport.LoadRegionsSound | slimeworldmanager-plugin/src/main/java/com/grinderwolf/swm/plugin/world/importer/WorldImporter.java:81-87 | every chunk in the collected map was there before or is an imported chunk stored under its own key |
| PluginImport.LoadMaps | slimeworldmanager-plugin/src/main/java/com/grinderwolf/swm/plugin/world/importer/WorldImporter.java:91-101 | every map loaded from the data directory is a compound carrying an "id" |
| PluginImport.SpawnMap | slimeworldmanager-plugin/src/main/java/com/grinderwolf/swm/plugin/world/importer/WorldImporter.java:109-112 | the spawn coordinates go into a fresh property map, and fail (IllegalArgumentException) exactly when a property's validator refuses its value |
| PluginImport.ReadFromDirectory | slimeworldmanager-plugin/src/main/java/com/grinderwolf/swm/plugin/world/importer/WorldImporter.java:53-115 | a directory without level.dat, or with a readable level.dat but no region directory, is an invalid world; an imported world has the directory's name, is locked, writable and without loader, has the world version of its DataVersion, the game rules as its extra data, a non-empty map of imported chunks each under its own key, and the spawn coordinates as its properties |
| PluginImport.SpawnStored | slimeworldmanager-plugin/src/main/java/com/grinderwolf/swm/plugin/world/importer/WorldImporter.java:109-112 | the property map holds exactly the three spawn properties, each reading back the level's spawn coordinate |
| PluginImport.LaterRegionWins | slimeworldmanager-plugin/src/main/java/com/grinderwolf/swm/plugin/world/importer/WorldImporter.java:82-87 | when two region files hold a chunk with the same key, `putAll` keeps the later file's chunk |
| PluginImport.DuplicateKeyRefused | slimeworldmanager-plugin/src/main/java/com/grinderwolf/swm/plugin/world/importer/WorldImporter.java:83-86 | a region file holding two chunks with the same key makes the whole import fail with an IllegalStateException |
| StandaloneImport.Insert | slimeworldmanager-importer/src/main/java/com/grinderwolf/swm/importer/SWMImporter.java:227-228 | inserting one chunk into the sorted list makes it one longer |
| StandaloneImport.InsertPermutes | slimeworldmanager-importer/src/main/java/com/grinderwolf/swm/importer/SWMImporter.java:227-228 | insertion adds exactly the inserted chunk to the list's contents |
| StandaloneImport.WithKey | slimeworldmanager-importer/src/main/java/com/grinderwolf/swm/importer/SWMImporter.java:228 | the chunks with a given key, in list order, all have that key |
| StandaloneImport.WithKeyAppend | slimeworldmanager-importer/src/main/java/com/grinderwolf/swm/importer/SWMImporter.java:228 | selecting a key distributes over concatenation |
| StandaloneImport.WithKeyAbove | slimeworldmanager-importer/src/main/java/com/grinderwolf/swm/importer/SWMImporter.java:228 | a list whose keys are all larger holds no chunk of the key |
| StandaloneImport.InsertSorted | slimeworldmanager-importer/src/main/java/com/grinderwolf/swm/importer/SWMImporter.java:228 | insertion keeps the keys non-decreasing |
| StandaloneImport.InsertWithKey | slimeworldmanager-importer/src/main/java/com/grinderwolf/swm/importer/SWMImporter.java:228 | insertion places a chunk after every chunk with the same key already in the list |
| StandaloneImport.InsertFrontWithKey | slimeworldmanager-importer/src/main/java/com/grinderwolf/swm/importer/SWMImporter.java:228 | a chunk with the smallest key goes to the front |
| StandaloneImport.WithKeyCons | slimeworldmanager-importer/src/main/java/com/grinderwolf/swm/importer/SWMImporter.java:228 | selecting a key from a list starting with one chunk |
| StandaloneImport.PaletteEntries | slimeworldmanager-importer/src/main/java/com/grinderwolf/swm/importer/SWMImporter.java:535-541 | the standalone writer's palette encodes exactly when every entry is a compound; otherwise it fails with NullPointerException for a null entry or ClassCastException for another tag, and the first entry decides |
| StandaloneImport.ImportedSectionBytes | slimeworldmanager-importer/src/main/java/com/grinderwolf/swm/importer/SWMImporter.java:526-557 | a section whose block format does not match the world version is a NullPointerException |
| StandaloneImport.ImportedHeightMapBytes | slimeworldmanager-importer/src/main/java/com/grinderwolf/swm/importer/SWMImporter.java:496-506 | the standalone writer writes even an empty height-map compound through the NBT stream (its length plus the stream), and writes legacy height maps as the plugin does |
| StandaloneImport.StandaloneLayout | slimeworldmanager-importer/src/main/java/com/grinderwolf/swm/importer/SWMImporter.java:224-310 | no chunks is a NoSuchElementException (from `getAsInt`); otherwise the header carries the given world version, the extra blob is the game-rules compound, the maps blob the maps, and the entity blob is present exactly when some chunk has entities |
| StandaloneImport.GenerateSlimeWorld | slimeworldmanager-importer/src/main/java/com/grinderwolf/swm/importer/SWMImporter.java:224-315 | a generated file fits a Java array and starts with the magic bytes, format version 9 and the world version |
| StandaloneImport.WriteLayout | slimeworldmanager-importer/src/main/java/com/grinderwolf/swm/importer/SWMImporter.java:229-314 | writing the layout succeeds exactly when the output fits Java's limits, fails only for lack of memory, and starts with the header |
| StandaloneImport.EmitStartsWithHeader | slimeworldmanager-importer/src/main/java/com/grinderwolf/swm/importer/SWMImporter.java:233-236 | every emitted file starts with the magic bytes, format version 9 and the world version |
| StandaloneImport.LoadAllChunks | slimeworldmanager-importer/src/main/java/com/grinderwolf/swm/importer/SWMImporter.java:140-147 | every chunk collected from the region files is a full chunk holding blocks |
| StandaloneImport.ImportWorld | slimeworldmanager-importer/src/main/java/com/grinderwolf/swm/importer/SWMImporter.java:96-178 | a missing or non-directory folder, a missing or empty region directory, or a missing level.dat is an invalid world; no end of input escapes; a produced file fits a Java array; an I/O failure while reading is rethrown as an IOException by `StandaloneImport.Rethrown` |
| StandaloneImport.DestinationFile | slimeworldmanager-importer/src/main/java/com/grinderwolf/swm/importer/SWMImporter.java:79-81 | the output file sits next to the world folder and is named after it with ".slime" appended, so it is never the folder itself |
| StandaloneImport.SortByKeySorted | slimeworldmanager-importer/src/main/java/com/grinderwolf/swm/importer/SWMImporter.java:227-228 | sorting by chunk key yields a permutation of the chunks whose keys never decrease |
| StandaloneImport.SortByKeyStable | slimeworldmanager-importer/src/main/java/com/grinderwolf/swm/importer/SWMImporter.java:228 | `List.sort` is stable: chunks with equal keys keep their relative order |
| StandaloneImport.SortDistinct | slimeworldmanager-importer/src/main/java/com/grinderwolf/swm/importer/SWMImporter.java:228 | with distinct keys the sorted list is strictly increasing |
| StandaloneImport.TwoWithKey | slimeworldmanager-importer/src/main/java/com/grinderwolf/swm/importer/SWMImporter.java:228 | two chunks sharing a key both show up when selecting that key |
| StandaloneImport.OneWithKey | slimeworldmanager-importer/src/main/java/com/grinderwolf/swm/importer/SWMImporter.java:228 | a chunk with the key shows up when selecting it |
| StandaloneImport.TwoWithKeyDistinct | slimeworldmanager-importer/src/main/java/com/grinderwolf/swm/importer/SWMImporter.java:228 | with distinct keys at most one chunk has any key |
| StandaloneImport.NoneWithKey | slimeworldmanager-importer/src/main/java/com/grinderwolf/swm/importer/SWMImporter.java:228 | a list without the key selects nothing |
| StandaloneImport.PaletteSame | slimeworldmanager-importer/src/main/java/com/grinderwolf/swm/importer/SWMImporter.java:535-541 | for a palette whose entries are all non-empty compounds the standalone writer writes the same bytes as the plugin |
| StandaloneImport.SectionSame | slimeworldmanager-importer/src/main/java/com/grinderwolf/swm/importer/SWMImporter.java:522-557 | a section the importer built is written byte for byte as the plugin writes it |
| StandaloneImport.SectionsSame | slimeworldmanager-importer/src/main/java/com/grinderwolf/swm/importer/SWMImporter.java:516-558 | the section array is written as the plugin writes it |
| StandaloneImport.ChunkSame | slimeworldmanager-importer/src/main/java/com/grinderwolf/swm/importer/SWMImporter.java:495-558 | a chunk with a non-empty modern height map, or any legacy chunk, is written as the plugin writes it |
| StandaloneImport.ChunksSame | slimeworldmanager-importer/src/main/java/com/grinderwolf/swm/importer/SWMImporter.java:491-561 | the chunk blob is the plugin's chunk blob under the same condition |
| StandaloneImport.EmptyHeightMapWritten | slimeworldmanager-importer/src/main/java/com/grinderwolf/swm/importer/SWMImporter.java:563-569 | the one difference: an empty modern height map is written through the NBT stream, where the plugin writes a zero length |
| StandaloneImport.DuplicatesKept | slimeworldmanager-importer/src/main/java/com/grinderwolf/swm/importer/SWMImporter.java:140-147 | the standalone importer appends the chunks of every region file, so chunks with the same key from two files are both kept |
| StandaloneImport.NoChunksRefused | slimeworldmanager-importer/src/main/java/com/grinderwolf/swm/importer/SWMImporter.java:238-241 | a world without chunks cannot be generated: `min().getAsInt()` throws NoSuchElementException |
| UpgradeTables.Lookup | slimeworldmanager-plugin/src/main/java/com/grinderwolf/swm/plugin/upgrade/v1_14/v1_14WorldUpgrade.java:23-25 | a lookup in a rename table finds only a listed pair, and finds nothing exactly when no pair has that key |
| UpgradeTables.Swapped | slimeworldmanager-plugin/src/main/java/com/grinderwolf/swm/plugin/upgrade/v1_14/v1_14WorldUpgrade.java:116-119 | the reverse table holds every pair of the forward table with its two names exchanged, at the same position |
| UpgradeTables.LookupListed | slimeworldmanager-plugin/src/main/java/com/grinderwolf/swm/plugin/upgrade/v1_14/v1_14WorldUpgrade.java:116-119 | in a table without repeated names a lookup returns `b` for `a` exactly when `(a, b)` is listed |
| UpgradeTables.RenamesInjective | slimeworldmanager-plugin/src/main/java/com/grinderwolf/swm/plugin/upgrade/v1_14/v1_14WorldUpgrade.java:27-36 | the eight renames neither repeat an old name nor a new name, so both maps hold all eight entries |
| UpgradeTables.OldNamesDistinct | slimeworldmanager-plugin/src/main/java/com/grinderwolf/swm/plugin/upgrade/v1_14/v1_14WorldUpgrade.java:27-36 | no old block name is renamed twice |
| UpgradeTables.NewNamesDistinct | slimeworldmanager-plugin/src/main/java/com/grinderwolf/swm/plugin/upgrade/v1_14/v1_14WorldUpgrade.java:27-36 | no new block name is the target of two renames |
| UpgradeTables.RenameInverse | slimeworldmanager-plugin/src/main/java/com/grinderwolf/swm/plugin/upgrade/v1_14/v1_14WorldUpgrade.java:116-119 | `oldToNewMap` sends `a` to `b` exactly when `newToOldMap` sends `b` back to `a` |
| UpgradeTables.RenameRoundTrip | slimeworldmanager-plugin/src/main/java/com/grinderwolf/swm/plugin/upgrade/v1_14/v1_14WorldUpgrade.java:27-36 | a block name that is not itself a 1.14 name comes back unchanged after renaming up and then down |
| UpgradeTables.CodesIn | slimeworldmanager-plugin/src/main/java/com/grinderwolf/swm/plugin/upgrade/v1_14/v1_14WorldUpgrade.java:42-73 | a profession name missing from the table gets the default codes `{0, 0}` |
| UpgradeTables.ProfessionName | slimeworldmanager-plugin/src/main/java/com/grinderwolf/swm/plugin/upgrade/v1_14/v1_14WorldUpgrade.java:75-114 | the name is `minecraft:none` exactly when the old profession code is outside 0..5 |
| UpgradeTables.CodesInFinds | slimeworldmanager-plugin/src/main/java/com/grinderwolf/swm/plugin/upgrade/v1_14/v1_14WorldUpgrade.java:42-73 | the first row with a name decides that name's codes |
| UpgradeTables.ProfessionNamesDistinct | slimeworldmanager-plugin/src/main/java/com/grinderwolf/swm/plugin/upgrade/v1_14/v1_14WorldUpgrade.java:42-73 | the thirteen `case` labels of the profession switch are distinct |
| UpgradeTables.ProfessionsRoundTrip | slimeworldmanager-plugin/src/main/java/com/grinderwolf/swm/plugin/upgrade/v1_14/v1_14WorldUpgrade.java:42-114 | each of the thirteen professions maps to its (profession, career) pair and that pair maps back to the same name |
| UpgradeTables.RowsWritten | slimeworldmanager-plugin/src/main/java/com/grinderwolf/swm/plugin/upgrade/v1_14/v1_14WorldUpgrade.java:75-114 | the name function returns each listed profession for its own (profession, career) pair |
| UpgradeTables.UnknownProfession | slimeworldmanager-plugin/src/main/java/com/grinderwolf/swm/plugin/upgrade/v1_14/v1_14WorldUpgrade.java:70-71 | an unlisted profession is downgraded to `{0, 0}`, which upgrades again to a farmer |
| UpgradeTables.NameListed | slimeworldmanager-plugin/src/main/java/com/grinderwolf/swm/plugin/upgrade/v1_14/v1_14WorldUpgrade.java:75-109 | for an old profession code in 0..5 the upgraded name is a listed profession with that code and either the same career or career 1 |
| UpgradeTables.ProfessionSurvives | slimeworldmanager-plugin/src/main/java/com/grinderwolf/swm/plugin/upgrade/v1_14/v1_14WorldUpgrade.java:42-109 | upgrading then downgrading keeps an old profession code in 0..5, and keeps the career or resets it to 1 |
| UpgradeTables.Clamp | slimeworldmanager-plugin/src/main/java/com/grinderwolf/swm/plugin/upgrade/v1_14/v1_14WorldUpgrade.java:38-40 | the result lies in the range, equals the input when the input already lies in it, and is always one of the input or the two bounds |
| UpgradeTables.ReplaceAbsent | slimeworldmanager-plugin/src/main/java/com/grinderwolf/swm/plugin/upgrade/v1_14/v1_14WorldUpgrade.java:214-219 | `String.replace` leaves a name without the banner message untouched |
| UpgradeTables.ReplaceOne | slimeworldmanager-plugin/src/main/java/com/grinderwolf/swm/plugin/upgrade/v1_14/v1_14WorldUpgrade.java:214-219 | `String.replace` turns a name whose only occurrence of the banner message is at its end into the same name with the new message there |
| BlockScan.BitsPerBlock | slimeworldmanager-plugin/src/main/java/com/grinderwolf/swm/plugin/upgrade/v1_14/v1_14WorldUpgrade.java:129 | at least four bits per block, and `longs * 64 / 4096` when that is larger |
| BlockScan.BitsGrow | slimeworldmanager-plugin/src/main/java/com/grinderwolf/swm/plugin/upgrade/v1_14/v1_14WorldUpgrade.java:129 | fewer than 320 longs give four bits per block, and 320 or more give `longs / 64` |
| BlockScan.Unsigned | slimeworldmanager-plugin/src/main/java/com/grinderwolf/swm/plugin/upgrade/v1_14/v1_14WorldUpgrade.java:141 | a signed Java `long` read as the unsigned 64-bit value `>>>` shifts |
| BlockScan.ValueAt | slimeworldmanager-plugin/src/main/java/com/grinderwolf/swm/plugin/upgrade/v1_14/v1_14WorldUpgrade.java:134-145 | reading a packed entry fails only with an index out of bounds, and otherwise yields a Java `int` |
| BlockScan.SpanAtMostTwo | slimeworldmanager-plugin/src/main/java/com/grinderwolf/swm/plugin/upgrade/v1_14/v1_14WorldUpgrade.java:135-138 | an entry of 4 to 64 bits starts in long `index * bits / 64` at bit `index * bits % 64` and spans at most two longs |
| BlockScan.ValueBelowPower | slimeworldmanager-plugin/src/main/java/com/grinderwolf/swm/plugin/upgrade/v1_14/v1_14WorldUpgrade.java:130-145 | for widths under 31 bits a packed entry read with `maxEntryValue` is below `2^bits` |
| BlockScan.MaskedBelow | slimeworldmanager-plugin/src/main/java/com/grinderwolf/swm/plugin/upgrade/v1_14/v1_14WorldUpgrade.java:130 | masking with `(1L << bits) - 1` gives a value below `2^bits` |
| BlockScan.AndBelow | slimeworldmanager-plugin/src/main/java/com/grinderwolf/swm/plugin/upgrade/v1_14/v1_14WorldUpgrade.java:141 | a bitwise and never exceeds the mask |
| BlockScan.Pow2Add | slimeworldmanager-plugin/src/main/java/com/grinderwolf/swm/plugin/upgrade/v1_14/v1_14WorldUpgrade.java:130 | shifting by `a + b` is shifting by `a` then by `b` |
| BlockScan.ArrayIndex | slimeworldmanager-plugin/src/main/java/com/grinderwolf/swm/plugin/upgrade/v1_14/v1_14WorldUpgrade.java:134 | `y << 8 \| z << 4 \| x` of three coordinates below 16 is an index into the 4096 blocks of a section |
| BlockScan.PositionOf | slimeworldmanager-plugin/src/main/java/com/grinderwolf/swm/plugin/upgrade/v1_14/v1_14WorldUpgrade.java:131-134 | every block index names a position inside the section |
| BlockScan.PositionsAreIndices | slimeworldmanager-plugin/src/main/java/com/grinderwolf/swm/plugin/upgrade/v1_14/v1_14WorldUpgrade.java:131-134 | the y, z, x loops visit each block index exactly once: index and position are inverse |
| BlockScan.TilePosition | slimeworldmanager-plugin/src/main/java/com/grinderwolf/swm/plugin/upgrade/v1_14/v1_14WorldUpgrade.java:154-156 | a tile entity's position is read exactly when it is a compound holding int "x", "y" and "z" |
| BlockScan.Retag | slimeworldmanager-plugin/src/main/java/com/grinderwolf/swm/plugin/upgrade/v1_14/v1_14WorldUpgrade.java:153-165 | retagging keeps the number of tile entities, and changes only a tile at the block whose id was the expected one, to the new id |
| BlockScan.RetagFirstOnly | slimeworldmanager-plugin/src/main/java/com/grinderwolf/swm/plugin/upgrade/v1_14/v1_14WorldUpgrade.java:153-165 | only the first tile at the block is looked at: with the expected id it alone is renamed, without an id the lookup fails, and with another id an `IllegalStateException` is raised |
| BlockScan.RetagPast | slimeworldmanager-plugin/src/main/java/com/grinderwolf/swm/plugin/upgrade/v1_14/v1_14WorldUpgrade.java:153-157 | a tile at another position is skipped and kept |
| BlockScan.RetagHere | slimeworldmanager-plugin/src/main/java/com/grinderwolf/swm/plugin/upgrade/v1_14/v1_14WorldUpgrade.java:157-163 | the tile at the block ends the search: a missing id, the wrong id with its message, or the renamed tile |
| BlockScan.ScanFrom | slimeworldmanager-plugin/src/main/java/com/grinderwolf/swm/plugin/upgrade/v1_14/v1_14WorldUpgrade.java:131-168 | the scan over the remaining blocks keeps the number of tile entities |
| BlockScan.UpdateBlockEntities | slimeworldmanager-plugin/src/main/java/com/grinderwolf/swm/plugin/upgrade/v1_14/v1_14WorldUpgrade.java:121-169 | a missing section changes nothing, and a completed scan keeps the number of tile entities |
| WorldUpgrade.EntryName | slimeworldmanager-plugin/src/main/java/com/grinderwolf/swm/plugin/upgrade/v1_14/v1_14WorldUpgrade.java:180-181 | a palette entry's name is read exactly when the entry is a compound with a string "Name", and is that string |
| WorldUpgrade.RenameEntry | slimeworldmanager-plugin/src/main/java/com/grinderwolf/swm/plugin/upgrade/v1_14/v1_14WorldUpgrade.java:186-189 | a palette entry keeps every other field; its "Name" changes to the renamed block exactly when the direction's map lists it |
| WorldUpgrade.ConvertPalette | slimeworldmanager-plugin/src/main/java/com/grinderwolf/swm/plugin/upgrade/v1_14/v1_14WorldUpgrade.java:178-190 | a converted palette has one renamed entry per original entry, each of which had a name |
| WorldUpgrade.RetagChests | slimeworldmanager-plugin/src/main/java/com/grinderwolf/swm/plugin/upgrade/v1_14/v1_14WorldUpgrade.java:183-185 | only a trapped-chest palette entry touches the tile entities, and it keeps their number |
| WorldUpgrade.ConvertSections | slimeworldmanager-plugin/src/main/java/com/grinderwolf/swm/plugin/upgrade/v1_14/v1_14WorldUpgrade.java:175-192 | missing sections stay missing; present sections keep their block states, light and palette size |
| WorldUpgrade.VillagerLevel | slimeworldmanager-plugin/src/main/java/com/grinderwolf/swm/plugin/upgrade/v1_14/v1_14WorldUpgrade.java:271-279 | a villager with offers and a career level of 0 or 1 gets a level from 1 to 5; otherwise its stored level (1 when absent) is kept |
| WorldUpgrade.VillagerXp | slimeworldmanager-plugin/src/main/java/com/grinderwolf/swm/plugin/upgrade/v1_14/v1_14WorldUpgrade.java:280-283 | the experience written is one of the table's values, and the value for the level when the level is 1 to 5 |
| WorldUpgrade.UpgradeVillager | slimeworldmanager-plugin/src/main/java/com/grinderwolf/swm/plugin/upgrade/v1_14/v1_14WorldUpgrade.java:266-292 | the old profession fields are gone, "VillagerData" holds exactly plains, the profession name and the level, "Xp" is added only when missing, and other fields stay |
| WorldUpgrade.DowngradedCodes | slimeworldmanager-plugin/src/main/java/com/grinderwolf/swm/plugin/upgrade/v1_14/v1_14WorldUpgrade.java:204-206 | downgrading a villager needs "VillagerData" with a string profession and fails with `NoSuchElementException` otherwise; the codes are the profession table's |
| WorldUpgrade.WithCodes | slimeworldmanager-plugin/src/main/java/com/grinderwolf/swm/plugin/upgrade/v1_14/v1_14WorldUpgrade.java:207-210 | "VillagerData" is removed, "Profession", "Career" and "CareerLevel" are set, and every other field stays |
| WorldUpgrade.DowngradeVillagerAsWritten | slimeworldmanager-plugin/src/main/java/com/grinderwolf/swm/plugin/upgrade/v1_14/v1_14WorldUpgrade.java:201-211 | as written, the "CareerLevel" entry is stored as an int tag named "Career" |
| WorldUpgrade.DowngradeVillager | slimeworldmanager-plugin/src/main/java/com/grinderwolf/swm/plugin/upgrade/v1_14/v1_14WorldUpgrade.java:201-211 | downgrading a villager succeeds exactly when its profession can be read, and writes the profession codes with a correctly named "CareerLevel" |
| WorldUpgrade.UpgradeOcelot | slimeworldmanager-plugin/src/main/java/com/grinderwolf/swm/plugin/upgrade/v1_14/v1_14WorldUpgrade.java:252-265 | cat type 0 drops "CatType" and marks owned ocelots as trusting; types 1 to 3 become cats; other types are left alone |
| WorldUpgrade.RenameBanner | slimeworldmanager-plugin/src/main/java/com/grinderwolf/swm/plugin/upgrade/v1_14/v1_14WorldUpgrade.java:212-220 | only "CustomName" of a banner can change, and a banner without one is left alone |
| WorldUpgrade.ConvertEntity | slimeworldmanager-plugin/src/main/java/com/grinderwolf/swm/plugin/upgrade/v1_14/v1_14WorldUpgrade.java:194-221 | an entity converts only when it has a string id, and entities other than ocelots, cats, villagers and banners are left alone; a villager is downgraded by the corrected `WorldUpgrade.DowngradeVillager` |
| WorldUpgrade.ConvertEntities | slimeworldmanager-plugin/src/main/java/com/grinderwolf/swm/plugin/upgrade/v1_14/v1_14WorldUpgrade.java:249-303 | the entity loop succeeds exactly when every entity converts, and then replaces each entity by its conversion in place |
| WorldUpgrade.ConvertChunk | slimeworldmanager-plugin/src/main/java/com/grinderwolf/swm/plugin/upgrade/v1_14/v1_14WorldUpgrade.java:228-304 | converting a chunk keeps its world, coordinates, height maps and biomes, and the number of its sections, tile entities and entities; its downgrade uses the corrected villager downgrade |
| WorldUpgrade.ConvertChunks | slimeworldmanager-plugin/src/main/java/com/grinderwolf/swm/plugin/upgrade/v1_14/v1_14WorldUpgrade.java:228 | the chunk map keeps its keys |
| WorldUpgrade.ConvertChunksPointwise | slimeworldmanager-plugin/src/main/java/com/grinderwolf/swm/plugin/upgrade/v1_14/v1_14WorldUpgrade.java:228 | converting the listed keys succeeds exactly when each listed chunk converts; each is replaced by its conversion and unlisted chunks stay |
| WorldUpgrade.ConvertAll | slimeworldmanager-plugin/src/main/java/com/grinderwolf/swm/plugin/upgrade/v1_14/v1_14WorldUpgrade.java:172-173 | a converted world differs from the original only in its chunks, and keeps their keys |
| WorldUpgrade.ConvertAllPointwise | slimeworldmanager-plugin/src/main/java/com/grinderwolf/swm/plugin/upgrade/v1_14/v1_14WorldUpgrade.java:227-228 | a world converts exactly when every chunk does, whatever the iteration order, and each chunk becomes its own conversion |
| WorldUpgrade.ConvertWorld | slimeworldmanager-plugin/src/main/java/com/grinderwolf/swm/plugin/upgrade/v1_14/v1_14WorldUpgrade.java:172-305 | `upgrade(world)` or `downgrade(world)` succeeds exactly when every chunk converts in that direction; the result differs from the world only in its chunks, keeps their keys, and holds each chunk's own conversion |
| WorldUpgrade.Upgrade | slimeworldmanager-plugin/src/main/java/com/grinderwolf/swm/plugin/upgrade/v1_14/v1_14WorldUpgrade.java:227-305 | `upgrade(world)` fails exactly when some chunk's upgrade does, and otherwise changes nothing but the chunks, under the same keys |
| WorldUpgrade.Downgrade | slimeworldmanager-plugin/src/main/java/com/grinderwolf/swm/plugin/upgrade/v1_14/v1_14WorldUpgrade.java:172-225 | `downgrade(world)` fails exactly when some chunk's downgrade does, and otherwise changes nothing but the chunks, under the same keys; villagers go through the corrected downgrade |
| UpgradeProofs.NoRenameToTrappedChest | slimeworldmanager-plugin/src/main/java/com/grinderwolf/swm/plugin/upgrade/v1_14/v1_14WorldUpgrade.java:27-36 | no renamed block becomes a trapped chest |
| UpgradeProofs.NotARenameTarget | slimeworldmanager-plugin/src/main/java/com/grinderwolf/swm/plugin/upgrade/v1_14/v1_14WorldUpgrade.java:27-36 | the trapped chest is not a rename target |
| UpgradeProofs.EntryRoundTrip | slimeworldmanager-plugin/src/main/java/com/grinderwolf/swm/plugin/upgrade/v1_14/v1_14WorldUpgrade.java:186-245 | a palette entry with a 1.13 name is restored by upgrading then downgrading it |
| UpgradeProofs.PaletteKeepsTiles | slimeworldmanager-plugin/src/main/java/com/grinderwolf/swm/plugin/upgrade/v1_14/v1_14WorldUpgrade.java:183-185 | a palette without trapped chests converts and leaves the tile entities alone |
| UpgradeProofs.PaletteRoundTrip | slimeworldmanager-plugin/src/main/java/com/grinderwolf/swm/plugin/upgrade/v1_14/v1_14WorldUpgrade.java:178-246 | a palette of 1.13 names, without trapped chests, is restored by upgrading then downgrading it |
| UpgradeProofs.SectionsRoundTrip | slimeworldmanager-plugin/src/main/java/com/grinderwolf/swm/plugin/upgrade/v1_14/v1_14WorldUpgrade.java:175-248 | sections with 1.13 palettes are restored by upgrading then downgrading them |
| UpgradeProofs.SectionsStep | slimeworldmanager-plugin/src/main/java/com/grinderwolf/swm/plugin/upgrade/v1_14/v1_14WorldUpgrade.java:175-192 | the section loop converts the head section and then the rest |
| UpgradeProofs.EntityRoundTrip | slimeworldmanager-plugin/src/main/java/com/grinderwolf/swm/plugin/upgrade/v1_14/v1_14WorldUpgrade.java:194-303 | an entity outside the lossy cases (villagers, wild ocelots, cats) is restored by upgrading then downgrading it |
| UpgradeProofs.EntitiesInverse | slimeworldmanager-plugin/src/main/java/com/grinderwolf/swm/plugin/upgrade/v1_14/v1_14WorldUpgrade.java:194-249 | when the entity steps undo each other, the entity loops undo each other |
| UpgradeProofs.EntitiesRoundTrip | slimeworldmanager-plugin/src/main/java/com/grinderwolf/swm/plugin/upgrade/v1_14/v1_14WorldUpgrade.java:194-303 | a list of such entities is restored by upgrading then downgrading it |
| UpgradeProofs.ChunkRoundTrip | slimeworldmanager-plugin/src/main/java/com/grinderwolf/swm/plugin/upgrade/v1_14/v1_14WorldUpgrade.java:172-305 | a 1.13 chunk without trapped chests and lossy entities is restored by upgrading then downgrading it |
| UpgradeProofs.WorldsInverse | slimeworldmanager-plugin/src/main/java/com/grinderwolf/swm/plugin/upgrade/v1_14/v1_14WorldUpgrade.java:173-228 | when the chunk steps undo each other, the world conversions undo each other |
| UpgradeProofs.ChunksInverse | slimeworldmanager-plugin/src/main/java/com/grinderwolf/swm/plugin/upgrade/v1_14/v1_14WorldUpgrade.java:173-228 | two chunk maps that undo each other key by key give back the original map |
| UpgradeProofs.WorldRoundTrip | slimeworldmanager-plugin/src/main/java/com/grinderwolf/swm/plugin/upgrade/v1_14/v1_14WorldUpgrade.java:172-305 | `downgrade(upgrade(world))` gives the world back when every chunk is such a chunk |
| UpgradeProofs.VillagerRoundTrip | slimeworldmanager-plugin/src/main/java/com/grinderwolf/swm/plugin/upgrade/v1_14/v1_14WorldUpgrade.java:201-292 | with the corrected downgrade, a villager with a listed profession keeps its profession and career through upgrade and downgrade, gets career level 1, and keeps its other fields |
| UpgradeProofs.UpgradeKeepsNames | slimeworldmanager-plugin/src/main/java/com/grinderwolf/swm/plugin/upgrade/v1_14/v1_14WorldUpgrade.java:266-292 | upgrading a villager stores every entry under its own name |
| UpgradeProofs.DowngradeKeepsNames | slimeworldmanager-plugin/src/main/java/com/grinderwolf/swm/plugin/upgrade/v1_14/v1_14WorldUpgrade.java:201-211 | the corrected downgrade stores every entry under its own name |
| UpgradeProofs.CareerLevelMisnamed | slimeworldmanager-plugin/src/main/java/com/grinderwolf/swm/plugin/upgrade/v1_14/v1_14WorldUpgrade.java:209-210 | as written, a downgraded villager's "CareerLevel" entry is named "Career", so the compound no longer stores entries under their names |
| UpgradeProofs.UpgradedVillagerMisnamed | slimeworldmanager-plugin/src/main/java/com/grinderwolf/swm/plugin/upgrade/v1_14/v1_14WorldUpgrade.java:209-210 | every upgraded villager, downgraded as written, ends up misnamed |
| MysqlStore.UpdateLock | slimeworldmanager-plugin/src/main/java/com/grinderwolf/swm/plugin/loaders/mysql/MysqlLoader.java:255-269 | the lock column of the named row becomes the current time and no other row changes; the world is kept in the refresh map when forced or already there |
| MysqlStore.Load | slimeworldmanager-plugin/src/main/java/com/grinderwolf/swm/plugin/loaders/mysql/MysqlLoader.java:150-170 | an unknown world fails; a read-only load returns the blob without locking; otherwise a lock younger than the maximum lock time fails with `WorldInUseException`, and an older one is taken over at the current time and scheduled for refresh; the lease is fresh when `now - locked`, wrapped as Java long arithmetic, is at most the maximum lock time (`Leases.Fresh`) |
| MysqlStore.Save | slimeworldmanager-plugin/src/main/java/com/grinderwolf/swm/plugin/loaders/mysql/MysqlLoader.java:173-187 | the row holds the new blob and no other row changes; a new row starts with lock value 1, an existing row keeps its lock unless `lock` is set, in which case it is refreshed to now |
| MysqlStore.IsLocked | slimeworldmanager-plugin/src/main/java/com/grinderwolf/swm/plugin/loaders/mysql/MysqlLoader.java:117-133 | a world this server refreshes is locked; an unknown world is `UnknownWorldException`; otherwise it is locked exactly when its lease is fresh; the lease is fresh when `now - locked`, wrapped as Java long arithmetic, is at most the maximum lock time (`Leases.Fresh`) |
| MysqlStore.Unlock | slimeworldmanager-plugin/src/main/java/com/grinderwolf/swm/plugin/loaders/mysql/MysqlLoader.java:190-205 | the refresh is cancelled in every case; an unknown world fails and changes nothing else; a known world gets lock value 0 |
| MysqlStore.Delete | slimeworldmanager-plugin/src/main/java/com/grinderwolf/swm/plugin/loaders/mysql/MysqlLoader.java:100-114 | the refresh is cancelled and the row removed; the call succeeds exactly when the row existed |
| MysqlStore.Update | slimeworldmanager-plugin/src/main/java/com/grinderwolf/swm/plugin/loaders/mysql/MysqlLoader.java:220-253 | a database newer than version 1 is refused with `NewerDatabaseException`; any other is brought to version 1 with its rows untouched |
| MysqlStore.LeaseExcludes | slimeworldmanager-plugin/src/main/java/com/grinderwolf/swm/plugin/loaders/mysql/MysqlLoader.java:159-164 | after one server takes a world for writing, any server trying within the maximum lock time gets `WorldInUseException` |
| MysqlStore.RefreshHolds | slimeworldmanager-plugin/src/main/java/com/grinderwolf/swm/plugin/loaders/mysql/MysqlLoader.java:255-269 | while the refresh keeps running, the world stays locked for every server up to the maximum lock time after each refresh (`MysqlStore.Refresh` then `MysqlStore.IsLocked`) |
| MysqlStore.UnlockReleases | slimeworldmanager-plugin/src/main/java/com/grinderwolf/swm/plugin/loaders/mysql/MysqlLoader.java:190-205 | after an unlock no refresh runs, and a later writer can load the world |
| MysqlStore.SaveThenLoad | slimeworldmanager-plugin/src/main/java/com/grinderwolf/swm/plugin/loaders/mysql/MysqlLoader.java:173-187 | a read-only load after a save returns the blob just saved |
| MysqlStore.SaveWithoutLockIsFree | slimeworldmanager-plugin/src/main/java/com/grinderwolf/swm/plugin/loaders/mysql/MysqlLoader.java:59 | a world first saved without a lock can be loaded for writing once its lock value 1 has aged past the maximum lock time |
| MysqlStore.DeleteForgets | slimeworldmanager-plugin/src/main/java/com/grinderwolf/swm/plugin/loaders/mysql/MysqlLoader.java:100-114 | after a delete the world does not exist, loading it fails with `UnknownWorldException`, and deleting it again fails (`MysqlStore.Exists` is false afterwards) |
| MysqlStore.UpdateIdempotent | slimeworldmanager-plugin/src/main/java/com/grinderwolf/swm/plugin/loaders/mysql/MysqlLoader.java:220-253 | updating an updated database changes nothing more, and the update fails exactly for a newer database |
| MongoStore.BackupName | slimeworldmanager-plugin/src/main/java/com/grinderwolf/swm/plugin/loaders/mongo/MongoLoader.java:166 | the backup file name extends the world name, so it never equals it |
| MongoStore.UpdateLock | slimeworldmanager-plugin/src/main/java/com/grinderwolf/swm/plugin/loaders/mongo/MongoLoader.java:248-261 | the named document's lock becomes the current time, files and other documents are unchanged, and the refresh map is kept as for MySQL |
| MongoStore.Load | slimeworldmanager-plugin/src/main/java/com/grinderwolf/swm/plugin/loaders/mongo/MongoLoader.java:133-156 | an unknown world fails; a read-only load downloads the file; a boolean lock fails with `ClassCastException`; a fresh lock fails with `WorldInUseException`; a stale one is taken over at the current time before the download; the lock is read by `MongoStore.LockedMillis` and the file by `MongoStore.Download`; the lease is fresh when `now - locked`, wrapped as Java long arithmetic, is at most the maximum lock time (`Leases.Fresh`) |
| MongoStore.Rotate | slimeworldmanager-plugin/src/main/java/com/grinderwolf/swm/plugin/loaders/mongo/MongoLoader.java:164-168 | the new file is stored under the world name, the previous one (if any) under the backup name, and other files are kept |
| MongoStore.SaveAsWritten | slimeworldmanager-plugin/src/main/java/com/grinderwolf/swm/plugin/loaders/mongo/MongoLoader.java:159-180 | as written, the files are rotated and a new world's document gets the current time as lock, but the world is not put in the refresh map; an existing world's lock is taken over only when it is stale by the wrapped lease age (`Leases.Fresh`) |
| MongoStore.Save | slimeworldmanager-plugin/src/main/java/com/grinderwolf/swm/plugin/loaders/mongo/MongoLoader.java:159-180 | the database changes as written, and a new world saved with a lock is also scheduled for refresh; the lease age is wrapped as in `MongoStore.SaveAsWritten` |
| MongoStore.Unlock | slimeworldmanager-plugin/src/main/java/com/grinderwolf/swm/plugin/loaders/mongo/MongoLoader.java:183-198 | the refresh is cancelled in every case; an unknown world fails and changes nothing; a known world gets lock value 0 |
| MongoStore.Delete | slimeworldmanager-plugin/src/main/java/com/grinderwolf/swm/plugin/loaders/mongo/MongoLoader.java:72-95 | the refresh is cancelled; the call succeeds exactly when the world file exists, and then removes the file, its backup and the document |
| MongoStore.IsLocked | slimeworldmanager-plugin/src/main/java/com/grinderwolf/swm/plugin/loaders/mongo/MongoLoader.java:98-113 | a refreshed world is locked; an unknown world fails; a boolean lock fails with `ClassCastException`; otherwise the lock's age decides; the lease is fresh when `now - locked`, wrapped as Java long arithmetic, is at most the maximum lock time (`Leases.Fresh`) |
| MongoStore.Update | slimeworldmanager-plugin/src/main/java/com/grinderwolf/swm/plugin/loaders/mongo/MongoLoader.java:228-245 | every boolean lock is reset to 0, numeric locks and the files are untouched, and no document is added or removed |
| MongoStore.UpdateIdempotent | slimeworldmanager-plugin/src/main/java/com/grinderwolf/swm/plugin/loaders/mongo/MongoLoader.java:228-245 | updating twice is updating once |
| MongoStore.UpdateRemovesClassCast | slimeworldmanager-plugin/src/main/java/com/grinderwolf/swm/plugin/loaders/mongo/MongoLoader.java:228-245 | after the update, asking whether a world is locked can only fail because the world is unknown |
| MongoStore.LeaseExcludes | slimeworldmanager-plugin/src/main/java/com/grinderwolf/swm/plugin/loaders/mongo/MongoLoader.java:142-148 | after one server takes a world for writing, any server trying within the maximum lock time gets `WorldInUseException` |
| MongoStore.SaveThenLoad | slimeworldmanager-plugin/src/main/java/com/grinderwolf/swm/plugin/loaders/mongo/MongoLoader.java:159-168 | a read-only load after a save returns the blob just saved, and the previous blob is kept as the backup |
| MongoStore.NewLockedSaveLapses | slimeworldmanager-plugin/src/main/java/com/grinderwolf/swm/plugin/loaders/mongo/MongoLoader.java:171-173 | as written, a new world saved with a lock is never refreshed, so another server can take it once the maximum lock time has passed |
| MongoStore.NewLockedSaveHolds | slimeworldmanager-plugin/src/main/java/com/grinderwolf/swm/plugin/loaders/mongo/MongoLoader.java:171-176 | with the refresh scheduled, a new world saved with a lock stays locked for other servers (`MongoStore.Refresh` then `MongoStore.IsLocked`) |
| MongoStore.DeleteForgets | slimeworldmanager-plugin/src/main/java/com/grinderwolf/swm/plugin/loaders/mongo/MongoLoader.java:72-95 | after a delete the world and its backup are gone, loading fails with `UnknownWorldException`, and deleting again fails (`MongoStore.Exists` is false afterwards) |
| Leases.FreshByAge | slimeworldmanager-plugin/src/main/java/com/grinderwolf/swm/plugin/loaders/mysql/MysqlLoader.java:128 | while the lease's age `now - locked` fits a Java long, the lease is fresh exactly when that age is at most the maximum lock time |
| Leases.AncientLockHeld | slimeworldmanager-plugin/src/main/java/com/grinderwolf/swm/plugin/loaders/mongo/MongoLoader.java:109 | a lock more than `Long.MAX_VALUE` milliseconds older than the clock wraps to a negative age and reads as held, however old it is |
| Leases.AncientLockExample | slimeworldmanager-plugin/src/main/java/com/grinderwolf/swm/plugin/loaders/mysql/MysqlLoader.java:161 | a lock stamped `Long.MIN_VALUE` is held at time 0, although its age of 2^63 ms is far beyond the maximum lock time |
| Lifecycle.EmptyWorld | slimeworldmanager-plugin/src/main/java/com/grinderwolf/swm/plugin/SWMPlugin.java:139-140 | a new empty world has no chunks, maps or extra data, carries the server's world version and the given properties, and is locked exactly when it is writable |
| Lifecycle.CreateEmptyWorld | slimeworldmanager-plugin/src/main/java/com/grinderwolf/swm/plugin/SWMPlugin.java:128-144 | an existing name fails with `WorldAlreadyExistsException` and changes nothing; a created world is the empty world, serialized and saved with a lock exactly when it is writable |
| Lifecycle.GenerateWorld | slimeworldmanager-plugin/src/main/java/com/grinderwolf/swm/plugin/SWMPlugin.java:146-151 | a world is generated exactly when it is read-only or locked; otherwise IllegalArgumentException |
| Lifecycle.LoadWorld | slimeworldmanager-plugin/src/main/java/com/grinderwolf/swm/plugin/SWMPlugin.java:187-210 | a failed fetch is reported as is; a loaded world is the fetched bytes deserialized and converted to the server's version; a read-only load leaves the store alone (`Lifecycle.Convert` chooses between downgrade, upgrade and nothing by comparing versions) |
| Lifecycle.FailedLoadReleases | slimeworldmanager-plugin/src/main/java/com/grinderwolf/swm/plugin/SWMPlugin.java:202-206 | when a writable load fetched the bytes but could not decode or convert them, the world is unlocked again |
| Lifecycle.LoadedWorldsGenerate | slimeworldmanager-plugin/src/main/java/com/grinderwolf/swm/plugin/SWMPlugin.java:146-153 | every deserialized world and every new empty world passes the lock check of `generateWorld` (the check is `Lifecycle.GenerateWorld`) |
| Lifecycle.ImportWorld | slimeworldmanager-plugin/src/main/java/com/grinderwolf/swm/plugin/SWMPlugin.java:161-183 | an existing name, a loaded vanilla world, an unreadable directory and a world too big for the format each fail with their own exception and change nothing; otherwise the serialized world is saved unlocked |
| Lifecycle.ImportedWorldIsFree | slimeworldmanager-plugin/src/main/java/com/grinderwolf/swm/plugin/SWMPlugin.java:182 | an imported world is stored without a lease, so a later writer can load it |
| Lifecycle.MigrateWorld | slimeworldmanager-plugin/src/main/java/com/grinderwolf/swm/plugin/SWMPlugin.java:220-246 | a name already in the new store fails with `WorldAlreadyExistsException` and changes nothing; a loaded world that came from the old store is switched to the new one |
| Lifecycle.MigrationMoves | slimeworldmanager-plugin/src/main/java/com/grinderwolf/swm/plugin/SWMPlugin.java:243-245 | after a migration the new store returns the bytes the old one held, and the old store no longer has the world |
| Lifecycle.Clone | slimeworldmanager-nms/common/src/main/java/com/grinderwolf/swm/nms/CraftSlimeWorld.java:167-197 | the copy's name must differ and must be free in the target store; the copy shares chunks, extra data, properties, maps and version, is read-only exactly when there is no target, and takes the target as its loader |
| Lifecycle.ClonedIsStored | slimeworldmanager-nms/common/src/main/java/com/grinderwolf/swm/nms/CraftSlimeWorld.java:193-195 | a clone with a target store is serialized and saved there under its new name |
| Lifecycle.CloneLoads | slimeworldmanager-nms/common/src/main/java/com/grinderwolf/swm/nms/CraftSlimeWorld.java:167-197 | a clone, whose tags are Java tags, saved to a store loads back from that store under its new name as the clone itself, rebuilt by the reader |
| Lifecycle.SavedThenFetched | slimeworldmanager-plugin/src/main/java/com/grinderwolf/swm/plugin/SWMPlugin.java:141 | whatever the store, a read-only fetch after a save returns the saved bytes |
| Lifecycle.StoredWorldLoads | slimeworldmanager-plugin/src/main/java/com/grinderwolf/swm/plugin/SWMPlugin.java:193-196 | a storable world whose tags are Java tags, saved and then loaded read-only, comes back as the same world with the reader's loader, name and properties |
| Lifecycle.CreateThenLoad | slimeworldmanager-plugin/src/main/java/com/grinderwolf/swm/plugin/SWMPlugin.java:128-210 | a created empty world whose property compound is a Java tag can be loaded back read-only as that world |
| Lifecycle.EmptyWorldLoads | slimeworldmanager-plugin/src/main/java/com/grinderwolf/swm/plugin/SWMPlugin.java:128-210 | a saved world without chunks or maps and with an empty extra compound loads back read-only as its reloaded form, keeping its version |
| Lifecycle.EmptyWorldTagsFit | slimeworldmanager-plugin/src/main/java/com/grinderwolf/swm/plugin/SWMPlugin.java:139-141 | such an empty world's tags are Java tags exactly as far as its property compound is one |
| Lifecycle.EmptyWorldEncodable | slimeworldmanager-plugin/src/main/java/com/grinderwolf/swm/plugin/SWMPlugin.java:139-141 | an empty world with a version byte always meets the format's limits |
| Lifecycle.UnleasedSaveIsFree | slimeworldmanager-plugin/src/main/java/com/grinderwolf/swm/plugin/SWMPlugin.java:182 | a new world saved without a lock can be loaded for writing after the maximum lock time |
| Numerals.DigitChar | slimeworldmanager-plugin/src/main/java/com/grinderwolf/swm/plugin/update/Version.java:24-26 | the digit character of a value below ten is a digit with that value |
| Numerals.Numeral | slimeworldmanager-plugin/src/main/java/com/grinderwolf/swm/plugin/update/Version.java:12 | the canonical numeral of a number is a non-empty run of digits that starts with '0' only for zero, as the pattern's `0\|[1-9]\d*` demands |
| Numerals.NumeralValue | slimeworldmanager-plugin/src/main/java/com/grinderwolf/swm/plugin/update/Version.java:24-26 | the value of a number's canonical numeral is that number |
| Numerals.ParseInt | slimeworldmanager-plugin/src/main/java/com/grinderwolf/swm/plugin/config/data/WorldData.java:132 | `Integer.parseInt` yields a Java int or a `NumberFormatException`, refuses the empty string, and reads an unsigned run of digits as its value |
| Numerals.ParseRender | slimeworldmanager-plugin/src/main/java/com/grinderwolf/swm/plugin/config/data/WorldData.java:132 | every Java int is read back from its decimal form |
| Numerals.ParseNumeral | slimeworldmanager-plugin/src/main/java/com/grinderwolf/swm/plugin/update/Version.java:24-26 | a number that fits an int is read back from its canonical numeral |
| Numerals.ParseNegative | slimeworldmanager-plugin/src/main/java/com/grinderwolf/swm/plugin/config/data/WorldData.java:132 | a negative int is read back from a minus sign followed by its numeral |
| Versions.DigitRun | slimeworldmanager-plugin/src/main/java/com/grinderwolf/swm/plugin/update/Version.java:12 | the leading run of digits of a string: all its characters are digits and the next one is not |
| Versions.TagRun | slimeworldmanager-plugin/src/main/java/com/grinderwolf/swm/plugin/update/Version.java:12 | the leading run of `[A-z0-9.-]` characters of a string, with the same maximality |
| Versions.NumberLength | slimeworldmanager-plugin/src/main/java/com/grinderwolf/swm/plugin/update/Version.java:12 | a number group matches exactly when the string starts with a digit, and covers only digits |
| Versions.PatchGroup | slimeworldmanager-plugin/src/main/java/com/grinderwolf/swm/plugin/update/Version.java:12 | the optional `.patch` group, when present, is a non-empty run of digits |
| Versions.TagGroup | slimeworldmanager-plugin/src/main/java/com/grinderwolf/swm/plugin/update/Version.java:12 | the optional `-tag` group, when present, holds only tag characters |
| Versions.MatchAt | slimeworldmanager-plugin/src/main/java/com/grinderwolf/swm/plugin/update/Version.java:12 | a match at a position has digit groups for major and minor and well-formed optional groups |
| Versions.FirstAtLeftmost | slimeworldmanager-plugin/src/main/java/com/grinderwolf/swm/plugin/update/Version.java:20-21 | `find` succeeds exactly when the pattern matches at some position, and returns the match at the leftmost such position |
| Versions.Parse | slimeworldmanager-plugin/src/main/java/com/grinderwolf/swm/plugin/update/Version.java:20-27 | a string in which no version is found is refused with an IllegalArgumentException, and only then; a found version's numbers are read as `Versions.FromMatch` reads them |
| Versions.Find | slimeworldmanager-plugin/src/main/java/com/grinderwolf/swm/plugin/update/Version.java:20-21 | a match found anywhere in the string is well formed |
| Versions.FindLeftmost | slimeworldmanager-plugin/src/main/java/com/grinderwolf/swm/plugin/update/Version.java:20-21 | the version pattern is searched for at the leftmost position where it matches |
| Versions.FromMatch | slimeworldmanager-plugin/src/main/java/com/grinderwolf/swm/plugin/update/Version.java:24-27 | as written, a match without a patch group fails in `Integer.parseInt(null)`; otherwise the three numbers are the groups' values and the tag is the group or "" |
| Versions.FromMatchWithDefaultPatch | slimeworldmanager-plugin/src/main/java/com/grinderwolf/swm/plugin/update/Version.java:24-27 | the corrected reading: a missing patch group gives patch 0, and everything else is as written |
| Versions.TwoNumbersRefused | slimeworldmanager-plugin/src/main/java/com/grinderwolf/swm/plugin/update/Version.java:26 | "2.2" matches the pattern yet is refused as written, and the corrected parse reads it as 2.2.0 (`Versions.Parse` against `Versions.ParseWithDefaultPatch`) |
| Versions.ParseWithDefaultPatch | slimeworldmanager-plugin/src/main/java/com/grinderwolf/swm/plugin/update/Version.java:19-28 | the corrected `new Version(value)`: a string without a version is an IllegalArgumentException exactly as written, and a found match is read with a missing patch as 0 (`Versions.FromMatchWithDefaultPatch`) |
| Versions.DefaultPatchAgrees | slimeworldmanager-plugin/src/main/java/com/grinderwolf/swm/plugin/update/Version.java:19-28 | the corrected constructor gives the same answer as the code as written on every string that code parses, on every string without a version and on every match with a patch group, and refuses only strings the code as written refuses too |
| Versions.ParseFormatWithDefaultPatch | slimeworldmanager-plugin/src/main/java/com/grinderwolf/swm/plugin/update/Version.java:19-28 | the corrected constructor reads every version with int-sized numbers and a tag of tag characters back from its canonical text |
| Versions.ParseTwoNumbers | slimeworldmanager-plugin/src/main/java/com/grinderwolf/swm/plugin/update/Version.java:26 | every two-number version `major.minor`, with or without a tag, is refused with NumberFormatException as written and read as `major.minor.0` with that tag by the corrected constructor |
| Versions.MatchOfFormat | slimeworldmanager-plugin/src/main/java/com/grinderwolf/swm/plugin/update/Version.java:11-12 | the canonical text of a version is matched at its start, with its three numerals and its tag |
| Versions.ParseFormat | slimeworldmanager-plugin/src/main/java/com/grinderwolf/swm/plugin/update/Version.java:19-28 | every version with int-sized numbers and a tag of tag characters is parsed back from its canonical text (`Versions.Parse`) |
| Versions.ComparePartsFirstDifference | slimeworldmanager-plugin/src/main/java/com/grinderwolf/swm/plugin/update/Version.java:35-44 | the numbers compare equal exactly when they agree from position `i` on, and swapping the sides negates the result |
| Versions.Compare | slimeworldmanager-plugin/src/main/java/com/grinderwolf/swm/plugin/update/Version.java:30-52 | `compareTo` only ever answers -1, 0 or 1 (what each answer means is `Versions.CompareMeansOrder`) |
| Versions.CompareMeansOrder | slimeworldmanager-plugin/src/main/java/com/grinderwolf/swm/plugin/update/Version.java:30-52 | -1 means the first version precedes the second (smaller at the first differing number, or equal numbers and only the second tagged), 1 the reverse, 0 equal numbers and the same tag presence |
| Versions.CompareSelf | slimeworldmanager-plugin/src/main/java/com/grinderwolf/swm/plugin/update/Version.java:32-34 | a version compares equal to itself |
| Versions.CompareAntisymmetric | slimeworldmanager-plugin/src/main/java/com/grinderwolf/swm/plugin/update/Version.java:30-52 | swapping the two versions negates the comparison |
| Versions.CompareTransitive | slimeworldmanager-plugin/src/main/java/com/grinderwolf/swm/plugin/update/Version.java:30-52 | the order `compareTo` defines is transitive |
| Versions.TagTextIgnored | slimeworldmanager-plugin/src/main/java/com/grinderwolf/swm/plugin/update/Version.java:45-51 | only whether a tag is present matters, not its text |
| WorldConfig.NewWorldData | slimeworldmanager-plugin/src/main/java/com/grinderwolf/swm/plugin/config/data/WorldData.java:64-67 | a new world entry allows animals, monsters and PvP, loads on startup, is writable, has no dragon battle, and uses plains, peaceful, NORMAL and DEFAULT |
| WorldConfig.Deserialize | slimeworldmanager-plugin/src/main/java/com/grinderwolf/swm/plugin/config/data/WorldData.java:69-90 | an entry is read exactly when all seven text settings are present, whatever their values; each text setting is its value's `toString` (`WorldConfig.GetString`), and each flag is true exactly when a boolean true is stored |
| WorldConfig.GetString | slimeworldmanager-plugin/src/main/java/com/grinderwolf/swm/plugin/config/data/WorldData.java:70-76 | a missing path is null and any present value is read as its `toString`: text as itself, a boolean as "true" or "false", any other value (an unquoted number, say) as its own text |
| WorldConfig.RewriteShowsTexts | slimeworldmanager-plugin/src/main/java/com/grinderwolf/swm/plugin/config/data/WorldData.java:69-107 | writing back an entry read from a section stores every text setting as the text it was read as, so a number or boolean under a text path becomes text |
| WorldConfig.Serialize | slimeworldmanager-plugin/src/main/java/com/grinderwolf/swm/plugin/config/data/WorldData.java:92-107 | writing an entry sets the seven text paths and the six flag paths and leaves the rest of the section alone |
| WorldConfig.SerializedTexts | slimeworldmanager-plugin/src/main/java/com/grinderwolf/swm/plugin/config/data/WorldData.java:92-107 | each of the seven text paths holds the entry's own text setting after writing, the later boolean writes notwithstanding |
| WorldConfig.SerializedFlags | slimeworldmanager-plugin/src/main/java/com/grinderwolf/swm/plugin/config/data/WorldData.java:92-107 | each of the six boolean paths holds the entry's own flag after writing |
| WorldConfig.DeserializeSerialize | slimeworldmanager-plugin/src/main/java/com/grinderwolf/swm/plugin/config/data/WorldData.java:69-107 | an entry written to a section reads back as the same entry |
| WorldConfig.SerializeDeserialize | slimeworldmanager-plugin/src/main/java/com/grinderwolf/swm/plugin/config/data/WorldData.java:69-107 | a section with all thirteen settings, the texts stored as text and the flags as booleans, is unchanged by reading it and writing the entry back |
| WorldConfig.FlagBack | slimeworldmanager-plugin/src/main/java/com/grinderwolf/swm/plugin/config/data/WorldData.java:82-87 | a flag path that holds a boolean reads back as that boolean (`WorldConfig.GetBoolean`) |
| WorldConfig.ToUpper | slimeworldmanager-plugin/src/main/java/com/grinderwolf/swm/plugin/config/data/WorldData.java:112 | `toUpperCase(Locale.ROOT)` on ASCII letters: the same length, lower-case letters raised and other characters kept |
| WorldConfig.EnvironmentName | slimeworldmanager-plugin/src/main/java/com/grinderwolf/swm/plugin/config/data/WorldData.java:136 | the environment ids -1, 0 and 1 name environments, already in upper case |
| WorldConfig.UpperIsSelf | slimeworldmanager-plugin/src/main/java/com/grinderwolf/swm/plugin/config/data/WorldData.java:129 | text without lower-case letters is its own upper case |
| WorldConfig.ResolveEnvironment | slimeworldmanager-plugin/src/main/java/com/grinderwolf/swm/plugin/config/data/WorldData.java:127-140 | an environment name is kept as written; otherwise an id from -1 to 1 is turned into its name; anything else is `IllegalArgumentException` |
| WorldConfig.DropTrailingEmpty | slimeworldmanager-plugin/src/main/java/com/grinderwolf/swm/plugin/config/data/WorldData.java:116 | `split` drops only trailing empty pieces, and the last kept piece is not empty |
| WorldConfig.PiecesPlain | slimeworldmanager-plugin/src/main/java/com/grinderwolf/swm/plugin/config/data/WorldData.java:116 | text without a comma is carried whole into the current piece |
| WorldConfig.PieceThen | slimeworldmanager-plugin/src/main/java/com/grinderwolf/swm/plugin/config/data/WorldData.java:116 | a comma-free piece followed by ", " is split off as one piece |
| WorldConfig.SplitJoin | slimeworldmanager-plugin/src/main/java/com/grinderwolf/swm/plugin/config/data/WorldData.java:116 | three comma-free coordinates joined with ", " split back into those three |
| WorldConfig.SpawnOf | slimeworldmanager-plugin/src/main/java/com/grinderwolf/swm/plugin/config/data/WorldData.java:116-126 | the spawn is read exactly when there are three pieces and the first three parse, and any failure is `IllegalArgumentException` |
| WorldConfig.SpawnOfJoin | slimeworldmanager-plugin/src/main/java/com/grinderwolf/swm/plugin/config/data/WorldData.java:116-126 | a spawn written as "x, y, z" reads back as those three numbers |
| WorldConfig.ApplyOne | slimeworldmanager-plugin/src/main/java/com/grinderwolf/swm/plugin/config/data/WorldData.java:142 | one write through the sequence is `setValue` with the property and value `WorldConfig.WriteOf` names |
| WorldConfig.ApplyAllStores | slimeworldmanager-plugin/src/main/java/com/grinderwolf/swm/plugin/config/data/WorldData.java:141-153 | writes with distinct names succeed exactly when each is accepted, add exactly their names, keep other entries, and store each value |
| WorldConfig.Writes | slimeworldmanager-plugin/src/main/java/com/grinderwolf/swm/plugin/config/data/WorldData.java:141-153 | `toPropertyMap` makes eleven writes, to the catalogue's eleven properties |
| WorldConfig.ToPropertyMap | slimeworldmanager-plugin/src/main/java/com/grinderwolf/swm/plugin/config/data/WorldData.java:109-154 | an unknown difficulty, an unreadable spawn and an unknown environment each fail with `IllegalArgumentException`, and no other error arises |
| WorldConfig.PropertyMapIsWrites | slimeworldmanager-plugin/src/main/java/com/grinderwolf/swm/plugin/config/data/WorldData.java:141-153 | once the checks pass, the map is the eleven writes applied to an empty map |
| WorldConfig.PropertyMapValues | slimeworldmanager-plugin/src/main/java/com/grinderwolf/swm/plugin/config/data/WorldData.java:109-154 | once the checks pass, the map holds exactly the eleven properties and reads back the spawn, the settings and the resolved environment |
| WorldConfig.WritesValues | slimeworldmanager-plugin/src/main/java/com/grinderwolf/swm/plugin/config/data/WorldData.java:141-153 | the eleven `setValue` calls on a fresh map succeed exactly when every value is accepted, and the map then holds exactly the catalogue's properties, each reading back the value written |
| WorldConfig.SpawnReadsBack | slimeworldmanager-plugin/src/main/java/com/grinderwolf/swm/plugin/config/data/WorldData.java:142-144 | the spawn written to the map reads back through the spawn properties |
| WorldConfig.SettingsReadBack | slimeworldmanager-plugin/src/main/java/com/grinderwolf/swm/plugin/config/data/WorldData.java:145-152 | each setting written to the map reads back through its property |
| WorldConfig.ReadsBack | slimeworldmanager-plugin/src/main/java/com/grinderwolf/swm/plugin/config/data/WorldData.java:141-153 | a value stored through a property's encoder reads back through its decoder |
| WorldConfig.DefaultsResolve | slimeworldmanager-plugin/src/main/java/com/grinderwolf/swm/plugin/config/data/WorldData.java:64-67 | a new world entry's difficulty and environment pass the checks of `toPropertyMap` |

## Left out

- The file loader, the command classes, configuration loading, the update checker's HTTP request, and the Minecraft server bridges: they are file-system, user-interface or server code with no logic of the format in them.
- SQL and MongoDB themselves. Each backend is a table or document store the model updates directly. Connection failures (`IOException`) are not modelled, and neither is the log message a failed lock refresh prints.
- Timers and threads. `synchronized` blocks, the saver thread pool and the scheduled executors are not modelled. A lock refresh is a step (`MysqlStore.Refresh`, `MongoStore.Refresh`) taken at a time the caller chooses, so the 60000 ms refresh period appears only as the constant `Leases.LOCK_INTERVAL`.
- `listWorlds` of both backends: it only returns the stored names, in the order the database lists them.
- `MysqlStore.Update`: the ten-second pause and the `ALTER TABLE` statement have no visible effect on the modelled table, which keeps only the version number and the worlds.
- `MongoStore.Update`: the rename of the pre-GridFS collections is not modelled; only the lock fields are.
- Bukkit lookups in `importWorld` and `migrateWorld`. Whether a vanilla world of that name is loaded, and the slime world currently loaded under the name, are parameters.
- `WorldUpgrader`'s dispatch by version. `Lifecycle.LoadWorld` takes the upgrade and downgrade functions as parameters. `WorldUpgrade.Upgrade` and `WorldUpgrade.Downgrade` model the only converter in the model, 1.13 to 1.14.
- The NBT byte encoding, zstd, and gzip/zlib region decompression are foreign code passed in as functions. Round trips assume `Foreign.Faithful` of them, which speaks only of tags satisfying `Tags.JavaTag`; how a tag outside that range would be written is not modelled.
- Doubles are reals. `Tags.JavaTag` admits exactly the finite binary64 values, so NaN, the infinities and the sign of -0.0 have no tag in the model.
- `RoundTrip.WorldRoundTrip`, `RoundTrip.LayoutBack`, `RoundTrip.PlanBlobs`, `Lifecycle.StoredWorldLoads`, `Lifecycle.CloneLoads`: the world's entities, tile entities, maps, extra data and properties must be Java tags (`PlanProofs.WorldTagsFit`). Not every world the server saves satisfies this: a world downgraded by the code as written carries villagers whose "CareerLevel" entry is an int tag named "Career" (`UpgradeProofs.UpgradedVillagerMisnamed`), which `Tags.JavaTag` refuses, so such a world is outside these lemmas. The model does not prove that the other operations keep `PlanProofs.WorldTagsFit`.
- `Lifecycle.CreateThenLoad`: requires the compound `Properties.ToCompound` makes of the new world's properties to be a Java tag; the model does not derive this from the property catalogue.
- Floating point. Entity positions are finite reals (`DoubleTag`), floored by `Decoder.JavaFloor` into the int range and divided into chunk coordinates. NaN and the infinities are not modelled. Java's `(int) Math.floor` maps NaN to 0 and the infinities to `Integer.MAX_VALUE` and `Integer.MIN_VALUE`. The spawn coordinates' `Double.parseDouble` and `(int)` cast are one parameter from text to an optional int.
- Iteration order of Java's `HashMap`. The converter visits chunks in ascending key order; the order only decides which exception a failing conversion reports.
- `Lifecycle.Clone`: the Java clone shares the original's property map object, so a later change to either shows in both. With immutable values, only the contents at the moment of the clone are modelled.
- `SWMImporter.readChunk` passes its arguments to the `CraftSlimeChunk` constructor in an order that does not match its fields. The model builds the chunk from the fields the call evidently means (x, z, sections, height maps, biomes, tiles, entities).
- `VanillaChunks.ReadChunk`: a kept chunk without "Biomes" fails at once with the `NullPointerException` that serialising it would later raise. The Java keeps the chunk until then.
- `BlockScan.UpdateBlockEntities`: its contract states only that the number of tile entities is kept. What happens at one block (only the first tile there is renamed, or the scan fails) is stated by `BlockScan.RetagFirstOnly`.
- `BlockScan.ValueBelowPower`: proved for widths under 31 bits, where the `(int)` cast keeps the masked value. Wider entries are not bounded by the model.
- `LoaderUtils.registerLoader` and `registerLoaders`: a map from data-source names to loaders, with logging. The model passes the loader itself.
- `Regions.DecodeEncode`: proved for the intended decoding (`& 0xFF`) only. Under the code as written (`& 15`), a count of 16 sectors or more does not come back; `Regions.DecodeEntryAsWritten` states what it does keep.
- `Regions.UsedEntries`, `Regions.RegionEntries`: these decode header ints with the intended `Regions.DecodeEntry` (`& 0xFF`), while both importers mask with `& 15` (see Findings). A chunk whose sector count is a multiple of 16 (16, 32, …, 240), which the code as written loses, is read in full by the model; other counts of 16 sectors or more are imported in full by both, since the payload length comes from the chunk's own length field.
- `VanillaChunks.LoadChunks`: builds on `Regions.UsedEntries`, so it reads chunks through the intended `& 0xFF` decoding, not the importer's `& 15`.
- `PluginImport.ReadFromDirectory`: its chunks come from `VanillaChunks.LoadChunks`, so they are read through the intended `& 0xFF` decoding.
- `StandaloneImport.LoadAllChunks`, `StandaloneImport.ImportWorld`: the standalone importer's chunks are read through the intended `& 0xFF` decoding, where `SWMImporter` masks with `& 15`.
- `Lifecycle.ImportWorld`: imports through `PluginImport.ReadFromDirectory`, so it too uses the intended `& 0xFF` decoding.
- `WorldUpgrade.ConvertEntity`, `WorldUpgrade.ConvertChunk`, `WorldUpgrade.ConvertWorld`, `WorldUpgrade.Downgrade`: a villager is downgraded by the corrected `WorldUpgrade.DowngradeVillager`, which stores "CareerLevel" under its own name. The Java stores it as an int tag named "Career"; `WorldUpgrade.DowngradeVillagerAsWritten` models that (see Findings).
- `UpgradeProofs.VillagerRoundTrip`: holds for the corrected downgrade. Under the code as written the career level comes back as an entry whose tag is named "Career", so the round trip does not hold there.
- `Lifecycle.CreateEmptyWorld`, `Lifecycle.Clone`: Java's `serialize()` also writes the property map into the world's own extra data under "properties" (`CraftSlimeWorld.java` lines 229-234). The world these return is the one before serialization, without that entry. The stored bytes do include it.
- `MongoStore.Rotate`, `MongoStore.Delete`, `MongoStore.DeleteForgets`: the model keeps at most one file per name in GridFS. The Java renames the old file to "<name>_backup" without removing an earlier backup, so several backups can pile up. Its delete then removes only the first one `find` returns, so other backups can remain after a delete.
- `Decoder.Inflate`, `Decoder.InflateAll`: the Java ignores the error code `Zstd.decompress` returns and reads on from an array of the declared length, zero-filled where nothing was written. The model instead fails with `CompressionFailure` when the decompressor reports an error.
- `WorldConfig.ToUpper`: maps ASCII letters only. Java's `toUpperCase(Locale.ROOT)` also maps other letters, for example "ſ" to "S" and "ß" to "SS", so a setting such as "eaſy" that Java accepts as EASY is refused by the model.
- `Numerals.ParseInt`, `WorldConfig.ResolveEnvironment`: digits are the ASCII '0' to '9' only. Java's `Integer.parseInt` reads every decimal digit `Character.digit` knows, for example the fullwidth "１" (U+FF11), which Java resolves to environment id 1, THE_END, and the model refuses. The set of such digits depends on the Unicode version of the JDK.
- `MongoStore.NewLockedSaveLapses`: requires the time between the save and the later load to fit a Java long; beyond that the age wraps and the lease reads as held (`Leases.AncientLockHeld`).

## Findings

| source | as written | input that shows it | evidently intended | confidence | as-written member | corrected member |
|---|---|---|---|---|---|---|
| slimeworldmanager-plugin/src/main/java/com/grinderwolf/swm/plugin/update/Version.java:26 | `Integer.parseInt(matcher.group("patch"))` is called although the pattern makes the patch group optional, so a two-number version throws `NumberFormatException` | "2.2" | a missing patch reads as 0, giving 2.2.0 | not executed | `Versions.Parse`, `Versions.TwoNumbersRefused` | `Versions.ParseWithDefaultPatch`, `Versions.ParseTwoNumbers`, `Versions.DefaultPatchAgrees` |
| slimeworldmanager-plugin/src/main/java/com/grinderwolf/swm/plugin/loaders/mongo/MongoLoader.java:171-176 | a new world saved with `lock` gets the current time as its lock, but `updateLock` is never scheduled for it, so the lock lapses after the maximum lock time while the world is in use | save a new world with lock = true at time t, then load it for writing from another server at t + 300001 | a locked save of a new world also schedules the lock refresh, as the MySQL backend does | not executed | `MongoStore.SaveAsWritten`, `MongoStore.NewLockedSaveLapses` | `MongoStore.Save`, `MongoStore.NewLockedSaveHolds` |
| slimeworldmanager-plugin/src/main/java/com/grinderwolf/swm/plugin/world/importer/WorldImporter.java:137-141 | the sector count of a region-header entry is read as `entry & 15`, although the count occupies the low 8 bits; the standalone importer does the same at `SWMImporter.java:341-345` | a chunk at sector 2 stored in 16 sectors: header entry `0x210` gets a padded size of 0, and reading the chunk's length from the empty window fails the import | `entry & 0xFF` | not executed | `Regions.DecodeEntryAsWritten`, `Regions.AsWrittenDropsSixteenSectors`, `Regions.SixteenSectorChunkExample` | `Regions.DecodeEntry`, `Regions.DecodedSectorsInFile` |
| slimeworldmanager-plugin/src/main/java/com/grinderwolf/swm/plugin/upgrade/v1_14/v1_14WorldUpgrade.java:210 | downgrading a villager stores `new IntTag("Career", 1)` under the key "CareerLevel", so the tag's own name disagrees with its key and the NBT writer saves it as a second "Career" entry | any villager with a "VillagerData" profession, for example one just upgraded | `new IntTag("CareerLevel", 1)` | not executed | `WorldUpgrade.DowngradeVillagerAsWritten`, `UpgradeProofs.CareerLevelMisnamed` | `WorldUpgrade.DowngradeVillager`, `UpgradeProofs.DowngradeKeepsNames` |

=== FILE: attach_proofs.dfy ===
/**
 * Entities and tile entities: the writer lists those of all chunks in one tag
 * list per kind; the reader attaches each tag to the chunk its position names.
 * A tag that lies in its own chunk goes back to that chunk, in order.
 */
module AttachProofs {
  import opened Wrappers
  import opened Tags
  import opened Worlds
  import opened Encoder
  import opened Decoder
  import opened ChunkProofs
  import opened GridProofs

  /** The tags of one kind a chunk holds. */
  function TagsOf(kind: Kind, c: Chunk): seq<Tag>
  {
    match kind
    case Entities => c.entities
    case Tiles => c.tileEntities
  }

  /** The tags of one kind of all chunks, in chunk order, as the writer lists them. */
  function AllOf(kind: Kind, cs: seq<Chunk>): seq<Tag>
  {
    match kind
    case Entities => AllEntities(cs)
    case Tiles => AllTiles(cs)
  }

  /** `c` with `tags` appended to its tags of the kind. */
  function Give(kind: Kind, c: Chunk, tags: seq<Tag>): (r: Chunk)
    ensures TagsOf(kind, r) == TagsOf(kind, c) + tags
  {
    match kind
    case Entities => c.(entities := c.entities + tags)
    case Tiles => c.(tileEntities := c.tileEntities + tags)
  }

  /**
   * A tag whose position lies in chunk `c`: an entity's "Pos" doubles at
   * indices 0 and 2, floored and shifted by 4, or a tile's "x" and "z" ints
   * shifted by 4, are the chunk's coordinates.
   */
  predicate Placed(kind: Kind, t: Tag, c: Chunk)
  {
    && t.CompoundTag?
    && match kind
       case Entities =>
         && AsList(t.entries, "Pos").Some?
         && var items := t.entries["Pos"].items;
         && |items| > 2 && items[0].DoubleTag? && items[2].DoubleTag?
         && JavaFloor(items[0].doubleValue) / 16 == c.x
         && JavaFloor(items[2].doubleValue) / 16 == c.z
       case Tiles =>
         && IntValue(t.entries, "x").Some? && IntValue(t.entries, "x").value / 16 == c.x
         && IntValue(t.entries, "z").Some? && IntValue(t.entries, "z").value / 16 == c.z
  }

  /** Every tag of the kind that `c` holds lies in `c`. */
  predicate AllPlaced(kind: Kind, c: Chunk)
  {
    forall i :: 0 <= i < |TagsOf(kind, c)| ==> Placed(kind, TagsOf(kind, c)[i], c)
  }

  /** The keys of the chunks. */
  function KeySet(cs: seq<Chunk>): (r: set<int>)
    ensures forall t :: 0 <= t < |cs| ==> KeyOf(cs[t]) in r
    ensures forall k :: k in r ==> exists t :: 0 <= t < |cs| && KeyOf(cs[t]) == k
  {
    set t | 0 <= t < |cs| :: KeyOf(cs[t])
  }

  /** The reader finds a placed tag's chunk under that chunk's key. */
  lemma PlacedKey(kind: Kind, t: Tag, c: Chunk)
    requires Placed(kind, t, c)
    ensures ChunkKeyFor(kind, t) == Ok(KeyOf(c))
  {
  }

  /** A placed tag is one the reader places, and nowhere but in its own chunk. */
  lemma PlacedExactly(kind: Kind, t: Tag, c: Chunk, d: Chunk)
    requires Placed(kind, t, c) && InKeyRange(c.x) && InKeyRange(d.x)
    ensures Placed(kind, t, d) <==> (d.x, d.z) == (c.x, c.z)
  {
  }

  /** Tags that all lie in `c` are appended, in order, to the chunk under its key. */
  lemma {:induction false} AttachOwn(kind: Kind, m: map<int, Chunk>, c: Chunk, tags: seq<Tag>, name: string)
    requires KeyOf(c) in m
    requires forall i :: 0 <= i < |tags| ==> Placed(kind, tags[i], c)
    ensures Attach(kind, m, tags, name) == Ok(m[KeyOf(c) := Give(kind, m[KeyOf(c)], tags)])
    decreases |tags|
  {
    var k := KeyOf(c);
    if |tags| == 0 {
      assert TagsOf(kind, m[k]) + tags == TagsOf(kind, m[k]);
      assert Give(kind, m[k], tags) == m[k];
      assert m[k := m[k]] == m;
    } else {
      PlacedKey(kind, tags[0], c);
      var m' := m[k := Append(kind, m[k], tags[0])];
      assert Attach(kind, m, tags, name) == Attach(kind, m', tags[1..], name);
      AttachOwn(kind, m', c, tags[1..], name);
      GiveFirst(kind, m[k], tags);
      assert m'[k := Give(kind, m'[k], tags[1..])] == m[k := Give(kind, m[k], tags)];
    }
  }

  /** Appending the first tag, then giving the rest, gives them all. */
  lemma GiveFirst(kind: Kind, c: Chunk, tags: seq<Tag>)
    requires |tags| > 0
    ensures Give(kind, Append(kind, c, tags[0]), tags[1..]) == Give(kind, c, tags)
  {
    assert TagsOf(kind, c) + [tags[0]] + tags[1..] == TagsOf(kind, c) + tags;
  }

  /** Attaching a concatenation attaches the first part, then the second. */
  lemma {:induction false} AttachConcat(kind: Kind, m: map<int, Chunk>, xs: seq<Tag>, ys: seq<Tag>, name: string)
    requires Attach(kind, m, xs, name).Ok?
    ensures Attach(kind, m, xs + ys, name) == Attach(kind, Attach(kind, m, xs, name).value, ys, name)
    decreases |xs|
  {
    if |xs| == 0 {
      assert xs + ys == ys;
    } else {
      var key := ChunkKeyFor(kind, xs[0]).value;
      assert (xs + ys)[0] == xs[0];
      assert (xs + ys)[1..] == xs[1..] + ys;
      AttachConcat(kind, m[key := Append(kind, m[key], xs[0])], xs[1..], ys, name);
    }
  }

  /** The map after every chunk of `cs` got its own tags of the kind back. */
  function Restore(kind: Kind, m: map<int, Chunk>, cs: seq<Chunk>): map<int, Chunk>
    decreases |cs|
  {
    if |cs| == 0 then m
    else
      var k := KeyOf(cs[0]);
      Restore(kind, if k in m then m[k := Give(kind, m[k], TagsOf(kind, cs[0]))] else m, cs[1..])
  }

  /** All tags of the kind, attached chunk by chunk, restore every chunk's own tags. */
  lemma {:induction false} AttachAll(kind: Kind, m: map<int, Chunk>, cs: seq<Chunk>, name: string)
    requires forall t :: 0 <= t < |cs| ==> KeyOf(cs[t]) in m && AllPlaced(kind, cs[t])
    ensures Attach(kind, m, AllOf(kind, cs), name) == Ok(Restore(kind, m, cs))
    decreases |cs|
  {
    if |cs| > 0 {
      var c := cs[0];
      var k := KeyOf(c);
      assert AllPlaced(kind, c);
      AttachOwn(kind, m, c, TagsOf(kind, c), name);
      var m' := m[k := Give(kind, m[k], TagsOf(kind, c))];
      assert AllOf(kind, cs) == TagsOf(kind, c) + AllOf(kind, cs[1..]);
      AttachConcat(kind, m, TagsOf(kind, c), AllOf(kind, cs[1..]), name);
      forall t | 0 <= t < |cs[1..]|
        ensures KeyOf(cs[1..][t]) in m' && AllPlaced(kind, cs[1..][t])
      {
        assert cs[1..][t] == cs[t + 1];
      }
      AttachAll(kind, m', cs[1..], name);
    }
  }

  /** The first chunk's key is not among the others'. */
  lemma KeySplit(cs: seq<Chunk>)
    requires |cs| > 0 && KeysIncreasing(cs)
    ensures KeySet(cs) == {KeyOf(cs[0])} + KeySet(cs[1..])
    ensures KeyOf(cs[0]) !in KeySet(cs[1..])
  {
    forall t | 0 <= t < |cs[1..]|
      ensures KeyOf(cs[1..][t]) in KeySet(cs) && KeyOf(cs[1..][t]) != KeyOf(cs[0])
    {
      assert cs[1..][t] == cs[t + 1];
    }
  }

  /** What the chunk reader's map holds: each chunk, bare, under its own key. */
  lemma {:induction false} CollectContents(acc: map<int, Chunk>, cs: seq<Chunk>, name: string)
    requires KeysIncreasing(cs)
    ensures Collect(acc, cs, name).Keys == acc.Keys + KeySet(cs)
    ensures forall t :: 0 <= t < |cs| ==> Collect(acc, cs, name)[KeyOf(cs[t])] == Bare(cs[t], name)
    ensures forall k :: k in acc && k !in KeySet(cs) ==> Collect(acc, cs, name)[k] == acc[k]
    decreases |cs|
  {
    if |cs| > 0 {
      var k := KeyOf(cs[0]);
      var acc' := acc[k := Bare(cs[0], name)];
      Encoder.KeysTailIncreasing(cs);
      CollectContents(acc', cs[1..], name);
      var r := Collect(acc, cs, name);
      assert r == Collect(acc', cs[1..], name);
      KeySplit(cs);
      forall t | 0 <= t < |cs|
        ensures r[KeyOf(cs[t])] == Bare(cs[t], name)
      {
        if t > 0 {
          assert cs[t] == cs[1..][t - 1];
        }
      }
    }
  }

  /** What restoring does: each chunk of `cs` gets its own tags appended; nothing else changes. */
  lemma {:induction false} RestoreContents(kind: Kind, m: map<int, Chunk>, cs: seq<Chunk>)
    requires KeysIncreasing(cs)
    requires forall t :: 0 <= t < |cs| ==> KeyOf(cs[t]) in m
    ensures Restore(kind, m, cs).Keys == m.Keys
    ensures forall t :: 0 <= t < |cs| ==>
              Restore(kind, m, cs)[KeyOf(cs[t])] == Give(kind, m[KeyOf(cs[t])], TagsOf(kind, cs[t]))
    ensures forall k :: k in m && k !in KeySet(cs) ==> Restore(kind, m, cs)[k] == m[k]
    decreases |cs|
  {
    if |cs| > 0 {
      var k := KeyOf(cs[0]);
      var m' := m[k := Give(kind, m[k], TagsOf(kind, cs[0]))];
      Encoder.KeysTailIncreasing(cs);
      forall t | 0 <= t < |cs[1..]|
        ensures KeyOf(cs[1..][t]) in m'
      {
        assert cs[1..][t] == cs[t + 1];
      }
      RestoreContents(kind, m', cs[1..]);
      var r := Restore(kind, m, cs);
      assert r == Restore(kind, m', cs[1..]);
      KeySplit(cs);
      forall t | 0 <= t < |cs|
        ensures r[KeyOf(cs[t])] == Give(kind, m[KeyOf(cs[t])], TagsOf(kind, cs[t]))
      {
        if t > 0 {
          assert cs[t] == cs[1..][t - 1];
          assert KeyOf(cs[t]) != k;
        }
      }
    }
  }

  /** Reading the chunks bare, then restoring entities and tile entities, gives each chunk back, owned by `name`. */
  lemma Reassembled(kept: seq<Chunk>, name: string) returns (r: map<int, Chunk>)
    requires KeysIncreasing(kept)
    ensures r == Restore(Tiles, Restore(Entities, Collect(map[], kept, name), kept), kept)
    ensures r.Keys == KeySet(kept)
    ensures forall t :: 0 <= t < |kept| ==> r[KeyOf(kept[t])] == kept[t].(worldName := Some(name))
  {
    var bare := Collect(map[], kept, name);
    CollectContents(map[], kept, name);
    RestoreContents(Entities, bare, kept);
    var withEntities := Restore(Entities, bare, kept);
    RestoreContents(Tiles, withEntities, kept);
    r := Restore(Tiles, withEntities, kept);
    forall t | 0 <= t < |kept|
      ensures r[KeyOf(kept[t])] == kept[t].(worldName := Some(name))
    {
      var c := kept[t];
      var k := KeyOf(c);
      assert withEntities[k] == Give(Entities, Bare(c, name), c.entities);
      assert r[k] == Give(Tiles, withEntities[k], c.tileEntities);
      BareRefilled(c, name);
    }
  }

  /** A bare chunk given back its entities and tile entities is the chunk, owned by `name`. */
  lemma BareRefilled(c: Chunk, name: string)
    ensures Give(Tiles, Give(Entities, Bare(c, name), c.entities), c.tileEntities) == c.(worldName := Some(name))
  {
    assert [] + c.entities == c.entities && [] + c.tileEntities == c.tileEntities;
  }
}

=== FILE: bitset.dfy ===
/**
 * `java.util.BitSet` as the Slime format stores it: `toByteArray` packs bit i
 * into bit i % 8 of byte i / 8 and drops trailing zero bytes; the writer pads the
 * result with zero bytes up to a fixed size; `BitSet.valueOf(bytes).get(i)` reads
 * a bit back.
 */
module BitSets {
  import opened Bytes

  /** Bit `m` of `v`, counting from the least significant. */
  function TestBit(v: nat, m: nat): bool
  {
    if m == 0 then v % 2 == 1 else TestBit(v / 2, m - 1)
  }

  /** The `k`-bit number whose bit m is set iff `base + m` is in `bits`. */
  function BitsValue(bits: set<int>, base: int, k: nat): (r: nat)
    ensures r < Pow2(k)
    decreases k
  {
    if k == 0 then 0 else (if base in bits then 1 else 0) + 2 * BitsValue(bits, base + 1, k - 1)
  }

  function ByteOfBits(bits: set<int>, j: nat): byte
  {
    assert Pow2(8) == 256;
    BitsValue(bits, 8 * j, 8)
  }

  /** The first `n` bytes of the little-endian packing of `bits`. */
  function Pack(bits: set<int>, n: nat): (r: seq<byte>)
    ensures |r| == n
    ensures forall j :: 0 <= j < n ==> r[j] == ByteOfBits(bits, j)
  {
    seq(n, j requires 0 <= j < n => ByteOfBits(bits, j))
  }

  function TrimZeros(s: seq<byte>): (r: seq<byte>)
    ensures |r| <= |s| && r == s[..|r|]
    ensures |r| > 0 ==> r[|r| - 1] != 0
    ensures forall j :: |r| <= j < |s| ==> s[j] == 0
  {
    if |s| > 0 && s[|s| - 1] == 0 then TrimZeros(s[..|s| - 1]) else s
  }

  /** The number of bytes that cover every index in `indices`. */
  function ByteSpan(indices: seq<nat>): (r: nat)
    ensures forall i :: 0 <= i < |indices| ==> indices[i] < 8 * r
  {
    if |indices| == 0 then 0
    else
      var rest := ByteSpan(indices[1..]);
      var own := indices[0] / 8 + 1;
      if own > rest then own else rest
  }

  function SetOf(indices: seq<nat>): (r: set<int>)
    ensures forall i :: i in r <==> i in indices
  {
    set i | i in indices :: i as int
  }

  /** `BitSet.toByteArray()` of the bit set whose set bits are `indices`. */
  function ToByteArray(indices: seq<nat>): (r: seq<byte>)
  {
    TrimZeros(Pack(SetOf(indices), ByteSpan(indices)))
  }

  /** `writeBitSetAsBytes`: the set's bytes, then zeros up to `fixedSize`; never truncated. */
  function WriteBitSetAsBytes(indices: seq<nat>, fixedSize: int): (r: seq<byte>)
  {
    var packed := ToByteArray(indices);
    packed + Zeros(if fixedSize > |packed| then fixedSize - |packed| else 0)
  }

  /** `BitSet.valueOf(bytes).get(i)`. */
  function Get(bytes: seq<byte>, i: nat): bool
  {
    i < 8 * |bytes| && TestBit(bytes[i / 8], i % 8)
  }

  // ---- Properties ----

  lemma {:induction false} TestBitsValue(bits: set<int>, base: int, k: nat, m: nat)
    requires m < k
    ensures TestBit(BitsValue(bits, base, k), m) == (base + m in bits)
    decreases k
  {
    var v := BitsValue(bits, base, k);
    var tail := BitsValue(bits, base + 1, k - 1);
    assert v / 2 == tail && v % 2 == (if base in bits then 1 else 0);
    if m > 0 {
      TestBitsValue(bits, base + 1, k - 1, m - 1);
    }
  }

  /** Bit `i` of a packing reads back as membership of `i`. */
  lemma GetPack(bits: set<int>, n: nat, i: nat)
    requires i < 8 * n
    ensures Get(Pack(bits, n), i) == (i in bits)
  {
    TestBitsValue(bits, 8 * (i / 8), 8, i % 8);
  }

  /** A byte holding no set bit is zero. */
  lemma {:induction false} BitsValueEmpty(bits: set<int>, base: int, k: nat)
    requires forall i :: base <= i < base + k ==> i !in bits
    ensures BitsValue(bits, base, k) == 0
    decreases k
  {
    if k > 0 {
      BitsValueEmpty(bits, base + 1, k - 1);
    }
  }

  /** Trimming trailing zeros and padding back to the original length restores the sequence. */
  lemma TrimThenPad(s: seq<byte>)
    ensures TrimZeros(s) + Zeros(|s| - |TrimZeros(s)|) == s
  {
    var t := TrimZeros(s);
    var p := t + Zeros(|s| - |t|);
    assert forall j :: 0 <= j < |s| ==> p[j] == s[j];
  }

  /** Packing more bytes than the set reaches only appends zero bytes. */
  lemma PackExtends(bits: set<int>, m: nat, n: nat)
    requires m <= n
    requires forall i :: i in bits && i >= 0 ==> i < 8 * m
    ensures Pack(bits, n) == Pack(bits, m) + Zeros(n - m)
  {
    forall j | m <= j < n
      ensures ByteOfBits(bits, j) == 0
    {
      BitsValueEmpty(bits, 8 * j, 8);
    }
    assert forall j :: 0 <= j < n ==> Pack(bits, n)[j] == (Pack(bits, m) + Zeros(n - m))[j];
  }

  /**
   * When every index fits in `fixedSize` bytes the writer emits exactly
   * `fixedSize` bytes, and reading bit i back tells whether i was set.
   */
  lemma WriteThenGet(indices: seq<nat>, fixedSize: nat)
    requires forall k :: 0 <= k < |indices| ==> indices[k] < 8 * fixedSize
    ensures |WriteBitSetAsBytes(indices, fixedSize)| == fixedSize
    ensures forall i :: 0 <= i < 8 * fixedSize ==>
              (Get(WriteBitSetAsBytes(indices, fixedSize), i) <==> i in indices)
  {
    var full := Pack(SetOf(indices), fixedSize);
    WriteIsPack(indices, fixedSize);
    forall i | 0 <= i < 8 * fixedSize
      ensures Get(full, i) <==> i in indices
    {
      GetPack(SetOf(indices), fixedSize, i);
    }
  }

  /** Within the fixed size, the padded writer output is the plain packing of the set. */
  lemma WriteIsPack(indices: seq<nat>, fixedSize: nat)
    requires forall k :: 0 <= k < |indices| ==> indices[k] < 8 * fixedSize
    ensures WriteBitSetAsBytes(indices, fixedSize) == Pack(SetOf(indices), fixedSize)
  {
    SpanFits(indices, fixedSize);
    SetWithinSpan(indices);
    PackExtends(SetOf(indices), ByteSpan(indices), fixedSize);
    PaddedPack(indices, fixedSize);
  }

  /** Every index of the set lies within the span's bytes. */
  lemma SetWithinSpan(indices: seq<nat>)
    ensures forall i :: i in SetOf(indices) && i >= 0 ==> i < 8 * ByteSpan(indices)
  {
    forall i | i in SetOf(indices) && i >= 0
      ensures i < 8 * ByteSpan(indices)
    {
      var k :| 0 <= k < |indices| && indices[k] == i;
    }
  }

  /** The writer's output is the packing over the span, padded with zeros up to `fixedSize`. */
  lemma PaddedPack(indices: seq<nat>, fixedSize: nat)
    requires ByteSpan(indices) <= fixedSize
    ensures WriteBitSetAsBytes(indices, fixedSize)
            == Pack(SetOf(indices), ByteSpan(indices)) + Zeros(fixedSize - ByteSpan(indices))
  {
    var packed := Pack(SetOf(indices), ByteSpan(indices));
    var bytes := ToByteArray(indices);
    assert bytes == TrimZeros(packed);
    assert |bytes| <= |packed| <= fixedSize;
    assert WriteBitSetAsBytes(indices, fixedSize) == bytes + Zeros(fixedSize - |bytes|);
    TrimPadTo(packed, fixedSize);
  }

  /** Trimming trailing zeros and padding back to `n` bytes is padding the original. */
  lemma TrimPadTo(s: seq<byte>, n: nat)
    requires |s| <= n
    ensures TrimZeros(s) + Zeros(n - |TrimZeros(s)|) == s + Zeros(n - |s|)
  {
    var trimmed := TrimZeros(s);
    TrimThenPad(s);
    ZerosJoin(trimmed, |s| - |trimmed|, n - |s|);
  }

  /** Padding in two steps is padding once. */
  lemma ZerosJoin(s: seq<byte>, a: nat, b: nat)
    ensures s + Zeros(a) + Zeros(b) == s + Zeros(a + b)
  {
    assert forall j :: 0 <= j < |s| + a + b ==> (s + Zeros(a) + Zeros(b))[j] == (s + Zeros(a + b))[j];
  }

  /** The span of indices that all fit in `fixedSize` bytes is at most `fixedSize`. */
  lemma SpanFits(indices: seq<nat>, fixedSize: nat)
    requires forall k :: 0 <= k < |indices| ==> indices[k] < 8 * fixedSize
    ensures ByteSpan(indices) <= fixedSize
  {
    SpanIsTight(indices);
    if |indices| > 0 {
      var k :| 0 <= k < |indices| && ByteSpan(indices) == indices[k] / 8 + 1;
      assert indices[k] < 8 * fixedSize;
    }
  }

  /** The span is the least number of bytes covering the largest index. */
  lemma {:induction false} SpanIsTight(indices: seq<nat>)
    ensures |indices| > 0 ==> exists k :: 0 <= k < |indices| && ByteSpan(indices) == indices[k] / 8 + 1
    ensures |indices| == 0 ==> ByteSpan(indices) == 0
  {
    if |indices| > 0 {
      SpanIsTight(indices[1..]);
      var rest := ByteSpan(indices[1..]);
      if indices[0] / 8 + 1 <= rest {
        var k :| 0 <= k < |indices[1..]| && rest == indices[1..][k] / 8 + 1;
        assert indices[k + 1] == indices[1..][k];
      }
    }
  }
}

=== FILE: block_scan.dfy ===
/**
 * How the 1.14 conversion finds the block entities of one palette entry: the
 * section's block states are 4096 indices packed into longs, `bits` per block,
 * a value possibly straddling two longs; each block whose index matches is
 * looked up among the chunk's tile entities by its world coordinates, and the
 * first tile there has its id rewritten.
 */
module BlockScan {
  import opened Wrappers
  import opened Bytes
  import opened Tags

  const BLOCKS: nat := 4096

  /** `Math.max(4, blockData.length * 64 / 4096)`, with the int product wrapping. */
  function BitsPerBlock(longs: nat): (r: int)
    ensures r >= 4
    ensures longs * 64 <= INT_MAX ==> r == if longs / 64 > 4 then longs / 64 else 4
  {
    var perBlock := JavaDiv(Wrap32(longs * 64), BLOCKS);
    if perBlock > 4 then perBlock else 4
  }

  /** The long's 64 bits, read as an unsigned number. */
  function Unsigned(v: int): (u: nat)
    ensures u < TWO_64
  {
    v % TWO_64
  }

  const TWO_64: nat := 0x1_0000_0000_0000_0000

  lemma {:induction false} Pow2Monotone(m: nat, n: nat)
    requires m <= n
    ensures Pow2(m) <= Pow2(n)
    decreases n
  {
    if m < n {
      Pow2Monotone(m, n - 1);
    }
  }

  /** Bitwise `&` of two unsigned numbers, bit by bit from the lowest. */
  function AndBits(a: nat, b: nat): nat
    decreases a
  {
    if a == 0 || b == 0 then 0
    else 2 * AndBits(a / 2, b / 2) + (if a % 2 == 1 && b % 2 == 1 then 1 else 0)
  }

  /** Bitwise `|` of two unsigned numbers. */
  function OrBits(a: nat, b: nat): nat
    decreases a + b
  {
    if a == 0 then b
    else if b == 0 then a
    else 2 * OrBits(a / 2, b / 2) + (if a % 2 == 1 || b % 2 == 1 then 1 else 0)
  }

  /** `(1L << bits) - 1` as unsigned bits: Java shifts a long by the distance's low six bits. */
  function EntryMask(bits: int): (r: nat)
  {
    Pow2(bits % 64) - 1
  }

  /** `u >>> n` on a long's unsigned bits, the distance taken modulo 64. */
  function ShiftRight(u: nat, n: int): nat
  {
    var p := Pow2(n % 64);
    QuotientBounds(u, p);
    u / p
  }

  lemma QuotientBounds(u: nat, p: nat)
    requires p >= 1
    ensures 0 <= u / p <= u
  {
  }

  /** `u << n` on a long's unsigned bits: the bits shifted past the top are lost. */
  function ShiftLeft(u: nat, n: int): nat
  {
    (u * Pow2(n % 64)) % TWO_64
  }

  /** Where block `index` sits: its first and last long, and the bit it starts at within the first. */
  datatype Span = Span(first: int, last: int, offset: int)

  /** The int arithmetic of the scan: `bitIndex / 64`, `((index + 1) * bits - 1) / 64`, `bitIndex % 64`. */
  function SpanOf(index: nat, bits: int): (s: Span)
  {
    var bitIndex := Wrap32(index * bits);
    Span(JavaDiv(bitIndex, 64), JavaDiv(Wrap32(Wrap32((index + 1) * bits) - 1), 64), JavaRem(bitIndex, 64))
  }

  /** `(int) (raw & mask)`: the low `bits` of a value, as an int. */
  function Masked(raw: nat, bits: int): int
  {
    Wrap32(AndBits(raw, EntryMask(bits)))
  }

  /**
   * The unsigned bits a value is cut from: `long >>> offset` inside one long,
   * `low >>> offset | high << (64 - offset)` across two.
   */
  function RawAt(states: seq<int>, s: Span): nat
    requires 0 <= s.first < |states| && (s.first == s.last || 0 <= s.last < |states|)
  {
    if s.first == s.last then ShiftRight(Unsigned(states[s.first]), s.offset)
    else OrBits(ShiftRight(Unsigned(states[s.first]), s.offset), ShiftLeft(Unsigned(states[s.last]), 64 - s.offset))
  }

  /**
   * Packed value of block `index`, cast to int: the bits of one long, or of
   * two when the value straddles them; a long outside the array is an
   * ArrayIndexOutOfBoundsException.
   */
  function ValueAt(states: seq<int>, bits: int, index: nat): (r: Result<int>)
    ensures r.Fail? ==> r.error == IndexOutOfBounds
    ensures r.Ok? ==> IsInt(r.value)
  {
    var s := SpanOf(index, bits);
    if !(0 <= s.first < |states|) || (s.first != s.last && !(0 <= s.last < |states|)) then Fail(IndexOutOfBounds)
    else Ok(Masked(RawAt(states, s), bits))
  }

  /** `y << 8 | z << 4 | x`: the three fields occupy disjoint bits, so the `|` is a sum. */
  function ArrayIndex(x: nat, y: nat, z: nat): (i: nat)
    requires x < 16 && y < 16 && z < 16
    ensures i < BLOCKS
  {
    y * 256 + z * 16 + x
  }

  /** The block a scan position stands for: x varies fastest, then z, then y. */
  datatype Position = Position(x: nat, y: nat, z: nat)

  function PositionOf(index: nat): (p: Position)
    requires index < BLOCKS
    ensures p.x < 16 && p.y < 16 && p.z < 16
  {
    Position(index % 16, index / 256, (index / 16) % 16)
  }

  /** The nested y, z, x loops visit packed indices in increasing order, each exactly once. */
  lemma PositionsAreIndices(index: nat, x: nat, y: nat, z: nat)
    requires index < BLOCKS && x < 16 && y < 16 && z < 16
    ensures var p := PositionOf(index); ArrayIndex(p.x, p.y, p.z) == index
    ensures PositionOf(ArrayIndex(x, y, z)) == Position(x, y, z)
  {
    var i := y * 256 + z * 16 + x;
    DivModUnique(i, 16, y * 16 + z, x);
    DivModUnique(y * 16 + z, 16, y, z);
    DivModUnique(i, 256, y, z * 16 + x);
    var q := index / 16;
    DivModUnique(index, 256, q / 16, (q % 16) * 16 + index % 16);
  }

  // ---- Tile entities ----

  /** A tile entity's coordinates, each `getIntValue(..).get()`. */
  function TilePosition(t: Tag): (r: Result<(int, int, int)>)
    ensures r.Ok? <==> t.CompoundTag? && IntValue(t.entries, "x").Some?
                       && IntValue(t.entries, "y").Some? && IntValue(t.entries, "z").Some?
  {
    if !t.CompoundTag? then Fail(ClassCast)
    else
      var x :- IntValue(t.entries, "x").Get();
      var y :- IntValue(t.entries, "y").Get();
      var z :- IntValue(t.entries, "z").Get();
      Ok((x, y, z))
  }

  predicate TileAt(t: Tag, at: (int, int, int))
  {
    TilePosition(t) == Ok(at)
  }

  /** The tile with its id replaced by `newName`. */
  function Renamed(t: Tag, newName: string): Tag
    requires t.CompoundTag?
  {
    CompoundTag(t.name, t.entries["id" := StringTag("id", newName)])
  }

  /**
   * The tile loop for one block: every tile is read up to the first one at the
   * block's coordinates; that one must be an `oldName`, which becomes `newName`
   * (any other id is an IllegalStateException); the rest are not looked at.
   */
  function Retag(tiles: seq<Tag>, at: (int, int, int), oldName: string, newName: string): (r: Result<seq<Tag>>)
    ensures r.Ok? ==> |r.value| == |tiles|
    ensures r.Ok? ==> forall j :: 0 <= j < |tiles| ==>
              || r.value[j] == tiles[j]
              || (&& TileAt(tiles[j], at) && StringValue(tiles[j].entries, "id") == Some(oldName)
                  && r.value[j] == Renamed(tiles[j], newName))
    decreases |tiles|
  {
    if |tiles| == 0 then Ok([])
    else
      var t := tiles[0];
      var position :- TilePosition(t);
      if position == at then
        var id :- StringValue(t.entries, "id").Get();
        if id != oldName then Fail(IllegalState("Expected block entity to be " + oldName + ", not " + id))
        else Ok([Renamed(t, newName)] + tiles[1..])
      else
        var rest :- Retag(tiles[1..], at, oldName, newName);
        Ok([t] + rest)
  }

  /** Only the first tile at the block's coordinates is renamed: every tile before it and after it is kept. */
  lemma {:induction false} RetagFirstOnly(tiles: seq<Tag>, at: (int, int, int), oldName: string, newName: string, m: nat)
    requires m < |tiles| && TileAt(tiles[m], at)
    requires forall k :: 0 <= k < m ==> TilePosition(tiles[k]).Ok? && !TileAt(tiles[k], at)
    ensures StringValue(tiles[m].entries, "id") == Some(oldName) ==>
              Retag(tiles, at, oldName, newName) == Ok(tiles[..m] + [Renamed(tiles[m], newName)] + tiles[m + 1..])
    ensures StringValue(tiles[m].entries, "id").None? ==> Retag(tiles, at, oldName, newName) == Fail(NoSuchElement)
    ensures var id := StringValue(tiles[m].entries, "id");
            id.Some? && id.value != oldName ==> Retag(tiles, at, oldName, newName).Fail?
                                                && Retag(tiles, at, oldName, newName).error.IllegalState?
    decreases m
  {
    if m > 0 {
      assert TilePosition(tiles[0]).Ok? && !TileAt(tiles[0], at);
      assert forall k :: 0 <= k < m - 1 ==> tiles[1..][k] == tiles[k + 1];
      RetagFirstOnly(tiles[1..], at, oldName, newName, m - 1);
      RetagPast(tiles, at, oldName, newName);
      assert tiles[1..][m - 1] == tiles[m];
      Splice(tiles, m, Renamed(tiles[m], newName));
    } else {
      RetagHere(tiles, at, oldName, newName);
    }
  }

  /** Replacing element `m` of a sequence is keeping its head and replacing element `m - 1` of its tail. */
  lemma Splice<T>(s: seq<T>, m: nat, t: T)
    requires 0 < m < |s|
    ensures s[..m] + [t] + s[m + 1..] == [s[0]] + (s[1..][..m - 1] + [t] + s[1..][m..])
  {
    assert s[1..][..m - 1] == s[1..m];
    assert s[1..][m..] == s[m + 1..];
  }

  lemma RetagPast(tiles: seq<Tag>, at: (int, int, int), oldName: string, newName: string)
    requires 0 < |tiles| && TilePosition(tiles[0]).Ok? && !TileAt(tiles[0], at)
    ensures var rest := Retag(tiles[1..], at, oldName, newName);
            Retag(tiles, at, oldName, newName) == if rest.Fail? then Fail(rest.error) else Ok([tiles[0]] + rest.value)
  {
  }

  lemma RetagHere(tiles: seq<Tag>, at: (int, int, int), oldName: string, newName: string)
    requires 0 < |tiles| && TileAt(tiles[0], at)
    ensures var id := StringValue(tiles[0].entries, "id");
            Retag(tiles, at, oldName, newName)
            == if id.None? then Fail(NoSuchElement)
               else if id.value != oldName then Fail(IllegalState("Expected block entity to be " + oldName + ", not " + id.value))
               else Ok(tiles[..0] + [Renamed(tiles[0], newName)] + tiles[1..])
  {
    assert tiles[..0] + [Renamed(tiles[0], newName)] + tiles[1..] == [Renamed(tiles[0], newName)] + tiles[1..];
  }

  // ---- The scan ----

  /** What the scan of one section needs: its block states, the chunk and section coordinates, and the index sought. */
  datatype Scan = Scan(states: seq<int>, chunkX: int, chunkZ: int, sectionIndex: int, paletteIndex: int)

  /** The world coordinates of a scan position: `x + chunk.getX() * 16` and so on, in int arithmetic. */
  function BlockAt(s: Scan, index: nat): (int, int, int)
    requires index < BLOCKS
  {
    var p := PositionOf(index);
    (Wrap32(p.x + Wrap32(s.chunkX * 16)), Wrap32(p.y + Wrap32(s.sectionIndex * 16)), Wrap32(p.z + Wrap32(s.chunkZ * 16)))
  }

  /** The scan from position `index` on: every block holding the palette index has its tile renamed. */
  function ScanFrom(s: Scan, index: nat, tiles: seq<Tag>, oldName: string, newName: string): (r: Result<seq<Tag>>)
    requires index <= BLOCKS
    ensures r.Ok? ==> |r.value| == |tiles|
    decreases BLOCKS - index
  {
    if index == BLOCKS then Ok(tiles)
    else
      var value :- ValueAt(s.states, BitsPerBlock(|s.states|), index);
      if value != s.paletteIndex then ScanFrom(s, index + 1, tiles, oldName, newName)
      else
        var retagged :- Retag(tiles, BlockAt(s, index), oldName, newName);
        ScanFrom(s, index + 1, retagged, oldName, newName)
  }

  /** `updateBlockEntities` on a present section. */
  function UpdateBlockEntities(s: Scan, tiles: seq<Tag>, oldName: string, newName: string): (r: Result<seq<Tag>>)
    ensures r.Ok? ==> |r.value| == |tiles|
  {
    ScanFrom(s, 0, tiles, oldName, newName)
  }

  // ---- Properties ----

  /**
   * With at most 64 bits per block, a block's bits start in the long `index *
   * bits / 64` and end in the same long or the next.
   */
  lemma SpanAtMostTwo(index: nat, bits: int)
    requires index < BLOCKS && 4 <= bits <= 64
    ensures var s := SpanOf(index, bits);
            && s.first == index * bits / 64 && s.offset == index * bits % 64
            && (s.last == s.first || s.last == s.first + 1)
  {
    assert 0 <= index * bits < BLOCKS * 64 by {
      assert index * bits <= index * 64;
    }
    assert 0 <= (index + 1) * bits <= BLOCKS * 64 by {
      assert (index + 1) * bits <= (index + 1) * 64;
    }
    var a := index * bits;
    var b := (index + 1) * bits - 1;
    assert b == a + bits - 1;
    assert a / 64 <= b / 64 <= a / 64 + 1;
  }

  /** A value is below `2^bits` when fewer than 31 bits are used per block. */
  lemma ValueBelowPower(states: seq<int>, bits: int, index: nat)
    requires 4 <= bits < 31
    requires ValueAt(states, bits, index).Ok?
    ensures 0 <= ValueAt(states, bits, index).value < Pow2(bits)
  {
    var s := SpanOf(index, bits);
    MaskedBelow(RawAt(states, s), bits);
  }

  lemma MaskedBelow(raw: nat, bits: int)
    requires 4 <= bits < 31
    ensures 0 <= Masked(raw, bits) < Pow2(bits)
  {
    assert bits % 64 == bits;
    var a := AndBits(raw, EntryMask(bits));
    AndBelow(raw, EntryMask(bits));
    Pow2Monotone(bits, 30);
    Pow2Thirty();
    assert 0 <= a < 0x4000_0000;
    assert Masked(raw, bits) == Wrap32(a) == a;
  }

  lemma {:induction false} AndBelow(a: nat, b: nat)
    ensures AndBits(a, b) <= b
    decreases a
  {
    if a != 0 && b != 0 {
      AndBelow(a / 2, b / 2);
    }
  }

  lemma Pow2Thirty()
    ensures Pow2(30) == 0x4000_0000
  {
    assert Pow2(10) == 1024;
    assert Pow2(20) == 1024 * 1024 by { Pow2Add(10, 10); }
    Pow2Add(10, 20);
  }

  lemma {:induction false} Pow2Add(a: nat, b: nat)
    ensures Pow2(a + b) == Pow2(a) * Pow2(b)
    decreases a
  {
    if a > 0 {
      Pow2Add(a - 1, b);
      assert Pow2(a + b) == 2 * Pow2(a - 1 + b);
    }
  }

  /** Bits per block: four for up to 319 longs, then one more for every 64 longs. */
  lemma BitsGrow(longs: nat)
    requires longs * 64 <= INT_MAX
    ensures longs < 320 ==> BitsPerBlock(longs) == 4
    ensures longs >= 320 ==> BitsPerBlock(longs) == longs / 64
  {
  }
}

=== FILE: bytes.dfy ===
/**
 * Bytes, Java's fixed-width integers, and the big-endian DataOutputStream /
 * DataInputStream primitives the Slime format is written with.
 *
 * A `byte` is the unsigned view (0..255) of the eight bits of a Java `byte`.
 * Input streams are modelled by the bytes not yet consumed: every reader returns
 * the value it read together with the remaining input.
 */
module Bytes {
  import opened Wrappers

  type byte = b: int | 0 <= b < 256

  const INT_MIN: int := -0x8000_0000
  const INT_MAX: int := 0x7FFF_FFFF
  const LONG_MIN: int := -0x8000_0000_0000_0000
  const LONG_MAX: int := 0x7FFF_FFFF_FFFF_FFFF
  /** The largest length of a Java array. */
  const MAX_ARRAY: int := INT_MAX

  function Pow256(n: nat): (r: nat)
    ensures r >= 1
    ensures n >= 1 ==> r % 2 == 0 && r >= 256
  {
    if n == 0 then 1 else 256 * Pow256(n - 1)
  }

  function Pow2(k: nat): (r: nat)
    ensures r >= 1
  {
    if k == 0 then 1 else 2 * Pow2(k - 1)
  }

  /** The value `v` reduced to an `n`-byte two's-complement Java integer. */
  function Wrap(v: int, n: nat): (r: int)
    requires n >= 1
    ensures InRange(r, n)
    ensures InRange(v, n) ==> r == v
  {
    var u := v % Pow256(n);
    ModOfInRange(v, n);
    if u >= Pow256(n) / 2 then u - Pow256(n) else u
  }

  predicate InRange(v: int, n: nat)
  {
    -(Pow256(n) / 2) <= v < Pow256(n) / 2
  }

  /** Java `int` arithmetic: the result of an int operation whose exact value is `v`. */
  function Wrap32(v: int): (r: int)
    ensures INT_MIN <= r <= INT_MAX
    ensures INT_MIN <= v <= INT_MAX ==> r == v
  {
    assert Pow256(4) == 0x1_0000_0000;
    Wrap(v, 4)
  }

  /** A Java `long`: a timestamp from `System.currentTimeMillis()` or a BIGINT column. */
  type long = v: int | LONG_MIN <= v <= LONG_MAX

  /** Java `long` arithmetic: the result of a long operation whose exact value is `v`. */
  function Wrap64(v: int): (r: long)
    ensures LONG_MIN <= v <= LONG_MAX ==> r == v
    ensures (v - r) % 0x1_0000_0000_0000_0000 == 0
  {
    assert Pow256(8) == 0x1_0000_0000_0000_0000;
    Wrap(v, 8)
  }

  /** Java's `/` by a positive constant: the multiple of `d` nearest `a` on the side of zero. */
  function JavaDiv(a: int, d: int): (r: int)
    requires d > 0
    ensures a >= 0 ==> 0 <= r * d <= a < r * d + d
    ensures a < 0 ==> r * d - d < a <= r * d <= 0
  {
    var q := (if a >= 0 then a else -a) / d;
    DivBounds(if a >= 0 then a else -a, d);
    if a >= 0 then q else (assert (-q) * d == -(q * d); -q)
  }

  /** Truncating division of a natural number brackets it between consecutive multiples. */
  lemma DivBounds(n: nat, d: int)
    requires d > 0
    ensures 0 <= (n / d) * d <= n < (n / d) * d + d
  {
    assert n == (n / d) * d + n % d;
  }

  /** Java's `%` by a positive constant: takes the sign of the dividend. */
  function JavaRem(a: int, d: int): (r: int)
    requires d > 0
    ensures a == JavaDiv(a, d) * d + r
  {
    a - JavaDiv(a, d) * d
  }

  predicate IsInt(v: int)
  {
    INT_MIN <= v <= INT_MAX
  }

  predicate IsLong(v: int)
  {
    InRange(v, 8)
  }

  lemma ModOfInRange(v: int, n: nat)
    requires n >= 1
    ensures InRange(v, n) && v >= 0 ==> v % Pow256(n) == v
    ensures InRange(v, n) && v < 0 ==> v % Pow256(n) == v + Pow256(n)
  {
    var p := Pow256(n);
    if InRange(v, n) && v < 0 {
      DivModUnique(v, p, -1, v + p);
    } else if InRange(v, n) {
      DivModUnique(v, p, 0, v);
    }
  }

  lemma {:induction false} MulNonNegative(a: int, b: int)
    requires a >= 0 && b >= 0
    ensures a * b >= 0
    decreases a
  {
    if a > 0 {
      MulNonNegative(a - 1, b);
      assert a * b == (a - 1) * b + b;
    }
  }

  lemma DivModUnique(v: int, m: int, k: int, t: int)
    requires m > 0 && v == k * m + t && 0 <= t < m
    ensures v / m == k && v % m == t
  {
    var q, r := v / m, v % m;
    assert v == q * m + r;
    if q > k {
      assert (q - k) * m == (q - k - 1) * m + m;
      MulNonNegative(q - k - 1, m);
      assert false;
    } else if q < k {
      assert (k - q) * m == (k - q - 1) * m + m;
      MulNonNegative(k - q - 1, m);
      assert false;
    }
  }

  lemma DivBelow(v: nat, m: nat, p: nat)
    requires m > 0 && v < m * p
    ensures v / m < p
  {
    assert (v / m) * m <= v;
  }

  /** The `n` low-order bytes of `v`, most significant first. */
  function BigEndian(v: nat, n: nat): (r: seq<byte>)
    ensures |r| == n
  {
    if n == 0 then [] else BigEndian(v / 256, n - 1) + [v % 256]
  }

  /** The unsigned number whose big-endian bytes are `s`. */
  function FromBigEndian(s: seq<byte>): (r: nat)
    ensures r < Pow256(|s|)
  {
    if |s| == 0 then 0 else FromBigEndian(s[..|s| - 1]) * 256 + s[|s| - 1]
  }

  lemma {:induction false} FromBigEndianOfBigEndian(v: nat, n: nat)
    requires v < Pow256(n)
    ensures FromBigEndian(BigEndian(v, n)) == v
  {
    if n > 0 {
      var s := BigEndian(v, n);
      assert s[..n - 1] == BigEndian(v / 256, n - 1);
      DivBelow(v, 256, Pow256(n - 1));
      FromBigEndianOfBigEndian(v / 256, n - 1);
    }
  }

  // ---- DataOutputStream ----

  function WriteSigned(v: int, n: nat): (r: seq<byte>)
    requires n >= 1
    ensures |r| == n
  {
    BigEndian(v % Pow256(n), n)
  }

  /** `writeByte`: the low eight bits of `v`. */
  function WriteByte(v: int): (r: seq<byte>)
    ensures |r| == 1
  {
    WriteSigned(v, 1)
  }

  function WriteBoolean(b: bool): (r: seq<byte>)
    ensures |r| == 1
  {
    [if b then 1 else 0]
  }

  function WriteShort(v: int): (r: seq<byte>)
    ensures |r| == 2
  {
    WriteSigned(v, 2)
  }

  function WriteInt(v: int): (r: seq<byte>)
    ensures |r| == 4
  {
    WriteSigned(v, 4)
  }

  function WriteLong(v: int): (r: seq<byte>)
    ensures |r| == 8
  {
    WriteSigned(v, 8)
  }

  function WriteInts(vs: seq<int>): (r: seq<byte>)
    ensures |r| == 4 * |vs|
  {
    if |vs| == 0 then [] else WriteInt(vs[0]) + WriteInts(vs[1..])
  }

  function WriteLongs(vs: seq<int>): (r: seq<byte>)
    ensures |r| == 8 * |vs|
  {
    if |vs| == 0 then [] else WriteLong(vs[0]) + WriteLongs(vs[1..])
  }

  // ---- DataInputStream ----

  datatype Parsed<+T> = Parsed(value: T, rest: seq<byte>)

  /** Reads an `n`-byte two's-complement integer; a short input is an EOFException. */
  function ReadSigned(s: seq<byte>, n: nat): (r: Result<Parsed<int>>)
    requires n >= 1
    ensures r.Ok? <==> |s| >= n
    ensures r.Ok? ==> r.value.rest == s[n..] && InRange(r.value.value, n)
    ensures r.Fail? ==> r.error == EndOfStream
  {
    if |s| < n then Fail(EndOfStream)
    else
      var u := FromBigEndian(s[..n]);
      Ok(Parsed(if u >= Pow256(n) / 2 then u - Pow256(n) else u, s[n..]))
  }

  function ReadByte(s: seq<byte>): (r: Result<Parsed<int>>)
  {
    ReadSigned(s, 1)
  }

  /** `readBoolean`: any non-zero byte is true. */
  function ReadBoolean(s: seq<byte>): (r: Result<Parsed<bool>>)
    ensures r.Ok? <==> |s| >= 1
    ensures r.Ok? ==> r.value == Parsed(s[0] != 0, s[1..])
  {
    if |s| == 0 then Fail(EndOfStream) else Ok(Parsed(s[0] != 0, s[1..]))
  }

  function ReadShort(s: seq<byte>): (r: Result<Parsed<int>>)
  {
    ReadSigned(s, 2)
  }

  function ReadInt(s: seq<byte>): (r: Result<Parsed<int>>)
  {
    ReadSigned(s, 4)
  }

  function ReadLong(s: seq<byte>): (r: Result<Parsed<int>>)
  {
    ReadSigned(s, 8)
  }

  /** `n` consecutive `readInt` calls. */
  function ReadInts(s: seq<byte>, n: nat): (r: Result<Parsed<seq<int>>>)
    ensures r.Ok? ==> |r.value.value| == n && |r.value.rest| == |s| - 4 * n
    ensures r.Ok? <==> |s| >= 4 * n
    ensures r.Fail? ==> r.error == EndOfStream
    decreases n
  {
    if n == 0 then Ok(Parsed([], s))
    else
      var head :- ReadInt(s);
      var tail :- ReadInts(head.rest, n - 1);
      Ok(Parsed([head.value] + tail.value, tail.rest))
  }

  /** `n` consecutive `readLong` calls. */
  function ReadLongs(s: seq<byte>, n: nat): (r: Result<Parsed<seq<int>>>)
    ensures r.Ok? ==> |r.value.value| == n && |r.value.rest| == |s| - 8 * n
    decreases n
  {
    if n == 0 then Ok(Parsed([], s))
    else
      var head :- ReadLong(s);
      var tail :- ReadLongs(head.rest, n - 1);
      Ok(Parsed([head.value] + tail.value, tail.rest))
  }

  function Zeros(n: nat): (r: seq<byte>)
    ensures |r| == n && forall i :: 0 <= i < n ==> r[i] == 0
  {
    seq(n, _ => 0)
  }

  /**
   * `InputStream.read(byte[n])` as the loader calls it, ignoring the count it
   * returns: the available bytes, up to `n`, are copied into a zeroed array.
   */
  function ReadLenient(s: seq<byte>, n: nat): (r: Parsed<seq<byte>>)
    ensures |r.value| == n
    ensures |s| >= n ==> r == Parsed(s[..n], s[n..])
    ensures |s| < n ==> r == Parsed(s + Zeros(n - |s|), [])
  {
    if |s| >= n then Parsed(s[..n], s[n..]) else Parsed(s + Zeros(n - |s|), [])
  }

  /** `InputStream.skip(n)` on a byte-array stream: never fails, stops at the end. */
  function Skip(s: seq<byte>, n: int): (r: seq<byte>)
    ensures n <= 0 ==> r == s
    ensures 0 <= n <= |s| ==> r == s[n..]
    ensures n > |s| ==> r == []
  {
    if n <= 0 then s else if n <= |s| then s[n..] else []
  }

  // ---- Round trips ----

  lemma SignedRoundTrip(v: int, n: nat, rest: seq<byte>)
    requires n >= 1 && InRange(v, n)
    ensures ReadSigned(WriteSigned(v, n) + rest, n) == Ok(Parsed(v, rest))
  {
    var w := WriteSigned(v, n);
    assert (w + rest)[..n] == w;
    assert (w + rest)[n..] == rest;
    ModOfInRange(v, n);
    FromBigEndianOfBigEndian(v % Pow256(n), n);
  }

  lemma IntRoundTrip(v: int, rest: seq<byte>)
    requires IsInt(v)
    ensures ReadInt(WriteInt(v) + rest) == Ok(Parsed(v, rest))
  {
    assert Pow256(4) == 0x1_0000_0000;
    SignedRoundTrip(v, 4, rest);
  }

  lemma ShortRoundTrip(v: int, rest: seq<byte>)
    requires -0x8000 <= v < 0x8000
    ensures ReadShort(WriteShort(v) + rest) == Ok(Parsed(v, rest))
  {
    assert Pow256(2) == 0x1_0000;
    SignedRoundTrip(v, 2, rest);
  }

  lemma ByteRoundTrip(v: int, rest: seq<byte>)
    requires -0x80 <= v < 0x80
    ensures ReadByte(WriteByte(v) + rest) == Ok(Parsed(v, rest))
  {
    assert Pow256(1) == 0x100;
    SignedRoundTrip(v, 1, rest);
  }

  lemma BooleanRoundTrip(b: bool, rest: seq<byte>)
    ensures ReadBoolean(WriteBoolean(b) + rest) == Ok(Parsed(b, rest))
  {
    assert (WriteBoolean(b) + rest)[1..] == rest;
  }

  lemma {:induction false} IntsRoundTrip(vs: seq<int>, rest: seq<byte>)
    requires forall i :: 0 <= i < |vs| ==> IsInt(vs[i])
    ensures ReadInts(WriteInts(vs) + rest, |vs|) == Ok(Parsed(vs, rest))
  {
    if |vs| > 0 {
      var tail := WriteInts(vs[1..]) + rest;
      var s := WriteInts(vs) + rest;
      assert s == WriteInt(vs[0]) + tail;
      IntRoundTrip(vs[0], tail);
      IntsRoundTrip(vs[1..], rest);
      var head := ReadInt(s);
      assert head == Ok(Parsed(vs[0], tail));
      var more := ReadInts(tail, |vs| - 1);
      assert more == Ok(Parsed(vs[1..], rest));
      assert ReadInts(s, |vs|) == Ok(Parsed([vs[0]] + vs[1..], rest));
      assert [vs[0]] + vs[1..] == vs;
    } else {
      assert WriteInts(vs) + rest == rest;
    }
  }

  lemma {:induction false} LongsRoundTrip(vs: seq<int>, rest: seq<byte>)
    requires forall i :: 0 <= i < |vs| ==> IsLong(vs[i])
    ensures ReadLongs(WriteLongs(vs) + rest, |vs|) == Ok(Parsed(vs, rest))
  {
    if |vs| > 0 {
      var tail := WriteLongs(vs[1..]) + rest;
      var s := WriteLongs(vs) + rest;
      assert s == WriteLong(vs[0]) + tail;
      SignedRoundTrip(vs[0], 8, tail);
      LongsRoundTrip(vs[1..], rest);
      assert ReadLongs(s, |vs|) == Ok(Parsed([vs[0]] + vs[1..], rest));
      assert [vs[0]] + vs[1..] == vs;
    } else {
      assert WriteLongs(vs) + rest == rest;
    }
  }

  lemma LenientRoundTrip(data: seq<byte>, rest: seq<byte>)
    ensures ReadLenient(data + rest, |data|) == Parsed(data, rest)
  {
    assert (data + rest)[..|data|] == data;
    assert (data + rest)[|data|..] == rest;
  }
}

=== FILE: chunk_proofs.dfy ===
/** The chunk codec: one chunk written by the writer is read back by the reader. */
module ChunkProofs {
  import opened Wrappers
  import opened Bytes
  import opened Tags
  import opened Foreign
  import opened Worlds
  import opened SlimeFormat
  import opened Encoder
  import opened Decoder
  import opened SectionProofs
  import opened BitSets

  /**
   * Height maps the reader rebuilds: for 1.13 worlds a compound, which when empty
   * must be the unnamed one the reader substitutes; before, exactly 256 ints.
   */
  ghost predicate HeightMapsFit(t: Tag, worldVersion: int, f: Codecs)
  {
    if worldVersion >= MODERN then
      && t.CompoundTag?
      && (IsEmptyCompound(t) ==> t.name == "")
      && (!IsEmptyCompound(t) ==> JavaTag(t) && |f.writeTag(t)| <= INT_MAX)
    else
      && IntArrayValue(Entries(t), "heightMap").Some?
      && var heightMap := IntArrayValue(Entries(t), "heightMap").value;
      && |heightMap| == HEIGHT_MAP_SIZE
      && (forall i :: 0 <= i < |heightMap| ==> IsInt(heightMap[i]))
      && t == LegacyHeightMaps(heightMap)
  }

  /** Biomes are ints; legacy worlds hold exactly the 64 ints of 256 biome bytes. */
  predicate BiomesFit(biomes: seq<int>, worldVersion: int)
  {
    && (forall i :: 0 <= i < |biomes| ==> IsInt(biomes[i]))
    && (worldVersion >= MODERN ==> |biomes| <= INT_MAX)
    && (worldVersion < MODERN ==> |biomes| == LEGACY_BIOME_BYTES / 4)
  }

  ghost predicate ChunkFits(c: Chunk, worldVersion: int, f: Codecs)
  {
    && |c.sections| == SECTION_COUNT
    && SectionsFit(c.sections, worldVersion, f)
    && HeightMapsFit(c.heightMaps, worldVersion, f)
    && BiomesFit(c.biomes, worldVersion)
  }

  /** A chunk as the chunk reader returns it: owned by the world, no entities yet. */
  function Bare(c: Chunk, name: string): (r: Chunk)
    ensures r.x == c.x && r.z == c.z && r.sections == c.sections
  {
    c.(worldName := Some(name), entities := [], tileEntities := [])
  }

  /** The parts of a chunk the stream holds. */
  function PartsOf(c: Chunk): ChunkParts
  {
    ChunkParts(c.heightMaps, c.biomes, c.sections)
  }

  lemma {:induction false} ToIntArrayOfInts(vs: seq<int>)
    requires forall i :: 0 <= i < |vs| ==> IsInt(vs[i])
    ensures ToIntArray(WriteInts(vs)) == vs
    decreases |vs|
  {
    if |vs| > 0 {
      IntRoundTrip(vs[0], WriteInts(vs[1..]));
      ToIntArrayOfInts(vs[1..]);
      assert [vs[0]] + vs[1..] == vs;
    }
  }

  lemma HeightMapsRoundTrip(c: Chunk, worldVersion: int, f: Codecs, rest: seq<byte>)
    requires Faithful(f) && HeightMapsFit(c.heightMaps, worldVersion, f)
    ensures HeightMapBytes(c, worldVersion, f).Ok?
    ensures ReadHeightMaps(HeightMapBytes(c, worldVersion, f).value + rest, worldVersion, f) == Ok(Parsed(c.heightMaps, rest))
  {
    if worldVersion >= MODERN {
      var bytes := SerializeCompoundTag(Some(c.heightMaps), f);
      assert HeightMapBytes(c, worldVersion, f).value + rest == WriteInt(|bytes|) + (bytes + rest);
      IntRoundTrip(|bytes|, bytes + rest);
      LenientRoundTrip(bytes, rest);
      if IsEmptyCompound(c.heightMaps) {
        assert c.heightMaps == EmptyCompound("");
      } else {
        CompoundRoundTrip(Some(c.heightMaps), f);
      }
    } else {
      var heightMap := IntArrayValue(Entries(c.heightMaps), "heightMap").value;
      assert heightMap[..HEIGHT_MAP_SIZE] == heightMap;
      IntsRoundTrip(heightMap, rest);
    }
  }

  lemma BiomesRoundTrip(c: Chunk, worldVersion: int, rest: seq<byte>)
    requires BiomesFit(c.biomes, worldVersion)
    ensures ReadBiomes(BiomeBytes(c, worldVersion) + rest, worldVersion, SLIME_VERSION) == Ok(Parsed(c.biomes, rest))
  {
    if worldVersion >= MODERN {
      assert BiomeBytes(c, worldVersion) + rest == WriteInt(|c.biomes|) + (WriteInts(c.biomes) + rest);
      IntRoundTrip(|c.biomes|, WriteInts(c.biomes) + rest);
      IntsRoundTrip(c.biomes, rest);
    } else {
      assert BiomeBytes(c, worldVersion) == WriteInts(c.biomes);
      LenientRoundTrip(WriteInts(c.biomes), rest);
      ToIntArrayOfInts(c.biomes);
    }
  }

  /** The reader's three steps, given that each reads back its own part. */
  lemma ReadChunkSteps(g: Grid, c: Chunk, f: Codecs, heights: seq<byte>, biomes: seq<byte>, sections: seq<byte>,
                       rest: seq<byte>)
    requires ReadHeightMaps(heights + (biomes + (sections + rest)), g.worldVersion, f)
             == Ok(Parsed(c.heightMaps, biomes + (sections + rest)))
    requires ReadBiomes(biomes + (sections + rest), g.worldVersion, g.version) == Ok(Parsed(c.biomes, sections + rest))
    requires ReadSections(sections + rest, g.worldVersion, g.version, f) == Ok(Parsed(c.sections, rest))
    ensures ReadChunkParts(g, heights + (biomes + (sections + rest)), f) == Ok(Parsed(PartsOf(c), rest))
  {
  }

  /** The writer's output for a chunk: height maps, biomes, then the sections behind their mask. */
  lemma ChunkBytesShape(c: Chunk, worldVersion: int, f: Codecs, rest: seq<byte>)
    requires HeightMapBytes(c, worldVersion, f).Ok? && SectionsBytes(c.sections, worldVersion, f).Ok?
    ensures ChunkBytes(c, worldVersion, f).Ok?
    ensures ChunkBytes(c, worldVersion, f).value + rest
            == HeightMapBytes(c, worldVersion, f).value + (BiomeBytes(c, worldVersion)
               + (WriteBitSetAsBytes(PresentFrom(c.sections, 0), 2) + SectionsBytes(c.sections, worldVersion, f).value + rest))
  {
    var heights := HeightMapBytes(c, worldVersion, f).value;
    var biomes := BiomeBytes(c, worldVersion);
    var mask := WriteBitSetAsBytes(PresentFrom(c.sections, 0), 2);
    var sections := SectionsBytes(c.sections, worldVersion, f).value;
    assert ChunkBytes(c, worldVersion, f).value == heights + biomes + mask + sections;
    Regroup(heights, biomes, mask, sections, rest);
  }

  lemma Regroup(h: seq<byte>, b: seq<byte>, m: seq<byte>, s: seq<byte>, rest: seq<byte>)
    ensures h + b + m + s + rest == h + (b + (m + s + rest))
  {
    Associate(h, b, m, s, rest);
    Associate3(m, s, rest);
  }

  /** One chunk, read at its own coordinates by a reader of the current format. */
  lemma ChunkRoundTrip(g: Grid, c: Chunk, f: Codecs, rest: seq<byte>)
    requires Faithful(f) && g.version == SLIME_VERSION && ChunkFits(c, g.worldVersion, f)
    ensures ChunkBytes(c, g.worldVersion, f).Ok?
    ensures ReadChunkParts(g, ChunkBytes(c, g.worldVersion, f).value + rest, f) == Ok(Parsed(PartsOf(c), rest))
    ensures ReadChunk(g, c.x, c.z, ChunkBytes(c, g.worldVersion, f).value + rest, f) == Ok(Parsed(Bare(c, g.name), rest))
  {
    var wv := g.worldVersion;
    HeightMapsRoundTrip(c, wv, f, []);
    SectionsRoundTrip(c.sections, wv, f, rest);
    var heights := HeightMapBytes(c, wv, f).value;
    var biomes := BiomeBytes(c, wv);
    var sections := WriteBitSetAsBytes(PresentFrom(c.sections, 0), 2) + SectionsBytes(c.sections, wv, f).value;
    ChunkBytesShape(c, wv, f, rest);
    HeightMapsRoundTrip(c, wv, f, biomes + (sections + rest));
    BiomesRoundTrip(c, wv, sections + rest);
    ReadChunkSteps(g, c, f, heights, biomes, sections, rest);
  }
}

=== FILE: container_proofs.dfy ===
/**
 * The container codec: the header and the five zstd frames the writer emits
 * are read back as the header and blobs they came from, and each blob
 * decompresses to the bytes that were compressed.
 */
module ContainerProofs {
  import opened Wrappers
  import opened Bytes
  import opened Foreign
  import opened SlimeFormat
  import opened Encoder
  import opened Decoder
  import opened SectionProofs

  /** The header a layout is written with: always the current format version. */
  function HeaderOf(l: Layout): Header
  {
    Header(SLIME_VERSION, l.worldVersion, l.minX, l.minZ, l.width, l.depth, l.mask)
  }

  /** The stored form of one frame. */
  function BlobOf(data: seq<byte>, f: Codecs): Blob
  {
    Blob(f.compress(data), |data|)
  }

  /** The container a layout is written as. */
  function ContainerOf(l: Layout, f: Codecs): Container
  {
    Container(HeaderOf(l), BlobOf(l.chunkData, f), BlobOf(l.tileData, f),
              if l.entityData.Some? then Some(BlobOf(l.entityData.value, f)) else None,
              Some(BlobOf(l.extraData, f)), Some(BlobOf(l.mapData, f)))
  }

  /** Header fields that survive their fixed widths, positive bounds, and a mask of the size they imply. */
  predicate HeaderFits(l: Layout)
  {
    && -0x80 <= l.worldVersion < 0x80
    && -0x8000 <= l.minX < 0x8000 && -0x8000 <= l.minZ < 0x8000
    && 0 < l.width < 0x8000 && 0 < l.depth < 0x8000
    && |l.mask| == CeilDiv8(l.width * l.depth)
  }

  /** A frame whose two lengths are Java ints. */
  predicate FrameFits(data: seq<byte>, f: Codecs)
  {
    IsInt(|f.compress(data)|) && IsInt(|data|)
  }

  predicate FramesFit(l: Layout, f: Codecs)
  {
    && FrameFits(l.chunkData, f) && FrameFits(l.tileData, f)
    && (l.entityData.Some? ==> FrameFits(l.entityData.value, f))
    && FrameFits(l.extraData, f) && FrameFits(l.mapData, f)
  }

  /** Everything after the magic bytes, as the reader meets it field by field. */
  lemma HeaderFields(l: Layout, rest: seq<byte>)
    requires HeaderFits(l)
    ensures ReadByte(WriteByte(l.worldVersion) + (WriteShort(l.minX) + (WriteShort(l.minZ) + (WriteShort(l.width)
              + (WriteShort(l.depth) + (l.mask + rest))))))
            == Ok(Parsed(l.worldVersion, WriteShort(l.minX) + (WriteShort(l.minZ) + (WriteShort(l.width)
              + (WriteShort(l.depth) + (l.mask + rest))))))
    ensures ReadShort(WriteShort(l.minX) + (WriteShort(l.minZ) + (WriteShort(l.width) + (WriteShort(l.depth) + (l.mask + rest)))))
            == Ok(Parsed(l.minX, WriteShort(l.minZ) + (WriteShort(l.width) + (WriteShort(l.depth) + (l.mask + rest)))))
    ensures ReadShort(WriteShort(l.minZ) + (WriteShort(l.width) + (WriteShort(l.depth) + (l.mask + rest))))
            == Ok(Parsed(l.minZ, WriteShort(l.width) + (WriteShort(l.depth) + (l.mask + rest))))
    ensures ReadShort(WriteShort(l.width) + (WriteShort(l.depth) + (l.mask + rest)))
            == Ok(Parsed(l.width, WriteShort(l.depth) + (l.mask + rest)))
    ensures ReadShort(WriteShort(l.depth) + (l.mask + rest)) == Ok(Parsed(l.depth, l.mask + rest))
    ensures ReadLenient(l.mask + rest, |l.mask|) == Parsed(l.mask, rest)
  {
    ByteRoundTrip(l.worldVersion, WriteShort(l.minX) + (WriteShort(l.minZ) + (WriteShort(l.width)
      + (WriteShort(l.depth) + (l.mask + rest)))));
    ShortRoundTrip(l.minX, WriteShort(l.minZ) + (WriteShort(l.width) + (WriteShort(l.depth) + (l.mask + rest))));
    ShortRoundTrip(l.minZ, WriteShort(l.width) + (WriteShort(l.depth) + (l.mask + rest)));
    ShortRoundTrip(l.width, WriteShort(l.depth) + (l.mask + rest));
    ShortRoundTrip(l.depth, l.mask + rest);
    LenientRoundTrip(l.mask, rest);
  }

  /** The header bytes, regrouped so that each field is followed by the rest of the stream. */
  lemma HeaderShape(l: Layout, rest: seq<byte>)
    ensures HeaderBytes(l) + rest
            == SLIME_HEADER + ([SLIME_VERSION] + (WriteByte(l.worldVersion) + (WriteShort(l.minX)
               + (WriteShort(l.minZ) + (WriteShort(l.width) + (WriteShort(l.depth) + (l.mask + rest)))))))
  {
    var a0 := SLIME_HEADER;
    var a1 := a0 + [SLIME_VERSION];
    var a2 := a1 + WriteByte(l.worldVersion);
    var a3 := a2 + WriteShort(l.minX);
    var a4 := a3 + WriteShort(l.minZ);
    var a5 := a4 + WriteShort(l.width);
    var a6 := a5 + WriteShort(l.depth);
    Associate3(a6, l.mask, rest);
    Associate3(a5, WriteShort(l.depth), l.mask + rest);
    Associate3(a4, WriteShort(l.width), WriteShort(l.depth) + (l.mask + rest));
    Associate3(a3, WriteShort(l.minZ), WriteShort(l.width) + (WriteShort(l.depth) + (l.mask + rest)));
    Associate3(a2, WriteShort(l.minX), WriteShort(l.minZ) + (WriteShort(l.width) + (WriteShort(l.depth) + (l.mask + rest))));
    Associate3(a1, WriteByte(l.worldVersion), WriteShort(l.minX) + (WriteShort(l.minZ) + (WriteShort(l.width)
      + (WriteShort(l.depth) + (l.mask + rest)))));
    Associate3(a0, [SLIME_VERSION], WriteByte(l.worldVersion) + (WriteShort(l.minX) + (WriteShort(l.minZ)
      + (WriteShort(l.width) + (WriteShort(l.depth) + (l.mask + rest))))));
  }

  /** The header is read back as written, whatever follows it. */
  lemma HeaderRoundTrip(name: string, l: Layout, rest: seq<byte>)
    requires HeaderFits(l)
    ensures ReadHeader(name, HeaderBytes(l) + rest) == Ok(Parsed(HeaderOf(l), rest))
  {
    var t2 := WriteByte(l.worldVersion) + (WriteShort(l.minX) + (WriteShort(l.minZ) + (WriteShort(l.width)
      + (WriteShort(l.depth) + (l.mask + rest)))));
    HeaderShape(l, rest);
    HeaderFields(l, rest);
    LenientRoundTrip(SLIME_HEADER, [SLIME_VERSION] + t2);
    ByteRoundTrip(SLIME_VERSION, t2);
    assert WriteByte(SLIME_VERSION) == [SLIME_VERSION];
    MulNonNegative(l.width, l.depth);
  }

  /** A frame is read back as its compressed bytes and the uncompressed length. */
  lemma FrameRoundTrip(data: seq<byte>, f: Codecs, rest: seq<byte>)
    requires FrameFits(data, f)
    ensures ReadBlob(Frame(data, f) + rest) == Ok(Parsed(BlobOf(data, f), rest))
  {
    var c := f.compress(data);
    Associate3(WriteInt(|c|) + WriteInt(|data|), c, rest);
    Associate3(WriteInt(|c|), WriteInt(|data|), c + rest);
    IntRoundTrip(|c|, WriteInt(|data|) + (c + rest));
    IntRoundTrip(|data|, c + rest);
    LenientRoundTrip(c, rest);
  }

  /** The optional entity frame behind its boolean. */
  lemma EntityFrameRoundTrip(l: Layout, f: Codecs, rest: seq<byte>)
    requires l.entityData.Some? ==> FrameFits(l.entityData.value, f)
    ensures var s := (if l.entityData.Some? then WriteBoolean(true) + Frame(l.entityData.value, f)
                      else WriteBoolean(false)) + rest;
            && ReadBoolean(s) == Ok(Parsed(l.entityData.Some?, s[1..]))
            && ReadBlobIf(l.entityData.Some?, s[1..]) == Ok(Parsed(ContainerOf(l, f).entities, rest))
  {
    if l.entityData.Some? {
      var frame := Frame(l.entityData.value, f);
      Associate3(WriteBoolean(true), frame, rest);
      assert (WriteBoolean(true) + frame + rest)[1..] == frame + rest;
      FrameRoundTrip(l.entityData.value, f, rest);
    } else {
      assert (WriteBoolean(false) + rest)[1..] == rest;
    }
  }

  /** The blob part, regrouped frame by frame. */
  lemma BlobsShape(l: Layout, f: Codecs)
    ensures BlobsBytes(l, f)
            == Frame(l.chunkData, f) + (Frame(l.tileData, f)
               + ((if l.entityData.Some? then WriteBoolean(true) + Frame(l.entityData.value, f) else WriteBoolean(false))
               + (Frame(l.extraData, f) + Frame(l.mapData, f))))
  {
    var e := if l.entityData.Some? then WriteBoolean(true) + Frame(l.entityData.value, f) else WriteBoolean(false);
    var a := Frame(l.chunkData, f);
    var b := Frame(l.tileData, f);
    var x := Frame(l.extraData, f);
    var m := Frame(l.mapData, f);
    Associate3(a + b + e, x, m);
    Associate3(a + b, e, x + m);
    Associate3(a, b, e + (x + m));
  }

  /** The five frames are read back as the blobs they store, with nothing left over. */
  lemma BlobsRoundTrip(l: Layout, f: Codecs)
    requires FramesFit(l, f)
    ensures ReadBlobs(HeaderOf(l), BlobsBytes(l, f)) == Ok(Parsed(ContainerOf(l, f), []))
  {
    var e := if l.entityData.Some? then WriteBoolean(true) + Frame(l.entityData.value, f) else WriteBoolean(false);
    var x := Frame(l.extraData, f);
    var m := Frame(l.mapData, f);
    BlobsShape(l, f);
    FrameRoundTrip(l.chunkData, f, Frame(l.tileData, f) + (e + (x + m)));
    FrameRoundTrip(l.tileData, f, e + (x + m));
    EntityFrameRoundTrip(l, f, x + m);
    FrameRoundTrip(l.extraData, f, m);
    assert m == m + [];
    FrameRoundTrip(l.mapData, f, []);
  }

  /** A written container is read back as the header and blobs it was written from. */
  lemma ContainerRoundTrip(name: string, l: Layout, f: Codecs)
    requires HeaderFits(l) && FramesFit(l, f)
    ensures ReadContainer(name, Emit(l, f)) == Ok(ContainerOf(l, f))
  {
    HeaderRoundTrip(name, l, BlobsBytes(l, f));
    BlobsRoundTrip(l, f);
  }

  /** An output no longer than a Java array has frames whose lengths are Java ints. */
  lemma FitsFrames(l: Layout, f: Codecs)
    requires Fits(l, Emit(l, f))
    ensures FramesFit(l, f)
  {
    BlobsShape(l, f);
  }

  /** With faithful codecs every stored blob decompresses to the bytes it was made from. */
  lemma InflateRoundTrip(l: Layout, f: Codecs)
    requires Faithful(f)
    ensures InflateAll(ContainerOf(l, f), f)
            == Ok(Blobs(l.chunkData, l.tileData, l.entityData.GetOr([]), l.extraData, l.mapData))
  {
    assert f.decompress(f.compress(l.chunkData), |l.chunkData|) == Some(l.chunkData);
    assert f.decompress(f.compress(l.tileData), |l.tileData|) == Some(l.tileData);
    assert f.decompress(f.compress(l.extraData), |l.extraData|) == Some(l.extraData);
    assert f.decompress(f.compress(l.mapData), |l.mapData|) == Some(l.mapData);
    if l.entityData.Some? {
      assert f.decompress(f.compress(l.entityData.value), |l.entityData.value|) == Some(l.entityData.value);
    }
  }
}

=== FILE: decoder.dfy ===
/**
 * The Slime format reader (`LoaderUtils.deserializeWorld` and its helpers).
 * Every format version up to 9 is accepted; older versions lack some of the
 * fields, which the reader then fills with defaults.
 */
module Decoder {
  import opened Wrappers
  import opened Bytes
  import opened Nibbles
  import opened Tags
  import opened Foreign
  import opened Properties
  import opened Worlds
  import opened BitSets
  import opened SlimeFormat
  import opened Numerals

  // ---- The container ----

  /** A stored zstd blob: its compressed bytes and the declared uncompressed length. */
  datatype Blob = Blob(compressed: seq<byte>, length: nat)

  /** Everything before the chunk data: versions, bounds and the chunk bitmask. */
  datatype Header = Header(version: int, worldVersion: int, minX: int, minZ: int, width: int, depth: int,
                           mask: seq<byte>)

  /** A whole file with its blobs still compressed; absent blobs are None. */
  datatype Container = Container(header: Header, chunks: Blob, tiles: Blob,
                                 entities: Option<Blob>, extra: Option<Blob>, maps: Option<Blob>)

  /**
   * The world version field: a byte from format 6 on, a "1.13 or later" boolean
   * in formats 4 and 5, and unknown (0) before.
   */
  function ReadWorldVersion(version: int, s: seq<byte>): (r: Result<Parsed<int>>)
    ensures version < 4 ==> r == Ok(Parsed(0, s))
    ensures 4 <= version < 6 && |s| > 0 ==> r == Ok(Parsed(if s[0] != 0 then MODERN else 1, s[1..]))
  {
    if version >= 6 then ReadByte(s)
    else if version >= 4 then
      var modern :- ReadBoolean(s);
      Ok(Parsed(if modern.value then MODERN else 1, modern.rest))
    else Ok(Parsed(0, s))
  }

  function ReadHeader(name: string, s: seq<byte>): (r: Result<Parsed<Header>>)
    ensures r.Ok? ==> r.value.value.version <= SLIME_VERSION
    ensures r.Ok? ==> r.value.value.width > 0 && r.value.value.depth > 0
    ensures r.Ok? ==> |r.value.value.mask| == CeilDiv8(r.value.value.width * r.value.value.depth)
    ensures |s| >= 2 && s[..2] != SLIME_HEADER ==> r == Fail(CorruptedWorld(name))
  {
    var magic := ReadLenient(s, |SLIME_HEADER|);
    if magic.value != SLIME_HEADER then Fail(CorruptedWorld(name))
    else
      var version :- ReadByte(magic.rest);
      if version.value > SLIME_VERSION then Fail(NewerFormat(version.value))
      else
        var worldVersion :- ReadWorldVersion(version.value, version.rest);
        var minX :- ReadShort(worldVersion.rest);
        var minZ :- ReadShort(minX.rest);
        var width :- ReadShort(minZ.rest);
        var depth :- ReadShort(width.rest);
        if width.value <= 0 || depth.value <= 0 then Fail(CorruptedWorld(name))
        else
          MulNonNegative(width.value, depth.value);
          var mask := ReadLenient(depth.rest, CeilDiv8(width.value * depth.value));
          Ok(Parsed(Header(version.value, worldVersion.value, minX.value, minZ.value, width.value, depth.value,
                           mask.value), mask.rest))
  }

  /**
   * `compressedLength:int length:int compressed`: both arrays are allocated
   * before the compressed bytes are read, leniently.
   */
  function ReadBlob(s: seq<byte>): (r: Result<Parsed<Blob>>)
    ensures r.Fail? ==> r.error == EndOfStream || r.error == NegativeArraySize
  {
    var compressedLength :- ReadInt(s);
    var length :- ReadInt(compressedLength.rest);
    if compressedLength.value < 0 || length.value < 0 then Fail(NegativeArraySize)
    else
      var compressed := ReadLenient(length.rest, compressedLength.value);
      Ok(Parsed(Blob(compressed.value, length.value), compressed.rest))
  }

  function ReadBlobIf(present: bool, s: seq<byte>): (r: Result<Parsed<Option<Blob>>>)
    ensures !present ==> r == Ok(Parsed(None, s))
  {
    if present then
      var blob :- ReadBlob(s);
      Ok(Parsed(Some(blob.value), blob.rest))
    else Ok(Parsed(None, s))
  }

  /** Entities exist from format 3 on, behind a boolean; extra data from 2; maps from 7. */
  function ReadBlobs(h: Header, s: seq<byte>): (r: Result<Parsed<Container>>)
    ensures r.Ok? ==> r.value.value.header == h
    ensures r.Ok? && h.version < 3 ==> r.value.value.entities.None?
    ensures r.Ok? && h.version < 2 ==> r.value.value.extra.None?
    ensures r.Ok? && h.version < 7 ==> r.value.value.maps.None?
  {
    var chunks :- ReadBlob(s);
    var tiles :- ReadBlob(chunks.rest);
    var hasEntities :- if h.version >= 3 then ReadBoolean(tiles.rest) else Ok(Parsed(false, tiles.rest));
    var entities :- ReadBlobIf(hasEntities.value, hasEntities.rest);
    var extra :- ReadBlobIf(h.version >= 2, entities.rest);
    var maps :- ReadBlobIf(h.version >= 7, extra.rest);
    Ok(Parsed(Container(h, chunks.value, tiles.value, entities.value, extra.value, maps.value), maps.rest))
  }

  /** The container; a byte after the last blob makes the world corrupted. */
  function ReadContainer(name: string, s: seq<byte>): (r: Result<Container>)
  {
    var header :- ReadHeader(name, s);
    var container :- ReadBlobs(header.value, header.rest);
    if |container.rest| > 0 then Fail(CorruptedWorld(name)) else Ok(container.value)
  }

  /** `Zstd.decompress` into an array of the declared length; an absent blob is empty. */
  function Inflate(blob: Option<Blob>, f: Codecs): (r: Result<seq<byte>>)
    ensures r.Fail? ==> r.error == CompressionFailure
  {
    var b := blob.GetOr(Blob([], 0));
    match f.decompress(b.compressed, b.length)
    case None => Fail(CompressionFailure)
    case Some(data) => Ok(data)
  }

  // ---- Tags ----

  /**
   * `readCompoundTag`: no bytes is null; an end of input inside the tag is the
   * stream's EOFException, any other stream failure an IOException, and anything
   * but a compound fails the cast.
   */
  function ReadCompoundTag(bytes: seq<byte>, f: Codecs): (r: Result<Option<Tag>>)
    ensures |bytes| == 0 <==> r == Ok(None)
    ensures r.Ok? && r.value.Some? ==> r.value.value.CompoundTag? && f.readTag(bytes) == Ok(r.value.value)
    ensures |bytes| > 0 && f.readTag(bytes) == Fail(EndOfStream) ==> r == Fail(EndOfStream)
    ensures r.Fail? ==> r.error == EndOfStream || r.error == MalformedTag || r.error == ClassCast
  {
    if |bytes| == 0 then Ok(None)
    else
      match f.readTag(bytes)
      case Fail(e) => Fail(if e == EndOfStream then EndOfStream else MalformedTag)
      case Ok(t) => if t.CompoundTag? then Ok(Some(t)) else Fail(ClassCast)
  }

  /** `ByteBuffer.asIntBuffer().get(...)`: whole big-endian ints, a short tail ignored. */
  function ToIntArray(buf: seq<byte>): (r: seq<int>)
    ensures |r| == |buf| / 4
  {
    if |buf| < 4 then []
    else
      var head := ReadInt(buf).value;
      [head.value] + ToIntArray(head.rest)
  }

  // ---- Sections ----

  /** Format 5 added a presence flag in front of each light array. */
  function ReadLight(s: seq<byte>, version: int): (r: Result<Parsed<Option<NibbleArray>>>)
    ensures r.Ok? && r.value.value.Some? ==> |r.value.value.value.backing| == LIGHT_SIZE
    ensures version < 5 ==> r.Ok? && r.value.value.Some?
  {
    var present :- if version < 5 then Ok(Parsed(true, s)) else ReadBoolean(s);
    if present.value then
      var bytes := ReadLenient(present.rest, LIGHT_SIZE);
      Ok(Parsed(Some(NibbleArray(bytes.value)), bytes.rest))
    else Ok(Parsed(None, present.rest))
  }

  /** `count` palette entries, each a length-prefixed compound; an empty one is null. */
  function ReadPalette(s: seq<byte>, count: nat, f: Codecs): (r: Result<Parsed<seq<Option<Tag>>>>)
    ensures r.Ok? ==> |r.value.value| == count
    decreases count
  {
    if count == 0 then Ok(Parsed([], s))
    else
      var length :- ReadInt(s);
      if length.value < 0 then Fail(NegativeArraySize)
      else
        var bytes := ReadLenient(length.rest, length.value);
        var entry :- ReadCompoundTag(bytes.value, f);
        var tail :- ReadPalette(bytes.rest, count - 1, f);
        Ok(Parsed([entry] + tail.value, tail.rest))
  }

  /** Palette and block states of a 1.13 section; `new ArrayList<>(-1)` refuses a negative count. */
  function ReadModernBlocks(s: seq<byte>, f: Codecs): (r: Result<Parsed<(seq<Option<Tag>>, seq<int>)>>)
  {
    var count :- ReadInt(s);
    if count.value < 0 then Fail(IllegalArgument("Illegal Capacity: " + Render(count.value)))
    else
      var palette :- ReadPalette(count.rest, count.value, f);
      var length :- ReadInt(palette.rest);
      if length.value < 0 then Fail(NegativeArraySize)
      else
        var states :- ReadLongs(length.rest, length.value);
        Ok(Parsed((palette.value, states.value), states.rest))
  }

  /** The block data of a section, in the layout of the world version. */
  function ReadBlocks(s: seq<byte>, blockLight: Option<NibbleArray>, worldVersion: int, f: Codecs)
    : (r: Result<Parsed<Section>>)
    ensures r.Ok? ==> (r.value.value.ModernSection? <==> worldVersion >= MODERN)
    ensures r.Ok? ==> r.value.value.blockLight == blockLight && r.value.value.skyLight.None?
  {
    if worldVersion >= MODERN then
      var blocks :- ReadModernBlocks(s, f);
      Ok(Parsed(ModernSection(blockLight, blocks.value.0, blocks.value.1, None), blocks.rest))
    else
      var blocks := ReadLenient(s, BLOCKS_SIZE);
      var data := ReadLenient(blocks.rest, LIGHT_SIZE);
      Ok(Parsed(LegacySection(blockLight, blocks.value, NibbleArray(data.value), None), data.rest))
  }

  /** Formats before 4 follow a section with a short-prefixed block of HypixelBlocks data, which is skipped. */
  function SkipHypixelBlocks(s: seq<byte>, version: int): (r: Result<seq<byte>>)
    ensures version >= 4 ==> r == Ok(s)
  {
    if version < 4 then
      var length :- ReadShort(s);
      Ok(Skip(length.rest, length.value))
    else Ok(s)
  }

  /** One section: block light, block data, sky light. */
  function ReadSection(s: seq<byte>, worldVersion: int, version: int, f: Codecs): (r: Result<Parsed<Section>>)
    ensures r.Ok? ==> (r.value.value.ModernSection? <==> worldVersion >= MODERN)
  {
    var blockLight :- ReadLight(s, version);
    var section :- ReadBlocks(blockLight.rest, blockLight.value, worldVersion, f);
    var skyLight :- ReadLight(section.rest, version);
    var rest :- SkipHypixelBlocks(skyLight.rest, version);
    Ok(Parsed(section.value.(skyLight := skyLight.value), rest))
  }

  /** Sections `i` to 15, read where the section bitmask has a bit, null elsewhere. */
  function ReadSectionsFrom(mask: seq<byte>, i: nat, s: seq<byte>, worldVersion: int, version: int, f: Codecs,
                            acc: seq<Option<Section>>): (r: Result<Parsed<seq<Option<Section>>>>)
    requires i <= SECTION_COUNT
    ensures r.Ok? ==> |r.value.value| == |acc| + SECTION_COUNT - i
    decreases SECTION_COUNT - i
  {
    if i == SECTION_COUNT then Ok(Parsed(acc, s))
    else if BitSets.Get(mask, i) then
      var section :- ReadSection(s, worldVersion, version, f);
      ReadSectionsFrom(mask, i + 1, section.rest, worldVersion, version, f, acc + [Some(section.value)])
    else ReadSectionsFrom(mask, i + 1, s, worldVersion, version, f, acc + [None])
  }

  /** `readChunkSections`: a two-byte bitmask, then the present sections in order. */
  function ReadSections(s: seq<byte>, worldVersion: int, version: int, f: Codecs): (r: Result<Parsed<seq<Option<Section>>>>)
    ensures r.Ok? ==> |r.value.value| == SECTION_COUNT
  {
    var mask := ReadLenient(s, 2);
    ReadSectionsFrom(mask.value, 0, mask.rest, worldVersion, version, f, [])
  }

  // ---- Chunks ----

  /** What the chunk reader needs from the header. */
  datatype Grid = Grid(worldVersion: int, version: int, name: string, minX: int, minZ: int, width: int, depth: int,
                       mask: seq<byte>)

  function GridOf(h: Header, name: string): Grid
  {
    Grid(h.worldVersion, h.version, name, h.minX, h.minZ, h.width, h.depth, h.mask)
  }

  /** 1.13 height maps are a length-prefixed compound (empty when absent); older ones 256 ints. */
  function ReadHeightMaps(s: seq<byte>, worldVersion: int, f: Codecs): (r: Result<Parsed<Tag>>)
    ensures r.Ok? ==> r.value.value.CompoundTag?
    ensures r.Ok? && worldVersion < MODERN ==>
              exists heightMap :: |heightMap| == HEIGHT_MAP_SIZE && r.value.value == LegacyHeightMaps(heightMap)
  {
    if worldVersion >= MODERN then
      var length :- ReadInt(s);
      if length.value < 0 then Fail(NegativeArraySize)
      else
        var bytes := ReadLenient(length.rest, length.value);
        var tag :- ReadCompoundTag(bytes.value, f);
        Ok(Parsed(tag.GetOr(EmptyCompound("")), bytes.rest))
    else
      var heightMap :- ReadInts(s, HEIGHT_MAP_SIZE);
      Ok(Parsed(LegacyHeightMaps(heightMap.value), heightMap.rest))
  }

  /**
   * Biomes: 1.13 worlds store ints, length-prefixed from format 8 on (256 before);
   * older worlds store 256 bytes read back as 64 ints.  Format 8 wrote a stray
   * int before the biomes of old worlds, which is skipped.
   */
  function ReadBiomes(s: seq<byte>, worldVersion: int, version: int): (r: Result<Parsed<seq<int>>>)
    ensures r.Ok? && worldVersion < MODERN ==> |r.value.value| == LEGACY_BIOME_BYTES / 4
  {
    var start :-
      if version == 8 && worldVersion < MODERN then
        var stray :- ReadInt(s);
        Ok(stray.rest)
      else Ok(s);
    if worldVersion >= MODERN then
      var length :- if version >= 8 then ReadInt(start) else Ok(Parsed(256, start));
      if length.value < 0 then Fail(NegativeArraySize) else ReadInts(length.rest, length.value)
    else
      var bytes := ReadLenient(start, LEGACY_BIOME_BYTES);
      Ok(Parsed(ToIntArray(bytes.value), bytes.rest))
  }

  /** What the stream holds for one chunk, in stream order. */
  datatype ChunkParts = ChunkParts(heightMaps: Tag, biomes: seq<int>, sections: seq<Option<Section>>)

  function ReadChunkParts(g: Grid, s: seq<byte>, f: Codecs): (r: Result<Parsed<ChunkParts>>)
    ensures r.Ok? ==> |r.value.value.sections| == SECTION_COUNT
  {
    var heightMaps :- ReadHeightMaps(s, g.worldVersion, f);
    var biomes :- ReadBiomes(heightMaps.rest, g.worldVersion, g.version);
    var sections :- ReadSections(biomes.rest, g.worldVersion, g.version, f);
    Ok(Parsed(ChunkParts(heightMaps.value, biomes.value, sections.value), sections.rest))
  }

  /** One chunk at (x, z), with no entities or tile entities yet. */
  function ReadChunk(g: Grid, x: int, z: int, s: seq<byte>, f: Codecs): (r: Result<Parsed<Chunk>>)
    ensures r.Ok? ==> var c := r.value.value;
              c.x == x && c.z == z && c.worldName == Some(g.name) && c.entities == [] && c.tileEntities == []
              && |c.sections| == SECTION_COUNT
  {
    var parts :- ReadChunkParts(g, s, f);
    var p := parts.value;
    Ok(Parsed(Chunk(Some(g.name), x, z, p.sections, p.heightMaps, p.biomes, [], []), parts.rest))
  }

  /**
   * The chunk coordinates `readChunks` visits from cell (x, z) on: rows in order
   * of z, cells of a row in order of x, keeping each cell whose bit
   * `z * width + x` is set.
   */
  function SetCells(g: Grid, z: nat, x: nat): (r: seq<(int, int)>)
    decreases g.depth - z, g.width - x
  {
    if z >= g.depth then []
    else if x >= g.width then SetCells(g, z + 1, 0)
    else
      MulNonNegative(z, g.width);
      (if BitSets.Get(g.mask, z * g.width + x) then [(g.minX + x, g.minZ + z)] else []) + SetCells(g, z, x + 1)
  }

  /**
   * Reads one chunk per visited cell, in visiting order, from one stream; the
   * first chunk that cannot be read ends the scan.  The scan itself never depends
   * on what was read, so visiting the cells first and reading afterwards is the
   * same computation as the interleaved loop.
   */
  function ReadChunkList(g: Grid, cells: seq<(int, int)>, s: seq<byte>, f: Codecs, acc: map<int, Chunk>)
    : (r: Result<map<int, Chunk>>)
    decreases |cells|
  {
    if |cells| == 0 then Ok(acc)
    else
      var (x, z) := cells[0];
      var chunk :- ReadChunk(g, x, z, s, f);
      ReadChunkList(g, cells[1..], chunk.rest, f, acc[ChunkKey(x, z) := chunk.value])
  }

  /** The scan adds one chunk under the key of each visited cell, each as the chunk reader leaves it. */
  lemma {:induction false} ReadChunkListShape(g: Grid, cells: seq<(int, int)>, s: seq<byte>, f: Codecs,
                                              acc: map<int, Chunk>)
    ensures var r := ReadChunkList(g, cells, s, f, acc);
            && (r.Ok? ==> r.value.Keys == acc.Keys + CellKeys(cells))
            && (r.Ok? && Unpopulated(g, acc) ==> Unpopulated(g, r.value))
    decreases |cells|
  {
    if |cells| > 0 {
      var chunk := ReadChunk(g, cells[0].0, cells[0].1, s, f);
      if chunk.Ok? {
        var c := chunk.value.value;
        var acc' := acc[ChunkKey(cells[0].0, cells[0].1) := c];
        ReadChunkListStep(g, cells, s, f, acc);
        ReadChunkListShape(g, cells[1..], chunk.value.rest, f, acc');
        CellKeysSplit(cells);
        if Unpopulated(g, acc) {
          UnpopulatedStep(g, acc, c);
        }
      }
    }
  }

  /** One step of the scan: a chunk read at the first cell is filed under that cell's key. */
  lemma ReadChunkListStep(g: Grid, cells: seq<(int, int)>, s: seq<byte>, f: Codecs, acc: map<int, Chunk>)
    requires |cells| > 0 && ReadChunk(g, cells[0].0, cells[0].1, s, f).Ok?
    ensures var chunk := ReadChunk(g, cells[0].0, cells[0].1, s, f).value;
            && KeyOf(chunk.value) == ChunkKey(cells[0].0, cells[0].1)
            && ReadChunkList(g, cells, s, f, acc)
               == ReadChunkList(g, cells[1..], chunk.rest, f, acc[ChunkKey(cells[0].0, cells[0].1) := chunk.value])
  {
  }

  /** Filing a freshly read chunk under its own key keeps the map as the reader leaves it. */
  lemma UnpopulatedStep(g: Grid, acc: map<int, Chunk>, c: Chunk)
    requires Unpopulated(g, acc)
    requires c.worldName == Some(g.name) && c.entities == [] && c.tileEntities == [] && |c.sections| == SECTION_COUNT
    ensures Unpopulated(g, acc[KeyOf(c) := c])
  {
  }

  /** The packed keys of a list of chunk coordinates. */
  function CellKeys(cells: seq<(int, int)>): set<int>
  {
    set i | 0 <= i < |cells| :: ChunkKey(cells[i].0, cells[i].1)
  }

  lemma CellKeysSplit(cells: seq<(int, int)>)
    requires |cells| > 0
    ensures CellKeys(cells) == {ChunkKey(cells[0].0, cells[0].1)} + CellKeys(cells[1..])
  {
    forall k | k in CellKeys(cells)
      ensures k in {ChunkKey(cells[0].0, cells[0].1)} + CellKeys(cells[1..])
    {
      var i :| 0 <= i < |cells| && k == ChunkKey(cells[i].0, cells[i].1);
      if i > 0 {
        assert cells[i] == cells[1..][i - 1];
      }
    }
    forall k | k in CellKeys(cells[1..])
      ensures k in CellKeys(cells)
    {
      var i :| 0 <= i < |cells[1..]| && k == ChunkKey(cells[1..][i].0, cells[1..][i].1);
      assert cells[1..][i] == cells[i + 1];
    }
  }

  /**
   * Chunks as the chunk reader leaves them: each under its own key, belonging
   * to the world being read, with all sixteen section slots and no entities or
   * tile entities yet.
   */
  predicate Unpopulated(g: Grid, m: map<int, Chunk>)
  {
    forall k :: k in m ==>
      && KeyOf(m[k]) == k && m[k].worldName == Some(g.name)
      && m[k].entities == [] && m[k].tileEntities == [] && |m[k].sections| == SECTION_COUNT
  }

  /** `readChunks`: one bare chunk for each cell whose bit the mask sets, stored under that cell's key. */
  function ReadChunks(g: Grid, s: seq<byte>, f: Codecs): (r: Result<map<int, Chunk>>)
    ensures r.Ok? ==> r.value.Keys == CellKeys(SetCells(g, 0, 0)) && Unpopulated(g, r.value)
  {
    ReadChunkListShape(g, SetCells(g, 0, 0), s, f, map[]);
    ReadChunkList(g, SetCells(g, 0, 0), s, f, map[])
  }

  // ---- Entities and tile entities ----

  /** Entities are placed by their "Pos" list, tile entities by their "x" and "z" ints. */
  datatype Kind = Entities | Tiles

  /** `LoaderUtils.floor`: `(int)` saturates, then a negative non-integer steps down by one in int arithmetic. */
  function JavaFloor(v: real): (r: int)
    ensures INT_MIN as real <= v < INT_MAX as real + 1.0 ==> r == v.Floor
  {
    var truncated := if v >= 0.0 then v.Floor else -((-v).Floor);
    var saturated := if truncated > INT_MAX then INT_MAX else if truncated < INT_MIN then INT_MIN else truncated;
    if saturated as real == v then saturated else Wrap32(saturated - (if v < 0.0 then 1 else 0))
  }

  /** `floor(list.get(i)) >> 4`. */
  function PosChunk(items: seq<Tag>, i: nat): (r: Result<int>)
  {
    if |items| <= i then Fail(IndexOutOfBounds)
    else if !items[i].DoubleTag? then Fail(ClassCast)
    else Ok(JavaFloor(items[i].doubleValue) / 16)
  }

  /** `((IntTag) compound.get(key)).getValue() >> 4`. */
  function IntChunk(m: CompoundMap, key: string): (r: Result<int>)
  {
    if key !in m then Fail(NullPointer)
    else if !m[key].IntTag? then Fail(ClassCast)
    else Ok(m[key].intValue / 16)
  }

  /** The key of the chunk an entity or tile entity belongs in. */
  function ChunkKeyFor(kind: Kind, t: Tag): (r: Result<int>)
  {
    if !t.CompoundTag? then Fail(ClassCast)
    else match kind
      case Entities =>
        (match AsList(t.entries, "Pos")
         case None => Fail(NoSuchElement)
         case Some(pos) =>
           var x :- PosChunk(pos.items, 0);
           var z :- PosChunk(pos.items, 2);
           Ok(ChunkKey(x, z)))
      case Tiles =>
        var x :- IntChunk(t.entries, "x");
        var z :- IntChunk(t.entries, "z");
        Ok(ChunkKey(x, z))
  }

  function Append(kind: Kind, c: Chunk, t: Tag): (r: Chunk)
  {
    match kind
    case Entities => c.(entities := c.entities + [t])
    case Tiles => c.(tileEntities := c.tileEntities + [t])
  }

  /** Adds each tag, in order, to the chunk it belongs in; a missing chunk is a corrupted world. */
  function Attach(kind: Kind, chunks: map<int, Chunk>, tags: seq<Tag>, name: string): (r: Result<map<int, Chunk>>)
    ensures r.Ok? ==> r.value.Keys == chunks.Keys
  {
    if |tags| == 0 then Ok(chunks)
    else
      var key :- ChunkKeyFor(kind, tags[0]);
      if key !in chunks then Fail(CorruptedWorld(name))
      else Attach(kind, chunks[key := Append(kind, chunks[key], tags[0])], tags[1..], name)
  }

  /** The list under `key` of a decoded compound: none without a compound, a null dereference without the key. */
  function ListUnder(t: Option<Tag>, key: string): (r: Result<seq<Tag>>)
    ensures t.None? ==> r == Ok([])
  {
    match t
    case None => Ok([])
    case Some(c) =>
      if key !in Entries(c) then Fail(NullPointer)
      else if !Entries(c)[key].ListTag? then Fail(ClassCast)
      else Ok(Entries(c)[key].items)
  }

  /** The world maps: the "maps" list if there is one, else none. */
  function MapList(t: Option<Tag>): (r: seq<Tag>)
    ensures t.Some? && AsList(Entries(t.value), "maps").Some? ==> r == Entries(t.value)["maps"].items
  {
    match t
    case None => []
    case Some(c) =>
      match AsList(Entries(c), "maps")
      case None => []
      case Some(l) => l.items
  }

  // ---- The world ----

  /**
   * Files before format 4 do not say whether the world is 1.13: it is legacy (1)
   * as soon as any chunk has a section, since such sections are read in the old
   * layout, and stays unknown (0) otherwise.
   */
  function DetectVersion(worldVersion: int, chunks: map<int, Chunk>): (r: int)
    ensures worldVersion != 0 ==> r == worldVersion
  {
    if worldVersion != 0 then worldVersion
    else if exists k :: k in chunks && HasSections(chunks[k]) then 1
    else 0
  }

  /**
   * The stored "properties" compound becomes the property map, overridden by the
   * given one.  The map the override writes into is the one inside the extra
   * compound, so the extra compound sees the merged properties too.
   */
  function ResolveProperties(extra: Tag, given: PropertyMap): (r: (Tag, PropertyMap))
    ensures AsCompound(Entries(extra), "properties").None? ==> r == (extra, given)
    ensures AsCompound(Entries(extra), "properties").Some? ==>
              r.1 == Merge(Entries(extra)["properties"].entries, given)
              && r.0 == CompoundTag(extra.name, Entries(extra)["properties" := Entries(extra)["properties"].(entries := r.1)])
  {
    match AsCompound(Entries(extra), "properties")
    case None => (extra, given)
    case Some(stored) =>
      var merged := Merge(stored.entries, given);
      (CompoundTag(extra.name, Entries(extra)["properties" := stored.(entries := merged)]), merged)
  }

  /** The five blobs after decompression. */
  datatype Blobs = Blobs(chunks: seq<byte>, tiles: seq<byte>, entities: seq<byte>, extra: seq<byte>, maps: seq<byte>)

  /** All five blobs are decompressed before any is parsed. */
  function InflateAll(c: Container, f: Codecs): (r: Result<Blobs>)
    ensures r.Fail? ==> r.error == CompressionFailure
  {
    var chunks :- Inflate(Some(c.chunks), f);
    var tiles :- Inflate(Some(c.tiles), f);
    var entities :- Inflate(c.entities, f);
    var extra :- Inflate(c.extra, f);
    var maps :- Inflate(c.maps, f);
    Ok(Blobs(chunks, tiles, entities, extra, maps))
  }

  /** Chunks, then their entities, then their tile entities. */
  function Populate(g: Grid, b: Blobs, f: Codecs): (r: Result<map<int, Chunk>>)
  {
    var chunks :- ReadChunks(g, b.chunks, f);
    var entityTag :- ReadCompoundTag(b.entities, f);
    var entities :- ListUnder(entityTag, "entities");
    var withEntities :- Attach(Entities, chunks, entities, g.name);
    var tileTag :- ReadCompoundTag(b.tiles, f);
    var tiles :- ListUnder(tileTag, "tiles");
    Attach(Tiles, withEntities, tiles, g.name)
  }

  function Assemble(loader: string, name: string, c: Container, b: Blobs, given: PropertyMap, readOnly: bool,
                    f: Codecs): (r: Result<World>)
    ensures r.Ok? ==> r.value.name == name && r.value.loader == Some(loader)
    ensures r.Ok? ==> r.value.readOnly == readOnly && r.value.locked == !readOnly
  {
    var chunks :- Populate(GridOf(c.header, name), b, f);
    var extra :- ReadCompoundTag(b.extra, f);
    var maps :- ReadCompoundTag(b.maps, f);
    var resolved := ResolveProperties(extra.GetOr(EmptyCompound("")), given);
    Ok(World(name, chunks, resolved.0, resolved.1, readOnly, !readOnly, MapList(maps), Some(loader),
             DetectVersion(c.header.worldVersion, chunks)))
  }

  /**
   * `deserializeWorld`.  A world that is not writable is not locked by the
   * reader; an end of input anywhere is a corrupted world.
   */
  function Deserialize(loader: string, name: string, bytes: seq<byte>, given: PropertyMap, readOnly: bool,
                       f: Codecs): (r: Result<World>)
    ensures r.Fail? ==> r.error != EndOfStream
    ensures r.Ok? ==> r.value.name == name && r.value.loader == Some(loader) && r.value.locked == !readOnly
  {
    match ReadWorld(loader, name, bytes, given, readOnly, f)
    case Ok(w) => Ok(w)
    case Fail(e) => Fail(if e == EndOfStream then CorruptedWorld(name) else e)
  }

  /** The container, its blobs and the world they assemble into, before end-of-input is renamed. */
  function ReadWorld(loader: string, name: string, bytes: seq<byte>, given: PropertyMap, readOnly: bool,
                     f: Codecs): (r: Result<World>)
    ensures r.Ok? ==> r.value.name == name && r.value.loader == Some(loader) && r.value.locked == !readOnly
  {
    var c :- ReadContainer(name, bytes);
    var b :- InflateAll(c, f);
    Assemble(loader, name, c, b, given, readOnly, f)
  }
}

=== FILE: encoder.dfy ===
/**
 * The Slime format writer (`CraftSlimeWorld.serialize` and its helpers).
 *
 * Layout of a file, all integers big-endian:
 *   header 0xB1 0x0B, format version 9, world version (byte),
 *   minX, minZ, width, depth (16 bits each), chunk bitmask (ceil(width*depth/8) bytes),
 *   then framed zstd blobs `compressedLength:int length:int bytes` for the chunks,
 *   the tile entities, the entities (behind a boolean), the extra compound and the maps.
 */
module Encoder {
  import opened Wrappers
  import opened Bytes
  import opened Nibbles
  import opened Tags
  import opened Foreign
  import opened Properties
  import opened Worlds
  import opened Sorting
  import opened BitSets
  import opened SlimeFormat

  // ---- Which chunks are written ----

  /** The chunks in ascending key order. */
  function SortedChunks(chunks: map<int, Chunk>): (r: seq<Chunk>)
    ensures |r| == |chunks|
    ensures forall k :: k in chunks ==> chunks[k] in r
    ensures forall c :: c in r ==> exists k :: k in chunks && chunks[k] == c
    ensures KeysMatch(chunks) ==> KeysIncreasing(r)
  {
    var keys := SortedKeys(chunks.Keys);
    var r := seq(|keys|, i requires 0 <= i < |keys| => chunks[keys[i]]);
    SortedValues(chunks, keys, r);
    r
  }

  lemma SortedValues(chunks: map<int, Chunk>, keys: seq<int>, r: seq<Chunk>)
    requires (forall k :: k in keys <==> k in chunks) && Increasing(keys)
    requires |r| == |keys| && forall i :: 0 <= i < |r| ==> keys[i] in chunks && r[i] == chunks[keys[i]]
    ensures forall k :: k in chunks ==> chunks[k] in r
    ensures forall c :: c in r ==> exists k :: k in chunks && chunks[k] == c
    ensures KeysMatch(chunks) ==> KeysIncreasing(r)
  {
    forall k | k in chunks
      ensures chunks[k] in r
    {
      var i :| 0 <= i < |keys| && keys[i] == k;
      assert r[i] == chunks[k];
    }
  }

  /** `removeIf`: chunks whose sections are all null are not written. */
  function DropEmpty(cs: seq<Chunk>): (r: seq<Chunk>)
    ensures |r| <= |cs|
    ensures forall c :: c in r <==> c in cs && HasSections(c)
    ensures KeysIncreasing(cs) ==> KeysIncreasing(r)
  {
    if |cs| == 0 then []
    else if HasSections(cs[0]) then
      var r := [cs[0]] + DropEmpty(cs[1..]);
      KeptInOrder(cs, r);
      r
    else
      KeysTailIncreasing(cs);
      DropEmpty(cs[1..])
  }

  lemma KeysTailIncreasing(cs: seq<Chunk>)
    requires |cs| > 0
    ensures KeysIncreasing(cs) ==> KeysIncreasing(cs[1..])
  {
    if KeysIncreasing(cs) {
      forall i, j | 0 <= i < j < |cs[1..]|
        ensures KeyOf(cs[1..][i]) < KeyOf(cs[1..][j])
      {
        assert cs[1..][i] == cs[i + 1] && cs[1..][j] == cs[j + 1];
      }
    }
  }

  /** Keeping the first chunk in front of the kept rest keeps the key order. */
  lemma KeptInOrder(cs: seq<Chunk>, r: seq<Chunk>)
    requires |cs| > 0 && |r| > 0 && r[0] == cs[0]
    requires forall c :: c in r[1..] ==> c in cs[1..]
    requires KeysIncreasing(cs[1..]) ==> KeysIncreasing(r[1..])
    ensures KeysIncreasing(cs) ==> KeysIncreasing(r)
  {
    if KeysIncreasing(cs) {
      KeysTailIncreasing(cs);
      forall i, j | 0 <= i < j < |r|
        ensures KeyOf(r[i]) < KeyOf(r[j])
      {
        assert r[j] == r[1..][j - 1];
        assert r[j] in cs[1..];
        var t :| 0 <= t < |cs[1..]| && cs[1..][t] == r[j];
        if i == 0 {
          assert r[j] == cs[t + 1];
        } else {
          assert r[i] == r[1..][i - 1];
        }
      }
    }
  }

  function KeptChunks(w: World): seq<Chunk>
  {
    DropEmpty(SortedChunks(w.chunks))
  }

  // ---- Compound tags ----

  /** `serializeCompoundTag`: a null or empty compound is written as no bytes at all. */
  function SerializeCompoundTag(t: Option<Tag>, f: Codecs): (r: seq<byte>)
    ensures t.None? || IsEmptyCompound(t.value) ==> r == []
    ensures t.Some? && !IsEmptyCompound(t.value) ==> r == f.writeTag(t.value)
  {
    if t.None? || IsEmptyCompound(t.value) then [] else f.writeTag(t.value)
  }

  // ---- Chunks ----

  function LightBytes(light: Option<NibbleArray>): (r: seq<byte>)
  {
    WriteBoolean(light.Some?) + (if light.Some? then light.value.backing else [])
  }

  function PaletteBytes(palette: seq<Option<Tag>>, f: Codecs): seq<byte>
  {
    if |palette| == 0 then []
    else
      var entry := SerializeCompoundTag(palette[0], f);
      WriteInt(|entry|) + entry + PaletteBytes(palette[1..], f)
  }

  /**
   * One non-null section.  The block data written depends on the world
   * version; a section of the other kind has the needed array null.
   */
  function SectionBytes(s: Section, worldVersion: int, f: Codecs): (r: Result<seq<byte>>)
    ensures r.Ok? <==> (worldVersion >= MODERN <==> s.ModernSection?)
    ensures r.Fail? ==> r.error == NullPointer
  {
    var body :-
      if worldVersion >= MODERN then
        if s.ModernSection? then
          Ok(WriteInt(|s.palette|) + PaletteBytes(s.palette, f) + WriteInt(|s.blockStates|) + WriteLongs(s.blockStates))
        else Fail(NullPointer)
      else if s.LegacySection? then Ok(s.blocks + s.data.backing)
      else Fail(NullPointer);
    Ok(LightBytes(s.blockLight) + body + LightBytes(s.skyLight))
  }

  /** The non-null sections, in order. */
  function SectionsBytes(sections: seq<Option<Section>>, worldVersion: int, f: Codecs): (r: Result<seq<byte>>)
    ensures r.Ok? <==> forall i :: 0 <= i < |sections| && sections[i].Some? ==>
                        (worldVersion >= MODERN <==> sections[i].value.ModernSection?)
    ensures r.Fail? ==> r.error == NullPointer
  {
    if |sections| == 0 then Ok([])
    else
      var head :- if sections[0].Some? then SectionBytes(sections[0].value, worldVersion, f) else Ok([]);
      var tail :- SectionsBytes(sections[1..], worldVersion, f);
      Ok(head + tail)
  }

  /** The positions of the non-null sections, counted from `offset`. */
  function PresentFrom(sections: seq<Option<Section>>, offset: nat): (r: seq<nat>)
    ensures forall k :: 0 <= k < |r| ==> offset <= r[k] < offset + |sections|
    ensures forall i :: offset <= i < offset + |sections| ==> (i in r <==> sections[i - offset].Some?)
    ensures Increasing(r)
  {
    if |sections| == 0 then []
    else
      var tail := PresentFrom(sections[1..], offset + 1);
      if sections[0].Some? then [offset] + tail else tail
  }

  function HeightMapBytes(c: Chunk, worldVersion: int, f: Codecs): (r: Result<seq<byte>>)
    ensures worldVersion >= MODERN ==> r.Ok?
    ensures worldVersion < MODERN ==>
              (r.Ok? <==> && IntArrayValue(Entries(c.heightMaps), "heightMap").Some?
                          && |IntArrayValue(Entries(c.heightMaps), "heightMap").value| >= HEIGHT_MAP_SIZE)
    ensures r.Fail? ==> r.error == NoSuchElement || r.error == IndexOutOfBounds
  {
    if worldVersion >= MODERN then
      var bytes := SerializeCompoundTag(Some(c.heightMaps), f);
      Ok(WriteInt(|bytes|) + bytes)
    else
      match IntArrayValue(Entries(c.heightMaps), "heightMap")
      case None => Fail(NoSuchElement)
      case Some(heightMap) =>
        if |heightMap| < HEIGHT_MAP_SIZE then Fail(IndexOutOfBounds)
        else Ok(WriteInts(heightMap[..HEIGHT_MAP_SIZE]))
  }

  /** Modern worlds prefix the biome array with its length; legacy worlds do not. */
  function BiomeBytes(c: Chunk, worldVersion: int): seq<byte>
  {
    (if worldVersion >= MODERN then WriteInt(|c.biomes|) else []) + WriteInts(c.biomes)
  }

  /**
   * One chunk: height maps, biomes, the two-byte mask of present sections, then
   * the sections.  A modern world refuses only a section of the other kind; a
   * legacy world also needs a 256-int "heightMap".
   */
  function ChunkBytes(c: Chunk, worldVersion: int, f: Codecs): (r: Result<seq<byte>>)
    ensures worldVersion >= MODERN ==>
              (r.Ok? <==> forall i :: 0 <= i < |c.sections| && c.sections[i].Some? ==> c.sections[i].value.ModernSection?)
    ensures worldVersion < MODERN && r.Ok? ==>
              && IntArrayValue(Entries(c.heightMaps), "heightMap").Some?
              && |IntArrayValue(Entries(c.heightMaps), "heightMap").value| >= HEIGHT_MAP_SIZE
    ensures r.Fail? ==> r.error == NoSuchElement || r.error == IndexOutOfBounds || r.error == NullPointer
  {
    var heights :- HeightMapBytes(c, worldVersion, f);
    var sections :- SectionsBytes(c.sections, worldVersion, f);
    Ok(heights + BiomeBytes(c, worldVersion) + WriteBitSetAsBytes(PresentFrom(c.sections, 0), 2) + sections)
  }

  /** `serializeChunks`: the chunks one after another, with no separators. */
  function ChunksBytes(cs: seq<Chunk>, worldVersion: int, f: Codecs): (r: Result<seq<byte>>)
  {
    if |cs| == 0 then Ok([])
    else
      var head :- ChunkBytes(cs[0], worldVersion, f);
      var tail :- ChunksBytes(cs[1..], worldVersion, f);
      Ok(head + tail)
  }

  // ---- Bounds and bitmask ----

  function Xs(cs: seq<Chunk>): (r: seq<int>)
    ensures |r| == |cs| && forall i :: 0 <= i < |cs| ==> r[i] == cs[i].x
  {
    seq(|cs|, i requires 0 <= i < |cs| => cs[i].x)
  }

  function Zs(cs: seq<Chunk>): (r: seq<int>)
    ensures |r| == |cs| && forall i :: 0 <= i < |cs| ==> r[i] == cs[i].z
  {
    seq(|cs|, i requires 0 <= i < |cs| => cs[i].z)
  }

  /** `IntStream.min().orElse(0)`. */
  function MinOr0(xs: seq<int>): (r: int)
    ensures |xs| == 0 ==> r == 0
    ensures |xs| > 0 ==> r in xs && forall i :: 0 <= i < |xs| ==> r <= xs[i]
  {
    if |xs| == 0 then 0
    else if |xs| == 1 then xs[0]
    else
      var m := MinOr0(xs[1..]);
      assert m in xs;
      if xs[0] < m then xs[0] else m
  }

  /** `IntStream.max().orElse(0)`. */
  function MaxOr0(xs: seq<int>): (r: int)
    ensures |xs| == 0 ==> r == 0
    ensures |xs| > 0 ==> r in xs && forall i :: 0 <= i < |xs| ==> xs[i] <= r
  {
    if |xs| == 0 then 0
    else if |xs| == 1 then xs[0]
    else
      var m := MaxOr0(xs[1..]);
      assert m in xs;
      if xs[0] > m then xs[0] else m
  }

  /** The bit of a chunk, `(z - minZ) * width + x - minX` in int arithmetic. */
  function CellIndex(c: Chunk, minX: int, minZ: int, width: int): int
  {
    Wrap32((c.z - minZ) * width + c.x - minX)
  }

  /** The bit of each chunk; a negative one is an out-of-bounds index. */
  function MaskIndices(cs: seq<Chunk>, minX: int, minZ: int, width: int): (r: Result<seq<nat>>)
    ensures r.Ok? ==> |r.value| == |cs|
    ensures r.Ok? ==> forall i :: 0 <= i < |cs| ==> r.value[i] == CellIndex(cs[i], minX, minZ, width)
    ensures r.Ok? <==> forall i :: 0 <= i < |cs| ==> CellIndex(cs[i], minX, minZ, width) >= 0
    ensures r.Fail? ==> r.error == IndexOutOfBounds
  {
    if |cs| == 0 then Ok([])
    else
      var index := CellIndex(cs[0], minX, minZ, width);
      if index < 0 then Fail(IndexOutOfBounds)
      else
        var tail :- MaskIndices(cs[1..], minX, minZ, width);
        assert forall i :: 1 <= i < |cs| ==> cs[i] == cs[1..][i - 1];
        Ok([index as nat] + tail)
  }

  // ---- The file ----

  /** Everything `serialize` decides before it writes the first byte. */
  datatype Layout = Layout(
    worldVersion: int,
    minX: int,
    minZ: int,
    width: int,
    depth: int,
    mask: seq<byte>,
    chunkData: seq<byte>,
    tileData: seq<byte>,
    entityData: Option<seq<byte>>,
    extraData: seq<byte>,
    mapData: seq<byte>)

  /** The extra compound with the property map stored under "properties". */
  function StoreProperties(extra: Tag, properties: PropertyMap): (r: Tag)
    ensures r.CompoundTag? && r.name == extra.name
    ensures r.entries == Entries(extra)["properties" := ToCompound(properties)]
  {
    CompoundTag(extra.name, Entries(extra)["properties" := ToCompound(properties)])
  }

  function AllTiles(cs: seq<Chunk>): seq<Tag>
  {
    if |cs| == 0 then [] else cs[0].tileEntities + AllTiles(cs[1..])
  }

  function AllEntities(cs: seq<Chunk>): seq<Tag>
  {
    if |cs| == 0 then [] else cs[0].entities + AllEntities(cs[1..])
  }

  function TilesCompound(cs: seq<Chunk>): Tag
  {
    CompoundTag("tiles", map["tiles" := ListTag("tiles", AllTiles(cs))])
  }

  function EntitiesCompound(cs: seq<Chunk>): Tag
  {
    CompoundTag("entities", map["entities" := ListTag("entities", AllEntities(cs))])
  }

  function MapsCompound(maps: seq<Tag>): Tag
  {
    CompoundTag("", map["maps" := ListTag("maps", maps)])
  }

  function Plan(w: World, f: Codecs): (r: Result<Layout>)
  {
    var kept := KeptChunks(w);
    var minX := MinOr0(Xs(kept));
    var minZ := MinOr0(Zs(kept));
    var maxX := MaxOr0(Xs(kept));
    var maxZ := MaxOr0(Zs(kept));
    var width := Wrap32(maxX - minX + 1);
    var depth := Wrap32(maxZ - minZ + 1);
    var cells := Wrap32(width * depth);
    if cells < 0 then Fail(NegativeArraySize)
    else
      var indices :- MaskIndices(kept, minX, minZ, width);
      var chunkData :- ChunksBytes(kept, w.version, f);
      var entities := AllEntities(kept);
      Ok(Layout(
        w.version, minX, minZ, width, depth,
        WriteBitSetAsBytes(indices, CeilDiv8(cells)),
        chunkData,
        SerializeCompoundTag(Some(TilesCompound(kept)), f),
        if |entities| == 0 then None else Some(SerializeCompoundTag(Some(EntitiesCompound(kept)), f)),
        SerializeCompoundTag(Some(StoreProperties(w.extraData, w.properties)), f),
        SerializeCompoundTag(Some(MapsCompound(w.worldMaps)), f)))
  }

  /** A zstd frame: compressed length, uncompressed length, compressed bytes. */
  function Frame(data: seq<byte>, f: Codecs): seq<byte>
  {
    var compressed := f.compress(data);
    WriteInt(|compressed|) + WriteInt(|data|) + compressed
  }

  /** Header, versions, bounds and the chunk bitmask. */
  function HeaderBytes(l: Layout): seq<byte>
  {
    SLIME_HEADER + [SLIME_VERSION] + WriteByte(l.worldVersion)
    + WriteShort(l.minX) + WriteShort(l.minZ) + WriteShort(l.width) + WriteShort(l.depth)
    + l.mask
  }

  /** The five blobs; the entities only when there are any, behind a boolean saying so. */
  function BlobsBytes(l: Layout, f: Codecs): seq<byte>
  {
    Frame(l.chunkData, f)
    + Frame(l.tileData, f)
    + (if l.entityData.Some? then WriteBoolean(true) + Frame(l.entityData.value, f) else WriteBoolean(false))
    + Frame(l.extraData, f)
    + Frame(l.mapData, f)
  }

  function Emit(l: Layout, f: Codecs): seq<byte>
  {
    HeaderBytes(l) + BlobsBytes(l, f)
  }

  /** Whether every byte array the writer builds fits in a Java array. */
  predicate Fits(l: Layout, out: seq<byte>)
  {
    && |l.chunkData| <= MAX_ARRAY && |l.tileData| <= MAX_ARRAY && |l.extraData| <= MAX_ARRAY
    && |l.mapData| <= MAX_ARRAY && (l.entityData.Some? ==> |l.entityData.value| <= MAX_ARRAY)
    && |out| <= MAX_ARRAY
  }

  /**
   * `serialize()`.  The runtime exceptions the method lets escape are failures;
   * an array larger than Java allows is an OutOfMemoryError.
   */
  function Serialize(w: World, f: Codecs): (r: Result<seq<byte>>)
    ensures r.Ok? ==> |r.value| <= MAX_ARRAY
  {
    var l :- Plan(w, f);
    var out := Emit(l, f);
    if !Fits(l, out) then Fail(OutOfMemory) else Ok(out)
  }
}

=== FILE: format.dfy ===
/** Constants and shapes the Slime writer and reader agree on. */
module SlimeFormat {
  import opened Wrappers
  import opened Bytes
  import opened Tags

  const SLIME_HEADER: seq<byte> := [0xB1, 0x0B]
  const SLIME_VERSION: int := 9
  /** The first world version with the 1.13 block format (palettes and block states). */
  const MODERN: int := 4
  const LIGHT_SIZE: nat := 2048
  const BLOCKS_SIZE: nat := 4096
  const HEIGHT_MAP_SIZE: nat := 256
  /** Legacy worlds store 256 one-byte biomes, read back as 64 big-endian ints. */
  const LEGACY_BIOME_BYTES: nat := 256

  /** `(int) Math.ceil(n / 8.0)` for a non-negative int `n`. */
  function CeilDiv8(n: nat): (r: nat)
    ensures 8 * r >= n && 8 * r < n + 8
  {
    (n + 7) / 8
  }

  /** The height-map compound of a pre-1.13 chunk: one int array named "heightMap". */
  function LegacyHeightMaps(heightMap: seq<int>): (r: Tag)
    ensures r.CompoundTag? && r.name == "" && r.entries.Keys == {"heightMap"}
    ensures IntArrayValue(r.entries, "heightMap") == Some(heightMap)
  {
    CompoundTag("", map["heightMap" := IntArrayTag("heightMap", heightMap)])
  }
}

=== FILE: grid_proofs.dfy ===
/**
 * The chunk grid: the writer emits chunks in ascending key order and sets the
 * bit of each chunk's cell; the reader scans the cells row by row and reads a
 * chunk wherever a bit is set.  Both orders agree, so every chunk is read back
 * at its own coordinates.
 */
module GridProofs {
  import opened Wrappers
  import opened Bytes
  import opened Foreign
  import opened Worlds
  import opened BitSets
  import opened SlimeFormat
  import opened Encoder
  import opened Decoder
  import opened ChunkProofs

  /** The cell of a chunk: `(z - minZ) * width + x - minX`. */
  function CellOf(c: Chunk, g: Grid): int
  {
    (c.z - g.minZ) * g.width + (c.x - g.minX)
  }

  function Cells(cs: seq<Chunk>, g: Grid): (r: seq<int>)
    ensures |r| == |cs| && forall t :: 0 <= t < |cs| ==> r[t] == CellOf(cs[t], g)
  {
    seq(|cs|, t requires 0 <= t < |cs| => CellOf(cs[t], g))
  }

  predicate InGrid(c: Chunk, g: Grid)
  {
    g.minX <= c.x < g.minX + g.width && g.minZ <= c.z < g.minZ + g.depth
  }

  /** The reader's map after it has read `cs` in order on top of `acc`. */
  function Collect(acc: map<int, Chunk>, cs: seq<Chunk>, name: string): map<int, Chunk>
    decreases |cs|
  {
    if |cs| == 0 then acc else Collect(acc[KeyOf(cs[0]) := Bare(cs[0], name)], cs[1..], name)
  }

  /** What the grid proof assumes of the header and of where the chunks lie. */
  predicate GridShape(g: Grid, kept: seq<Chunk>)
  {
    && g.version == SLIME_VERSION && g.width > 0 && g.depth > 0
    && KeysIncreasing(kept)
    && (forall t :: 0 <= t < |kept| ==> InGrid(kept[t], g) && InKeyRange(kept[t].x))
    && (forall n :: 0 <= n < g.width * g.depth ==> (BitSets.Get(g.mask, n) <==> n in Cells(kept, g)))
  }

  /** Every chunk of the list can be written and read back. */
  ghost predicate AllFit(cs: seq<Chunk>, worldVersion: int, f: Codecs)
    decreases |cs|
  {
    |cs| == 0 || (ChunkFits(cs[0], worldVersion, f) && AllFit(cs[1..], worldVersion, f))
  }

  // ---- Arithmetic on cells ----

  /** Row-major order: an earlier row, or the same row and an earlier column, is an earlier cell. */
  lemma CellLess(za: nat, xa: nat, zb: nat, xb: nat, w: nat)
    requires xa < w && xb < w
    requires za < zb || (za == zb && xa < xb)
    ensures za * w + xa < zb * w + xb
  {
    if za < zb {
      MulNonNegative(zb - za - 1, w);
      assert zb * w == za * w + (zb - za - 1) * w + w;
    }
  }

  lemma CellBelow(z: nat, x: nat, w: nat, d: nat)
    requires x < w && z < d
    ensures z * w + x < w * d
  {
    CellLess(z, x, d, 0, w);
    assert d * w == w * d;
  }

  /** Chunks in ascending key order have ascending cells. */
  lemma CellsIncreasing(g: Grid, kept: seq<Chunk>, a: nat, b: nat)
    requires GridShape(g, kept) && a < b < |kept|
    ensures CellOf(kept[a], g) < CellOf(kept[b], g)
  {
    var ca, cb := kept[a], kept[b];
    assert InGrid(ca, g) && InGrid(cb, g) && InKeyRange(ca.x) && InKeyRange(cb.x);
    ChunkKeyOrder(ca.x, ca.z, cb.x, cb.z);
    CellLess(ca.z - g.minZ, ca.x - g.minX, cb.z - g.minZ, cb.x - g.minX, g.width);
  }

  lemma CellsInside(g: Grid, kept: seq<Chunk>)
    requires GridShape(g, kept)
    ensures forall t :: 0 <= t < |kept| ==> 0 <= CellOf(kept[t], g) < g.width * g.depth
  {
    forall t | 0 <= t < |kept|
      ensures 0 <= CellOf(kept[t], g) < g.width * g.depth
    {
      assert InGrid(kept[t], g);
      MulNonNegative(kept[t].z - g.minZ, g.width);
      CellBelow(kept[t].z - g.minZ, kept[t].x - g.minX, g.width, g.depth);
    }
  }

  // ---- The scan ----

  /** The coordinates of the chunks, in order. */
  function Coords(cs: seq<Chunk>): (r: seq<(int, int)>)
    ensures |r| == |cs| && forall t :: 0 <= t < |cs| ==> r[t] == (cs[t].x, cs[t].z)
  {
    seq(|cs|, t requires 0 <= t < |cs| => (cs[t].x, cs[t].z))
  }

  lemma CoordsUnfold(cs: seq<Chunk>, j: nat)
    requires j < |cs|
    ensures Coords(cs[j..]) == [(cs[j].x, cs[j].z)] + Coords(cs[j + 1..])
  {
  }

  /** The grid position of cell `n`: column `n % width`, row `n / width`. */
  function Spot(g: Grid, n: int): (int, int)
    requires g.width > 0
  {
    (g.minX + n % g.width, g.minZ + n / g.width)
  }

  function Spots(g: Grid, cells: seq<int>): (r: seq<(int, int)>)
    requires g.width > 0
    ensures |r| == |cells| && forall t :: 0 <= t < |cells| ==> r[t] == Spot(g, cells[t])
  {
    seq(|cells|, t requires 0 <= t < |cells| => Spot(g, cells[t]))
  }

  /** Ascending cells below `n`, exactly those whose mask bit is set. */
  predicate Marks(g: Grid, n: nat, cells: seq<int>)
  {
    && (forall a, b :: 0 <= a < b < |cells| ==> cells[a] < cells[b])
    && (forall t :: 0 <= t < |cells| ==> 0 <= cells[t] < n)
    && (forall k: nat :: k < n ==> (BitSets.Get(g.mask, k) <==> k in cells))
  }

  /**
   * The scan stands at cell `i`: `cells[..j]` lie before it, `cells[j..]` at or
   * after it.  Cells ascend, so the two neighbours of `j` decide.
   */
  predicate Ahead(cells: seq<int>, j: nat, i: int)
  {
    && j <= |cells|
    && (0 < j ==> cells[j - 1] < i)
    && (j < |cells| ==> cells[j] >= i)
  }

  /** The set cells from cell `i` up to cell `n`, in ascending order. */
  function Visited(g: Grid, n: nat, i: nat): seq<int>
    decreases n - i
  {
    if i >= n then []
    else (if BitSets.Get(g.mask, i) then [i] else []) + Visited(g, n, i + 1)
  }

  /** At cell `i`: the bit is set exactly when the next cell is `i`; either way the scan moves on. */
  lemma ScanCell(g: Grid, n: nat, cells: seq<int>, j: nat, i: nat)
    requires Marks(g, n, cells) && i < n && Ahead(cells, j, i)
    ensures BitSets.Get(g.mask, i) ==> j < |cells| && cells[j] == i && Ahead(cells, j + 1, i + 1)
    ensures !BitSets.Get(g.mask, i) ==> Ahead(cells, j, i + 1)
  {
    if BitSets.Get(g.mask, i) {
      assert i in cells;
      var t :| 0 <= t < |cells| && cells[t] == i;
      if j + 1 < |cells| {
        assert cells[j] < cells[j + 1];
      }
    } else if j < |cells| {
      assert cells[j] in cells;
    }
  }

  /** From cell `i` on, with `cells[..j]` behind the scan and `cells[j..]` ahead, the scan visits `cells[j..]`. */
  lemma {:induction false} ScanLoop(g: Grid, n: nat, cells: seq<int>, j: nat, i: nat)
    requires Marks(g, n, cells) && i <= n && Ahead(cells, j, i)
    ensures Visited(g, n, i) == cells[j..]
    decreases n - i
  {
    if i == n {
      ScanEnd(g, n, cells, j);
    } else {
      ScanCell(g, n, cells, j, i);
      VisitedStep(g, n, i);
      if BitSets.Get(g.mask, i) {
        ScanLoop(g, n, cells, j + 1, i + 1);
        SliceHead(cells, j);
      } else {
        ScanLoop(g, n, cells, j, i + 1);
        assert [] + cells[j..] == cells[j..];
      }
    }
  }

  lemma VisitedStep(g: Grid, n: nat, i: nat)
    requires i < n
    ensures Visited(g, n, i) == (if BitSets.Get(g.mask, i) then [i] else []) + Visited(g, n, i + 1)
  {
  }

  /** At the last cell the scan has passed every marked cell. */
  lemma ScanEnd(g: Grid, n: nat, cells: seq<int>, j: nat)
    requires Marks(g, n, cells) && Ahead(cells, j, n)
    ensures cells[j..] == []
  {
  }

  lemma SliceHead<T>(s: seq<T>, j: nat)
    requires j < |s|
    ensures s[j..] == [s[j]] + s[j + 1..]
  {
  }

  /** Cell `z * width + x` of a grid sits at column x and row z. */
  lemma SpotOf(g: Grid, z: nat, x: nat)
    requires x < g.width
    ensures Spot(g, z * g.width + x) == (g.minX + x, g.minZ + z)
  {
    DivModUnique(z * g.width + x, g.width, z, x);
  }

  /** One cell of the reader's row-major walk, as one step of the scan. */
  lemma WalkStep(g: Grid, z: nat, x: nat)
    requires x < g.width && z < g.depth
    ensures var i := z * g.width + x;
            && i < g.width * g.depth
            && SetCells(g, z, x)
               == (if BitSets.Get(g.mask, i) then [(g.minX + x, g.minZ + z)] else []) + SetCells(g, z, x + 1)
            && Visited(g, g.width * g.depth, i)
               == (if BitSets.Get(g.mask, i) then [i] else []) + Visited(g, g.width * g.depth, i + 1)
  {
    CellBelow(z, x, g.width, g.depth);
    MulNonNegative(z, g.width);
  }

  /** The reader's walk over rows and columns visits the spots of the scanned cells. */
  lemma {:induction false} WalkIsScan(g: Grid, z: nat, x: nat)
    requires g.width > 0 && g.depth > 0 && z <= g.depth && x <= g.width
    ensures 0 <= z * g.width + x
    ensures SetCells(g, z, x) == Spots(g, Visited(g, g.width * g.depth, z * g.width + x))
    decreases g.depth - z, g.width - x
  {
    if z == g.depth {
      WalkEnd(g, z, x);
    } else if x == g.width {
      WalkIsScan(g, z + 1, 0);
      WalkRow(g, z);
    } else {
      WalkIsScan(g, z, x + 1);
      WalkCell(g, z, x);
    }
  }

  lemma WalkEnd(g: Grid, z: nat, x: nat)
    requires g.width > 0 && z == g.depth
    ensures 0 <= z * g.width + x
    ensures SetCells(g, z, x) == Spots(g, Visited(g, g.width * g.depth, z * g.width + x))
  {
    MulNonNegative(z, g.width);
    assert z * g.width == g.width * g.depth;
  }

  lemma WalkRow(g: Grid, z: nat)
    requires g.width > 0 && z < g.depth
    requires 0 <= (z + 1) * g.width + 0
    requires SetCells(g, z + 1, 0) == Spots(g, Visited(g, g.width * g.depth, (z + 1) * g.width + 0))
    ensures 0 <= z * g.width + g.width
    ensures SetCells(g, z, g.width) == Spots(g, Visited(g, g.width * g.depth, z * g.width + g.width))
  {
    assert (z + 1) * g.width + 0 == z * g.width + g.width;
  }

  lemma WalkCell(g: Grid, z: nat, x: nat)
    requires x < g.width && z < g.depth
    requires 0 <= z * g.width + (x + 1)
    requires SetCells(g, z, x + 1) == Spots(g, Visited(g, g.width * g.depth, z * g.width + (x + 1)))
    ensures 0 <= z * g.width + x
    ensures SetCells(g, z, x) == Spots(g, Visited(g, g.width * g.depth, z * g.width + x))
  {
    var i := z * g.width + x;
    var n := g.width * g.depth;
    WalkStep(g, z, x);
    SpotOf(g, z, x);
    MulNonNegative(z, g.width);
    var head := if BitSets.Get(g.mask, i) then [i] else [];
    SpotsConcat(g, head, Visited(g, n, i + 1));
  }

  lemma SpotsConcat(g: Grid, a: seq<int>, b: seq<int>)
    requires g.width > 0
    ensures Spots(g, a + b) == Spots(g, a) + Spots(g, b)
  {
  }

  /** The cells of chunks laid out on the grid mark the mask, and their spots are the chunks' coordinates. */
  lemma ChunkCells(g: Grid, kept: seq<Chunk>)
    requires GridShape(g, kept)
    ensures 0 <= g.width * g.depth
    ensures Marks(g, g.width * g.depth, Cells(kept, g)) && Spots(g, Cells(kept, g)) == Coords(kept)
  {
    var cells := Cells(kept, g);
    MulNonNegative(g.width, g.depth);
    CellsInside(g, kept);
    forall a, b | 0 <= a < b < |cells|
      ensures cells[a] < cells[b]
    {
      CellsIncreasing(g, kept, a, b);
    }
    forall t | 0 <= t < |kept|
      ensures Spot(g, cells[t]) == (kept[t].x, kept[t].z)
    {
      assert InGrid(kept[t], g);
      DivModUnique(CellOf(kept[t], g), g.width, kept[t].z - g.minZ, kept[t].x - g.minX);
    }
  }

  /** The reader visits the cells of exactly the written chunks, in the order they were written. */
  lemma ScanRoundTrip(g: Grid, kept: seq<Chunk>)
    requires GridShape(g, kept)
    ensures SetCells(g, 0, 0) == Coords(kept)
  {
    var cells := Cells(kept, g);
    ChunkCells(g, kept);
    assert cells[0..] == cells;
    ScanLoop(g, g.width * g.depth, cells, 0, 0);
    WalkIsScan(g, 0, 0);
    assert 0 * g.width + 0 == 0;
  }

  // ---- Reading the chunks ----

  /** Reading chunk after chunk from `s` yields the parts of the chunks `cs`, in order. */
  predicate ReadsAs(g: Grid, cs: seq<Chunk>, s: seq<byte>, f: Codecs)
    decreases |cs|
  {
    || |cs| == 0
    || (var r := ReadChunkParts(g, s, f);
        && r.Ok? && r.value.value == PartsOf(cs[0])
        && ReadsAs(g, cs[1..], r.value.rest, f))
  }

  lemma ChunkThenRest(g: Grid, c: Chunk, f: Codecs, tail: seq<byte>, rest: seq<byte>)
    requires Faithful(f) && g.version == SLIME_VERSION && ChunkFits(c, g.worldVersion, f)
    ensures ChunkBytes(c, g.worldVersion, f).Ok?
    ensures ReadChunkParts(g, ChunkBytes(c, g.worldVersion, f).value + tail + rest, f)
            == Ok(Parsed(PartsOf(c), tail + rest))
  {
    ChunkRoundTrip(g, c, f, tail + rest);
    PartsRegrouped(g, ChunkBytes(c, g.worldVersion, f).value, tail, rest, f);
  }

  /** Reading chunk parts does not depend on how the input was concatenated. */
  lemma PartsRegrouped(g: Grid, head: seq<byte>, tail: seq<byte>, rest: seq<byte>, f: Codecs)
    ensures ReadChunkParts(g, head + tail + rest, f) == ReadChunkParts(g, head + (tail + rest), f)
  {
    assert head + tail + rest == head + (tail + rest);
  }

  /** The written chunks, read back one after another. */
  lemma {:induction false} ChunksReadAs(g: Grid, cs: seq<Chunk>, f: Codecs, rest: seq<byte>)
    requires Faithful(f) && g.version == SLIME_VERSION && AllFit(cs, g.worldVersion, f)
    ensures ChunksBytes(cs, g.worldVersion, f).Ok?
    ensures ReadsAs(g, cs, ChunksBytes(cs, g.worldVersion, f).value + rest, f)
    decreases |cs|
  {
    if |cs| == 0 {
      assert ReadsAs(g, cs, ChunksBytes(cs, g.worldVersion, f).value + rest, f);
    } else {
      ChunksReadAs(g, cs[1..], f, rest);
      var tail := ChunksBytes(cs[1..], g.worldVersion, f).value;
      ChunkThenRest(g, cs[0], f, tail, rest);
      assert ChunksBytes(cs, g.worldVersion, f).value == ChunkBytes(cs[0], g.worldVersion, f).value + tail;
    }
  }

  /** Parts read at the coordinates of `c` make `c` itself, owned by the world. */
  lemma ReadChunkAt(g: Grid, c: Chunk, s: seq<byte>, s': seq<byte>, f: Codecs)
    requires ReadChunkParts(g, s, f) == Ok(Parsed(PartsOf(c), s'))
    ensures ReadChunk(g, c.x, c.z, s, f) == Ok(Parsed(Bare(c, g.name), s'))
  {
  }

  /** Reading at the coordinates of `cs` from a stream holding them collects `cs`. */
  lemma {:induction false} ReadListLoop(g: Grid, cs: seq<Chunk>, s: seq<byte>, f: Codecs, acc: map<int, Chunk>)
    requires ReadsAs(g, cs, s, f)
    ensures ReadChunkList(g, Coords(cs), s, f, acc) == Ok(Collect(acc, cs, g.name))
    decreases |cs|
  {
    if |cs| > 0 {
      var p := ReadChunkParts(g, s, f).value;
      var acc' := acc[KeyOf(cs[0]) := Bare(cs[0], g.name)];
      ReadListLoop(g, cs[1..], p.rest, f, acc');
      ReadChunkAt(g, cs[0], s, p.rest, f);
      assert cs[0..] == cs;
      CoordsUnfold(cs, 0);
      assert Coords(cs)[0] == (cs[0].x, cs[0].z) && Coords(cs)[1..] == Coords(cs[1..]);
    }
  }

  /** The reader's map is the written chunks, collected in order. */
  lemma ReadChunksRoundTrip(g: Grid, kept: seq<Chunk>, f: Codecs)
    requires Faithful(f) && GridShape(g, kept) && AllFit(kept, g.worldVersion, f)
    ensures ChunksBytes(kept, g.worldVersion, f).Ok?
    ensures ReadChunks(g, ChunksBytes(kept, g.worldVersion, f).value, f) == Ok(Collect(map[], kept, g.name))
  {
    ChunksReadAs(g, kept, f, []);
    var s := ChunksBytes(kept, g.worldVersion, f).value;
    assert s + [] == s;
    ScanRoundTrip(g, kept);
    ReadListLoop(g, kept, s, f, map[]);
  }
}

=== FILE: lease.dfy ===
/**
 * The world lease the database backends share: a world row or document stores
 * the time its lease was last taken or refreshed, in milliseconds; the lease
 * is fresh while no more than MAX_LOCK_TIME has passed since, and the holder
 * refreshes it every LOCK_INTERVAL.  Unlocking writes 0.
 */
module Leases {
  import opened Bytes

  const MAX_LOCK_TIME: int := 300000
  const LOCK_INTERVAL: int := 60000
  /** The timestamp an unlocked world carries. */
  const UNLOCKED: long := 0

  /**
   * `now - locked <= MAX_LOCK_TIME`: somebody holds the world.  The
   * subtraction is Java long arithmetic and wraps.
   */
  predicate Fresh(locked: long, now: long)
  {
    Wrap64(now - locked) <= MAX_LOCK_TIME
  }

  /** While the lease's age fits a long, the lease is fresh exactly when that age is at most MAX_LOCK_TIME. */
  lemma FreshByAge(locked: long, now: long)
    requires LONG_MIN <= now - locked <= LONG_MAX
    ensures Fresh(locked, now) <==> now - locked <= MAX_LOCK_TIME
  {
  }

  /**
   * A lock more than LONG_MAX milliseconds older than the clock wraps to a
   * negative age, so it reads as held however old it is.
   */
  lemma AncientLockHeld(locked: long, now: long)
    requires now - locked > LONG_MAX
    ensures Fresh(locked, now)
  {
    var d := now - locked;
    assert LONG_MAX < d < 0x1_0000_0000_0000_0000;
    var r := Wrap64(d);
    assert (d - r) % 0x1_0000_0000_0000_0000 == 0;
    assert d - r == 0x1_0000_0000_0000_0000;
  }

  /** For example a lock stamped LONG_MIN is held at time 0, although its age is 2^63. */
  lemma AncientLockExample()
    ensures 0 - LONG_MIN > MAX_LOCK_TIME && Fresh(LONG_MIN, 0)
  {
    AncientLockHeld(LONG_MIN, 0);
  }
}

=== FILE: lifecycle.dfy ===
/**
 * The plugin's world lifecycle operations (`SWMPlugin`) and `CraftSlimeWorld.clone`:
 * short compositions of a storage backend and the Slime codec.  A loader is a
 * name plus the state of one of the two backends; the clock is a parameter, and
 * the world converters (`WorldUpgrader`) are functions passed in.
 */
module Lifecycle {
  import opened Wrappers
  import opened Bytes
  import opened Tags
  import opened Foreign
  import opened Properties
  import opened Worlds
  import opened Encoder
  import opened Decoder
  import opened Leases
  import opened PlanProofs
  import opened RoundTrip
  import opened PluginImport
  import MysqlStore
  import MongoStore

  datatype Store = Relational(table: MysqlStore.Node) | Document(db: MongoStore.Node)

  /** A registered loader: its identity and the backend state this server sees. */
  datatype Loader = Loader(id: string, store: Store)

  /** The loader after a call, and what the call returned or threw. */
  datatype Step<T> = Step(loader: Loader, result: Result<T>)

  // ---- The loader interface over both backends ----

  function WorldExists(l: Loader, name: string): bool
  {
    match l.store
    case Relational(n) => MysqlStore.Exists(n, name)
    case Document(n) => MongoStore.Exists(n, name)
  }

  function LoadBytes(l: Loader, name: string, now: long, readOnly: bool): Step<seq<byte>>
  {
    match l.store
    case Relational(n) =>
      var o := MysqlStore.Load(n, name, now, readOnly); Step(l.(store := Relational(o.node)), o.result)
    case Document(n) =>
      var o := MongoStore.Load(n, name, now, readOnly); Step(l.(store := Document(o.node)), o.result)
  }

  function SaveBytes(l: Loader, name: string, bytes: seq<byte>, lock: bool, now: long): Step<()>
  {
    match l.store
    case Relational(n) => Step(l.(store := Relational(MysqlStore.Save(n, name, bytes, lock, now))), Ok(()))
    case Document(n) =>
      var o := MongoStore.Save(n, name, bytes, lock, now); Step(l.(store := Document(o.node)), o.result)
  }

  function UnlockWorld(l: Loader, name: string): Step<()>
  {
    match l.store
    case Relational(n) => var o := MysqlStore.Unlock(n, name); Step(l.(store := Relational(o.node)), o.result)
    case Document(n) => var o := MongoStore.Unlock(n, name); Step(l.(store := Document(o.node)), o.result)
  }

  function DeleteWorld(l: Loader, name: string): Step<()>
  {
    match l.store
    case Relational(n) => var o := MysqlStore.Delete(n, name); Step(l.(store := Relational(o.node)), o.result)
    case Document(n) => var o := MongoStore.Delete(n, name); Step(l.(store := Document(o.node)), o.result)
  }

  /** Nobody holds the world: this server does not refresh it and its lease is 0. */
  predicate Released(l: Loader, name: string)
  {
    match l.store
    case Relational(n) => name !in n.refreshing && name in n.table.rows && n.table.rows[name].locked == UNLOCKED
    case Document(n) => name !in n.refreshing && name in n.db.docs && n.db.docs[name] == MongoStore.Millis(UNLOCKED)
  }

  // ---- createEmptyWorld ----

  /** The world `createEmptyWorld` builds: no chunks, an empty extra compound, no maps. */
  function EmptyWorld(l: Loader, name: string, readOnly: bool, properties: PropertyMap, runtimeVersion: int): (w: World)
    ensures w.chunks == map[] && w.worldMaps == [] && w.extraData == CompoundTag("", map[])
    ensures w.name == name && w.loader == Some(l.id) && w.version == runtimeVersion
    ensures w.readOnly == readOnly && w.locked == !readOnly && w.properties == properties
  {
    World(name, map[], CompoundTag("", map[]), properties, readOnly, !readOnly, [], Some(l.id), runtimeVersion)
  }

  /**
   * `createEmptyWorld`: an existing name is WorldAlreadyExists; otherwise the
   * empty world is serialised and saved, leased unless it is read-only.
   */
  function CreateEmptyWorld(l: Loader, name: string, readOnly: bool, properties: PropertyMap, runtimeVersion: int,
                            now: long, f: Codecs): (s: Step<World>)
    ensures WorldExists(l, name) ==> s == Step(l, Fail(WorldAlreadyExists(name)))
    ensures s.result.Ok? ==> && !WorldExists(l, name)
                             && s.result.value == EmptyWorld(l, name, readOnly, properties, runtimeVersion)
                             && Serialize(s.result.value, f).Ok?
                             && SaveBytes(l, name, Serialize(s.result.value, f).value, !readOnly, now).result.Ok?
                             && s.loader == SaveBytes(l, name, Serialize(s.result.value, f).value, !readOnly, now).loader
  {
    if WorldExists(l, name) then Step(l, Fail(WorldAlreadyExists(name)))
    else
      var world := EmptyWorld(l, name, readOnly, properties, runtimeVersion);
      match Serialize(world, f)
      case Fail(e) => Step(l, Fail(e))
      case Ok(bytes) =>
        var saved := SaveBytes(l, name, bytes, !readOnly, now);
        if saved.result.Fail? then Step(saved.loader, Fail(saved.result.error)) else Step(saved.loader, Ok(world))
  }

  // ---- loadWorld ----

  /** The world converters between game versions, which are not part of this model. */
  datatype Converters = Converters(upgrade: World -> Result<World>, downgrade: World -> Result<World>)

  /** A world newer than the server is downgraded, an older one upgraded, one of the same version kept. */
  function Convert(r: Result<World>, runtimeVersion: int, conv: Converters): (c: Result<World>)
    ensures r.Fail? ==> c == r
    ensures r.Ok? && r.value.version > runtimeVersion ==> c == conv.downgrade(r.value)
    ensures r.Ok? && r.value.version < runtimeVersion ==> c == conv.upgrade(r.value)
    ensures r.Ok? && r.value.version == runtimeVersion ==> c == r
  {
    var w :- r;
    if w.version > runtimeVersion then conv.downgrade(w)
    else if w.version < runtimeVersion then conv.upgrade(w)
    else Ok(w)
  }

  /**
   * `loadWorld`: fetch the bytes (a failure there is thrown as is), then
   * deserialise and convert; when that fails after a writable fetch the world is
   * unlocked before the exception is rethrown, and an exception from the unlock
   * replaces it.
   */
  function LoadWorld(l: Loader, name: string, readOnly: bool, given: PropertyMap, runtimeVersion: int, now: long,
                     f: Codecs, conv: Converters): (s: Step<World>)
    ensures LoadBytes(l, name, now, readOnly).result.Fail? ==>
              s == Step(LoadBytes(l, name, now, readOnly).loader, Fail(LoadBytes(l, name, now, readOnly).result.error))
    ensures s.result.Ok? ==>
              && LoadBytes(l, name, now, readOnly).result.Ok?
              && s.loader == LoadBytes(l, name, now, readOnly).loader
              && s.result == Convert(Deserialize(l.id, name, LoadBytes(l, name, now, readOnly).result.value, given, readOnly, f),
                                     runtimeVersion, conv)
    ensures readOnly ==> s.loader == l
  {
    var fetched := LoadBytes(l, name, now, readOnly);
    if fetched.result.Fail? then Step(fetched.loader, Fail(fetched.result.error))
    else
      var world := Convert(Deserialize(l.id, name, fetched.result.value, given, readOnly, f), runtimeVersion, conv);
      if world.Ok? || readOnly then Step(fetched.loader, world)
      else
        var unlocked := UnlockWorld(fetched.loader, name);
        Step(unlocked.loader, if unlocked.result.Fail? then Fail(unlocked.result.error) else world)
  }

  // ---- migrateWorld ----

  /** The Slime world this server has loaded under the migrated name, if any. */
  datatype LoadedWorld = LoadedWorld(loaderId: Option<string>, readOnly: bool)

  datatype Migration = Migration(current: Loader, next: Loader, loaded: Option<LoadedWorld>, result: Result<()>)

  /**
   * `migrateWorld`: the destination may not have the name.  A world loaded here
   * from the current loader is pointed at the new one and, when writable,
   * unlocked so that the writable fetch succeeds; the new loader then keeps the
   * lease.  The bytes are fetched for writing, saved to the new loader, and
   * deleted from the current one.
   */
  function MigrateWorld(name: string, current: Loader, next: Loader, loaded: Option<LoadedWorld>, now: long): (m: Migration)
    ensures WorldExists(next, name) ==> m == Migration(current, next, loaded, Fail(WorldAlreadyExists(name)))
    ensures m.result.Ok? ==> !WorldExists(next, name)
    ensures !WorldExists(next, name) && loaded.Some? && loaded.value.loaderId == Some(current.id) ==>
              m.loaded == Some(loaded.value.(loaderId := Some(next.id)))
  {
    if WorldExists(next, name) then Migration(current, next, loaded, Fail(WorldAlreadyExists(name)))
    else
      var moving := loaded.Some? && loaded.value.loaderId == Some(current.id);
      var loaded' := if moving then Some(loaded.value.(loaderId := Some(next.id))) else loaded;
      var leaveLock := moving && !loaded.value.readOnly;
      var unlocked := if leaveLock then UnlockWorld(current, name) else Step(current, Ok(()));
      if unlocked.result.Fail? then Migration(unlocked.loader, next, loaded', Fail(unlocked.result.error))
      else
        var fetched := LoadBytes(unlocked.loader, name, now, false);
        if fetched.result.Fail? then Migration(fetched.loader, next, loaded', Fail(fetched.result.error))
        else
          var saved := SaveBytes(next, name, fetched.result.value, leaveLock, now);
          if saved.result.Fail? then Migration(fetched.loader, saved.loader, loaded', Fail(saved.result.error))
          else
            var deleted := DeleteWorld(fetched.loader, name);
            Migration(deleted.loader, saved.loader, loaded', deleted.result)
  }

  // ---- importWorld ----

  /**
   * `importWorld`: an existing name is WorldAlreadyExists; a vanilla world of
   * the directory's name loaded on this server is WorldLoaded; then the
   * directory is read, serialised (an index out of bounds meaning the world is
   * too big) and saved without a lease.
   */
  function ImportWorld(dir: WorldDir, worldName: string, l: Loader, vanillaLoaded: bool, io: Readers,
                       spawn: SpawnProperties, f: Codecs, now: long): (s: Step<()>)
    ensures WorldExists(l, worldName) ==> s == Step(l, Fail(WorldAlreadyExists(worldName)))
    ensures !WorldExists(l, worldName) && vanillaLoaded ==> s == Step(l, Fail(WorldLoaded(dir.name)))
    ensures !WorldExists(l, worldName) && !vanillaLoaded && ReadFromDirectory(dir, io, spawn).Fail? ==>
              s == Step(l, Fail(ReadFromDirectory(dir, io, spawn).error))
    ensures !WorldExists(l, worldName) && !vanillaLoaded && ReadFromDirectory(dir, io, spawn).Ok?
            && Serialize(ReadFromDirectory(dir, io, spawn).value, f) == Fail(IndexOutOfBounds) ==>
              s == Step(l, Fail(WorldTooBig(dir.name)))
    ensures s.result.Ok? ==>
              && ReadFromDirectory(dir, io, spawn).Ok? && Serialize(ReadFromDirectory(dir, io, spawn).value, f).Ok?
              && s == SaveBytes(l, worldName, Serialize(ReadFromDirectory(dir, io, spawn).value, f).value, false, now)
  {
    if WorldExists(l, worldName) then Step(l, Fail(WorldAlreadyExists(worldName)))
    else if vanillaLoaded then Step(l, Fail(WorldLoaded(dir.name)))
    else match ReadFromDirectory(dir, io, spawn)
      case Fail(e) => Step(l, Fail(e))
      case Ok(world) =>
        match Serialize(world, f)
        case Fail(e) => Step(l, Fail(if e == IndexOutOfBounds then WorldTooBig(dir.name) else e))
        case Ok(bytes) => SaveBytes(l, worldName, bytes, false, now)
  }

  // ---- generateWorld ----

  const NOT_LOCKED := "This world cannot be loaded, as it has not been locked."
  const SAME_NAME := "The clone world cannot have the same name as the original world!"

  /** `generateWorld` refuses a writable world that is not locked. */
  function GenerateWorld(w: World): (r: Result<()>)
    ensures r.Ok? <==> w.readOnly || w.locked
    ensures r.Fail? ==> r.error.IllegalArgument?
  {
    if !w.readOnly && !w.locked then Fail(IllegalArgument(NOT_LOCKED)) else Ok(())
  }

  // ---- clone ----

  datatype Cloned = Cloned(target: Option<Loader>, result: Result<World>)

  /**
   * `clone(worldName, loader, lock)`: the copy needs another name and, given a
   * loader, a name free there.  It shares chunks, extra data, properties and
   * maps; it is read-only exactly when no loader is given, keeps the original's
   * loader then, and is saved (with `lock` as the lease) only to a given loader.
   */
  function Clone(w: World, worldName: string, target: Option<Loader>, lock: bool, now: long, f: Codecs): (c: Cloned)
    ensures worldName == w.name ==> c == Cloned(target, Fail(IllegalArgument(SAME_NAME)))
    ensures worldName != w.name && target.Some? && WorldExists(target.value, worldName) ==>
              c == Cloned(target, Fail(WorldAlreadyExists(worldName)))
    ensures target.None? ==> c.target == target
    ensures c.result.Ok? ==>
              var copy := c.result.value;
              && copy.name == worldName && copy.name != w.name
              && copy.chunks == w.chunks && copy.extraData == w.extraData && copy.properties == w.properties
              && copy.worldMaps == w.worldMaps && copy.version == w.version
              && copy.locked == lock
              && (copy.readOnly <==> target.None?)
              && copy.loader == (if target.None? then w.loader else Some(target.value.id))
  {
    if worldName == w.name then Cloned(target, Fail(IllegalArgument(SAME_NAME)))
    else if target.Some? && WorldExists(target.value, worldName) then Cloned(target, Fail(WorldAlreadyExists(worldName)))
    else
      var copy := World(worldName, w.chunks, w.extraData, w.properties, target.None?, lock, w.worldMaps,
                        if target.None? then w.loader else Some(target.value.id), w.version);
      if target.None? then Cloned(None, Ok(copy))
      else match Serialize(copy, f)
        case Fail(e) => Cloned(target, Fail(e))
        case Ok(bytes) =>
          var saved := SaveBytes(target.value, worldName, bytes, lock, now);
          Cloned(Some(saved.loader), if saved.result.Fail? then Fail(saved.result.error) else Ok(copy))
  }

  // ---- Properties ----

  /** Whatever a loader saved, a read-only fetch returns. */
  lemma SavedThenFetched(l: Loader, name: string, bytes: seq<byte>, lock: bool, now: long, later: long)
    requires SaveBytes(l, name, bytes, lock, now).result.Ok?
    ensures LoadBytes(SaveBytes(l, name, bytes, lock, now).loader, name, later, true).result == Ok(bytes)
  {
    match l.store
    case Relational(n) => MysqlStore.SaveThenLoad(n, name, bytes, lock, now, later);
    case Document(n) => MongoStore.SaveThenLoad(n, name, bytes, lock, now, later);
  }

  /**
   * A world saved as its Slime bytes loads back: a read-only load on a server of
   * the world's version returns it as the reader rebuilds it, with the given
   * properties merged over the stored ones.
   */
  lemma StoredWorldLoads(l: Loader, name: string, w: World, lock: bool, now: long, later: long,
                         given: PropertyMap, f: Codecs, conv: Converters)
    requires Faithful(f) && Encodable(w, f) && WorldTagsFit(w) && Serialize(w, f).Ok?
    requires SaveBytes(l, name, Serialize(w, f).value, lock, now).result.Ok?
    ensures var saved := SaveBytes(l, name, Serialize(w, f).value, lock, now).loader;
            var version := Reloaded(w, l.id, name, given, true).version;
            LoadWorld(saved, name, true, given, version, later, f, conv).result == Ok(Reloaded(w, l.id, name, given, true))
  {
    SavedThenFetched(l, name, Serialize(w, f).value, lock, now, later);
    WorldRoundTrip(w, f, l.id, name, given, true);
  }

  /** A created world loads back on the server that created it. */
  lemma CreateThenLoad(l: Loader, name: string, readOnly: bool, properties: PropertyMap, runtimeVersion: int,
                       now: long, later: long, given: PropertyMap, f: Codecs, conv: Converters)
    requires Faithful(f) && -0x80 <= runtimeVersion < 0x80 && JavaTag(ToCompound(properties))
    requires CreateEmptyWorld(l, name, readOnly, properties, runtimeVersion, now, f).result.Ok?
    ensures var s := CreateEmptyWorld(l, name, readOnly, properties, runtimeVersion, now, f);
            LoadWorld(s.loader, name, true, given, runtimeVersion, later, f, conv).result
            == Ok(Reloaded(s.result.value, l.id, name, given, true))
  {
    var s := CreateEmptyWorld(l, name, readOnly, properties, runtimeVersion, now, f);
    var w := EmptyWorld(l, name, readOnly, properties, runtimeVersion);
    assert s.result.value == w;
    var bytes := Serialize(w, f).value;
    assert s.loader == SaveBytes(l, name, bytes, !readOnly, now).loader;
    EmptyWorldLoads(l, name, w, !readOnly, now, later, given, f, conv);
  }

  /** A saved world without chunks, maps or extra data loads back, keeping its version. */
  lemma EmptyWorldLoads(l: Loader, name: string, w: World, lock: bool, now: long, later: long,
                        given: PropertyMap, f: Codecs, conv: Converters)
    requires Faithful(f) && -0x80 <= w.version < 0x80 && JavaTag(ToCompound(w.properties))
    requires w.chunks == map[] && w.worldMaps == [] && w.extraData == CompoundTag("", map[])
    requires Serialize(w, f).Ok? && SaveBytes(l, name, Serialize(w, f).value, lock, now).result.Ok?
    ensures var saved := SaveBytes(l, name, Serialize(w, f).value, lock, now).loader;
            LoadWorld(saved, name, true, given, w.version, later, f, conv).result == Ok(Reloaded(w, l.id, name, given, true))
  {
    EmptyWorldEncodable(w, f);
    EmptyWorldTagsFit(w);
    VersionKept(w, l.id, name, given);
    StoredWorldLoads(l, name, w, lock, now, later, given, f, conv);
  }

  /** A world without chunks is reloaded with its own version. */
  lemma VersionKept(w: World, id: string, name: string, given: PropertyMap)
    requires w.chunks == map[]
    ensures Reloaded(w, id, name, given, true).version == w.version
  {
  }

  /** A world without chunks is encodable whenever its version fits the format's version byte. */
  lemma EmptyWorldEncodable(w: World, f: Codecs)
    requires w.chunks == map[] && -0x80 <= w.version < 0x80
    ensures Encodable(w, f)
  {
  }

  /** A world without chunks or maps, with an unnamed empty extra compound, has Java tags when its properties do. */
  lemma EmptyWorldTagsFit(w: World)
    requires w.chunks == map[] && w.worldMaps == [] && w.extraData == CompoundTag("", map[])
    requires JavaTag(ToCompound(w.properties))
    ensures WorldTagsFit(w)
  {
    NoneKept(w);
    assert JavaTag(w.extraData);
    assert JavaCompounds(AllTiles(KeptChunks(w))) && JavaCompounds(AllEntities(KeptChunks(w)));
    assert JavaCompounds(w.worldMaps);
  }

  /** A world without chunks keeps none. */
  lemma NoneKept(w: World)
    requires w.chunks == map[]
    ensures KeptChunks(w) == [] && AllTiles(KeptChunks(w)) == [] && AllEntities(KeptChunks(w)) == []
  {
    assert |SortedChunks(w.chunks)| == 0;
  }

  /** A failed writable load leaves the world released: unlocked and no longer refreshed here. */
  lemma FailedLoadReleases(l: Loader, name: string, given: PropertyMap, runtimeVersion: int, now: long,
                           f: Codecs, conv: Converters)
    requires LoadBytes(l, name, now, false).result.Ok?
    requires LoadWorld(l, name, false, given, runtimeVersion, now, f, conv).result.Fail?
    ensures Released(LoadWorld(l, name, false, given, runtimeVersion, now, f, conv).loader, name)
  {
  }

  /** Every world the reader returns, and every world created, may be handed to the server to generate. */
  lemma LoadedWorldsGenerate(loader: string, name: string, bytes: seq<byte>, given: PropertyMap, readOnly: bool, f: Codecs,
                             l: Loader, properties: PropertyMap, runtimeVersion: int)
    ensures Deserialize(loader, name, bytes, given, readOnly, f).Ok? ==>
              GenerateWorld(Deserialize(loader, name, bytes, given, readOnly, f).value).Ok?
    ensures GenerateWorld(EmptyWorld(l, name, readOnly, properties, runtimeVersion)).Ok?
  {
  }

  /**
   * A migration that succeeds moves the bytes: the new loader serves what the
   * current one served, and the current one no longer has the world.
   */
  lemma MigrationMoves(name: string, current: Loader, next: Loader, loaded: Option<LoadedWorld>, now: long, later: long)
    requires MigrateWorld(name, current, next, loaded, now).result.Ok?
    requires LoadBytes(current, name, now, true).result.Ok?
    ensures var m := MigrateWorld(name, current, next, loaded, now);
            && LoadBytes(m.next, name, later, true).result == LoadBytes(current, name, now, true).result
            && !WorldExists(m.current, name)
  {
    var m := MigrateWorld(name, current, next, loaded, now);
    var moving := loaded.Some? && loaded.value.loaderId == Some(current.id);
    var leaveLock := moving && !loaded.value.readOnly;
    var unlocked := if leaveLock then UnlockWorld(current, name) else Step(current, Ok(()));
    var fetched := LoadBytes(unlocked.loader, name, now, false);
    assert fetched.result == LoadBytes(current, name, now, true).result;
    SavedThenFetched(next, name, fetched.result.value, leaveLock, now, later);
  }

  /** A world first saved without a lease can be fetched for writing once the first lease interval has passed. */
  lemma UnleasedSaveIsFree(l: Loader, name: string, bytes: seq<byte>, now: long, later: long)
    requires !WorldExists(l, name) && later > MAX_LOCK_TIME + MysqlStore.INSERTED_LOCK
    requires SaveBytes(l, name, bytes, false, now).result.Ok?
    ensures LoadBytes(SaveBytes(l, name, bytes, false, now).loader, name, later, false).result == Ok(bytes)
  {
    match l.store
    case Relational(n) => MysqlStore.SaveWithoutLockIsFree(n, name, bytes, now, later);
    case Document(n) =>
  }

  /** An imported world is saved without a lease: once the first lease interval has passed, any server may take it. */
  lemma ImportedWorldIsFree(dir: WorldDir, worldName: string, l: Loader, io: Readers, spawn: SpawnProperties,
                            f: Codecs, now: long, later: long)
    requires ImportWorld(dir, worldName, l, false, io, spawn, f, now).result.Ok?
    requires later > MAX_LOCK_TIME + MysqlStore.INSERTED_LOCK
    ensures var s := ImportWorld(dir, worldName, l, false, io, spawn, f, now);
            LoadBytes(s.loader, worldName, later, false).result
            == Ok(Serialize(ReadFromDirectory(dir, io, spawn).value, f).value)
  {
    UnleasedSaveIsFree(l, worldName, Serialize(ReadFromDirectory(dir, io, spawn).value, f).value, now, later);
  }

  /** A clone to a loader is stored there under its new name, as the bytes of the copy. */
  lemma ClonedIsStored(w: World, worldName: string, target: Loader, lock: bool, now: long, later: long, f: Codecs)
    requires Clone(w, worldName, Some(target), lock, now, f).result.Ok?
    ensures var c := Clone(w, worldName, Some(target), lock, now, f);
            && c.target.Some?
            && Serialize(c.result.value, f).Ok?
            && LoadBytes(c.target.value, worldName, later, true).result == Ok(Serialize(c.result.value, f).value)
  {
    var c := Clone(w, worldName, Some(target), lock, now, f);
    var copy := c.result.value;
    SavedThenFetched(target, worldName, Serialize(copy, f).value, lock, now, later);
  }

  /**
   * A clone saved to a store loads back from it under its new name: a
   * read-only load on a server of the clone's version returns the clone as the
   * reader rebuilds it.
   */
  lemma CloneLoads(w: World, worldName: string, target: Loader, lock: bool, now: long, later: long,
                   given: PropertyMap, f: Codecs, conv: Converters)
    requires Clone(w, worldName, Some(target), lock, now, f).result.Ok?
    requires Faithful(f) && Encodable(Clone(w, worldName, Some(target), lock, now, f).result.value, f)
    requires WorldTagsFit(Clone(w, worldName, Some(target), lock, now, f).result.value)
    ensures var c := Clone(w, worldName, Some(target), lock, now, f);
            var back := Reloaded(c.result.value, target.id, worldName, given, true);
            && c.target.Some?
            && LoadWorld(c.target.value, worldName, true, given, back.version, later, f, conv).result == Ok(back)
  {
    var copy := Clone(w, worldName, Some(target), lock, now, f).result.value;
    StoredWorldLoads(target, worldName, copy, lock, now, later, given, f, conv);
  }
}

=== FILE: mongo_loader.dfy ===
/**
 * The document storage backend: world bytes in a file bucket (one file per
 * file name, the previous version kept under `<name>_backup`), one metadata
 * document per world holding the lock timestamp, and in each server the set of
 * world names whose lease it keeps refreshing.  Time is a parameter; storage
 * errors other than a missing file are not modelled.
 */
module MongoStore {
  import opened Wrappers
  import opened Bytes
  import opened Leases

  /** The `locked` field: a timestamp, or a boolean left by an older release. */
  datatype LockField = Millis(millis: long) | Flag(flag: bool)

  /** The shared database: the bucket's files by file name and the world documents by world name. */
  datatype Db = Db(files: map<string, seq<byte>>, docs: map<string, LockField>)

  datatype Node = Node(db: Db, refreshing: set<string>)

  datatype Outcome<T> = Outcome(node: Node, result: Result<T>)

  function BackupName(name: string): (r: string)
    ensures |r| > |name| && r[..|name|] == name
  {
    name + "_backup"
  }

  /** `getLong("locked")`: a boolean field is a ClassCastException. */
  function LockedMillis(f: LockField): (r: Result<long>)
    ensures r.Ok? <==> f.Millis?
    ensures r.Ok? ==> r.value == f.millis
    ensures r.Fail? ==> r.error == ClassCast
  {
    match f
    case Millis(t) => Ok(t)
    case Flag(_) => Fail(ClassCast)
  }

  /** `updateLock`: stamp the document (if any) with `now`; keep refreshing when forced or already refreshing. */
  function UpdateLock(n: Node, name: string, now: long, force: bool): (r: Node)
    ensures r.db.files == n.db.files && r.db.docs.Keys == n.db.docs.Keys
    ensures name in n.db.docs ==> r.db.docs[name] == Millis(now)
    ensures forall k :: k in n.db.docs && k != name ==> r.db.docs[k] == n.db.docs[k]
    ensures name in r.refreshing <==> force || name in n.refreshing
    ensures forall k :: k != name ==> (k in r.refreshing <==> k in n.refreshing)
  {
    var docs := if name in n.db.docs then n.db.docs[name := Millis(now)] else n.db.docs;
    Node(n.db.(docs := docs), if force || name in n.refreshing then n.refreshing + {name} else n.refreshing)
  }

  /** The scheduled refresh firing at `now`; a cancelled one does nothing. */
  function Refresh(n: Node, name: string, now: long): (r: Node)
    ensures name !in n.refreshing ==> r == n
    ensures name in n.refreshing ==> r == UpdateLock(n, name, now, false)
  {
    if name in n.refreshing then UpdateLock(n, name, now, false) else n
  }

  /**
   * `loadWorld`: no document is UnknownWorld; a writable load of a freshly
   * leased world is WorldInUse; otherwise a writable load takes the lease
   * before the file is downloaded, so a missing file fails with the lease held.
   */
  function Load(n: Node, name: string, now: long, readOnly: bool): (o: Outcome<seq<byte>>)
    ensures name !in n.db.docs ==> o == Outcome(n, Fail(UnknownWorld(name)))
    ensures name in n.db.docs && !readOnly && n.db.docs[name].Flag? ==> o == Outcome(n, Fail(ClassCast))
    ensures name in n.db.docs && !readOnly && n.db.docs[name].Millis? && Fresh(n.db.docs[name].millis, now) ==>
              o == Outcome(n, Fail(WorldInUse(name)))
    ensures name in n.db.docs && readOnly ==> o == Outcome(n, Download(n.db, name))
    ensures name in n.db.docs && !readOnly && n.db.docs[name].Millis? && !Fresh(n.db.docs[name].millis, now) ==>
              && o.result == Download(n.db, name)
              && o.node.db.files == n.db.files
              && name in o.node.db.docs && o.node.db.docs[name] == Millis(now)
              && name in o.node.refreshing
  {
    if name !in n.db.docs then Outcome(n, Fail(UnknownWorld(name)))
    else
      var leased: Result<Node> :=
        if readOnly then Ok(n)
        else match LockedMillis(n.db.docs[name])
          case Fail(e) => Fail(e)
          case Ok(locked) =>
            if Fresh(locked, now) then Fail(WorldInUse(name)) else Ok(UpdateLock(n, name, now, true));
      if leased.Fail? then Outcome(n, Fail(leased.error))
      else Outcome(leased.value, Download(n.db, name))
  }

  /** `downloadToStream`: the file's bytes; a missing file is a storage error. */
  function Download(db: Db, name: string): (r: Result<seq<byte>>)
    ensures r.Ok? <==> name in db.files
    ensures r.Ok? ==> r.value == db.files[name]
    ensures r.Fail? ==> r.error == StorageFailure
  {
    if name in db.files then Ok(db.files[name]) else Fail(StorageFailure)
  }

  /** The file part of `saveWorld`: the current file (if any) becomes the backup, then the new bytes are stored. */
  function Rotate(files: map<string, seq<byte>>, name: string, world: seq<byte>): (r: map<string, seq<byte>>)
    ensures name in r && r[name] == world
    ensures name in files ==> BackupName(name) in r && r[BackupName(name)] == files[name]
    ensures forall k :: k in files && k != name && k != BackupName(name) ==> k in r && r[k] == files[k]
    ensures r.Keys == files.Keys + {name} + (if name in files then {BackupName(name)} else {})
  {
    var kept := if name in files then files[BackupName(name) := files[name]] else files;
    kept[name := world]
  }

  /**
   * `saveWorld` as written: rotate the files, then insert a missing document
   * with `lock ? now : 0`, or, when `lock` is set and the existing lease is
   * stale, take the lease.  Reading an existing boolean field fails after
   * the files have changed.  A newly inserted locked document is not
   * registered for refreshing.
   */
  function SaveAsWritten(n: Node, name: string, world: seq<byte>, lock: bool, now: long): (o: Outcome<()>)
    ensures o.node.db.files == Rotate(n.db.files, name, world)
    ensures name in o.node.db.docs
    ensures name !in n.db.docs ==>
              o.result.Ok? && o.node.db.docs[name] == Millis(if lock then now else UNLOCKED)
              && o.node.refreshing == n.refreshing
    ensures name in n.db.docs && n.db.docs[name].Flag? ==> o.result == Fail(ClassCast) && o.node.db.docs == n.db.docs
  {
    var files := Rotate(n.db.files, name, world);
    var rotated := Node(n.db.(files := files), n.refreshing);
    if name !in n.db.docs then
      Outcome(Node(rotated.db.(docs := n.db.docs[name := Millis(if lock then now else UNLOCKED)]), n.refreshing), Ok(()))
    else match LockedMillis(n.db.docs[name])
      case Fail(e) => Outcome(rotated, Fail(e))
      case Ok(locked) =>
        if !Fresh(locked, now) && lock then Outcome(UpdateLock(rotated, name, now, true), Ok(()))
        else Outcome(rotated, Ok(()))
  }

  /**
   * `saveWorld` as evidently intended: the same, except that a document
   * inserted with a lock is also registered for refreshing, as a writable
   * load and the relational backend's save do.
   */
  function Save(n: Node, name: string, world: seq<byte>, lock: bool, now: long): (o: Outcome<()>)
    ensures o.node.db == SaveAsWritten(n, name, world, lock, now).node.db
    ensures o.result == SaveAsWritten(n, name, world, lock, now).result
    ensures name !in n.db.docs ==>
              o.node.refreshing == (if lock then n.refreshing + {name} else n.refreshing)
    ensures name in n.db.docs ==> o == SaveAsWritten(n, name, world, lock, now)
  {
    var o := SaveAsWritten(n, name, world, lock, now);
    if name !in n.db.docs && lock then Outcome(o.node.(refreshing := o.node.refreshing + {name}), o.result)
    else o
  }

  /** `unlockWorld`: stop refreshing, then write 0; no document is UnknownWorld. */
  function Unlock(n: Node, name: string): (o: Outcome<()>)
    ensures o.node.refreshing == n.refreshing - {name}
    ensures name !in n.db.docs ==> o.result == Fail(UnknownWorld(name)) && o.node.db == n.db
    ensures name in n.db.docs ==> o.result.Ok? && o.node.db == n.db.(docs := n.db.docs[name := Millis(UNLOCKED)])
  {
    var refreshing := n.refreshing - {name};
    if name !in n.db.docs then Outcome(Node(n.db, refreshing), Fail(UnknownWorld(name)))
    else Outcome(Node(n.db.(docs := n.db.docs[name := Millis(UNLOCKED)]), refreshing), Ok(()))
  }

  /**
   * `deleteWorld`: stop refreshing; no file is UnknownWorld; otherwise the
   * file, its backup and the document are removed.
   */
  function Delete(n: Node, name: string): (o: Outcome<()>)
    ensures o.node.refreshing == n.refreshing - {name}
    ensures o.result.Ok? <==> name in n.db.files
    ensures o.result.Fail? ==> o.result.error == UnknownWorld(name) && o.node.db == n.db
    ensures o.result.Ok? ==> o.node.db == Db(n.db.files - {name, BackupName(name)}, n.db.docs - {name})
  {
    var refreshing := n.refreshing - {name};
    if name !in n.db.files then Outcome(Node(n.db, refreshing), Fail(UnknownWorld(name)))
    else Outcome(Node(Db(n.db.files - {name, BackupName(name)}, n.db.docs - {name}), refreshing), Ok(()))
  }

  /** `isWorldLocked`: true while this server refreshes the name, else whether the lease is fresh. */
  function IsLocked(n: Node, name: string, now: long): (r: Result<bool>)
    ensures name in n.refreshing ==> r == Ok(true)
    ensures name !in n.refreshing && name !in n.db.docs ==> r == Fail(UnknownWorld(name))
    ensures name !in n.refreshing && name in n.db.docs ==>
              r == (if n.db.docs[name].Flag? then Fail(ClassCast) else Ok(Fresh(n.db.docs[name].millis, now)))
  {
    if name in n.refreshing then Ok(true)
    else if name !in n.db.docs then Fail(UnknownWorld(name))
    else
      var locked :- LockedMillis(n.db.docs[name]);
      Ok(Fresh(locked, now))
  }

  /** `worldExists`: whether a document exists. */
  function Exists(n: Node, name: string): (r: bool)
    ensures r <==> name in n.db.docs
  {
    name in n.db.docs
  }

  /** Every `locked` field is a timestamp. */
  predicate Migrated(db: Db)
  {
    forall k :: k in db.docs ==> db.docs[k].Millis?
  }

  /** `update`: every boolean `locked` field left by an older release becomes 0. */
  function Update(db: Db): (r: Db)
    ensures Migrated(r) && r.files == db.files && r.docs.Keys == db.docs.Keys
    ensures forall k :: k in db.docs && db.docs[k].Millis? ==> r.docs[k] == db.docs[k]
    ensures forall k :: k in db.docs && db.docs[k].Flag? ==> r.docs[k] == Millis(UNLOCKED)
  {
    db.(docs := map k | k in db.docs :: if db.docs[k].Flag? then Millis(UNLOCKED) else db.docs[k])
  }

  // ---- properties ----

  /** A migrated database is left as it is by a second update. */
  lemma UpdateIdempotent(db: Db)
    ensures Update(Update(db)) == Update(db)
  {
    assert Update(Update(db)).docs == Update(db).docs;
  }

  /** After the update no lease check can fail on a boolean field. */
  lemma UpdateRemovesClassCast(n: Node, name: string, now: long)
    ensures var m := Node(Update(n.db), n.refreshing);
            && IsLocked(m, name, now).Fail? ==> IsLocked(m, name, now) == Fail(UnknownWorld(name))
  {
  }

  /**
   * Mutual exclusion as in the relational backend: after one server's
   * writable load succeeds, another's within MAX_LOCK_TIME is refused.
   */
  lemma LeaseExcludes(db: Db, a: set<string>, b: set<string>, name: string, t1: long, t2: long)
    requires Load(Node(db, a), name, t1, false).result.Ok?
    requires t1 <= t2 <= t1 + MAX_LOCK_TIME
    ensures var shared := Load(Node(db, a), name, t1, false).node.db;
            Load(Node(shared, b), name, t2, false) == Outcome(Node(shared, b), Fail(WorldInUse(name)))
  {
  }

  /** A save keeps the previous bytes as the backup, and a read-only load then returns the new bytes. */
  lemma SaveThenLoad(n: Node, name: string, world: seq<byte>, lock: bool, now: long, later: long)
    requires Save(n, name, world, lock, now).result.Ok?
    ensures var s := Save(n, name, world, lock, now).node;
            && Load(s, name, later, true).result == Ok(world)
            && (name in n.db.files ==> s.db.files[BackupName(name)] == n.db.files[name])
  {
  }

  /**
   * The defect: a world saved for the first time with `lock` gets a fresh
   * timestamp but no refresh, so once MAX_LOCK_TIME has passed another
   * server's writable load succeeds although the saving server still holds
   * the world.
   */
  lemma NewLockedSaveLapses(n: Node, b: set<string>, name: string, world: seq<byte>, now: long, later: long)
    requires name !in n.db.docs && name !in n.refreshing
    requires now + MAX_LOCK_TIME < later <= now + LONG_MAX
    ensures var s := SaveAsWritten(n, name, world, true, now).node;
            && name !in s.refreshing
            && Refresh(s, name, later) == s
            && Load(Node(s.db, b), name, later, false).result == Ok(world)
  {
  }

  /**
   * With the correction a locked save always leaves the saving server
   * refreshing the lease when it created the document, so refreshes keep
   * every other server's writable load refused.
   */
  lemma NewLockedSaveHolds(n: Node, b: set<string>, name: string, world: seq<byte>, now: long, refreshed: long, later: long)
    requires name !in n.db.docs
    requires now <= refreshed && refreshed <= later <= refreshed + MAX_LOCK_TIME
    ensures var s := Save(n, name, world, true, now).node;
            var r := Refresh(s, name, refreshed);
            && name in s.refreshing
            && IsLocked(Node(r.db, b), name, later) == Ok(true)
            && Load(Node(r.db, b), name, later, false).result == Fail(WorldInUse(name))
  {
  }

  /** A deleted world is gone, its backup too, and deleting it again fails. */
  lemma DeleteForgets(n: Node, b: set<string>, name: string, now: long, readOnly: bool)
    requires Delete(n, name).result.Ok?
    ensures var d := Delete(n, name).node;
            && !Exists(Node(d.db, b), name) && BackupName(name) !in d.db.files
            && Load(Node(d.db, b), name, now, readOnly).result == Fail(UnknownWorld(name))
            && Delete(d, name).result == Fail(UnknownWorld(name))
  {
  }
}

=== FILE: mysql_loader.dfy ===
/**
 * The relational storage backend: a `worlds` table of (name, world bytes,
 * lock timestamp) rows and a one-row `database_version` table, shared by every
 * server, and in each server the set of world names whose lease it keeps
 * refreshing.  Time is a parameter; SQL errors are not modelled.
 */
module MysqlStore {
  import opened Wrappers
  import opened Bytes
  import opened Leases

  const CURRENT_DB_VERSION: int := 1
  /** The lock timestamp a row is inserted with. */
  const INSERTED_LOCK: long := 1

  datatype Row = Row(world: seq<byte>, locked: long)

  /** The shared database. */
  datatype Table = Table(rows: map<string, Row>, version: Option<int>)

  /** One server's view: the shared table and the worlds whose lease this server refreshes. */
  datatype Node = Node(table: Table, refreshing: set<string>)

  /** The state after an operation, and what it returned or threw. */
  datatype Outcome<T> = Outcome(node: Node, result: Result<T>)

  /** Every row other than `name`'s is as before. */
  predicate OthersKept(before: map<string, Row>, after: map<string, Row>, name: string)
  {
    forall k :: k in before && k != name ==> k in after && after[k] == before[k]
  }

  /**
   * `updateLock`: stamp the row (if any) with `now`; keep refreshing when
   * forced or when this server already refreshes the name.
   */
  function UpdateLock(n: Node, name: string, now: long, force: bool): (r: Node)
    ensures r.table.version == n.table.version && r.table.rows.Keys == n.table.rows.Keys
    ensures name in n.table.rows ==> r.table.rows[name] == n.table.rows[name].(locked := now)
    ensures OthersKept(n.table.rows, r.table.rows, name)
    ensures name in r.refreshing <==> force || name in n.refreshing
    ensures forall k :: k != name ==> (k in r.refreshing <==> k in n.refreshing)
  {
    var rows := if name in n.table.rows then n.table.rows[name := n.table.rows[name].(locked := now)] else n.table.rows;
    Node(n.table.(rows := rows), if force || name in n.refreshing then n.refreshing + {name} else n.refreshing)
  }

  /** The scheduled refresh firing at `now`; a cancelled one does nothing. */
  function Refresh(n: Node, name: string, now: long): (r: Node)
    ensures name !in n.refreshing ==> r == n
    ensures name in n.refreshing ==> r == UpdateLock(n, name, now, false)
  {
    if name in n.refreshing then UpdateLock(n, name, now, false) else n
  }

  /**
   * `loadWorld`: an unknown name fails; a writable load of a freshly leased
   * world fails with WorldInUse; otherwise a writable load takes the lease.
   */
  function Load(n: Node, name: string, now: long, readOnly: bool): (o: Outcome<seq<byte>>)
    ensures name !in n.table.rows ==> o == Outcome(n, Fail(UnknownWorld(name)))
    ensures name in n.table.rows && !readOnly && Fresh(n.table.rows[name].locked, now) ==>
              o == Outcome(n, Fail(WorldInUse(name)))
    ensures name in n.table.rows && readOnly ==> o == Outcome(n, Ok(n.table.rows[name].world))
    ensures name in n.table.rows && !readOnly && !Fresh(n.table.rows[name].locked, now) ==>
              && o.result == Ok(n.table.rows[name].world)
              && name in o.node.table.rows && o.node.table.rows[name] == Row(n.table.rows[name].world, now)
              && name in o.node.refreshing
              && OthersKept(n.table.rows, o.node.table.rows, name)
  {
    if name !in n.table.rows then Outcome(n, Fail(UnknownWorld(name)))
    else
      var row := n.table.rows[name];
      if readOnly then Outcome(n, Ok(row.world))
      else if Fresh(row.locked, now) then Outcome(n, Fail(WorldInUse(name)))
      else Outcome(UpdateLock(n, name, now, true), Ok(row.world))
  }

  /**
   * `saveWorld`: an upsert that inserts a new row with lock timestamp 1 and
   * otherwise replaces only the bytes; with `lock` the lease is then taken.
   */
  function Save(n: Node, name: string, world: seq<byte>, lock: bool, now: long): (r: Node)
    ensures name in r.table.rows && r.table.rows[name].world == world
    ensures r.table.rows.Keys == n.table.rows.Keys + {name}
    ensures OthersKept(n.table.rows, r.table.rows, name)
    ensures lock ==> r.table.rows[name].locked == now && name in r.refreshing
    ensures !lock ==> r.refreshing == n.refreshing
    ensures !lock && name in n.table.rows ==> r.table.rows[name].locked == n.table.rows[name].locked
    ensures !lock && name !in n.table.rows ==> r.table.rows[name].locked == INSERTED_LOCK
  {
    var locked := if name in n.table.rows then n.table.rows[name].locked else INSERTED_LOCK;
    var saved := Node(n.table.(rows := n.table.rows[name := Row(world, locked)]), n.refreshing);
    if lock then UpdateLock(saved, name, now, true) else saved
  }

  /** `unlockWorld`: stop refreshing, then write 0; an unknown name fails after the refresh is dropped. */
  function Unlock(n: Node, name: string): (o: Outcome<()>)
    ensures o.node.refreshing == n.refreshing - {name}
    ensures name !in n.table.rows ==> o.result == Fail(UnknownWorld(name)) && o.node.table == n.table
    ensures name in n.table.rows ==>
              && o.result.Ok?
              && o.node.table.rows == n.table.rows[name := n.table.rows[name].(locked := UNLOCKED)]
  {
    var refreshing := n.refreshing - {name};
    if name !in n.table.rows then Outcome(Node(n.table, refreshing), Fail(UnknownWorld(name)))
    else
      Outcome(Node(n.table.(rows := n.table.rows[name := n.table.rows[name].(locked := UNLOCKED)]), refreshing), Ok(()))
  }

  /** `deleteWorld`: stop refreshing, then remove the row; an unknown name fails. */
  function Delete(n: Node, name: string): (o: Outcome<()>)
    ensures o.node.refreshing == n.refreshing - {name}
    ensures o.result.Ok? <==> name in n.table.rows
    ensures o.result.Fail? ==> o.result.error == UnknownWorld(name)
    ensures o.node.table.rows == n.table.rows - {name} && o.node.table.version == n.table.version
  {
    var refreshing := n.refreshing - {name};
    if name !in n.table.rows then Outcome(Node(n.table, refreshing), Fail(UnknownWorld(name)))
    else Outcome(Node(n.table.(rows := n.table.rows - {name}), refreshing), Ok(()))
  }

  /** `isWorldLocked`: true while this server refreshes the name, else whether the lease is fresh. */
  function IsLocked(n: Node, name: string, now: long): (r: Result<bool>)
    ensures name in n.refreshing ==> r == Ok(true)
    ensures name !in n.refreshing && name !in n.table.rows ==> r == Fail(UnknownWorld(name))
    ensures name !in n.refreshing && name in n.table.rows ==> r == Ok(Fresh(n.table.rows[name].locked, now))
  {
    if name in n.refreshing then Ok(true)
    else if name !in n.table.rows then Fail(UnknownWorld(name))
    else Ok(Fresh(n.table.rows[name].locked, now))
  }

  /** `worldExists`. */
  function Exists(n: Node, name: string): (r: bool)
    ensures r <==> name in n.table.rows
  {
    name in n.table.rows
  }

  /**
   * `update`: the stored version (-1 when there is none) may not be newer than
   * the current one; an older database is migrated and stamped current.
   */
  function Update(t: Table): (r: Result<Table>)
    ensures t.version.GetOr(-1) > CURRENT_DB_VERSION ==>
              r == Fail(NewerDatabase(CURRENT_DB_VERSION, t.version.GetOr(-1)))
    ensures t.version.GetOr(-1) <= CURRENT_DB_VERSION ==>
              r.Ok? && r.value.version == Some(CURRENT_DB_VERSION) && r.value.rows == t.rows
  {
    var version := t.version.GetOr(-1);
    if version > CURRENT_DB_VERSION then Fail(NewerDatabase(CURRENT_DB_VERSION, version))
    else if version < CURRENT_DB_VERSION then Ok(t.(version := Some(CURRENT_DB_VERSION)))
    else Ok(t)
  }

  // ---- properties of the lease protocol ----

  /**
   * Mutual exclusion: once one server has loaded a world for writing, any
   * other server's writable load within MAX_LOCK_TIME is refused with
   * WorldInUse, and changes nothing.
   */
  lemma LeaseExcludes(t: Table, a: set<string>, b: set<string>, name: string, t1: long, t2: long)
    requires Load(Node(t, a), name, t1, false).result.Ok?
    requires t1 <= t2 <= t1 + MAX_LOCK_TIME
    ensures var shared := Load(Node(t, a), name, t1, false).node.table;
            Load(Node(shared, b), name, t2, false) == Outcome(Node(shared, b), Fail(WorldInUse(name)))
  {
  }

  /**
   * A refresh keeps the lease: the holder still refreshes afterwards, and for
   * MAX_LOCK_TIME after it every other server sees the world locked and is
   * refused a writable load.
   */
  lemma RefreshHolds(n: Node, b: set<string>, name: string, now: long, later: long)
    requires name in n.refreshing && name in n.table.rows
    requires now <= later <= now + MAX_LOCK_TIME
    ensures var r := Refresh(n, name, now);
            && name in r.refreshing
            && IsLocked(Node(r.table, b), name, later) == Ok(true)
            && Load(Node(r.table, b), name, later, false).result == Fail(WorldInUse(name))
  {
  }

  /**
   * Unlocking releases: the name is no longer refreshed (a later refresh does
   * nothing), and any server's writable load after the epoch's first
   * MAX_LOCK_TIME succeeds.
   */
  lemma UnlockReleases(n: Node, b: set<string>, name: string, now: long, later: long)
    requires name in n.table.rows && later > MAX_LOCK_TIME
    ensures var u := Unlock(n, name).node;
            && Refresh(u, name, now) == u
            && Load(Node(u.table, b), name, later, false).result == Ok(n.table.rows[name].world)
  {
  }

  /** What was saved is what a later load returns, whatever the lock flag and the clock. */
  lemma SaveThenLoad(n: Node, name: string, world: seq<byte>, lock: bool, now: long, later: long)
    ensures Load(Save(n, name, world, lock, now), name, later, true).result == Ok(world)
  {
  }

  /** A world saved without a lease can be taken by a writable load at once (after the epoch's first interval). */
  lemma SaveWithoutLockIsFree(n: Node, name: string, world: seq<byte>, now: long, later: long)
    requires name !in n.table.rows && later > MAX_LOCK_TIME + INSERTED_LOCK
    ensures Load(Save(n, name, world, false, now), name, later, false).result == Ok(world)
  {
  }

  /** A deleted world is gone for every server, and deleting it again fails. */
  lemma DeleteForgets(n: Node, b: set<string>, name: string, now: long, readOnly: bool)
    requires Delete(n, name).result.Ok?
    ensures var d := Delete(n, name).node;
            && !Exists(Node(d.table, b), name)
            && Load(Node(d.table, b), name, now, readOnly).result == Fail(UnknownWorld(name))
            && Delete(d, name).result == Fail(UnknownWorld(name))
  {
  }

  /** A second update changes nothing, and a database newer than the plugin is never touched. */
  lemma UpdateIdempotent(t: Table)
    ensures Update(t).Ok? ==> Update(Update(t).value) == Ok(Update(t).value)
    ensures Update(t).Fail? <==> t.version.GetOr(-1) > CURRENT_DB_VERSION
  {
  }
}

=== FILE: nibble.dfy ===
/**
 * A packed array of 4-bit values, two per byte: the even index in the low
 * nibble, the odd index in the high nibble.  Block light, sky light and legacy
 * block data are stored this way.
 */
module Nibbles {
  import opened Wrappers
  import opened Bytes

  datatype NibbleArray = NibbleArray(backing: seq<byte>)

  /** `new NibbleArray(size)`: `size / 2` zero bytes, Java division rounding toward zero. */
  function OfSize(size: int): (r: Result<NibbleArray>)
    ensures r.Ok? <==> size > -2
    ensures r.Ok? && size >= 0 ==> 2 * |r.value.backing| == size - size % 2
    ensures size == -1 ==> r.Ok? && r.value.backing == []
    ensures r.Ok? ==> forall i :: 0 <= i < |r.value.backing| ==> r.value.backing[i] == 0
    ensures r.Fail? ==> r.error == NegativeArraySize
  {
    var half := JavaDiv(size, 2);
    if half < 0 then Fail(NegativeArraySize) else Ok(NibbleArray(Zeros(half)))
  }

  /** The byte that holds `index`, or none when the Java array access would fail. */
  function Slot(a: NibbleArray, index: int): (r: Option<nat>)
    ensures r.Some? ==> r.value < |a.backing|
  {
    var half := JavaDiv(index, 2);
    if 0 <= half < |a.backing| then Some(half) else None
  }

  function Get(a: NibbleArray, index: int): (r: Result<int>)
    ensures r.Ok? <==> Slot(a, index).Some?
    ensures r.Ok? ==> 0 <= r.value < 16
    ensures r.Fail? ==> r.error == IndexOutOfBounds
  {
    match Slot(a, index)
    case None => Fail(IndexOutOfBounds)
    case Some(half) =>
      var b := a.backing[half];
      Ok(if JavaRem(index, 2) == 0 then b % 16 else b / 16)
  }

  /** `set(index, value)`: stores `value & 0xF`, keeping the other nibble of the byte. */
  function Set(a: NibbleArray, index: int, value: int): (r: Result<NibbleArray>)
    ensures r.Ok? <==> Slot(a, index).Some?
    ensures r.Ok? ==> |r.value.backing| == |a.backing|
    ensures r.Ok? ==> forall k :: 0 <= k < |a.backing| && Some(k) != Slot(a, index) ==>
                        r.value.backing[k] == a.backing[k]
    ensures r.Fail? ==> r.error == IndexOutOfBounds
  {
    match Slot(a, index)
    case None => Fail(IndexOutOfBounds)
    case Some(half) =>
      var nibble := value % 16;
      var b := a.backing[half];
      var updated := if JavaRem(index, 2) == 0 then (b / 16) * 16 + nibble else nibble * 16 + b % 16;
      Ok(NibbleArray(a.backing[half := updated]))
  }

  /** Reading back an index just written yields the written value masked to four bits. */
  lemma GetAfterSet(a: NibbleArray, index: int, value: int)
    requires Slot(a, index).Some?
    ensures Set(a, index, value).Ok?
    ensures Get(Set(a, index, value).value, index) == Ok(value % 16)
  {
  }

  /** Writing one non-negative index leaves every other non-negative index as it was. */
  lemma GetAfterSetOther(a: NibbleArray, index: int, other: int, value: int)
    requires 0 <= index && 0 <= other && index != other
    requires Slot(a, index).Some?
    ensures Get(Set(a, index, value).value, other) == Get(a, other)
  {
  }

  /**
   * Java division rounds toward zero, so index -1 shares byte 0 with index 1 and
   * reads and writes its high nibble.
   */
  lemma NegativeIndexAliases(a: NibbleArray, value: int)
    requires |a.backing| > 0
    ensures Get(Set(a, -1, value).value, 1) == Ok(value % 16)
  {
  }

  /** A fresh array of even size reads zero everywhere. */
  lemma FreshIsZero(size: nat, index: nat)
    requires index < size && size % 2 == 0
    ensures Get(OfSize(size).value, index) == Ok(0)
  {
  }
}

=== FILE: numerals.dfy ===
/**
 * Decimal numerals over ASCII digits: their value, the canonical numeral of a
 * number, and Java's `Integer.parseInt`.
 */
module Numerals {
  import opened Wrappers
  import opened Bytes

  predicate IsDigit(c: char)
  {
    '0' <= c <= '9'
  }

  predicate AllDigits(s: string)
  {
    forall i :: 0 <= i < |s| ==> IsDigit(s[i])
  }

  function DigitValue(c: char): (r: nat)
    requires IsDigit(c)
    ensures r < 10
  {
    c as int - '0' as int
  }

  function DigitChar(d: nat): (c: char)
    requires d < 10
    ensures IsDigit(c) && DigitValue(c) == d
  {
    ('0' as int + d) as char
  }

  /** The value of a string of digits, most significant digit first. */
  function Value(s: string): nat
    requires AllDigits(s)
    decreases |s|
  {
    if |s| == 0 then 0 else Value(s[..|s| - 1]) * 10 + DigitValue(s[|s| - 1])
  }

  /** The canonical numeral of `n`: its digits with no leading zero. */
  function Numeral(n: nat): (r: string)
    ensures |r| > 0 && AllDigits(r)
    ensures r[0] == '0' <==> n == 0
    ensures n == 0 ==> r == "0"
    decreases n
  {
    if n < 10 then [DigitChar(n)] else Numeral(n / 10) + [DigitChar(n % 10)]
  }

  /** A numeral denotes the number it was made from. */
  lemma {:induction false} NumeralValue(n: nat)
    ensures Value(Numeral(n)) == n
    decreases n
  {
    if n >= 10 {
      var r := Numeral(n);
      NumeralValue(n / 10);
      assert r[..|r| - 1] == Numeral(n / 10);
    }
  }

  /** The decimal form of a Java int: a minus sign for negative values. */
  function Render(v: int): (r: string)
    ensures |r| > 0
  {
    if v < 0 then "-" + Numeral(-v) else Numeral(v)
  }

  /**
   * `Integer.parseInt(s)`: an optional sign, then one or more digits whose value
   * is a Java int; anything else is a NumberFormatException.
   */
  function ParseInt(s: string): (r: Result<int>)
    ensures r.Ok? ==> IsInt(r.value)
    ensures r.Fail? ==> r.error == NumberFormat
    ensures |s| == 0 ==> r.Fail?
    ensures r.Ok? && s[0] != '-' && s[0] != '+' ==> AllDigits(s) && r.value == Value(s)
  {
    if |s| == 0 then Fail(NumberFormat)
    else
      var digits := if s[0] == '-' || s[0] == '+' then s[1..] else s;
      if |digits| == 0 || !AllDigits(digits) then Fail(NumberFormat)
      else
        var v: int := if s[0] == '-' then -(Value(digits) as int) else Value(digits);
        if IsInt(v) then Ok(v) else Fail(NumberFormat)
  }

  /** Every Java int is parsed back from its decimal form. */
  lemma ParseRender(v: int)
    requires IsInt(v)
    ensures ParseInt(Render(v)) == Ok(v)
  {
    if v < 0 {
      ParseNegative(-v);
    } else {
      ParseNumeral(v);
    }
  }

  lemma ParseNumeral(n: nat)
    requires IsInt(n)
    ensures ParseInt(Numeral(n)) == Ok(n)
  {
    NumeralValue(n);
    assert Numeral(n)[0] != '-' && Numeral(n)[0] != '+';
  }

  lemma ParseNegative(n: nat)
    requires IsInt(-(n as int))
    ensures ParseInt("-" + Numeral(n)) == Ok(-(n as int))
  {
    var s := "-" + Numeral(n);
    NumeralValue(n);
    assert s[0] == '-' && s[1..] == Numeral(n);
  }
}

=== FILE: plan_proofs.dfy ===
/**
 * What `serialize` decides before writing: which chunks it keeps, the bounds
 * of the grid they span and the bitmask of their cells.  For a world whose
 * stored chunks fit the format, the layout succeeds and its header describes
 * exactly where the kept chunks lie.
 */
module PlanProofs {
  import opened Wrappers
  import opened Bytes
  import opened Tags
  import opened Foreign
  import opened Worlds
  import opened BitSets
  import opened SlimeFormat
  import opened Encoder
  import opened Decoder
  import opened ChunkProofs
  import opened GridProofs
  import opened AttachProofs
  import opened ContainerProofs
  import Properties

  /** A chunk the writer stores (it has a section). */
  predicate Kept(w: World, k: int)
  {
    k in w.chunks && HasSections(w.chunks[k])
  }

  /**
   * A stored chunk that can be written and read back: its parts fit the format,
   * its coordinates fit the header's 16-bit fields, and its entities and tile
   * entities lie inside it.
   */
  ghost predicate Storable(c: Chunk, worldVersion: int, f: Codecs)
  {
    && ChunkFits(c, worldVersion, f)
    && -0x8000 <= c.x < 0x8000 && -0x8000 <= c.z < 0x8000
    && AllPlaced(Entities, c) && AllPlaced(Tiles, c)
  }

  /**
   * The world's tags are ones the Java classes hold: the tile entities and the
   * entities of the stored chunks, and the maps, are unnamed compounds of int
   * count; the extra data and the property compound are Java tags.
   */
  ghost predicate WorldTagsFit(w: World)
  {
    && JavaCompounds(AllTiles(KeptChunks(w))) && JavaCompounds(AllEntities(KeptChunks(w)))
    && JavaCompounds(w.worldMaps)
    && JavaTag(w.extraData) && JavaTag(Properties.ToCompound(w.properties))
  }

  /**
   * A world the writer can lay out: chunks under their own keys, a world
   * version that fits a byte, storable chunks, and a span of stored chunks
   * narrow enough that width and depth fit a 16-bit field.
   */
  ghost predicate Encodable(w: World, f: Codecs)
  {
    && KeysMatch(w.chunks)
    && -0x80 <= w.version < 0x80
    && (forall k :: Kept(w, k) ==> Storable(w.chunks[k], w.version, f))
    && (forall a, b :: Kept(w, a) && Kept(w, b) ==>
          w.chunks[a].x - w.chunks[b].x < 0x7FFF && w.chunks[a].z - w.chunks[b].z < 0x7FFF)
  }

  /** The kept chunks are exactly the stored chunks of the world, in ascending key order. */
  lemma KeptMembers(w: World)
    requires KeysMatch(w.chunks)
    ensures KeysIncreasing(KeptChunks(w))
    ensures forall t :: 0 <= t < |KeptChunks(w)| ==>
              Kept(w, KeyOf(KeptChunks(w)[t])) && w.chunks[KeyOf(KeptChunks(w)[t])] == KeptChunks(w)[t]
    ensures forall k :: Kept(w, k) <==> k in KeySet(KeptChunks(w))
  {
    var sorted := SortedChunks(w.chunks);
    var kept := KeptChunks(w);
    forall t | 0 <= t < |kept|
      ensures Kept(w, KeyOf(kept[t])) && w.chunks[KeyOf(kept[t])] == kept[t]
    {
      assert kept[t] in kept;
      assert kept[t] in sorted;
      var k :| k in w.chunks && w.chunks[k] == kept[t];
    }
    forall k | Kept(w, k)
      ensures k in KeySet(kept)
    {
      assert w.chunks[k] in sorted;
      assert w.chunks[k] in kept;
      var t :| 0 <= t < |kept| && kept[t] == w.chunks[k];
    }
  }

  /** What `Encodable` says of the kept chunks, by position. */
  lemma KeptFacts(w: World, f: Codecs) returns (kept: seq<Chunk>)
    requires Encodable(w, f)
    ensures kept == KeptChunks(w)
    ensures forall t :: 0 <= t < |kept| ==> Storable(kept[t], w.version, f)
    ensures forall t, u :: 0 <= t < |kept| && 0 <= u < |kept| ==>
              kept[t].x - kept[u].x < 0x7FFF && kept[t].z - kept[u].z < 0x7FFF
  {
    KeptMembers(w);
    kept := KeptChunks(w);
  }

  /** The kept chunks of an encodable world are storable and spread over fewer than 0x7FFF columns and rows. */
  lemma KeptStorable(w: World, f: Codecs)
    requires Encodable(w, f)
    ensures forall t :: 0 <= t < |KeptChunks(w)| ==> Storable(KeptChunks(w)[t], w.version, f)
    ensures Spread(Xs(KeptChunks(w))) && Spread(Zs(KeptChunks(w)))
  {
    var kept := KeptFacts(w, f);
    CoordinatesSpread(kept, w.version, f);
  }

  /** Short values no further apart than 0x7FFE. */
  predicate Spread(xs: seq<int>)
  {
    && (forall i :: 0 <= i < |xs| ==> -0x8000 <= xs[i] < 0x8000)
    && MaxOr0(xs) - MinOr0(xs) < 0x7FFF
  }

  /** Pairwise close short values are spread so. */
  lemma Span(xs: seq<int>)
    requires forall i :: 0 <= i < |xs| ==> -0x8000 <= xs[i] < 0x8000
    requires forall i, j :: 0 <= i < |xs| && 0 <= j < |xs| ==> xs[i] - xs[j] < 0x7FFF
    ensures Spread(xs)
  {
    if |xs| > 0 {
      var lo :| 0 <= lo < |xs| && xs[lo] == MinOr0(xs);
      var hi :| 0 <= hi < |xs| && xs[hi] == MaxOr0(xs);
      assert xs[hi] - xs[lo] < 0x7FFF;
    }
  }

  /** A chunk inside the grid has a cell in 0 .. width * depth - 1. */
  lemma CellInside(c: Chunk, g: Grid)
    requires InGrid(c, g)
    ensures 0 <= CellOf(c, g) < g.width * g.depth
    ensures (c.z - g.minZ) * g.width + c.x - g.minX == CellOf(c, g)
  {
    MulNonNegative(c.z - g.minZ, g.width);
    CellBelow(c.z - g.minZ, c.x - g.minX, g.width, g.depth);
  }

  /** The bit index the writer computes for a chunk inside the grid is its cell. */
  lemma IndexIsCell(c: Chunk, g: Grid)
    requires InGrid(c, g) && g.width * g.depth <= INT_MAX
    ensures CellIndex(c, g.minX, g.minZ, g.width) == CellOf(c, g)
  {
    CellInside(c, g);
  }

  /** The extent `max - min + 1` of such values is a positive short and contains them all. */
  lemma Extent(xs: seq<int>)
    requires Spread(xs)
    ensures -0x8000 <= MinOr0(xs) < 0x8000
    ensures 0 < MaxOr0(xs) - MinOr0(xs) + 1 < 0x8000
    ensures forall i :: 0 <= i < |xs| ==> MinOr0(xs) <= xs[i] < MinOr0(xs) + (MaxOr0(xs) - MinOr0(xs) + 1)
  {
  }

  /** In a grid of at most 2^31 - 1 cells, every chunk inside it gets its own cell as its bit index. */
  lemma MaskCells(kept: seq<Chunk>, g: Grid)
    requires g.width * g.depth <= INT_MAX
    requires forall t :: 0 <= t < |kept| ==> InGrid(kept[t], g)
    ensures MaskIndices(kept, g.minX, g.minZ, g.width).Ok?
    ensures forall t :: 0 <= t < |kept| ==> MaskIndices(kept, g.minX, g.minZ, g.width).value[t] == CellOf(kept[t], g)
  {
    forall t | 0 <= t < |kept|
      ensures CellIndex(kept[t], g.minX, g.minZ, g.width) == CellOf(kept[t], g) >= 0
    {
      IndexIsCell(kept[t], g);
      CellInside(kept[t], g);
    }
  }

  /** The written mask has the header's size and marks exactly the cells of the kept chunks. */
  lemma MaskMarksCells(indices: seq<nat>, kept: seq<Chunk>, g: Grid)
    requires |indices| == |kept| && g.width > 0 && g.depth > 0
    requires forall t :: 0 <= t < |kept| ==> indices[t] == CellOf(kept[t], g) < g.width * g.depth
    ensures |WriteBitSetAsBytes(indices, CeilDiv8(g.width * g.depth))| == CeilDiv8(g.width * g.depth)
    ensures forall n :: 0 <= n < g.width * g.depth ==>
              (Get(WriteBitSetAsBytes(indices, CeilDiv8(g.width * g.depth)), n) <==> n in Cells(kept, g))
  {
    MulNonNegative(g.width, g.depth);
    var size := CeilDiv8(g.width * g.depth);
    WriteThenGet(indices, size);
    forall n | 0 <= n < g.width * g.depth
      ensures n in indices <==> n in Cells(kept, g)
    {
      if n in indices {
        var t :| 0 <= t < |indices| && indices[t] == n;
        assert Cells(kept, g)[t] == n;
      }
      if n in Cells(kept, g) {
        var t :| 0 <= t < |kept| && Cells(kept, g)[t] == n;
        assert indices[t] == n;
      }
    }
  }

  /** `AllFit` of a list whose every chunk fits. */
  lemma {:induction false} AllFitOf(cs: seq<Chunk>, worldVersion: int, f: Codecs)
    requires forall t :: 0 <= t < |cs| ==> ChunkFits(cs[t], worldVersion, f)
    ensures AllFit(cs, worldVersion, f)
    decreases |cs|
  {
    if |cs| > 0 {
      forall t | 0 <= t < |cs[1..]|
        ensures ChunkFits(cs[1..][t], worldVersion, f)
      {
        assert cs[1..][t] == cs[t + 1];
      }
      AllFitOf(cs[1..], worldVersion, f);
    }
  }

  /** Two positive shorts multiply to less than 2^30. */
  lemma SmallProduct(a: int, b: int)
    requires 0 < a < 0x8000 && 0 < b < 0x8000
    ensures 0 < a * b < 0x4000_0000
  {
    MulNonNegative(0x8000 - a, b);
    MulNonNegative(0x8000 - b, 0x8000);
    MulNonNegative(a - 1, b - 1);
  }

  /** The header fields `serialize` computes, as a grid. */
  function GridFor(w: World, name: string): (g: Grid)
  {
    var kept := KeptChunks(w);
    var minX := MinOr0(Xs(kept));
    var minZ := MinOr0(Zs(kept));
    var width := Wrap32(MaxOr0(Xs(kept)) - minX + 1);
    var depth := Wrap32(MaxOr0(Zs(kept)) - minZ + 1);
    var cells := Wrap32(width * depth);
    var indices := MaskIndices(kept, minX, minZ, width);
    Grid(w.version, SLIME_VERSION, name, minX, minZ, width, depth,
         if cells >= 0 && indices.Ok? then WriteBitSetAsBytes(indices.value, CeilDiv8(cells)) else [])
  }

  /** Short coordinates pairwise no further apart than 0x7FFE are spread so. */
  lemma CoordinatesSpread(cs: seq<Chunk>, worldVersion: int, f: Codecs)
    requires forall t :: 0 <= t < |cs| ==> Storable(cs[t], worldVersion, f)
    requires forall t, u :: 0 <= t < |cs| && 0 <= u < |cs| ==> cs[t].x - cs[u].x < 0x7FFF && cs[t].z - cs[u].z < 0x7FFF
    ensures Spread(Xs(cs)) && Spread(Zs(cs))
  {
    var xs, zs := Xs(cs), Zs(cs);
    forall i, j | 0 <= i < |xs| && 0 <= j < |xs|
      ensures xs[i] - xs[j] < 0x7FFF && zs[i] - zs[j] < 0x7FFF
    {
      assert xs[i] == cs[i].x && xs[j] == cs[j].x;
    }
    forall i | 0 <= i < |xs|
      ensures -0x8000 <= xs[i] < 0x8000 && -0x8000 <= zs[i] < 0x8000
    {
      assert Storable(cs[i], worldVersion, f);
    }
    Span(xs);
    Span(zs);
  }

  /** Bounds computed as the writer does fit the header's shorts and contain every chunk. */
  lemma GridBounds(kept: seq<Chunk>, g: Grid)
    requires Spread(Xs(kept)) && Spread(Zs(kept))
    requires g.minX == MinOr0(Xs(kept)) && g.width == MaxOr0(Xs(kept)) - g.minX + 1
    requires g.minZ == MinOr0(Zs(kept)) && g.depth == MaxOr0(Zs(kept)) - g.minZ + 1
    ensures -0x8000 <= g.minX < 0x8000 && -0x8000 <= g.minZ < 0x8000
    ensures 0 < g.width < 0x8000 && 0 < g.depth < 0x8000
    ensures forall t :: 0 <= t < |kept| ==> InGrid(kept[t], g) && InKeyRange(kept[t].x)
  {
    Extent(Xs(kept));
    Extent(Zs(kept));
    forall t | 0 <= t < |kept|
      ensures InGrid(kept[t], g) && InKeyRange(kept[t].x)
    {
      assert Xs(kept)[t] == kept[t].x && Zs(kept)[t] == kept[t].z;
    }
  }

  /** The mask written for chunks inside a grid of fewer than 2^31 cells marks exactly their cells. */
  lemma GridMask(kept: seq<Chunk>, g: Grid)
    requires 0 < g.width && 0 < g.depth && 0 <= g.width * g.depth <= INT_MAX
    requires forall t :: 0 <= t < |kept| ==> InGrid(kept[t], g)
    ensures MaskIndices(kept, g.minX, g.minZ, g.width).Ok?
    ensures var mask := WriteBitSetAsBytes(MaskIndices(kept, g.minX, g.minZ, g.width).value, CeilDiv8(g.width * g.depth));
            && |mask| == CeilDiv8(g.width * g.depth)
            && forall n :: 0 <= n < g.width * g.depth ==> (Get(mask, n) <==> n in Cells(kept, g))
  {
    MaskCells(kept, g);
    forall t | 0 <= t < |kept|
      ensures CellOf(kept[t], g) < g.width * g.depth
    {
      CellInside(kept[t], g);
    }
    MaskMarksCells(MaskIndices(kept, g.minX, g.minZ, g.width).value, kept, g);
  }

  /** The grid spans the kept chunks without wrapping and its mask marks their cells. */
  lemma GridForShape(w: World, f: Codecs, name: string)
    requires Encodable(w, f)
    ensures GridShape(GridFor(w, name), KeptChunks(w))
    ensures 0 < GridFor(w, name).width * GridFor(w, name).depth <= INT_MAX
    ensures -0x8000 <= GridFor(w, name).minX < 0x8000 && -0x8000 <= GridFor(w, name).minZ < 0x8000
    ensures GridFor(w, name).width < 0x8000 && GridFor(w, name).depth < 0x8000
    ensures MaskIndices(KeptChunks(w), GridFor(w, name).minX, GridFor(w, name).minZ, GridFor(w, name).width).Ok?
    ensures |GridFor(w, name).mask| == CeilDiv8(GridFor(w, name).width * GridFor(w, name).depth)
  {
    var kept := KeptChunks(w);
    var g := GridFor(w, name);
    KeptMembers(w);
    KeptStorable(w, f);
    Extent(Xs(kept));
    Extent(Zs(kept));
    GridBounds(kept, g);
    SmallProduct(g.width, g.depth);
    GridMask(kept, g);
  }

  /**
   * For an encodable world the layout succeeds: its header fields fit their
   * widths, its grid shape matches the kept chunks, and every kept chunk fits.
   */
  lemma PlanShape(w: World, f: Codecs, name: string)
    requires Faithful(f) && Encodable(w, f)
    ensures Plan(w, f).Ok?
    ensures HeaderFits(Plan(w, f).value)
    ensures GridOf(HeaderOf(Plan(w, f).value), name) == GridFor(w, name)
    ensures GridShape(GridFor(w, name), KeptChunks(w)) && AllFit(KeptChunks(w), w.version, f)
  {
    var kept := KeptChunks(w);
    var g := GridFor(w, name);
    GridForShape(w, f, name);
    KeptFit(w, f);
    ReadChunksRoundTrip(g, kept, f);
  }

  /** Every kept chunk of an encodable world fits the format. */
  lemma KeptFit(w: World, f: Codecs)
    requires Encodable(w, f)
    ensures AllFit(KeptChunks(w), w.version, f)
  {
    KeptStorable(w, f);
    AllFitOf(KeptChunks(w), w.version, f);
  }
}

=== FILE: properties.dfy ===
/**
 * World properties: typed, named settings stored as tags in a compound map.
 * A property knows its tag name, its default, an optional validator, and how
 * its kind (boolean, int or string) is read from and written to a tag.
 */
module Properties {
  import opened Wrappers
  import opened Tags

  datatype Property<!T> = Property(
    nbtName: string,
    defaultValue: T,
    validator: Option<T -> bool>,
    /** The kind's `readValue` before the default is applied: None when the tag has the wrong type. */
    decode: Tag -> Option<T>,
    /** The tag the kind's `writeValue` stores under the given name. */
    encode: (string, T) -> Tag)

  /** A property map is the compound map its values are stored in. */
  type PropertyMap = CompoundMap

  predicate Accepts<T>(p: Property<T>, value: T)
  {
    p.validator.None? || p.validator.value(value)
  }

  /** Every value a property writes reads back as itself. */
  ghost predicate Coherent<T(!new)>(p: Property<T>)
  {
    forall v: T {:trigger p.encode(p.nbtName, v)} :: p.decode(p.encode(p.nbtName, v)) == Some(v)
  }

  /** The constructor of a property: a validator must accept the default value. */
  function NewProperty<T>(nbtName: string, defaultValue: T, validator: Option<T -> bool>,
                          decode: Tag -> Option<T>, encode: (string, T) -> Tag): (r: Result<Property<T>>)
    ensures r.Ok? <==> validator.None? || validator.value(defaultValue)
    ensures r.Ok? ==> r.value.nbtName == nbtName && r.value.defaultValue == defaultValue
                      && r.value.validator == validator && Accepts(r.value, defaultValue)
    ensures r.Fail? ==> r.error.IllegalArgument?
  {
    if validator.Some? && !validator.value(defaultValue) then
      Fail(IllegalArgument("Invalid default value for property " + nbtName))
    else
      Ok(Property(nbtName, defaultValue, validator, decode, encode))
  }

  function DecodeBoolean(t: Tag): Option<bool>
  {
    if t.ByteTag? then Some(t.byteValue == 1) else None
  }

  function EncodeBoolean(name: string, v: bool): Tag
  {
    ByteTag(name, if v then 1 else 0)
  }

  function DecodeInt(t: Tag): Option<int>
  {
    if t.IntTag? then Some(t.intValue) else None
  }

  function EncodeInt(name: string, v: int): Tag
  {
    IntTag(name, v)
  }

  function DecodeString(t: Tag): Option<string>
  {
    if t.StringTag? then Some(t.stringValue) else None
  }

  function EncodeString(name: string, v: string): Tag
  {
    StringTag(name, v)
  }

  /** A boolean property: stored as a byte tag, 1 for true and 0 for false. */
  function BooleanProperty(nbtName: string, defaultValue: bool, validator: Option<bool -> bool>): (r: Result<Property<bool>>)
    ensures r.Ok? <==> validator.None? || validator.value(defaultValue)
    ensures r.Ok? ==> Coherent(r.value) && r.value.nbtName == nbtName
    ensures r.Ok? ==> forall t :: r.value.decode(t) == (if t.ByteTag? then Some(t.byteValue == 1) else None)
  {
    NewProperty(nbtName, defaultValue, validator, DecodeBoolean, EncodeBoolean)
  }

  /** An integer property: stored as an int tag. */
  function IntProperty(nbtName: string, defaultValue: int, validator: Option<int -> bool>): (r: Result<Property<int>>)
    ensures r.Ok? <==> validator.None? || validator.value(defaultValue)
    ensures r.Ok? ==> Coherent(r.value) && r.value.nbtName == nbtName
    ensures r.Ok? ==> forall t :: r.value.decode(t) == (if t.IntTag? then Some(t.intValue) else None)
  {
    NewProperty(nbtName, defaultValue, validator, DecodeInt, EncodeInt)
  }

  /** A string property: stored as a string tag. */
  function StringProperty(nbtName: string, defaultValue: string, validator: Option<string -> bool>): (r: Result<Property<string>>)
    ensures r.Ok? <==> validator.None? || validator.value(defaultValue)
    ensures r.Ok? ==> Coherent(r.value) && r.value.nbtName == nbtName
    ensures r.Ok? ==> forall t :: r.value.decode(t) == (if t.StringTag? then Some(t.stringValue) else None)
  {
    NewProperty(nbtName, defaultValue, validator, DecodeString, EncodeString)
  }

  /** `readValue`: the tag's value when it has the property's type, else the default. */
  function ReadValue<T>(p: Property<T>, t: Tag): (r: T)
    ensures p.decode(t).None? ==> r == p.defaultValue
    ensures p.decode(t).Some? ==> r == p.decode(t).value
  {
    p.decode(t).GetOr(p.defaultValue)
  }

  /** `getValue`: the stored value of the property, or its default when the name is absent. */
  function GetValue<T>(m: PropertyMap, p: Property<T>): (r: T)
    ensures p.nbtName !in m ==> r == p.defaultValue
    ensures p.nbtName in m ==> r == ReadValue(p, m[p.nbtName])
  {
    if p.nbtName in m then ReadValue(p, m[p.nbtName]) else p.defaultValue
  }

  /** `setValue`: a value the validator refuses is an IllegalArgumentException and changes nothing. */
  function SetValue<T>(m: PropertyMap, p: Property<T>, value: T): (r: Result<PropertyMap>)
    ensures r.Ok? <==> Accepts(p, value)
    ensures r.Fail? ==> r.error.IllegalArgument?
    ensures r.Ok? ==> r.value.Keys == m.Keys + {p.nbtName} && r.value[p.nbtName] == p.encode(p.nbtName, value)
    ensures r.Ok? ==> forall k :: k in m && k != p.nbtName ==> r.value[k] == m[k]
  {
    if !Accepts(p, value) then Fail(IllegalArgument("not a valid property value"))
    else Ok(m[p.nbtName := p.encode(p.nbtName, value)])
  }

  /** `merge`: every entry of `other` is copied in, replacing an entry of the same name. */
  function Merge(m: PropertyMap, other: PropertyMap): (r: PropertyMap)
    ensures r.Keys == m.Keys + other.Keys
    ensures forall k :: k in other ==> r[k] == other[k]
    ensures forall k :: k in m && k !in other ==> r[k] == m[k]
  {
    m + other
  }

  /** `toCompound`: the stored entries as a compound named "properties". */
  function ToCompound(m: PropertyMap): (r: Tag)
    ensures r.CompoundTag? && r.name == "properties" && r.entries == m
  {
    CompoundTag("properties", m)
  }

  /** A value that passes validation reads back unchanged. */
  lemma GetAfterSet<T(!new)>(m: PropertyMap, p: Property<T>, value: T)
    requires Coherent(p) && Accepts(p, value)
    ensures SetValue(m, p, value).Ok?
    ensures GetValue(SetValue(m, p, value).value, p) == value
  {
    assert p.decode(p.encode(p.nbtName, value)) == Some(value);
  }

  /** Setting one property leaves every property with another tag name unchanged. */
  lemma GetAfterSetOther<T, U>(m: PropertyMap, p: Property<T>, value: T, q: Property<U>)
    requires Accepts(p, value) && q.nbtName != p.nbtName
    ensures GetValue(SetValue(m, p, value).value, q) == GetValue(m, q)
  {
  }

  /** After a merge a property reads as in the merged-in map when it is set there, else as before. */
  lemma GetAfterMerge<T>(m: PropertyMap, other: PropertyMap, p: Property<T>)
    ensures GetValue(Merge(m, other), p) == if p.nbtName in other then GetValue(other, p) else GetValue(m, p)
  {
  }

  /** Merging is idempotent: merging the same map twice changes nothing more. */
  lemma MergeIdempotent(m: PropertyMap, other: PropertyMap)
    ensures Merge(Merge(m, other), other) == Merge(m, other)
  {
  }

  /** A boolean stored as any byte other than 1 reads as false, not as the default. */
  lemma BooleanReadsOnlyOneAsTrue(p: Property<bool>, name: string, b: int)
    requires p.decode == DecodeBoolean
    ensures ReadValue(p, ByteTag(name, b)) == (b == 1)
  {
  }
}

=== FILE: region.dfy ===
/**
 * The Anvil region file (`*.mca`) as both vanilla-world importers read it: a
 * header of 1024 big-endian ints, one per chunk slot, each holding the chunk's
 * offset in 4096-byte sectors in its upper 24 bits and its length in sectors in
 * its low 8 bits; at the offset, an int length (counting the compression byte),
 * the compression byte, and the compressed chunk tag.
 *
 * The importers mask the sector count with `& 15` instead of `& 0xFF`.  Both
 * decodings are here: `DecodeEntryAsWritten` is the code as written, and
 * `DecodeEntry` the evident intent, which the importers below are built on.
 */
module Regions {
  import opened Wrappers
  import opened Bytes
  import opened Tags

  const SECTOR_SIZE: int := 4096
  const HEADER_ENTRIES: nat := 1024
  const HEADER_SIZE: nat := 4 * HEADER_ENTRIES

  /** Where a chunk's sectors start in the file, and how many bytes they span. */
  datatype ChunkEntry = ChunkEntry(offset: int, paddedSize: int)

  /**
   * The decompressor and tag reader applied to a chunk's payload: GZIP when the
   * flag is set, zlib otherwise, then an uncompressed NBT stream.  None is the
   * IOException either raises.
   */
  type ChunkDecoder = (bool, seq<byte>) -> Option<Tag>

  /** `entry >>> 8`: the upper 24 bits of the int's two's-complement form. */
  function SectorOffset(entry: int): (r: nat)
    ensures r < 0x100_0000
  {
    (entry % 0x1_0000_0000) / 256
  }

  /** `entry & 0xFF`: the low eight bits, the sector count of the format. */
  function SectorCount(entry: int): (r: nat)
    ensures r < 256
  {
    entry % 256
  }

  /** The header entry as the importers decode it: the sector count is masked with `& 15`. */
  function DecodeEntryAsWritten(entry: int): (r: ChunkEntry)
    ensures r.offset == DecodeEntry(entry).offset
    ensures r.paddedSize == (SectorCount(entry) % 16) * SECTOR_SIZE
    ensures SectorCount(entry) < 16 <==> r == DecodeEntry(entry)
  {
    LowNibble(entry);
    ChunkEntry(Wrap32(SectorOffset(entry) * SECTOR_SIZE), (entry % 16) * SECTOR_SIZE)
  }

  /** `entry & 15` keeps the low four bits of the sector count. */
  lemma LowNibble(entry: int)
    ensures entry % 16 == SectorCount(entry) % 16
  {
    var q, r := entry / 256, entry % 256;
    assert entry == (16 * q + r / 16) * 16 + r % 16;
    DivModUnique(entry, 16, 16 * q + r / 16, r % 16);
  }

  /** The header entry decoded with the full eight-bit sector count. */
  function DecodeEntry(entry: int): (r: ChunkEntry)
    ensures r.offset == Wrap32(SectorOffset(entry) * SECTOR_SIZE)
    ensures r.paddedSize == SectorCount(entry) * SECTOR_SIZE
  {
    ChunkEntry(Wrap32(SectorOffset(entry) * SECTOR_SIZE), SectorCount(entry) * SECTOR_SIZE)
  }

  /** The int a header slot holds for a chunk at sector `offset` spanning `count` sectors. */
  function EncodeEntry(offset: nat, count: nat): (r: int)
    requires offset < 0x100_0000 && count < 256
    ensures IsInt(r)
  {
    Wrap32(offset * 256 + count)
  }

  /**
   * `new ByteArrayInputStream(buf, offset, length)` read to its end: the stream
   * ends at `min(offset + length, buf.length)` (an int sum), yields nothing when
   * it starts at or past that end, and its first read throws when it starts at a
   * negative position before the end.
   */
  function Window(buf: seq<byte>, offset: int, length: int): (r: Result<seq<byte>>)
    ensures r.Fail? ==> r.error == IndexOutOfBounds
    ensures 0 <= offset && IsInt(offset + length) && offset + length <= |buf| && length >= 0 ==>
              r == Ok(buf[offset..offset + length])
  {
    var end := Wrap32(offset + length);
    var count := if end < |buf| then end else |buf|;
    assert IsInt(offset + length) ==> end == offset + length;
    if offset >= count then
      assert 0 <= offset && IsInt(offset + length) && offset + length <= |buf| && length >= 0 ==>
        buf[offset..offset + length] == [];
      Ok([])
    else if offset < 0 then Fail(IndexOutOfBounds)
    else Ok(buf[offset..count])
  }

  /** The 1024 header ints; a file shorter than the header is an EOFException. */
  function HeaderInts(buf: seq<byte>): (r: Result<seq<int>>)
    ensures r.Ok? <==> |buf| >= HEADER_SIZE
    ensures r.Fail? ==> r.error == EndOfStream
    ensures r.Ok? ==> |r.value| == HEADER_ENTRIES
  {
    var p :- ReadInts(buf, HEADER_ENTRIES);
    Ok(p.value)
  }

  /** The used slots, in slot order: every non-zero entry, decoded. */
  function UsedEntries(ints: seq<int>): (r: seq<ChunkEntry>)
    ensures |r| <= |ints|
    ensures forall e :: e in r <==> exists i :: 0 <= i < |ints| && ints[i] != 0 && e == DecodeEntry(ints[i])
  {
    if |ints| == 0 then []
    else
      var tail := UsedEntries(ints[1..]);
      assert forall i :: 0 < i < |ints| ==> ints[i] == ints[1..][i - 1];
      if ints[0] != 0 then [DecodeEntry(ints[0])] + tail else tail
  }

  /** Every chunk entry of a region file, or the EOFException of a short header. */
  function RegionEntries(buf: seq<byte>): (r: Result<seq<ChunkEntry>>)
    ensures r.Ok? <==> |buf| >= HEADER_SIZE
  {
    var ints :- HeaderInts(buf);
    Ok(UsedEntries(ints))
  }

  /**
   * Reads the chunk at `e` down to its "Level" compound.  Inside the importer's
   * mapping lambda an IOException (a short header, a failing decompressor) is
   * rethrown as a RuntimeException, as is a root compound without "Level"; a
   * root or "Level" tag that is not a compound fails the cast.
   */
  function ReadLevel(buf: seq<byte>, e: ChunkEntry, decode: ChunkDecoder): (r: Result<Tag>)
    ensures r.Ok? ==> r.value.CompoundTag?
    ensures r.Fail? ==> r.error in {IndexOutOfBounds, RuntimeFailure, ClassCast}
  {
    var header :- Window(buf, e.offset, e.paddedSize);
    if |header| < 5 then Fail(RuntimeFailure)
    else
      var length := Wrap32(ReadInt(header).value.value - 1);
      var scheme := ReadByte(header[4..]).value.value;
      var payload :- Window(buf, Wrap32(e.offset + 5), length);
      match decode(scheme == 1, payload)
      case None => Fail(RuntimeFailure)
      case Some(root) =>
        if !root.CompoundTag? then Fail(ClassCast)
        else if "Level" !in root.entries then Fail(RuntimeFailure)
        else if !root.entries["Level"].CompoundTag? then Fail(ClassCast)
        else Ok(root.entries["Level"])
  }

  // ---- Properties ----

  /** A header int decodes back to the sector offset and sector count it was built from. */
  lemma DecodeEncode(offset: nat, count: nat)
    requires offset < 0x100_0000 && count < 256
    ensures SectorOffset(EncodeEntry(offset, count)) == offset
    ensures SectorCount(EncodeEntry(offset, count)) == count
    ensures DecodeEntry(EncodeEntry(offset, count)) == ChunkEntry(Wrap32(offset * SECTOR_SIZE), count * SECTOR_SIZE)
  {
    var v := offset * 256 + count;
    var e := EncodeEntry(offset, count);
    assert 0 <= v < 0x1_0000_0000;
    assert e == v || e == v - 0x1_0000_0000;
    assert e % 0x1_0000_0000 == v;
    assert e % 256 == count;
  }

  /** A chunk is recorded iff its slot is non-zero; a zero slot adds nothing. */
  lemma ZeroSlotsSkipped(ints: seq<int>)
    requires forall i :: 0 <= i < |ints| ==> ints[i] == 0
    ensures UsedEntries(ints) == []
  {
  }

  /**
   * The defect: a chunk whose sector count is a multiple of 16 (16, 32, ...
   * sectors, a chunk of 64 KiB or more) gets a padded size of 0, so its header
   * read hits the end of the window and the import fails, whatever the file holds.
   */
  lemma AsWrittenDropsSixteenSectors(buf: seq<byte>, entry: int, decode: ChunkDecoder)
    requires SectorCount(entry) % 16 == 0
    ensures DecodeEntryAsWritten(entry).paddedSize == 0
    ensures ReadLevel(buf, DecodeEntryAsWritten(entry), decode) == Fail(RuntimeFailure)
  {
    var e := DecodeEntryAsWritten(entry);
    assert Wrap32(e.offset + 0) == e.offset;
  }

  /** The instance: a 16-sector chunk at sector 2 of a 72 KiB file. */
  lemma SixteenSectorChunkExample(buf: seq<byte>, decode: ChunkDecoder)
    requires |buf| == 2 * SECTOR_SIZE + 16 * SECTOR_SIZE
    ensures EncodeEntry(2, 16) == 0x210
    ensures DecodeEntryAsWritten(0x210) == ChunkEntry(2 * SECTOR_SIZE, 0)
    ensures ReadLevel(buf, DecodeEntryAsWritten(0x210), decode) == Fail(RuntimeFailure)
    ensures DecodeEntry(0x210) == ChunkEntry(2 * SECTOR_SIZE, 16 * SECTOR_SIZE)
    ensures Window(buf, 2 * SECTOR_SIZE, 16 * SECTOR_SIZE) == Ok(buf[2 * SECTOR_SIZE..])
  {
    ExampleEntry();
    AsWrittenDropsSixteenSectors(buf, 0x210, decode);
    ExampleWindow(buf);
  }

  lemma ExampleEntry()
    ensures EncodeEntry(2, 16) == 0x210
    ensures SectorOffset(0x210) == 2 && SectorCount(0x210) == 16
    ensures Wrap32(2 * SECTOR_SIZE) == 2 * SECTOR_SIZE
  {
    DecodeEncode(2, 16);
  }

  lemma ExampleWindow(buf: seq<byte>)
    requires |buf| == 2 * SECTOR_SIZE + 16 * SECTOR_SIZE
    ensures Window(buf, 2 * SECTOR_SIZE, 16 * SECTOR_SIZE) == Ok(buf[2 * SECTOR_SIZE..])
  {
    assert IsInt(2 * SECTOR_SIZE + 16 * SECTOR_SIZE);
    assert buf[2 * SECTOR_SIZE..2 * SECTOR_SIZE + 16 * SECTOR_SIZE] == buf[2 * SECTOR_SIZE..];
  }

  /**
   * With the full sector count, a chunk whose sectors lie inside the file is
   * read from exactly those sectors: its header is never cut short.
   */
  lemma DecodedSectorsInFile(buf: seq<byte>, entry: int)
    requires |buf| <= MAX_ARRAY
    requires SectorCount(entry) >= 1
    requires (SectorOffset(entry) + SectorCount(entry)) * SECTOR_SIZE <= |buf|
    ensures var e := DecodeEntry(entry);
            && e.offset == SectorOffset(entry) * SECTOR_SIZE
            && Window(buf, e.offset, e.paddedSize) == Ok(buf[e.offset..e.offset + e.paddedSize])
            && e.paddedSize >= 5
  {
  }
}

=== FILE: roundtrip.dfy ===
/**
 * The world round trip: a world the writer can store faithfully is either
 * refused for being larger than a Java array, or written as bytes that the
 * reader turns back into the same world — its stored chunks (those with a
 * section) owned by the loading name, their entities and tile entities, its
 * maps and extra data, and its properties overridden by the ones given.
 */
module RoundTrip {
  import opened Wrappers
  import opened Bytes
  import opened Tags
  import opened Foreign
  import opened Properties
  import opened Worlds
  import opened Sorting
  import opened Encoder
  import opened Decoder
  import opened ChunkProofs
  import opened GridProofs
  import opened AttachProofs
  import opened ContainerProofs
  import opened PlanProofs

  /** The stored chunks as the reader returns them: owned by the world it loads. */
  function StoredChunks(w: World, name: string): (r: map<int, Chunk>)
    ensures forall k :: k in r <==> Kept(w, k)
    ensures forall k :: k in r ==> k in w.chunks && r[k] == w.chunks[k].(worldName := Some(name))
  {
    map k | k in w.chunks && HasSections(w.chunks[k]) :: w.chunks[k].(worldName := Some(name))
  }

  /** The world the reader builds from the bytes written for `w`. */
  function Reloaded(w: World, loader: string, name: string, given: PropertyMap, readOnly: bool): World
  {
    var chunks := StoredChunks(w, name);
    var properties := Merge(w.properties, given);
    World(name, chunks,
          CompoundTag(w.extraData.name, Entries(w.extraData)["properties" := ToCompound(properties)]),
          properties, readOnly, !readOnly, w.worldMaps, Some(loader),
          if w.version == 0 && chunks != map[] then 1 else w.version)
  }

  /** A non-empty compound written by faithful codecs is read back as itself. */
  lemma TagRoundTrip(t: Tag, f: Codecs, bytes: seq<byte>)
    requires Faithful(f) && t.CompoundTag? && t.entries != map[] && JavaTag(t)
    requires bytes == SerializeCompoundTag(Some(t), f)
    ensures ReadCompoundTag(bytes, f) == Ok(Some(t))
  {
    assert bytes == f.writeTag(t);
    assert f.readTag(f.writeTag(t)) == Ok(t) && |f.writeTag(t)| > 0;
  }

  /** The blobs `serialize` compresses, as the reader has them after decompression. */
  function BlobsOf(l: Layout): Blobs
  {
    Blobs(l.chunkData, l.tileData, l.entityData.GetOr([]), l.extraData, l.mapData)
  }

  /** What the decompressed blobs written for `w` hold. */
  predicate BlobsFor(w: World, b: Blobs, f: Codecs)
  {
    && ChunksBytes(KeptChunks(w), w.version, f).Ok?
    && b.chunks == ChunksBytes(KeptChunks(w), w.version, f).value
    && ReadCompoundTag(b.tiles, f) == Ok(Some(TilesCompound(KeptChunks(w))))
    && ReadCompoundTag(b.entities, f)
       == Ok(if |AllEntities(KeptChunks(w))| == 0 then None else Some(EntitiesCompound(KeptChunks(w))))
    && ReadCompoundTag(b.extra, f) == Ok(Some(StoreProperties(w.extraData, w.properties)))
    && ReadCompoundTag(b.maps, f) == Ok(Some(MapsCompound(w.worldMaps)))
  }

  /** The blobs of a successful layout, field by field. */
  lemma PlanFields(w: World, f: Codecs) returns (l: Layout)
    requires Plan(w, f).Ok?
    ensures Plan(w, f) == Ok(l)
    ensures ChunksBytes(KeptChunks(w), w.version, f) == Ok(l.chunkData)
    ensures l.tileData == SerializeCompoundTag(Some(TilesCompound(KeptChunks(w))), f)
    ensures l.entityData
            == if |AllEntities(KeptChunks(w))| == 0 then None
               else Some(SerializeCompoundTag(Some(EntitiesCompound(KeptChunks(w))), f))
    ensures l.extraData == SerializeCompoundTag(Some(StoreProperties(w.extraData, w.properties)), f)
    ensures l.mapData == SerializeCompoundTag(Some(MapsCompound(w.worldMaps)), f)
  {
    l := Plan(w, f).value;
  }

  /** The four compounds the writer builds from a world with Java tags are Java tags. */
  lemma WorldCompoundsAreJava(w: World)
    requires WorldTagsFit(w)
    ensures JavaTag(TilesCompound(KeptChunks(w))) && JavaTag(EntitiesCompound(KeptChunks(w)))
    ensures JavaTag(StoreProperties(w.extraData, w.properties)) && JavaTag(MapsCompound(w.worldMaps))
  {
    var kept := KeptChunks(w);
    ListUnderIsJava("tiles", "tiles", AllTiles(kept));
    ListUnderIsJava("entities", "entities", AllEntities(kept));
    ListUnderIsJava("", "maps", w.worldMaps);
    AddedIsJava(w.extraData, ToCompound(w.properties));
  }

  /** A compound holding one list of Java compounds, filed under the list's name, is a Java tag. */
  lemma ListUnderIsJava(name: string, key: string, items: seq<Tag>)
    requires |name| <= 10 && |key| <= 10 && JavaCompounds(items)
    ensures JavaTag(CompoundTag(name, map[key := ListTag(key, items)]))
  {
    ShortEnough(name);
    ShortEnough(key);
    CompoundListIsJava(key, items);
    SingletonIsJava(name, ListTag(key, items));
  }

  /** Blobs written from those fields read back as the compounds they were written from. */
  lemma BlobsFromFields(w: World, f: Codecs, l: Layout)
    requires Faithful(f)
    requires JavaTag(TilesCompound(KeptChunks(w))) && JavaTag(EntitiesCompound(KeptChunks(w)))
    requires JavaTag(StoreProperties(w.extraData, w.properties)) && JavaTag(MapsCompound(w.worldMaps))
    requires ChunksBytes(KeptChunks(w), w.version, f) == Ok(l.chunkData)
    requires l.tileData == SerializeCompoundTag(Some(TilesCompound(KeptChunks(w))), f)
    requires l.entityData
             == if |AllEntities(KeptChunks(w))| == 0 then None
                else Some(SerializeCompoundTag(Some(EntitiesCompound(KeptChunks(w))), f))
    requires l.extraData == SerializeCompoundTag(Some(StoreProperties(w.extraData, w.properties)), f)
    requires l.mapData == SerializeCompoundTag(Some(MapsCompound(w.worldMaps)), f)
    ensures BlobsFor(w, BlobsOf(l), f)
  {
    var kept := KeptChunks(w);
    var tiles, entities := TilesCompound(kept), EntitiesCompound(kept);
    var extra, maps := StoreProperties(w.extraData, w.properties), MapsCompound(w.worldMaps);
    WrittenCompounds(w);
    TagRoundTrip(tiles, f, l.tileData);
    if |AllEntities(kept)| > 0 {
      TagRoundTrip(entities, f, l.entityData.value);
    }
    TagRoundTrip(extra, f, l.extraData);
    TagRoundTrip(maps, f, l.mapData);
  }

  /** The four compounds the writer builds are never empty. */
  lemma WrittenCompounds(w: World)
    ensures TilesCompound(KeptChunks(w)).CompoundTag? && TilesCompound(KeptChunks(w)).entries != map[]
    ensures EntitiesCompound(KeptChunks(w)).CompoundTag? && EntitiesCompound(KeptChunks(w)).entries != map[]
    ensures var extra := StoreProperties(w.extraData, w.properties); extra.CompoundTag? && extra.entries != map[]
    ensures MapsCompound(w.worldMaps).CompoundTag? && MapsCompound(w.worldMaps).entries != map[]
  {
    assert "tiles" in TilesCompound(KeptChunks(w)).entries;
    assert "entities" in EntitiesCompound(KeptChunks(w)).entries;
    assert "properties" in StoreProperties(w.extraData, w.properties).entries;
    assert "maps" in MapsCompound(w.worldMaps).entries;
  }

  /** The five blobs of an encodable world's layout read back as the compounds they were written from. */
  lemma PlanBlobs(w: World, f: Codecs, name: string)
    requires Faithful(f) && Encodable(w, f) && WorldTagsFit(w)
    ensures Plan(w, f).Ok?
    ensures BlobsFor(w, BlobsOf(Plan(w, f).value), f)
  {
    PlanShape(w, f, name);
    var l := PlanFields(w, f);
    WorldCompoundsAreJava(w);
    BlobsFromFields(w, f, l);
  }

  /** The entity list read back is the writer's list of all entities, empty or not. */
  lemma EntitiesBack(kept: seq<Chunk>, f: Codecs, tag: Result<Option<Tag>>)
    requires tag == Ok(if |AllEntities(kept)| == 0 then None else Some(EntitiesCompound(kept)))
    ensures ListUnder(tag.value, "entities") == Ok(AllOf(Entities, kept))
  {
  }

  /** The chunk map the reader ends with: each stored chunk, owned by the world, with its own tags. */
  lemma StoredMap(w: World, f: Codecs, name: string)
    requires KeysMatch(w.chunks)
    ensures var kept := KeptChunks(w);
            Restore(Tiles, Restore(Entities, Collect(map[], kept, name), kept), kept) == StoredChunks(w, name)
  {
    var kept := KeptChunks(w);
    KeptMembers(w);
    var r := Reassembled(kept, name);
    StoredEqual(w, name, kept, r);
  }

  /** The reassembled map, known key by key, is the map of stored chunks. */
  lemma StoredEqual(w: World, name: string, kept: seq<Chunk>, r: map<int, Chunk>)
    requires forall t :: 0 <= t < |kept| ==> KeyOf(kept[t]) in w.chunks && w.chunks[KeyOf(kept[t])] == kept[t]
    requires forall k :: Kept(w, k) <==> k in KeySet(kept)
    requires r.Keys == KeySet(kept)
    requires forall t :: 0 <= t < |kept| ==> r[KeyOf(kept[t])] == kept[t].(worldName := Some(name))
    ensures r == StoredChunks(w, name)
  {
    var expected := StoredChunks(w, name);
    forall k | k in r
      ensures k in expected && r[k] == expected[k]
    {
      var t :| 0 <= t < |kept| && KeyOf(kept[t]) == k;
    }
    forall k | k in expected
      ensures k in r
    {
      assert Kept(w, k);
    }
  }

  /** Populating, given what each of its steps reads. */
  lemma PopulateSteps(g: Grid, b: Blobs, f: Codecs, chunks: map<int, Chunk>, entities: seq<Tag>, tiles: seq<Tag>,
                      withEntities: map<int, Chunk>, r: map<int, Chunk>)
    requires ReadChunks(g, b.chunks, f) == Ok(chunks)
    requires ReadCompoundTag(b.entities, f).Ok? && ListUnder(ReadCompoundTag(b.entities, f).value, "entities") == Ok(entities)
    requires Attach(Entities, chunks, entities, g.name) == Ok(withEntities)
    requires ReadCompoundTag(b.tiles, f).Ok? && ListUnder(ReadCompoundTag(b.tiles, f).value, "tiles") == Ok(tiles)
    requires Attach(Tiles, withEntities, tiles, g.name) == Ok(r)
    ensures Populate(g, b, f) == Ok(r)
  {
  }

  /** Both tag lists of the kept chunks go back to their own chunks. */
  lemma AttachBoth(w: World, f: Codecs, name: string)
    requires Encodable(w, f)
    ensures var kept := KeptChunks(w);
            var bare := Collect(map[], kept, name);
            && Attach(Entities, bare, AllOf(Entities, kept), name) == Ok(Restore(Entities, bare, kept))
            && Attach(Tiles, Restore(Entities, bare, kept), AllOf(Tiles, kept), name)
               == Ok(Restore(Tiles, Restore(Entities, bare, kept), kept))
    {
    KeptPlaced(w, f);
    AttachKept(KeptChunks(w), name);
  }

  /** The kept chunks of an encodable world have increasing keys and every tag placed inside them. */
  lemma KeptPlaced(w: World, f: Codecs)
    requires Encodable(w, f)
    ensures KeysIncreasing(KeptChunks(w))
    ensures forall t :: 0 <= t < |KeptChunks(w)| ==>
              AllPlaced(Entities, KeptChunks(w)[t]) && AllPlaced(Tiles, KeptChunks(w)[t])
  {
    KeptMembers(w);
    KeptStorable(w, f);
  }

  /** Both tag lists of chunks with increasing keys go back to their own chunks. */
  lemma AttachKept(kept: seq<Chunk>, name: string)
    requires KeysIncreasing(kept)
    requires forall t :: 0 <= t < |kept| ==> AllPlaced(Entities, kept[t]) && AllPlaced(Tiles, kept[t])
    ensures var bare := Collect(map[], kept, name);
            && Attach(Entities, bare, AllOf(Entities, kept), name) == Ok(Restore(Entities, bare, kept))
            && Attach(Tiles, Restore(Entities, bare, kept), AllOf(Tiles, kept), name)
               == Ok(Restore(Tiles, Restore(Entities, bare, kept), kept))
  {
    var bare := Collect(map[], kept, name);
    CollectContents(map[], kept, name);
    AttachAll(Entities, bare, kept, name);
    RestoreContents(Entities, bare, kept);
    AttachAll(Tiles, Restore(Entities, bare, kept), kept, name);
  }


  /** The chunk blob of an encodable world is read back as its kept chunks, bare. */
  lemma ChunksBack(w: World, f: Codecs, name: string)
    requires Faithful(f) && Encodable(w, f)
    ensures GridFor(w, name).name == name
    ensures ChunksBytes(KeptChunks(w), w.version, f).Ok?
    ensures ReadChunks(GridFor(w, name), ChunksBytes(KeptChunks(w), w.version, f).value, f)
            == Ok(Collect(map[], KeptChunks(w), name))
  {
    GridForShape(w, f, name);
    KeptFit(w, f);
    ReadChunksRoundTrip(GridFor(w, name), KeptChunks(w), f);
  }

  /** Reading the chunk blob, then attaching both tag lists, yields the stored chunks. */
  lemma ChunksAndTags(w: World, f: Codecs, name: string) returns (bare: map<int, Chunk>, withEntities: map<int, Chunk>)
    requires Faithful(f) && Encodable(w, f)
    ensures GridFor(w, name).name == name
    ensures ChunksBytes(KeptChunks(w), w.version, f).Ok?
    ensures ReadChunks(GridFor(w, name), ChunksBytes(KeptChunks(w), w.version, f).value, f) == Ok(bare)
    ensures Attach(Entities, bare, AllOf(Entities, KeptChunks(w)), name) == Ok(withEntities)
    ensures Attach(Tiles, withEntities, AllOf(Tiles, KeptChunks(w)), name) == Ok(StoredChunks(w, name))
  {
    var kept := KeptChunks(w);
    ChunksBack(w, f, name);
    AttachBoth(w, f, name);
    StoredMap(w, f, name);
    bare := Collect(map[], kept, name);
    withEntities := Restore(Entities, bare, kept);
  }

  /** The chunks, entities and tile entities of an encodable world's blobs populate the stored chunks. */
  lemma PopulateRoundTrip(w: World, f: Codecs, name: string, b: Blobs)
    requires Faithful(f) && Encodable(w, f) && BlobsFor(w, b, f)
    ensures Populate(GridFor(w, name), b, f) == Ok(StoredChunks(w, name))
  {
    var bare, withEntities := ChunksAndTags(w, f, name);
    PopulateFrom(GridFor(w, name), b, f, KeptChunks(w), bare, withEntities, StoredChunks(w, name));
  }

  /** Chunks read bare, then the entity and tile lists written for them attached, populate the world. */
  lemma PopulateFrom(g: Grid, b: Blobs, f: Codecs, kept: seq<Chunk>, bare: map<int, Chunk>,
                     withEntities: map<int, Chunk>, stored: map<int, Chunk>)
    requires ReadChunks(g, b.chunks, f) == Ok(bare)
    requires ReadCompoundTag(b.tiles, f) == Ok(Some(TilesCompound(kept)))
    requires ReadCompoundTag(b.entities, f)
             == Ok(if |AllEntities(kept)| == 0 then None else Some(EntitiesCompound(kept)))
    requires Attach(Entities, bare, AllOf(Entities, kept), g.name) == Ok(withEntities)
    requires Attach(Tiles, withEntities, AllOf(Tiles, kept), g.name) == Ok(stored)
    ensures Populate(g, b, f) == Ok(stored)
  {
    EntitiesBack(kept, f, ReadCompoundTag(b.entities, f));
    PopulateSteps(g, b, f, bare, AllOf(Entities, kept), AllOf(Tiles, kept), withEntities, stored);
  }

  /** The extra compound read back carries the given properties over the stored ones. */
  lemma PropertiesBack(w: World, given: PropertyMap)
    ensures var stored := StoreProperties(w.extraData, w.properties);
            var merged := Merge(w.properties, given);
            ResolveProperties(Some(stored).GetOr(EmptyCompound("")), given)
            == (CompoundTag(w.extraData.name, Entries(w.extraData)["properties" := ToCompound(merged)]), merged)
  {
    var stored := StoreProperties(w.extraData, w.properties);
    var merged := Merge(w.properties, given);
    assert AsCompound(Entries(stored), "properties") == Some(ToCompound(w.properties));
    assert Entries(stored)["properties" := ToCompound(w.properties).(entries := merged)]
           == Entries(w.extraData)["properties" := ToCompound(merged)];
  }

  /** The version rule of the reader: unknown turns legacy exactly when a chunk with a section was read. */
  lemma VersionBack(w: World, name: string)
    ensures DetectVersion(w.version, StoredChunks(w, name))
            == if w.version == 0 && StoredChunks(w, name) != map[] then 1 else w.version
  {
    var chunks := StoredChunks(w, name);
    if w.version == 0 && chunks != map[] {
      var k := Pick(chunks.Keys);
      assert HasSections(chunks[k]);
    }
  }

  /** Assembling, given what each of its steps reads. */
  lemma AssembleSteps(loader: string, name: string, c: Container, b: Blobs, given: PropertyMap, readOnly: bool,
                      f: Codecs, chunks: map<int, Chunk>, extra: Tag, maps: Tag)
    requires Populate(GridOf(c.header, name), b, f) == Ok(chunks)
    requires ReadCompoundTag(b.extra, f) == Ok(Some(extra)) && ReadCompoundTag(b.maps, f) == Ok(Some(maps))
    ensures Assemble(loader, name, c, b, given, readOnly, f)
            == Ok(World(name, chunks, ResolveProperties(extra, given).0, ResolveProperties(extra, given).1,
                        readOnly, !readOnly, MapList(Some(maps)), Some(loader), DetectVersion(c.header.worldVersion, chunks)))
  {
  }

  /** The blobs written for an encodable world, under a header with its grid, assemble into the reloaded world. */
  lemma AssembleRoundTrip(w: World, f: Codecs, loader: string, name: string, given: PropertyMap, readOnly: bool,
                          c: Container, b: Blobs)
    requires Faithful(f) && Encodable(w, f) && BlobsFor(w, b, f)
    requires GridOf(c.header, name) == GridFor(w, name)
    ensures Assemble(loader, name, c, b, given, readOnly, f) == Ok(Reloaded(w, loader, name, given, readOnly))
  {
    PopulateRoundTrip(w, f, name, b);
    assert c.header.worldVersion == w.version by {
      assert GridOf(c.header, name).worldVersion == c.header.worldVersion;
    }
    AssembleSteps(loader, name, c, b, given, readOnly, f, StoredChunks(w, name),
                  StoreProperties(w.extraData, w.properties), MapsCompound(w.worldMaps));
    ReloadedFields(w, loader, name, given, readOnly, c.header.worldVersion);
  }

  /** The fields the reader assembles from an encodable world's blobs are those of the reloaded world. */
  lemma ReloadedFields(w: World, loader: string, name: string, given: PropertyMap, readOnly: bool, worldVersion: int)
    requires worldVersion == w.version
    ensures var stored := StoreProperties(w.extraData, w.properties);
            var chunks := StoredChunks(w, name);
            World(name, chunks, ResolveProperties(stored, given).0, ResolveProperties(stored, given).1,
                  readOnly, !readOnly, MapList(Some(MapsCompound(w.worldMaps))), Some(loader),
                  DetectVersion(worldVersion, chunks))
            == Reloaded(w, loader, name, given, readOnly)
  {
    PropertiesBack(w, given);
    VersionBack(w, name);
    var stored := StoreProperties(w.extraData, w.properties);
    assert Some(stored).GetOr(EmptyCompound("")) == stored;
  }

  /** Reading a world, given what each of its steps yields. */
  lemma ReadSteps(loader: string, name: string, bytes: seq<byte>, given: PropertyMap, readOnly: bool, f: Codecs,
                  c: Container, b: Blobs, world: World)
    requires ReadContainer(name, bytes) == Ok(c) && InflateAll(c, f) == Ok(b)
    requires Assemble(loader, name, c, b, given, readOnly, f) == Ok(world)
    ensures Deserialize(loader, name, bytes, given, readOnly, f) == Ok(world)
  {
  }

  /** The bytes of a layout that fits are read back as the reloaded world. */
  lemma LayoutBack(w: World, f: Codecs, l: Layout, loader: string, name: string, given: PropertyMap, readOnly: bool)
    requires Faithful(f) && Encodable(w, f) && WorldTagsFit(w)
    requires Plan(w, f) == Ok(l) && Fits(l, Emit(l, f))
    ensures Deserialize(loader, name, Emit(l, f), given, readOnly, f) == Ok(Reloaded(w, loader, name, given, readOnly))
  {
    PlanShape(w, f, name);
    PlanBlobs(w, f, name);
    FitsFrames(l, f);
    ContainerRoundTrip(name, l, f);
    InflateRoundTrip(l, f);
    AssembleRoundTrip(w, f, loader, name, given, readOnly, ContainerOf(l, f), BlobsOf(l));
    ReadSteps(loader, name, Emit(l, f), given, readOnly, f, ContainerOf(l, f), BlobsOf(l),
              Reloaded(w, loader, name, given, readOnly));
  }

  /**
   * `serialize` then `deserializeWorld`: an encodable world is refused only
   * for exceeding a Java array, and otherwise read back as the reloaded world.
   */
  lemma WorldRoundTrip(w: World, f: Codecs, loader: string, name: string, given: PropertyMap, readOnly: bool)
    requires Faithful(f) && Encodable(w, f) && WorldTagsFit(w)
    ensures Serialize(w, f).Ok? || Serialize(w, f) == Fail(OutOfMemory)
    ensures Serialize(w, f).Ok? ==>
              Deserialize(loader, name, Serialize(w, f).value, given, readOnly, f)
              == Ok(Reloaded(w, loader, name, given, readOnly))
    {
    var l := PlanSucceeds(w, f);
    SerializedAs(w, f, l);
    if Fits(l, Emit(l, f)) {
      LayoutBack(w, f, l, loader, name, given, readOnly);
    }
  }

  /** An encodable world always has a layout. */
  lemma PlanSucceeds(w: World, f: Codecs) returns (l: Layout)
    requires Faithful(f) && Encodable(w, f)
    ensures Plan(w, f) == Ok(l)
  {
    PlanShape(w, f, "");
    l := Plan(w, f).value;
  }

  /** `serialize` emits the layout, unless it exceeds a Java array. */
  lemma SerializedAs(w: World, f: Codecs, l: Layout)
    requires Plan(w, f) == Ok(l)
    ensures Serialize(w, f) == if Fits(l, Emit(l, f)) then Ok(Emit(l, f)) else Fail(OutOfMemory)
  {
  }

}

=== FILE: section_proofs.dfy ===
/** The section codec: what the writer emits for a section, the reader reads back. */
module SectionProofs {
  import opened Wrappers
  import opened Bytes
  import opened Nibbles
  import opened Tags
  import opened Foreign
  import opened Worlds
  import opened BitSets
  import opened SlimeFormat
  import opened Encoder
  import opened Decoder

  predicate LightFits(l: Option<NibbleArray>)
  {
    l.Some? ==> |l.value.backing| == LIGHT_SIZE
  }

  /** A palette entry the writer stores as a non-empty Java compound of int length, or a null entry. */
  ghost predicate StorableEntry(e: Option<Tag>, f: Codecs)
  {
    e.Some? ==> e.value.CompoundTag? && !IsEmptyCompound(e.value) && JavaTag(e.value) && |f.writeTag(e.value)| <= INT_MAX
  }

  /**
   * A section the reader reconstructs: light arrays of full size, and the block
   * layout of the world version with arrays of the sizes the reader expects.
   */
  ghost predicate SectionFits(s: Section, worldVersion: int, f: Codecs)
  {
    && LightFits(s.blockLight) && LightFits(s.skyLight)
    && if worldVersion >= MODERN then
         && s.ModernSection? && |s.palette| <= INT_MAX && |s.blockStates| <= INT_MAX
         && (forall i :: 0 <= i < |s.palette| ==> StorableEntry(s.palette[i], f))
         && (forall i :: 0 <= i < |s.blockStates| ==> IsLong(s.blockStates[i]))
       else s.LegacySection? && |s.blocks| == BLOCKS_SIZE && |s.data.backing| == LIGHT_SIZE
  }

  ghost predicate SectionsFit(sections: seq<Option<Section>>, worldVersion: int, f: Codecs)
  {
    forall i :: 0 <= i < |sections| && sections[i].Some? ==> SectionFits(sections[i].value, worldVersion, f)
  }

  lemma Associate(a: seq<byte>, b: seq<byte>, c: seq<byte>, d: seq<byte>, e: seq<byte>)
    ensures a + b + c + d + e == a + (b + (c + (d + e)))
  {
  }

  lemma Associate3(a: seq<byte>, b: seq<byte>, c: seq<byte>)
    ensures a + b + c == a + (b + c)
  {
  }

  lemma LightRoundTrip(l: Option<NibbleArray>, rest: seq<byte>)
    requires LightFits(l)
    ensures ReadLight(LightBytes(l) + rest, SLIME_VERSION) == Ok(Parsed(l, rest))
  {
    var body := if l.Some? then l.value.backing else [];
    assert LightBytes(l) + rest == WriteBoolean(l.Some?) + (body + rest);
    BooleanRoundTrip(l.Some?, body + rest);
    LenientRoundTrip(body, rest);
  }

  /** A null or non-empty compound survives the writer and the reader. */
  lemma CompoundRoundTrip(t: Option<Tag>, f: Codecs)
    requires Faithful(f)
    requires t.Some? ==> t.value.CompoundTag? && !IsEmptyCompound(t.value) && JavaTag(t.value)
    ensures ReadCompoundTag(SerializeCompoundTag(t, f), f) == Ok(t)
  {
    if t.Some? {
      assert f.readTag(f.writeTag(t.value)) == Ok(t.value);
    }
  }

  lemma {:induction false} PaletteRoundTrip(palette: seq<Option<Tag>>, f: Codecs, rest: seq<byte>)
    requires Faithful(f)
    requires forall i :: 0 <= i < |palette| ==> StorableEntry(palette[i], f)
    ensures ReadPalette(PaletteBytes(palette, f) + rest, |palette|, f) == Ok(Parsed(palette, rest))
    decreases |palette|
  {
    if |palette| > 0 {
      forall i | 0 <= i < |palette[1..]|
        ensures StorableEntry(palette[1..][i], f)
      {
        assert palette[1..][i] == palette[i + 1];
      }
      PaletteRoundTrip(palette[1..], f, rest);
      PaletteCons(palette, f, rest);
    } else {
      assert PaletteBytes(palette, f) + rest == rest;
    }
  }

  /** The first entry is read, then the rest of the palette as before. */
  lemma PaletteCons(palette: seq<Option<Tag>>, f: Codecs, rest: seq<byte>)
    requires Faithful(f) && |palette| > 0 && StorableEntry(palette[0], f)
    requires ReadPalette(PaletteBytes(palette[1..], f) + rest, |palette| - 1, f) == Ok(Parsed(palette[1..], rest))
    ensures ReadPalette(PaletteBytes(palette, f) + rest, |palette|, f) == Ok(Parsed(palette, rest))
  {
    var entry := SerializeCompoundTag(palette[0], f);
    var after := PaletteBytes(palette[1..], f) + rest;
    var s := PaletteBytesCons(palette, f, rest);
    EntryRoundTrip(palette[0], f, after);
    PaletteStep(s, |palette|, f, entry + after, entry, after, palette[0], palette[1..], rest);
    assert [palette[0]] + palette[1..] == palette;
  }

  /** The palette's bytes: the first entry's length and bytes, then the other entries. */
  lemma PaletteBytesCons(palette: seq<Option<Tag>>, f: Codecs, rest: seq<byte>) returns (s: seq<byte>)
    requires |palette| > 0
    ensures s == PaletteBytes(palette, f) + rest
    ensures var entry := SerializeCompoundTag(palette[0], f);
            s == WriteInt(|entry|) + (entry + (PaletteBytes(palette[1..], f) + rest))
  {
    s := PaletteBytes(palette, f) + rest;
  }

  /** One palette entry: its length, its bytes, and the tag they decode to. */
  lemma EntryRoundTrip(e: Option<Tag>, f: Codecs, after: seq<byte>)
    requires Faithful(f) && StorableEntry(e, f)
    ensures var entry := SerializeCompoundTag(e, f);
            && ReadInt(WriteInt(|entry|) + (entry + after)) == Ok(Parsed(|entry|, entry + after))
            && ReadLenient(entry + after, |entry|) == Parsed(entry, after)
            && ReadCompoundTag(entry, f) == Ok(e)
  {
    var entry := SerializeCompoundTag(e, f);
    IntRoundTrip(|entry|, entry + after);
    LenientRoundTrip(entry, after);
    CompoundRoundTrip(e, f);
  }

  /** The palette reader takes one entry off the stream, then reads the others after it. */
  lemma PaletteStep(s: seq<byte>, count: nat, f: Codecs, afterLength: seq<byte>, bytes: seq<byte>,
                    afterEntry: seq<byte>, e: Option<Tag>, others: seq<Option<Tag>>, rest: seq<byte>)
    requires count > 0
    requires ReadInt(s) == Ok(Parsed(|bytes|, afterLength))
    requires ReadLenient(afterLength, |bytes|) == Parsed(bytes, afterEntry)
    requires ReadCompoundTag(bytes, f) == Ok(e)
    requires ReadPalette(afterEntry, count - 1, f) == Ok(Parsed(others, rest))
    ensures ReadPalette(s, count, f) == Ok(Parsed([e] + others, rest))
  {
  }

  lemma ModernBlocksRoundTrip(palette: seq<Option<Tag>>, states: seq<int>, f: Codecs, rest: seq<byte>)
    requires Faithful(f) && |palette| <= INT_MAX && |states| <= INT_MAX
    requires forall i :: 0 <= i < |palette| ==> StorableEntry(palette[i], f)
    requires forall i :: 0 <= i < |states| ==> IsLong(states[i])
    ensures ReadModernBlocks(WriteInt(|palette|) + PaletteBytes(palette, f) + WriteInt(|states|) + WriteLongs(states) + rest, f)
            == Ok(Parsed((palette, states), rest))
  {
    var p := PaletteBytes(palette, f);
    var l := WriteLongs(states);
    Associate(WriteInt(|palette|), p, WriteInt(|states|), l, rest);
    var afterPalette := WriteInt(|states|) + (l + rest);
    IntRoundTrip(|palette|, p + afterPalette);
    PaletteRoundTrip(palette, f, afterPalette);
    IntRoundTrip(|states|, l + rest);
    LongsRoundTrip(states, rest);
    assert ReadInt(WriteInt(|palette|) + (p + afterPalette)) == Ok(Parsed(|palette|, p + afterPalette));
    assert ReadPalette(p + afterPalette, |palette|, f) == Ok(Parsed(palette, afterPalette));
    assert ReadInt(afterPalette) == Ok(Parsed(|states|, l + rest));
  }

  /** The block data the writer emits between the two light arrays. */
  function BlockBytes(s: Section, f: Codecs): seq<byte>
  {
    if s.ModernSection?
    then WriteInt(|s.palette|) + PaletteBytes(s.palette, f) + WriteInt(|s.blockStates|) + WriteLongs(s.blockStates)
    else s.blocks + s.data.backing
  }

  lemma BlocksRoundTrip(s: Section, worldVersion: int, f: Codecs, rest: seq<byte>)
    requires Faithful(f) && SectionFits(s, worldVersion, f)
    ensures ReadBlocks(BlockBytes(s, f) + rest, s.blockLight, worldVersion, f)
            == Ok(Parsed(s.(skyLight := None), rest))
  {
    if worldVersion >= MODERN {
      ModernBlocksRoundTrip(s.palette, s.blockStates, f, rest);
    } else {
      assert BlockBytes(s, f) + rest == s.blocks + (s.data.backing + rest);
      LenientRoundTrip(s.blocks, s.data.backing + rest);
      LenientRoundTrip(s.data.backing, rest);
    }
  }

  /** One section, read by a reader of the current format. */
  lemma SectionRoundTrip(s: Section, worldVersion: int, f: Codecs, rest: seq<byte>)
    requires Faithful(f) && SectionFits(s, worldVersion, f)
    ensures SectionBytes(s, worldVersion, f).Ok?
    ensures ReadSection(SectionBytes(s, worldVersion, f).value + rest, worldVersion, SLIME_VERSION, f) == Ok(Parsed(s, rest))
    {
    var body := BlockBytes(s, f);
    var sky := LightBytes(s.skyLight);
    SectionBytesSplit(s, worldVersion, f, rest);
    LightRoundTrip(s.blockLight, body + (sky + rest));
    BlocksRoundTrip(s, worldVersion, f, sky + rest);
    LightRoundTrip(s.skyLight, rest);
    ReadSectionOf(LightBytes(s.blockLight) + (body + (sky + rest)), worldVersion, f,
                  s.blockLight, body + (sky + rest), s.(skyLight := None), sky + rest, s.skyLight, rest);
    assert s.(skyLight := None).(skyLight := s.skyLight) == s;
  }

  /** A section's bytes: block light, the block data, then sky light. */
  lemma SectionBytesSplit(s: Section, worldVersion: int, f: Codecs, rest: seq<byte>)
    requires worldVersion >= MODERN <==> s.ModernSection?
    requires worldVersion < MODERN ==> s.LegacySection?
    ensures SectionBytes(s, worldVersion, f).Ok?
    ensures SectionBytes(s, worldVersion, f).value + rest
            == LightBytes(s.blockLight) + (BlockBytes(s, f) + (LightBytes(s.skyLight) + rest))
  {
    var body := BlockBytes(s, f);
    var sky := LightBytes(s.skyLight);
    assert SectionBytes(s, worldVersion, f).value == LightBytes(s.blockLight) + body + sky;
  }


  /** The section reader is its three reads in a row: block light, blocks, sky light. */
  lemma ReadSectionOf(s: seq<byte>, worldVersion: int, f: Codecs, blockLight: Option<NibbleArray>,
                      afterLight: seq<byte>, blocks: Section, afterBlocks: seq<byte>,
                      skyLight: Option<NibbleArray>, rest: seq<byte>)
    requires ReadLight(s, SLIME_VERSION) == Ok(Parsed(blockLight, afterLight))
    requires ReadBlocks(afterLight, blockLight, worldVersion, f) == Ok(Parsed(blocks, afterBlocks))
    requires ReadLight(afterBlocks, SLIME_VERSION) == Ok(Parsed(skyLight, rest))
    ensures ReadSection(s, worldVersion, SLIME_VERSION, f) == Ok(Parsed(blocks.(skyLight := skyLight), rest))
  {
  }

  /** The sections from `i` on are written as the first of them followed by the rest. */
  lemma SectionsUnfold(ss: seq<Option<Section>>, i: nat, worldVersion: int, f: Codecs)
    requires i < |ss|
    requires SectionsBytes(ss[i..], worldVersion, f).Ok?
    ensures ss[i].Some? ==> SectionBytes(ss[i].value, worldVersion, f).Ok?
    ensures SectionsBytes(ss[i + 1..], worldVersion, f).Ok?
    ensures SectionsBytes(ss[i..], worldVersion, f).value
            == (if ss[i].Some? then SectionBytes(ss[i].value, worldVersion, f).value else [])
               + SectionsBytes(ss[i + 1..], worldVersion, f).value
  {
    assert ss[i..][0] == ss[i];
    assert ss[i..][1..] == ss[i + 1..];
  }

  /** A present section `i` is read from the front of the stream, then the rest. */
  lemma PresentStep(ss: seq<Option<Section>>, mask: seq<byte>, i: nat, worldVersion: int, f: Codecs,
                    head: seq<byte>, tail: seq<byte>, rest: seq<byte>)
    requires Faithful(f) && |ss| == SECTION_COUNT && i < SECTION_COUNT && BitSets.Get(mask, i) && ss[i].Some?
    requires SectionFits(ss[i].value, worldVersion, f)
    requires SectionBytes(ss[i].value, worldVersion, f) == Ok(head)
    requires ReadSectionsFrom(mask, i + 1, tail + rest, worldVersion, SLIME_VERSION, f, ss[..i + 1]) == Ok(Parsed(ss, rest))
    ensures ReadSectionsFrom(mask, i, head + tail + rest, worldVersion, SLIME_VERSION, f, ss[..i]) == Ok(Parsed(ss, rest))
  {
    PrefixStep(ss, i);
    SectionAt(ss[i].value, worldVersion, f, head, tail + rest);
    Associate3(head, tail, rest);
    ReadPresent(mask, i, head + (tail + rest), worldVersion, f, ss[..i], ss[i].value, tail + rest);
  }

  lemma PrefixStep(ss: seq<Option<Section>>, i: nat)
    requires i < |ss| && ss[i].Some?
    ensures ss[..i] + [Some(ss[i].value)] == ss[..i + 1]
  {
    assert ss[..i] + [ss[i]] == ss[..i + 1];
  }

  /** A section whose bytes are `head` is read from the front of `head + after`. */
  lemma SectionAt(s: Section, worldVersion: int, f: Codecs, head: seq<byte>, after: seq<byte>)
    requires Faithful(f) && SectionFits(s, worldVersion, f)
    requires SectionBytes(s, worldVersion, f) == Ok(head)
    ensures ReadSection(head + after, worldVersion, SLIME_VERSION, f) == Ok(Parsed(s, after))
  {
    SectionRoundTrip(s, worldVersion, f, after);
  }

  /** Where the mask has bit `i`, the reader takes one section off the stream and goes on after it. */
  lemma ReadPresent(mask: seq<byte>, i: nat, s: seq<byte>, worldVersion: int, f: Codecs,
                    acc: seq<Option<Section>>, section: Section, after: seq<byte>)
    requires i < SECTION_COUNT && BitSets.Get(mask, i)
    requires ReadSection(s, worldVersion, SLIME_VERSION, f) == Ok(Parsed(section, after))
    ensures ReadSectionsFrom(mask, i, s, worldVersion, SLIME_VERSION, f, acc)
            == ReadSectionsFrom(mask, i + 1, after, worldVersion, SLIME_VERSION, f, acc + [Some(section)])
  {
  }

  /** An absent section `i` consumes nothing. */
  lemma AbsentStep(ss: seq<Option<Section>>, mask: seq<byte>, i: nat, worldVersion: int, f: Codecs,
                   tail: seq<byte>, rest: seq<byte>)
    requires |ss| == SECTION_COUNT && i < SECTION_COUNT && !BitSets.Get(mask, i) && ss[i].None?
    requires ReadSectionsFrom(mask, i + 1, tail + rest, worldVersion, SLIME_VERSION, f, ss[..i + 1]) == Ok(Parsed(ss, rest))
    ensures ReadSectionsFrom(mask, i, tail + rest, worldVersion, SLIME_VERSION, f, ss[..i]) == Ok(Parsed(ss, rest))
  {
    assert ss[..i] + [ss[i]] == ss[..i + 1];
  }

  lemma {:induction false} SectionsLoop(ss: seq<Option<Section>>, mask: seq<byte>, i: nat, worldVersion: int,
                                        f: Codecs, rest: seq<byte>)
    requires Faithful(f) && |ss| == SECTION_COUNT && i <= SECTION_COUNT && SectionsFit(ss, worldVersion, f)
    requires forall k :: 0 <= k < SECTION_COUNT ==> (BitSets.Get(mask, k) <==> ss[k].Some?)
    ensures SectionsBytes(ss[i..], worldVersion, f).Ok?
    ensures ReadSectionsFrom(mask, i, SectionsBytes(ss[i..], worldVersion, f).value + rest, worldVersion, SLIME_VERSION,
                             f, ss[..i]) == Ok(Parsed(ss, rest))
    decreases SECTION_COUNT - i
  {
    if i == SECTION_COUNT {
      assert ss[..i] == ss;
      assert ss[i..] == [];
      assert SectionsBytes(ss[i..], worldVersion, f).value + rest == rest;
    } else {
      SectionsLoop(ss, mask, i + 1, worldVersion, f, rest);
      SectionsStep(ss, mask, i, worldVersion, f, rest);
    }
  }

  /** Section `i`, present or absent, then the sections after it. */
  lemma SectionsStep(ss: seq<Option<Section>>, mask: seq<byte>, i: nat, worldVersion: int, f: Codecs, rest: seq<byte>)
    requires Faithful(f) && |ss| == SECTION_COUNT && i < SECTION_COUNT && SectionsFit(ss, worldVersion, f)
    requires BitSets.Get(mask, i) <==> ss[i].Some?
    requires SectionsBytes(ss[i + 1..], worldVersion, f).Ok?
    requires ReadSectionsFrom(mask, i + 1, SectionsBytes(ss[i + 1..], worldVersion, f).value + rest, worldVersion,
                              SLIME_VERSION, f, ss[..i + 1]) == Ok(Parsed(ss, rest))
    ensures SectionsBytes(ss[i..], worldVersion, f).Ok?
    ensures ReadSectionsFrom(mask, i, SectionsBytes(ss[i..], worldVersion, f).value + rest, worldVersion, SLIME_VERSION,
                             f, ss[..i]) == Ok(Parsed(ss, rest))
  {
    SectionsUnfold(ss, i, worldVersion, f);
    var tail := SectionsBytes(ss[i + 1..], worldVersion, f).value;
    if ss[i].Some? {
      var head := SectionBytes(ss[i].value, worldVersion, f).value;
      assert SectionsBytes(ss[i..], worldVersion, f).value == head + tail;
      PresentStep(ss, mask, i, worldVersion, f, head, tail, rest);
    } else {
      assert SectionsBytes(ss[i..], worldVersion, f).value == tail;
      AbsentStep(ss, mask, i, worldVersion, f, tail, rest);
    }
  }

  /** The sixteen sections of a chunk, behind their two-byte presence mask. */
  lemma SectionsRoundTrip(ss: seq<Option<Section>>, worldVersion: int, f: Codecs, rest: seq<byte>)
    requires Faithful(f) && |ss| == SECTION_COUNT && SectionsFit(ss, worldVersion, f)
    ensures SectionsBytes(ss, worldVersion, f).Ok?
    ensures ReadSections(WriteBitSetAsBytes(PresentFrom(ss, 0), 2) + SectionsBytes(ss, worldVersion, f).value + rest,
                         worldVersion, SLIME_VERSION, f) == Ok(Parsed(ss, rest))
  {
    var mask := WriteBitSetAsBytes(PresentFrom(ss, 0), 2);
    MaskMarksPresent(ss);
    SectionsLoop(ss, mask, 0, worldVersion, f, rest);
    assert ss[0..] == ss && ss[..0] == [];
    MaskThenSections(mask, SectionsBytes(ss, worldVersion, f).value, rest, worldVersion, f);
  }

  /** The written presence mask is two bytes whose bit k is set exactly for the present sections. */
  lemma MaskMarksPresent(ss: seq<Option<Section>>)
    requires |ss| == SECTION_COUNT
    ensures |WriteBitSetAsBytes(PresentFrom(ss, 0), 2)| == 2
    ensures forall k :: 0 <= k < SECTION_COUNT ==> (BitSets.Get(WriteBitSetAsBytes(PresentFrom(ss, 0), 2), k) <==> ss[k].Some?)
  {
    WriteThenGet(PresentFrom(ss, 0), 2);
  }

  /** The section reader takes the two mask bytes, then reads the sections from what follows. */
  lemma MaskThenSections(mask: seq<byte>, body: seq<byte>, rest: seq<byte>, worldVersion: int, f: Codecs)
    requires |mask| == 2
    ensures ReadSections(mask + body + rest, worldVersion, SLIME_VERSION, f)
            == ReadSectionsFrom(mask, 0, body + rest, worldVersion, SLIME_VERSION, f, [])
  {
    var s := mask + body + rest;
    assert s == mask + (body + rest);
    LenientRoundTrip(mask, body + rest);
    assert ReadLenient(s, 2) == Parsed(mask, body + rest);
  }
}

=== FILE: standalone_importer.dfy ===
/**
 * The standalone importer (`SWMImporter`): a vanilla world directory becomes
 * the bytes of a Slime file without ever building a world.  It reads regions,
 * chunks, level.dat and map files as the plugin's importer does, but keeps the
 * chunks as a list (a chunk present in two region files is written twice),
 * sorts that list stably by chunk key, and writes the file itself with its own
 * chunk writer.
 */
module StandaloneImport {
  import opened Wrappers
  import opened Bytes
  import opened Tags
  import opened Foreign
  import opened Worlds
  import opened BitSets
  import opened SlimeFormat
  import opened Regions
  import opened VanillaChunks
  import opened Encoder
  import opened PluginImport

  // ---- Stable sort by chunk key ----

  /** `c` placed after every chunk whose key is not greater than its own. */
  function Insert(s: seq<Chunk>, c: Chunk): (r: seq<Chunk>)
    ensures |r| == |s| + 1
    decreases |s|
  {
    if |s| == 0 then [c]
    else if KeyOf(c) < KeyOf(s[0]) then [c] + s
    else
      assert s == [s[0]] + s[1..];
      [s[0]] + Insert(s[1..], c)
  }

  /** Inserting adds `c` and keeps every chunk of `s`. */
  lemma {:induction false} InsertPermutes(s: seq<Chunk>, c: Chunk)
    ensures multiset(Insert(s, c)) == multiset(s) + multiset{c}
    decreases |s|
  {
    if |s| > 0 && KeyOf(c) >= KeyOf(s[0]) {
      InsertPermutes(s[1..], c);
      assert s == [s[0]] + s[1..];
    }
  }

  /** `List.sort` with the chunk-key comparator: an insertion sort, which is stable. */
  function SortByKey(cs: seq<Chunk>): (r: seq<Chunk>)
    decreases |cs|
  {
    if |cs| == 0 then [] else Insert(SortByKey(cs[..|cs| - 1]), cs[|cs| - 1])
  }

  predicate KeysNonDecreasing(cs: seq<Chunk>)
  {
    forall i, j :: 0 <= i < j < |cs| ==> KeyOf(cs[i]) <= KeyOf(cs[j])
  }

  /** The chunks stored under key `k`, in list order. */
  function WithKey(cs: seq<Chunk>, k: int): (r: seq<Chunk>)
    ensures forall i :: 0 <= i < |r| ==> KeyOf(r[i]) == k
    decreases |cs|
  {
    if |cs| == 0 then []
    else (if KeyOf(cs[0]) == k then [cs[0]] else []) + WithKey(cs[1..], k)
  }

  lemma {:induction false} WithKeyAppend(a: seq<Chunk>, b: seq<Chunk>, k: int)
    ensures WithKey(a + b, k) == WithKey(a, k) + WithKey(b, k)
    decreases |a|
  {
    if |a| > 0 {
      assert (a + b)[0] == a[0] && (a + b)[1..] == a[1..] + b;
      WithKeyAppend(a[1..], b, k);
    } else {
      assert a + b == b;
    }
  }

  /** Nothing in a list whose keys all exceed `k` is stored under `k`. */
  lemma {:induction false} WithKeyAbove(s: seq<Chunk>, k: int)
    requires forall i :: 0 <= i < |s| ==> KeyOf(s[i]) > k
    ensures WithKey(s, k) == []
    decreases |s|
  {
    if |s| > 0 {
      WithKeyAbove(s[1..], k);
    }
  }

  /** Inserting keeps the keys ordered. */
  lemma {:induction false} InsertSorted(s: seq<Chunk>, c: Chunk)
    requires KeysNonDecreasing(s)
    ensures KeysNonDecreasing(Insert(s, c))
    decreases |s|
  {
    if |s| > 0 && KeyOf(c) >= KeyOf(s[0]) {
      var t := Insert(s[1..], c);
      assert KeysNonDecreasing(s[1..]);
      InsertSorted(s[1..], c);
      InsertPermutes(s[1..], c);
      var r := [s[0]] + t;
      assert Insert(s, c) == r;
      forall i | 0 <= i < |t| ensures KeyOf(s[0]) <= KeyOf(t[i]) {
        assert t[i] in multiset(t);
        if t[i] != c {
          assert t[i] in multiset(s[1..]);
          var j :| 0 <= j < |s[1..]| && s[1..][j] == t[i];
          assert s[1..][j] == s[j + 1];
        }
      }
      forall i, j | 0 <= i < j < |r| ensures KeyOf(r[i]) <= KeyOf(r[j]) {
        assert r[j] == t[j - 1];
        if i > 0 { assert r[i] == t[i - 1]; }
      }
    }
  }

  /** Inserting appends `c` to the run of its own key and leaves every other run alone. */
  lemma {:induction false} InsertWithKey(s: seq<Chunk>, c: Chunk, k: int)
    requires KeysNonDecreasing(s)
    ensures WithKey(Insert(s, c), k) == WithKey(s, k) + (if KeyOf(c) == k then [c] else [])
    decreases |s|
  {
    if |s| == 0 || KeyOf(c) < KeyOf(s[0]) {
      InsertFrontWithKey(s, c, k);
    } else {
      var t := Insert(s[1..], c);
      var head := if KeyOf(s[0]) == k then [s[0]] else [];
      var mine := if KeyOf(c) == k then [c] else [];
      assert KeysNonDecreasing(s[1..]);
      InsertWithKey(s[1..], c, k);
      assert Insert(s, c) == [s[0]] + t;
      WithKeyCons(s[0], t, k);
      WithKeyCons(s[0], s[1..], k);
      assert [s[0]] + s[1..] == s;
      assert head + (WithKey(s[1..], k) + mine) == (head + WithKey(s[1..], k)) + mine;
    }
  }

  /** A chunk inserted in front is first in the run of its key, which was empty. */
  lemma InsertFrontWithKey(s: seq<Chunk>, c: Chunk, k: int)
    requires KeysNonDecreasing(s) && (|s| == 0 || KeyOf(c) < KeyOf(s[0]))
    ensures WithKey(Insert(s, c), k) == WithKey(s, k) + (if KeyOf(c) == k then [c] else [])
  {
    assert Insert(s, c) == [c] + s;
    WithKeyCons(c, s, k);
    if KeyOf(c) == k {
      WithKeyAbove(s, k);
    }
  }

  /** The run of `k` in a list with `x` in front. */
  lemma WithKeyCons(x: Chunk, s: seq<Chunk>, k: int)
    ensures WithKey([x] + s, k) == (if KeyOf(x) == k then [x] else []) + WithKey(s, k)
  {
    assert ([x] + s)[0] == x && ([x] + s)[1..] == s;
  }

  // ---- The chunk writer of the standalone importer ----

  /**
   * A palette entry is always written with a length prefix, even an empty
   * compound; the loop's cast to `CompoundTag` fails on any other tag, and a
   * null entry is a NullPointerException.
   */
  function PaletteEntries(palette: seq<Option<Tag>>, f: Codecs): (r: Result<seq<byte>>)
    ensures r.Ok? <==> forall i :: 0 <= i < |palette| ==> palette[i].Some? && palette[i].value.CompoundTag?
    ensures r.Fail? ==> r.error == NullPointer || r.error == ClassCast
    ensures |palette| > 0 && palette[0].None? ==> r == Fail(NullPointer)
    ensures |palette| > 0 && palette[0].Some? && !palette[0].value.CompoundTag? ==> r == Fail(ClassCast)
    decreases |palette|
  {
    if |palette| == 0 then Ok([])
    else
      var head :-
        if palette[0].None? then Fail(NullPointer)
        else if !palette[0].value.CompoundTag? then Fail(ClassCast)
        else Ok(f.writeTag(palette[0].value));
      var tail :- PaletteEntries(palette[1..], f);
      assert forall i :: 1 <= i < |palette| ==> palette[i] == palette[1..][i - 1];
      Ok(WriteInt(|head|) + head + tail)
  }

  function ImportedSectionBytes(s: Section, worldVersion: int, f: Codecs): (r: Result<seq<byte>>)
    ensures worldVersion >= MODERN && s.LegacySection? ==> r == Fail(NullPointer)
    ensures worldVersion < MODERN && s.ModernSection? ==> r == Fail(NullPointer)
  {
    var body :-
      if worldVersion >= MODERN then
        if s.ModernSection? then
          var entries :- PaletteEntries(s.palette, f);
          Ok(WriteInt(|s.palette|) + entries + WriteInt(|s.blockStates|) + WriteLongs(s.blockStates))
        else Fail(NullPointer)
      else if s.LegacySection? then Ok(s.blocks + s.data.backing)
      else Fail(NullPointer);
    Ok(LightBytes(s.blockLight) + body + LightBytes(s.skyLight))
  }

  function ImportedSectionsBytes(sections: seq<Option<Section>>, worldVersion: int, f: Codecs): (r: Result<seq<byte>>)
    decreases |sections|
  {
    if |sections| == 0 then Ok([])
    else
      var head :- if sections[0].Some? then ImportedSectionBytes(sections[0].value, worldVersion, f) else Ok([]);
      var tail :- ImportedSectionsBytes(sections[1..], worldVersion, f);
      Ok(head + tail)
  }

  /** Modern height maps are always written as a compound with a length prefix; legacy ones as 256 ints. */
  function ImportedHeightMapBytes(c: Chunk, worldVersion: int, f: Codecs): (r: Result<seq<byte>>)
    ensures worldVersion >= MODERN ==> r.Ok? && |r.value| == 4 + |f.writeTag(c.heightMaps)|
    ensures worldVersion < MODERN ==> r == HeightMapBytes(c, worldVersion, f)
  {
    if worldVersion >= MODERN then
      var bytes := f.writeTag(c.heightMaps);
      Ok(WriteInt(|bytes|) + bytes)
    else HeightMapBytes(c, worldVersion, f)
  }

  function ImportedChunkBytes(c: Chunk, worldVersion: int, f: Codecs): (r: Result<seq<byte>>)
  {
    var heights :- ImportedHeightMapBytes(c, worldVersion, f);
    var sections :- ImportedSectionsBytes(c.sections, worldVersion, f);
    Ok(heights + BiomeBytes(c, worldVersion) + WriteBitSetAsBytes(PresentFrom(c.sections, 0), 2) + sections)
  }

  /** `serializeChunks`. */
  function ImportedChunksBytes(cs: seq<Chunk>, worldVersion: int, f: Codecs): (r: Result<seq<byte>>)
    decreases |cs|
  {
    if |cs| == 0 then Ok([])
    else
      var head :- ImportedChunkBytes(cs[0], worldVersion, f);
      var tail :- ImportedChunksBytes(cs[1..], worldVersion, f);
      Ok(head + tail)
  }

  // ---- The file ----

  function TilesBlob(cs: seq<Chunk>): Tag
  {
    CompoundTag("", map["tiles" := ListTag("tiles", AllTiles(cs))])
  }

  function EntitiesBlob(cs: seq<Chunk>): Tag
  {
    CompoundTag("", map["entities" := ListTag("entities", AllEntities(cs))])
  }

  /**
   * What `generateSlimeWorld` writes, before it writes it.  The chunks are
   * sorted; bounds, bitmask and blobs follow the Slime format, every compound
   * written in full.  An empty list has no minimum (NoSuchElementException).
   */
  function StandaloneLayout(chunks: seq<Chunk>, worldVersion: int, gameRules: map<string, string>, maps: seq<Tag>, f: Codecs): (r: Result<Layout>)
    ensures |chunks| == 0 ==> r == Fail(NoSuchElement)
    ensures r.Ok? ==> r.value.worldVersion == worldVersion
    ensures r.Ok? ==> r.value.extraData == f.writeTag(ExtraData(gameRules)) && r.value.mapData == f.writeTag(MapsCompound(maps))
    ensures r.Ok? ==> (r.value.entityData.Some? <==> AllEntities(SortByKey(chunks)) != [])
  {
    var sorted := SortByKey(chunks);
    if |sorted| == 0 then Fail(NoSuchElement)
    else
      var minX := MinOr0(Xs(sorted));
      var minZ := MinOr0(Zs(sorted));
      var maxX := MaxOr0(Xs(sorted));
      var maxZ := MaxOr0(Zs(sorted));
      var width := Wrap32(maxX - minX + 1);
      var depth := Wrap32(maxZ - minZ + 1);
      var cells := Wrap32(width * depth);
      if cells < 0 then Fail(NegativeArraySize)
      else
        var indices :- MaskIndices(sorted, minX, minZ, width);
        var chunkData :- ImportedChunksBytes(sorted, worldVersion, f);
        var entities := AllEntities(sorted);
        Ok(Layout(
          worldVersion, minX, minZ, width, depth,
          WriteBitSetAsBytes(indices, CeilDiv8(cells)),
          chunkData,
          f.writeTag(TilesBlob(sorted)),
          if |entities| == 0 then None else Some(f.writeTag(EntitiesBlob(sorted))),
          f.writeTag(ExtraData(gameRules)),
          f.writeTag(MapsCompound(maps))))
  }

  /** `generateSlimeWorld`: the laid-out file, or an OutOfMemoryError when an array would exceed Java's limit. */
  function GenerateSlimeWorld(chunks: seq<Chunk>, worldVersion: int, gameRules: map<string, string>, maps: seq<Tag>, f: Codecs): (r: Result<seq<byte>>)
    ensures r.Ok? ==> |r.value| <= MAX_ARRAY
    ensures r.Ok? ==> |r.value| >= 4 && r.value[..4] == SLIME_HEADER + [SLIME_VERSION] + WriteByte(worldVersion)
  {
    var l :- StandaloneLayout(chunks, worldVersion, gameRules, maps, f);
    WriteLayout(l, f)
  }

  /** The bytes of a laid-out file, or an OutOfMemoryError when an array would exceed Java's limit. */
  function WriteLayout(l: Layout, f: Codecs): (r: Result<seq<byte>>)
    ensures r.Ok? <==> Fits(l, Emit(l, f))
    ensures r.Fail? ==> r.error == OutOfMemory
    ensures r.Ok? ==> |r.value| <= MAX_ARRAY
    ensures r.Ok? ==> |r.value| >= 4 && r.value[..4] == SLIME_HEADER + [SLIME_VERSION] + WriteByte(l.worldVersion)
  {
    var out := Emit(l, f);
    if !Fits(l, out) then Fail(OutOfMemory)
    else
      EmitStartsWithHeader(l, f);
      Ok(out)
  }

  /** Every Slime file opens with the magic bytes, the format version and the world version. */
  lemma EmitStartsWithHeader(l: Layout, f: Codecs)
    ensures |Emit(l, f)| >= 4 && Emit(l, f)[..4] == SLIME_HEADER + [SLIME_VERSION] + WriteByte(l.worldVersion)
  {
    var prefix := SLIME_HEADER + [SLIME_VERSION] + WriteByte(l.worldVersion);
    var rest := WriteShort(l.minX) + WriteShort(l.minZ) + WriteShort(l.width) + WriteShort(l.depth) + l.mask;
    assert |prefix| == 4;
    assert HeaderBytes(l) == prefix + rest;
    assert Emit(l, f) == prefix + (rest + BlobsBytes(l, f));
  }

  // ---- The directory ----

  datatype FolderContents = FolderContents(region: Option<seq<NamedFile>>, level: Option<seq<byte>>, data: DataDir)

  /** What the world folder path names: nothing, a regular file, or a directory. */
  datatype Folder = Absent(name: string) | RegularFile(name: string) | Directory(name: string, contents: FolderContents)

  /** `importWorld` rethrows an IOException of a step as an IOException with its own message. */
  function Rethrown<T>(r: Result<T>): (s: Result<T>)
    ensures r.Ok? ==> s == r
    ensures r.Fail? && (r.error == StorageFailure || r.error == EndOfStream) ==> s == Fail(StorageFailure)
    ensures r.Fail? && r.error != StorageFailure && r.error != EndOfStream ==> s == r
  {
    if r.Fail? && (r.error == StorageFailure || r.error == EndOfStream) then Fail(StorageFailure) else r
  }

  /** Every region file's chunks, appended in listing order: duplicates stay. */
  function LoadAllChunks(files: seq<NamedFile>, worldVersion: int, decode: ChunkDecoder): (r: Result<seq<Chunk>>)
    ensures r.Ok? ==> forall i :: 0 <= i < |r.value| ==> Imported(r.value[i])
    decreases |files|
  {
    if |files| == 0 then Ok([])
    else
      var head :- LoadChunks(files[0].bytes, worldVersion, decode);
      var tail :- LoadAllChunks(files[1..], worldVersion, decode);
      Ok(head + tail)
  }

  /**
   * `importWorld` up to the bytes it writes: a missing folder, a regular file,
   * a missing or empty region directory, a missing level.dat, or a "data" entry
   * that is not a directory is an InvalidWorldException, checked in that order.
   */
  function ImportWorld(folder: Folder, io: Readers, f: Codecs): (r: Result<seq<byte>>)
    ensures !folder.Directory? ==> r == Fail(InvalidWorld(folder.name))
    ensures folder.Directory? && (folder.contents.region.None? || folder.contents.region.value == []) ==>
              r == Fail(InvalidWorld(folder.name))
    ensures (folder.Directory? && folder.contents.region.Some? && folder.contents.region.value != []
             && folder.contents.level.None?) ==> r == Fail(InvalidWorld(folder.name))
    ensures r.Fail? ==> r.error != EndOfStream
    ensures r.Ok? ==> |r.value| <= MAX_ARRAY
  {
    if !folder.Directory? then Fail(InvalidWorld(folder.name))
    else
      var c := folder.contents;
      if c.region.None? || c.region.value == [] then Fail(InvalidWorld(folder.name))
      else if c.level.None? then Fail(InvalidWorld(folder.name))
      else
        var level :- Rethrown(ReadLevelData(folder.name, c.level.value, io.readFile));
        var version := WorldVersionOf(level.version);
        var chunks :- Rethrown(LoadAllChunks(RegionFiles(c.region.value), version, io.decode));
        var maps :- match c.data
                    case NoDataDir => Ok([])
                    case DataIsFile => Fail(InvalidWorld(folder.name))
                    case DataFiles(files) => Rethrown(LoadMaps(files, io.readFile));
        var out := GenerateSlimeWorld(chunks, version, level.gameRules, maps, f);
        if out.Fail? && out.error == EndOfStream then Fail(StorageFailure) else out
  }

  /** A path as a parent directory and a file name. */
  datatype Path = Path(parent: string, name: string)

  /** `getDestinationFile`: next to the world folder, named after it with ".slime" appended. */
  function DestinationFile(worldFolder: Path): (r: Path)
    ensures r.parent == worldFolder.parent
    ensures r.name != worldFolder.name
    ensures |r.name| == |worldFolder.name| + 6 && r.name[..|worldFolder.name|] == worldFolder.name
    ensures r.name[|worldFolder.name|..] == ".slime"
  {
    Path(worldFolder.parent, worldFolder.name + ".slime")
  }

  // ---- Properties ----

  /** The sort keeps every chunk and orders the keys. */
  lemma {:induction false} SortByKeySorted(cs: seq<Chunk>)
    ensures KeysNonDecreasing(SortByKey(cs))
    ensures multiset(SortByKey(cs)) == multiset(cs)
    decreases |cs|
  {
    if |cs| > 0 {
      var init := cs[..|cs| - 1];
      assert cs == init + [cs[|cs| - 1]];
      SortByKeySorted(init);
      InsertSorted(SortByKey(init), cs[|cs| - 1]);
      InsertPermutes(SortByKey(init), cs[|cs| - 1]);
    }
  }

  /** The sort keeps the chunks that share a key in their input order: it is stable. */
  lemma {:induction false} SortByKeyStable(cs: seq<Chunk>, k: int)
    ensures WithKey(SortByKey(cs), k) == WithKey(cs, k)
    decreases |cs|
  {
    if |cs| > 0 {
      var init, last := cs[..|cs| - 1], cs[|cs| - 1];
      assert cs == init + [last];
      SortByKeyStable(init, k);
      SortByKeySorted(init);
      InsertWithKey(SortByKey(init), last, k);
      WithKeyAppend(init, [last], k);
      assert [last][0] == last && [last][1..] == [];
    }
  }

  /** With distinct keys, sorting lists the chunks in strictly ascending key order. */
  lemma SortDistinct(cs: seq<Chunk>)
    requires DistinctKeys(cs)
    ensures KeysIncreasing(SortByKey(cs))
  {
    var r := SortByKey(cs);
    SortByKeySorted(cs);
    forall i, j | 0 <= i < j < |r| ensures KeyOf(r[i]) < KeyOf(r[j]) {
      if KeyOf(r[i]) == KeyOf(r[j]) {
        var k := KeyOf(r[i]);
        assert r[i] in multiset(cs) && r[j] in multiset(cs);
        TwoWithKey(r, i, j);
        SortByKeyStable(cs, k);
        TwoWithKeyDistinct(cs, k);
        assert false;
      }
    }
  }

  /** Two chunks sharing a key in a list leave at least two in that key's run. */
  lemma {:induction false} TwoWithKey(s: seq<Chunk>, i: nat, j: nat)
    requires i < j < |s| && KeyOf(s[i]) == KeyOf(s[j])
    ensures |WithKey(s, KeyOf(s[i]))| >= 2
    decreases |s|
  {
    var k := KeyOf(s[i]);
    if i > 0 {
      TwoWithKey(s[1..], i - 1, j - 1);
    } else {
      OneWithKey(s[1..], j - 1, k);
    }
  }

  lemma {:induction false} OneWithKey(s: seq<Chunk>, j: nat, k: int)
    requires j < |s| && KeyOf(s[j]) == k
    ensures |WithKey(s, k)| >= 1
    decreases |s|
  {
    if j > 0 {
      OneWithKey(s[1..], j - 1, k);
    }
  }

  /** With distinct keys, no key's run has two chunks. */
  lemma {:induction false} TwoWithKeyDistinct(cs: seq<Chunk>, k: int)
    requires DistinctKeys(cs)
    ensures |WithKey(cs, k)| <= 1
    decreases |cs|
  {
    if |cs| > 0 {
      assert DistinctKeys(cs[1..]) by {
        forall a, b | 0 <= a < b < |cs[1..]| ensures KeyOf(cs[1..][a]) != KeyOf(cs[1..][b]) {
          assert cs[1..][a] == cs[a + 1] && cs[1..][b] == cs[b + 1];
        }
      }
      TwoWithKeyDistinct(cs[1..], k);
      if KeyOf(cs[0]) == k {
        forall i | 0 <= i < |cs[1..]| ensures KeyOf(cs[1..][i]) != k {
          assert cs[1..][i] == cs[i + 1];
        }
        NoneWithKey(cs[1..], k);
      }
    }
  }

  lemma {:induction false} NoneWithKey(s: seq<Chunk>, k: int)
    requires forall i :: 0 <= i < |s| ==> KeyOf(s[i]) != k
    ensures WithKey(s, k) == []
    decreases |s|
  {
    if |s| > 0 {
      NoneWithKey(s[1..], k);
    }
  }

  // ---- The two chunk writers agree unless a compound is empty ----

  /** Every palette entry present and a non-empty compound. */
  predicate PaletteFull(palette: seq<Option<Tag>>)
  {
    forall j :: 0 <= j < |palette| ==>
      palette[j].Some? && palette[j].value.CompoundTag? && !IsEmptyCompound(palette[j].value)
  }

  predicate SectionFull(s: Section)
  {
    s.ModernSection? ==> PaletteFull(s.palette)
  }

  /** A chunk in which the plugin's writer skips no compound: a non-empty height map and full palettes. */
  predicate ChunkFull(c: Chunk)
  {
    && !IsEmptyCompound(c.heightMaps)
    && forall i :: 0 <= i < |c.sections| && c.sections[i].Some? ==> SectionFull(c.sections[i].value)
  }

  lemma {:induction false} PaletteSame(palette: seq<Option<Tag>>, f: Codecs)
    requires PaletteFull(palette)
    ensures PaletteEntries(palette, f) == Ok(PaletteBytes(palette, f))
    decreases |palette|
  {
    if |palette| > 0 {
      assert PaletteFull(palette[1..]) by {
        forall j | 0 <= j < |palette[1..]|
          ensures palette[1..][j].Some? && palette[1..][j].value.CompoundTag? && !IsEmptyCompound(palette[1..][j].value)
        {
          assert palette[1..][j] == palette[j + 1];
        }
      }
      PaletteSame(palette[1..], f);
    }
  }

  lemma SectionSame(s: Section, worldVersion: int, f: Codecs)
    requires worldVersion < MODERN || SectionFull(s)
    ensures ImportedSectionBytes(s, worldVersion, f) == SectionBytes(s, worldVersion, f)
  {
    if worldVersion >= MODERN && s.ModernSection? {
      PaletteSame(s.palette, f);
    }
  }

  lemma {:induction false} SectionsSame(sections: seq<Option<Section>>, worldVersion: int, f: Codecs)
    requires worldVersion < MODERN || forall i :: 0 <= i < |sections| && sections[i].Some? ==> SectionFull(sections[i].value)
    ensures ImportedSectionsBytes(sections, worldVersion, f) == SectionsBytes(sections, worldVersion, f)
    decreases |sections|
  {
    if |sections| > 0 {
      if sections[0].Some? {
        SectionSame(sections[0].value, worldVersion, f);
      }
      assert forall i :: 1 <= i < |sections| ==> sections[1..][i - 1] == sections[i];
      SectionsSame(sections[1..], worldVersion, f);
    }
  }

  /**
   * The standalone importer's chunk writer and the world serializer write the
   * same bytes for a legacy world, and for a modern one whenever no height map
   * or palette entry is an empty compound (which the serializer writes as no bytes).
   */
  lemma ChunkSame(c: Chunk, worldVersion: int, f: Codecs)
    requires worldVersion < MODERN || ChunkFull(c)
    ensures ImportedChunkBytes(c, worldVersion, f) == ChunkBytes(c, worldVersion, f)
  {
    SectionsSame(c.sections, worldVersion, f);
  }

  lemma {:induction false} ChunksSame(cs: seq<Chunk>, worldVersion: int, f: Codecs)
    requires worldVersion < MODERN || forall i :: 0 <= i < |cs| ==> ChunkFull(cs[i])
    ensures ImportedChunksBytes(cs, worldVersion, f) == ChunksBytes(cs, worldVersion, f)
    decreases |cs|
  {
    if |cs| > 0 {
      ChunkSame(cs[0], worldVersion, f);
      assert forall i :: 1 <= i < |cs| ==> cs[1..][i - 1] == cs[i];
      ChunksSame(cs[1..], worldVersion, f);
    }
  }

  /** The one difference: a modern chunk with an empty height map compound gets that compound written in full. */
  lemma EmptyHeightMapWritten(c: Chunk, worldVersion: int, f: Codecs)
    requires Faithful(f) && worldVersion >= MODERN && IsEmptyCompound(c.heightMaps) && JavaTag(c.heightMaps)
    ensures |ImportedHeightMapBytes(c, worldVersion, f).value| > 4
    ensures HeightMapBytes(c, worldVersion, f) == Ok(WriteInt(0))
  {
    assert |f.writeTag(c.heightMaps)| > 0;
    var empty := SerializeCompoundTag(Some(c.heightMaps), f);
    assert empty == [];
    assert WriteInt(|empty|) + empty == WriteInt(0);
  }

  /** Two region files holding the same chunk: the standalone importer keeps both copies. */
  lemma DuplicatesKept(a: NamedFile, b: NamedFile, worldVersion: int, decode: ChunkDecoder)
    requires LoadChunks(a.bytes, worldVersion, decode).Ok? && LoadChunks(b.bytes, worldVersion, decode).Ok?
    ensures LoadAllChunks([a, b], worldVersion, decode)
            == Ok(LoadChunks(a.bytes, worldVersion, decode).value + LoadChunks(b.bytes, worldVersion, decode).value)
  {
    var ca, cb := LoadChunks(a.bytes, worldVersion, decode).value, LoadChunks(b.bytes, worldVersion, decode).value;
    assert [a, b][1..] == [b] && [a, b][0] == a;
    assert [b][1..] == [] && [b][0] == b;
    assert LoadAllChunks([], worldVersion, decode) == Ok([]);
    assert LoadAllChunks([b], worldVersion, decode) == Ok(cb + []);
    assert cb + [] == cb;
  }

  /** A folder whose regions hold no chunk at all is refused when the bounds are taken. */
  lemma NoChunksRefused(chunks: seq<Chunk>, worldVersion: int, gameRules: map<string, string>, maps: seq<Tag>, f: Codecs)
    requires chunks == []
    ensures GenerateSlimeWorld(chunks, worldVersion, gameRules, maps, f) == Fail(NoSuchElement)
  {
  }
}

=== FILE: tags.dfy ===
/**
 * Named binary tags (NBT) as the world manager uses them: compounds keyed by
 * name, lists, and the scalar and array tags chunks, entities and properties are
 * built from.  The tag stream codec itself is foreign code; see module Foreign.
 */
module Tags {
  import opened Wrappers
  import opened Bytes

  datatype Tag =
    | ByteTag(name: string, byteValue: int)
    | IntTag(name: string, intValue: int)
    | DoubleTag(name: string, doubleValue: real)
    | StringTag(name: string, stringValue: string)
    | ByteArrayTag(name: string, bytes: seq<byte>)
    | IntArrayTag(name: string, ints: seq<int>)
    | LongArrayTag(name: string, longs: seq<int>)
    | ListTag(name: string, items: seq<Tag>)
    | CompoundTag(name: string, entries: map<string, Tag>)

  /** The contents of a compound, the way `CompoundMap` is a `Map<String, Tag>`. */
  type CompoundMap = map<string, Tag>

  function EmptyCompound(name: string): (r: Tag)
    ensures r.CompoundTag? && r.entries == map[]
  {
    CompoundTag(name, map[])
  }

  /** A compound with no entries (`serializeCompoundTag` writes such a tag as zero bytes). */
  predicate IsEmptyCompound(t: Tag)
  {
    t.CompoundTag? && t.entries == map[]
  }

  // The typed accessors of flowpowered's CompoundTag: present only when the key
  // exists and holds a tag of the requested kind.

  function AsCompound(m: CompoundMap, key: string): (r: Option<Tag>)
    ensures r.Some? <==> key in m && m[key].CompoundTag?
    ensures r.Some? ==> r.value == m[key]
  {
    if key in m && m[key].CompoundTag? then Some(m[key]) else None
  }

  function AsList(m: CompoundMap, key: string): (r: Option<Tag>)
    ensures r.Some? <==> key in m && m[key].ListTag?
    ensures r.Some? ==> r.value == m[key]
  {
    if key in m && m[key].ListTag? then Some(m[key]) else None
  }

  function StringValue(m: CompoundMap, key: string): (r: Option<string>)
    ensures r.Some? <==> key in m && m[key].StringTag?
    ensures r.Some? ==> r.value == m[key].stringValue
  {
    if key in m && m[key].StringTag? then Some(m[key].stringValue) else None
  }

  function ByteValue(m: CompoundMap, key: string): (r: Option<int>)
    ensures r.Some? <==> key in m && m[key].ByteTag?
    ensures r.Some? ==> r.value == m[key].byteValue
  {
    if key in m && m[key].ByteTag? then Some(m[key].byteValue) else None
  }

  function IntValue(m: CompoundMap, key: string): (r: Option<int>)
    ensures r.Some? <==> key in m && m[key].IntTag?
    ensures r.Some? ==> r.value == m[key].intValue
  {
    if key in m && m[key].IntTag? then Some(m[key].intValue) else None
  }

  function IntArrayValue(m: CompoundMap, key: string): (r: Option<seq<int>>)
    ensures r.Some? <==> key in m && m[key].IntArrayTag?
    ensures r.Some? ==> r.value == m[key].ints
  {
    if key in m && m[key].IntArrayTag? then Some(m[key].ints) else None
  }

  function ByteArrayValue(m: CompoundMap, key: string): (r: Option<seq<byte>>)
    ensures r.Some? <==> key in m && m[key].ByteArrayTag?
    ensures r.Some? ==> r.value == m[key].bytes
  {
    if key in m && m[key].ByteArrayTag? then Some(m[key].bytes) else None
  }

  function LongArrayValue(m: CompoundMap, key: string): (r: Option<seq<int>>)
    ensures r.Some? <==> key in m && m[key].LongArrayTag?
    ensures r.Some? ==> r.value == m[key].longs
  {
    if key in m && m[key].LongArrayTag? then Some(m[key].longs) else None
  }

  /** The compound's map, or the empty map for any other tag. */
  function Entries(t: Tag): (r: CompoundMap)
    ensures t.CompoundTag? ==> r == t.entries
  {
    if t.CompoundTag? then t.entries else map[]
  }

  // ---- What the Java tag classes can hold ----

  /** The NBT type id of the tag (`TagType`). */
  function TypeId(t: Tag): int
  {
    match t
    case ByteTag(_, _) => 1
    case IntTag(_, _) => 3
    case DoubleTag(_, _) => 6
    case ByteArrayTag(_, _) => 7
    case StringTag(_, _) => 8
    case ListTag(_, _) => 9
    case CompoundTag(_, _) => 10
    case IntArrayTag(_, _) => 11
    case LongArrayTag(_, _) => 12
  }

  /** The bytes `DataOutputStream.writeUTF` spends on a character (a supplementary one is two UTF-16 units). */
  function UtfWidth(c: char): (r: nat)
    ensures 1 <= r <= 6
  {
    if 0x01 <= c as int <= 0x7F then 1
    else if c as int <= 0x7FF then 2
    else if c as int <= 0xFFFF then 3
    else 6
  }

  /** The length of the modified UTF-8 form of `s`. */
  function UtfLength(s: string): (r: nat)
    ensures r <= 6 * |s|
  {
    if |s| == 0 then 0 else UtfWidth(s[0]) + UtfLength(s[1..])
  }

  /** Text `writeUTF` accepts: its modified UTF-8 form fits the unsigned 16-bit length. */
  predicate ShortText(s: string)
  {
    UtfLength(s) <= 0xFFFF
  }

  /** An integer multiple of a power of two that a 64-bit IEEE 754 double holds exactly. */
  function ScaledBy(v: real, e: int): real
  {
    if e >= 0 then v / Pow2(e) as real else v * Pow2(-e) as real
  }

  predicate Mantissa(m: real)
  {
    m == m.Floor as real && -0x20_0000_0000_0000 as real < m < 0x20_0000_0000_0000 as real
  }

  /** A real a `double` represents: m * 2^e with |m| < 2^53 and e between -1074 and 971. */
  ghost predicate Binary64(v: real)
  {
    exists e: int {:trigger ScaledBy(v, e)} :: -1074 <= e <= 971 && Mantissa(ScaledBy(v, e))
  }

  /**
   * A tag the Java classes and the NBT stream can hold: names and strings
   * `writeUTF` accepts, byte, int and long values in their Java ranges, doubles a
   * `double` represents, arrays and lists of int length, list elements of one
   * type and without names (the stream writes none), and compound entries filed
   * under their own names (`CompoundMap` is keyed by the tag's name).
   */
  ghost predicate JavaTag(t: Tag)
    decreases t
  {
    && ShortText(t.name)
    && match t
       case ByteTag(_, v) => -0x80 <= v < 0x80
       case IntTag(_, v) => IsInt(v)
       case DoubleTag(_, v) => Binary64(v)
       case StringTag(_, s) => ShortText(s)
       case ByteArrayTag(_, b) => |b| <= INT_MAX
       case IntArrayTag(_, xs) => |xs| <= INT_MAX && forall i :: 0 <= i < |xs| ==> IsInt(xs[i])
       case LongArrayTag(_, xs) => |xs| <= INT_MAX && forall i :: 0 <= i < |xs| ==> IsLong(xs[i])
       case ListTag(_, items) =>
         && |items| <= INT_MAX
         && forall i :: 0 <= i < |items| ==>
              items[i].name == "" && TypeId(items[i]) == TypeId(items[0]) && JavaTag(items[i])
       case CompoundTag(_, m) => forall k :: k in m ==> m[k].name == k && JavaTag(m[k])
  }

  /** A `List<CompoundTag>` the stream can write: unnamed compounds, at most an int's worth. */
  ghost predicate JavaCompounds(items: seq<Tag>)
  {
    && |items| <= INT_MAX
    && forall i :: 0 <= i < |items| ==> items[i].CompoundTag? && items[i].name == "" && JavaTag(items[i])
  }

  /** Text of at most 10922 characters fits `writeUTF`, whatever the characters. */
  lemma ShortEnough(s: string)
    requires |s| <= 10922
    ensures ShortText(s)
  {
  }

  /** A named list of such compounds is a Java tag. */
  lemma CompoundListIsJava(name: string, items: seq<Tag>)
    requires ShortText(name) && JavaCompounds(items)
    ensures JavaTag(ListTag(name, items))
  {
    forall i | 0 <= i < |items|
      ensures items[i].name == "" && TypeId(items[i]) == TypeId(items[0]) && JavaTag(items[i])
    {
    }
  }

  /** A compound holding one Java tag under that tag's name is a Java tag. */
  lemma SingletonIsJava(name: string, t: Tag)
    requires ShortText(name) && JavaTag(t)
    ensures JavaTag(CompoundTag(name, map[t.name := t]))
  {
  }

  /** Filing one more Java tag under its name in a Java compound's entries gives a Java compound. */
  lemma FiledIsJava(name: string, m: CompoundMap, t: Tag)
    requires ShortText(name) && JavaTag(t)
    requires forall k :: k in m ==> m[k].name == k && JavaTag(m[k])
    ensures JavaTag(CompoundTag(name, m[t.name := t]))
  {
  }

  /** Filing a Java tag under its name in a Java tag's entries keeps it a Java tag. */
  lemma AddedIsJava(outer: Tag, t: Tag)
    requires JavaTag(outer) && JavaTag(t)
    ensures JavaTag(CompoundTag(outer.name, Entries(outer)[t.name := t]))
  {
    if outer.CompoundTag? {
      FiledIsJava(outer.name, outer.entries, t);
    } else {
      FiledIsJava(outer.name, map[], t);
    }
  }
}

/**
 * The two pieces of foreign code the format relies on: flowpowered's NBT stream
 * (`NBTOutputStream.writeTag` / `NBTInputStream.readTag`, big-endian, no
 * compression) and zstd (`Zstd.compress` / `Zstd.decompress`).  They are passed
 * in as functions; `Faithful` states what the model assumes of them: the tag
 * stream reads back every tag the Java classes can hold, and zstd decompresses
 * what it compressed.
 */
module Foreign {
  import opened Wrappers
  import opened Bytes
  import opened Tags

  datatype Codecs = Codecs(
    writeTag: Tag -> seq<byte>,
    /** Fail(EndOfStream) is an EOFException; any other failure is the IOException of a malformed stream. */
    readTag: seq<byte> -> Result<Tag>,
    compress: seq<byte> -> seq<byte>,
    /** Decompresses into a buffer of the given size; None is a ZstdException. */
    decompress: (seq<byte>, int) -> Option<seq<byte>>)

  ghost predicate Faithful(c: Codecs)
  {
    && (forall t: Tag {:trigger JavaTag(t)} :: JavaTag(t) ==> c.readTag(c.writeTag(t)) == Ok(t) && |c.writeTag(t)| > 0)
    && (forall d: seq<byte> {:trigger c.compress(d)} :: c.decompress(c.compress(d), |d|) == Some(d))
    && c.decompress([], 0) == Some([])
  }
}

=== FILE: upgrade.dfy ===
/**
 * The conversion between the 1.13 and 1.14 world schemas, in both directions:
 * renamed blocks in every section palette, the chest and trapped-chest tile
 * entities found through packed block states, and the ocelot, cat,
 * villager and banner entities.  Both directions walk every chunk; the first
 * exception ends the conversion.
 */
module WorldUpgrade {
  import opened Wrappers
  import opened Bytes
  import opened Tags
  import opened Worlds
  import opened Sorting
  import opened UpgradeTables
  import opened BlockScan

  /** `upgrade` goes from 1.13 to 1.14, `downgrade` back. */
  datatype Direction = Up | Down

  const TRAPPED_CHEST := "minecraft:trapped_chest"
  const CHEST := "minecraft:chest"
  const OCELOT := "minecraft:ocelot"
  const CAT := "minecraft:cat"
  const VILLAGER := "minecraft:villager"
  const ZOMBIE_VILLAGER := "minecraft:zombie_villager"
  const BANNER := "minecraft:banner"
  const OMINOUS := "\"translate\":\"block.minecraft.ominous_banner\""
  const ILLAGER := "\"translate\":\"block.minecraft.illager_banner\""
  const VILLAGER_XP: seq<int> := [0, 10, 50, 100, 150]

  /** The block rename of a direction: `oldToNewMap` going up, `newToOldMap` going down. */
  function Rename(d: Direction, name: string): Option<string>
  {
    if d == Up then OldToNew(name) else NewToOld(name)
  }

  /** The tile entity id a trapped chest has before and after the conversion. */
  function TileIds(d: Direction): (string, string)
  {
    if d == Up then (CHEST, TRAPPED_CHEST) else (TRAPPED_CHEST, CHEST)
  }

  /** Every entry of a compound is stored under its own name, as the tag writer relies on. */
  predicate NamesMatchKeys(m: CompoundMap)
  {
    forall k :: k in m ==> m[k].name == k
  }

  // ---- Palettes ----

  /** `palette.get(i).getStringValue("Name").get()`. */
  function EntryName(e: Option<Tag>): (r: Result<string>)
    ensures r.Ok? <==> e.Some? && e.value.CompoundTag? && StringValue(e.value.entries, "Name").Some?
    ensures r.Ok? ==> r.value == StringValue(e.value.entries, "Name").value
  {
    if e.None? then Fail(NullPointer)
    else if !e.value.CompoundTag? then Fail(ClassCast)
    else StringValue(e.value.entries, "Name").Get()
  }

  /** The block state with its Name replaced when the direction's table lists it. */
  function RenameEntry(d: Direction, t: Tag, name: string): (r: Tag)
    requires t.CompoundTag?
    ensures r.CompoundTag? && r.name == t.name
    ensures r.entries - {"Name"} == t.entries - {"Name"}
    ensures Rename(d, name).None? ==> r == t
    ensures Rename(d, name).Some? ==> "Name" in r.entries && r.entries["Name"] == StringTag("Name", Rename(d, name).value)
  {
    match Rename(d, name)
    case None => t
    case Some(renamed) => CompoundTag(t.name, t.entries["Name" := StringTag("Name", renamed)])
  }

  /** What converting part of a section leaves: its new palette and the chunk's tile entities so far. */
  datatype Progress = Progress(palette: seq<Option<Tag>>, tiles: seq<Tag>)

  /**
   * The palette loop from index `offset` on: a trapped chest first has its
   * tile entities retagged, then every entry is renamed.
   */
  function ConvertPalette(d: Direction, c: Chunk, sectionIndex: nat, states: seq<int>, entries: seq<Option<Tag>>,
                          offset: nat, tiles: seq<Tag>): (r: Result<Progress>)
    ensures r.Ok? ==> |r.value.palette| == |entries| && |r.value.tiles| == |tiles|
    ensures r.Ok? ==> forall i :: 0 <= i < |entries| ==>
              && EntryName(entries[i]).Ok?
              && r.value.palette[i] == Some(RenameEntry(d, entries[i].value, EntryName(entries[i]).value))
    decreases |entries|
  {
    if |entries| == 0 then Ok(Progress([], tiles))
    else
      match EntryName(entries[0])
      case Fail(e) => Fail(e)
      case Ok(name) =>
        match RetagChests(d, c, sectionIndex, states, offset, name, tiles)
        case Fail(e) => Fail(e)
        case Ok(retagged) =>
          match ConvertPalette(d, c, sectionIndex, states, entries[1..], offset + 1, retagged)
          case Fail(e) => Fail(e)
          case Ok(rest) => Ok(Progress([Some(RenameEntry(d, entries[0].value, name))] + rest.palette, rest.tiles))
  }

  /** A trapped chest at palette index `offset` retags the chest tile entities of its blocks; any other entry leaves them. */
  function RetagChests(d: Direction, c: Chunk, sectionIndex: nat, states: seq<int>, offset: nat, name: string, tiles: seq<Tag>)
    : (r: Result<seq<Tag>>)
    ensures name != TRAPPED_CHEST ==> r == Ok(tiles)
    ensures r.Ok? ==> |r.value| == |tiles|
  {
    var (oldId, newId) := TileIds(d);
    if name == TRAPPED_CHEST
    then UpdateBlockEntities(Scan(states, c.x, c.z, sectionIndex, offset), tiles, oldId, newId)
    else Ok(tiles)
  }

  /** The sections and tile entities of a chunk after its palettes are converted. */
  datatype Converted = Converted(sections: seq<Option<Section>>, tiles: seq<Tag>)

  /**
   * A converted section slot: an absent section stays absent, and a present one
   * was a 1.13 section whose block states, light and palette size are kept.
   */
  predicate SectionKept(before: Option<Section>, after: Option<Section>)
  {
    && (before.None? <==> after.None?)
    && (before.Some? ==> && before.value.ModernSection? && after.value.ModernSection?
                         && after.value.blockStates == before.value.blockStates
                         && after.value.blockLight == before.value.blockLight
                         && after.value.skyLight == before.value.skyLight
                         && |after.value.palette| == |before.value.palette|)
  }

  /**
   * The section loop from section `index` on: absent sections are skipped; a
   * section without a palette (the legacy layout) is a NullPointerException.
   */
  function ConvertSections(d: Direction, c: Chunk, sections: seq<Option<Section>>, index: nat, tiles: seq<Tag>)
    : (r: Result<Converted>)
    ensures r.Ok? ==> |r.value.sections| == |sections| && |r.value.tiles| == |tiles|
    ensures r.Ok? ==> forall i :: 0 <= i < |sections| ==> SectionKept(sections[i], r.value.sections[i])
    decreases |sections|
  {
    if |sections| == 0 then Ok(Converted([], tiles))
    else match sections[0]
      case None =>
        (match ConvertSections(d, c, sections[1..], index + 1, tiles)
         case Fail(e) => Fail(e)
         case Ok(rest) => Ok(Converted([None] + rest.sections, rest.tiles)))
      case Some(LegacySection(_, _, _, _)) => Fail(NullPointer)
      case Some(ModernSection(blockLight, palette, states, skyLight)) =>
        match ConvertPalette(d, c, index, states, palette, 0, tiles)
        case Fail(e) => Fail(e)
        case Ok(p) =>
          match ConvertSections(d, c, sections[1..], index + 1, p.tiles)
          case Fail(e) => Fail(e)
          case Ok(rest) => Ok(Converted([Some(ModernSection(blockLight, p.palette, states, skyLight))] + rest.sections, rest.tiles))
  }

  // ---- Entities ----

  /** The number of entries of the Offers' "Recipes" compound, 0 when there is none. */
  function RecipeCount(offers: Tag): nat
    requires offers.CompoundTag?
  {
    match AsCompound(offers.entries, "Recipes")
    case None => 0
    case Some(recipes) => |recipes.entries|
  }

  /**
   * The 1.14 level of a villager: with Offers present, a level of 0 or 1 is
   * rebuilt from half the number of recipes, clamped to 1..5; otherwise the
   * stored CareerLevel (1 when absent) is kept.
   */
  function VillagerLevel(m: CompoundMap): (level: int)
    ensures AsCompound(m, "Offers").Some? && IntValue(m, "CareerLevel").GetOr(1) in {0, 1} ==> 1 <= level <= 5
    ensures AsCompound(m, "Offers").None? || IntValue(m, "CareerLevel").GetOr(1) !in {0, 1} ==>
              level == IntValue(m, "CareerLevel").GetOr(1)
  {
    var stored := IntValue(m, "CareerLevel").GetOr(1);
    match AsCompound(m, "Offers")
    case Some(offers) => if stored == 0 || stored == 1 then Clamp(RecipeCount(offers) / 2, 1, 5) else stored
    case None => stored
  }

  /** The experience of a level: the table entry of `clamp(level - 1, 0, 4)`. */
  function VillagerXp(level: int): (xp: int)
    ensures xp in VILLAGER_XP
    ensures 1 <= level <= 5 ==> xp == VILLAGER_XP[level - 1]
  {
    VILLAGER_XP[Clamp(Wrap32(level - 1), 0, |VILLAGER_XP| - 1)]
  }

  /**
   * Upgrading a villager: Profession, Career and CareerLevel give way to a
   * VillagerData compound (plains type, the 1.14 profession, the level), and an
   * Xp int is added unless an Xp compound is present.
   */
  function UpgradeVillager(e: Tag): (r: Tag)
    requires e.CompoundTag?
    ensures r.CompoundTag? && r.name == e.name
    ensures "Profession" !in r.entries && "Career" !in r.entries && "CareerLevel" !in r.entries
    ensures "VillagerData" in r.entries
    ensures var data := r.entries["VillagerData"];
            var m := e.entries;
            && data.CompoundTag?
            && data.entries.Keys == {"type", "profession", "level"}
            && data.entries["type"] == StringTag("type", "minecraft:plains")
            && data.entries["profession"] == StringTag("profession", ProfessionName(IntValue(m, "Profession").GetOr(0),
                                                                                     IntValue(m, "Career").GetOr(0)))
            && data.entries["level"] == IntTag("level", VillagerLevel(m))
    ensures AsCompound(e.entries, "Xp").None? ==>
              "Xp" in r.entries && r.entries["Xp"] == IntTag("Xp", VillagerXp(VillagerLevel(e.entries)))
    ensures forall k :: k in e.entries && k !in {"Profession", "Career", "CareerLevel", "VillagerData", "Xp"} ==>
              k in r.entries && r.entries[k] == e.entries[k]
  {
    var m := e.entries;
    var level := VillagerLevel(m);
    var withXp := if AsCompound(m, "Xp").None? then m["Xp" := IntTag("Xp", VillagerXp(level))] else m;
    var profession := ProfessionName(IntValue(m, "Profession").GetOr(0), IntValue(m, "Career").GetOr(0));
    var data := CompoundTag("VillagerData", map["type" := StringTag("type", "minecraft:plains"),
                                                "profession" := StringTag("profession", profession),
                                                "level" := IntTag("level", level)]);
    CompoundTag(e.name, (withXp - {"Profession", "Career", "CareerLevel"})["VillagerData" := data])
  }

  /** The 1.13 codes of the profession in a villager's VillagerData compound. */
  function DowngradedCodes(e: Tag): (r: Result<(int, int)>)
    requires e.CompoundTag?
    ensures r.Ok? <==> AsCompound(e.entries, "VillagerData").Some?
                       && StringValue(AsCompound(e.entries, "VillagerData").value.entries, "profession").Some?
    ensures r.Ok? ==> r.value == ProfessionCodes(StringValue(AsCompound(e.entries, "VillagerData").value.entries, "profession").value)
    ensures r.Fail? ==> r.error == NoSuchElement
  {
    var data :- AsCompound(e.entries, "VillagerData").Get();
    var profession :- StringValue(data.entries, "profession").Get();
    Ok(ProfessionCodes(profession))
  }

  /** The 1.13 villager fields written over a map without VillagerData; `levelName` is the name the level tag carries. */
  function WithCodes(m: CompoundMap, codes: (int, int), levelName: string): (r: CompoundMap)
    ensures "VillagerData" !in r
    ensures "Profession" in r && r["Profession"] == IntTag("Profession", codes.0)
    ensures "Career" in r && r["Career"] == IntTag("Career", codes.1)
    ensures "CareerLevel" in r && r["CareerLevel"] == IntTag(levelName, 1)
    ensures forall k :: k in m && k != "VillagerData" && k != "Profession" && k != "Career" && k != "CareerLevel" ==>
              k in r && r[k] == m[k]
    ensures r.Keys == m.Keys - {"VillagerData"} + {"Profession", "Career", "CareerLevel"}
  {
    (m - {"VillagerData"})["Profession" := IntTag("Profession", codes.0)]
                          ["Career" := IntTag("Career", codes.1)]
                          ["CareerLevel" := IntTag(levelName, 1)]
  }

  /**
   * Downgrading a villager as the code does it: VillagerData is replaced by
   * Profession and Career ints, and key CareerLevel receives an int tag that is
   * itself named "Career".
   */
  function DowngradeVillagerAsWritten(e: Tag): (r: Result<Tag>)
    requires e.CompoundTag?
    ensures r.Ok? <==> DowngradedCodes(e).Ok?
    ensures r.Ok? ==> r.value.CompoundTag? && "CareerLevel" in r.value.entries
                      && r.value.entries["CareerLevel"] == IntTag("Career", 1)
  {
    var codes :- DowngradedCodes(e);
    Ok(CompoundTag(e.name, WithCodes(e.entries, codes, "Career")))
  }

  /** Downgrading a villager with the level tag named after its key. */
  function DowngradeVillager(e: Tag): (r: Result<Tag>)
    requires e.CompoundTag?
    ensures r.Ok? <==> DowngradedCodes(e).Ok?
    ensures r.Ok? ==> && r.value.CompoundTag? && r.value.name == e.name
                      && r.value.entries == WithCodes(e.entries, DowngradedCodes(e).value, "CareerLevel")
  {
    var codes :- DowngradedCodes(e);
    Ok(CompoundTag(e.name, WithCodes(e.entries, codes, "CareerLevel")))
  }

  /**
   * Upgrading an ocelot: CatType 0 (default when absent) drops CatType and marks
   * an owned ocelot Trusting; CatType 1 to 3 makes it a cat; any other is kept.
   */
  function UpgradeOcelot(e: Tag): (r: Tag)
    requires e.CompoundTag?
    ensures r.CompoundTag? && r.name == e.name
    ensures var catType := IntValue(e.entries, "CatType").GetOr(0);
            && (catType == 0 ==> && "CatType" !in r.entries
                                 && ("Trusting" in r.entries <==> ("Trusting" in e.entries
                                       || StringValue(e.entries, "Owner").Some? || StringValue(e.entries, "OwnerUUID").Some?)))
            && (0 < catType < 4 ==> r.entries == e.entries["id" := StringTag("id", CAT)])
            && (catType < 0 || catType >= 4 ==> r == e)
  {
    var m := e.entries;
    var catType := IntValue(m, "CatType").GetOr(0);
    if catType == 0 then
      var owned := StringValue(m, "Owner").Some? || StringValue(m, "OwnerUUID").Some?;
      CompoundTag(e.name, (if owned then m["Trusting" := ByteTag("Trusting", 1)] else m) - {"CatType"})
    else if 0 < catType < 4 then CompoundTag(e.name, m["id" := StringTag("id", CAT)])
    else e
  }

  /** A banner's CustomName, when it is a string, with every `from` replaced by `to`. */
  function RenameBanner(e: Tag, from: string, to: string): (r: Tag)
    requires e.CompoundTag? && |from| > 0
    ensures r.CompoundTag? && r.name == e.name
    ensures r.entries - {"CustomName"} == e.entries - {"CustomName"}
    ensures StringValue(e.entries, "CustomName").None? ==> r == e
  {
    match StringValue(e.entries, "CustomName")
    case None => e
    case Some(name) => CompoundTag(e.name, e.entries["CustomName" := StringTag("CustomName", ReplaceAll(name, from, to))])
  }

  /** One entity in a direction; the id is read with `getStringValue("id").get()`. */
  function ConvertEntity(d: Direction, e: Tag): (r: Result<Tag>)
    ensures r.Ok? ==> e.CompoundTag? && StringValue(e.entries, "id").Some?
    ensures (&& e.CompoundTag? && StringValue(e.entries, "id").Some?
             && StringValue(e.entries, "id").value !in {OCELOT, CAT, VILLAGER, ZOMBIE_VILLAGER, BANNER}) ==> r == Ok(e)
  {
    if !e.CompoundTag? then Fail(ClassCast)
    else
      var kind :- StringValue(e.entries, "id").Get();
      if d == Up then
        if kind == OCELOT then Ok(UpgradeOcelot(e))
        else if kind == VILLAGER || kind == ZOMBIE_VILLAGER then Ok(UpgradeVillager(e))
        else if kind == BANNER then Ok(RenameBanner(e, ILLAGER, OMINOUS))
        else Ok(e)
      else
        if kind == CAT then Ok(CompoundTag(e.name, e.entries["id" := StringTag("id", OCELOT)]))
        else if kind == VILLAGER || kind == ZOMBIE_VILLAGER then DowngradeVillager(e)
        else if kind == BANNER then Ok(RenameBanner(e, OMINOUS, ILLAGER))
        else Ok(e)
  }

  /** The conversion of one entity in a direction, as a value. */
  function EntityStep(d: Direction): Tag -> Result<Tag>
  {
    e => ConvertEntity(d, e)
  }

  /** Every entity of a chunk passed through `f` in order; the first failure ends the loop. */
  function ConvertEntities(f: Tag -> Result<Tag>, es: seq<Tag>): (r: Result<seq<Tag>>)
    ensures r.Ok? <==> forall i :: 0 <= i < |es| ==> f(es[i]).Ok?
    ensures r.Ok? ==> |r.value| == |es| && forall i :: 0 <= i < |es| ==> r.value[i] == f(es[i]).value
    decreases |es|
  {
    if |es| == 0 then Ok([])
    else
      var e :- f(es[0]);
      var rest :- ConvertEntities(f, es[1..]);
      Ok([e] + rest)
  }

  // ---- Chunks and worlds ----

  /** One chunk: its sections first, then its entities. */
  function ConvertChunk(d: Direction, c: Chunk): (r: Result<Chunk>)
    ensures r.Ok? ==> && r.value.worldName == c.worldName && r.value.x == c.x && r.value.z == c.z
                      && r.value.heightMaps == c.heightMaps && r.value.biomes == c.biomes
                      && |r.value.sections| == |c.sections|
                      && |r.value.tileEntities| == |c.tileEntities| && |r.value.entities| == |c.entities|
  {
    var converted :- ConvertSections(d, c, c.sections, 0, c.tileEntities);
    var entities :- ConvertEntities(EntityStep(d), c.entities);
    Ok(c.(sections := converted.sections, tileEntities := converted.tiles, entities := entities))
  }

  /** The chunks under `keys`, each passed through `f` one after the other; the rest are kept. */
  function ConvertChunks(f: Chunk -> Result<Chunk>, chunks: map<int, Chunk>, keys: seq<int>): (r: Result<map<int, Chunk>>)
    requires forall i :: 0 <= i < |keys| ==> keys[i] in chunks
    ensures r.Ok? ==> r.value.Keys == chunks.Keys
    decreases |keys|
  {
    if |keys| == 0 then Ok(chunks)
    else
      var c :- f(chunks[keys[0]]);
      var rest :- ConvertChunks(f, chunks, keys[1..]);
      Ok(rest[keys[0] := c])
  }

  /** Converting a run of keys succeeds exactly when every listed chunk converts, and stores each conversion. */
  lemma {:induction false} ConvertChunksPointwise(f: Chunk -> Result<Chunk>, chunks: map<int, Chunk>, keys: seq<int>)
    requires forall i :: 0 <= i < |keys| ==> keys[i] in chunks
    ensures ConvertChunks(f, chunks, keys).Ok? <==> forall i :: 0 <= i < |keys| ==> f(chunks[keys[i]]).Ok?
    ensures var r := ConvertChunks(f, chunks, keys);
            r.Ok? ==> && (forall i :: 0 <= i < |keys| ==> f(chunks[keys[i]]) == Ok(r.value[keys[i]]))
                      && (forall k :: k in chunks && k !in keys ==> r.value[k] == chunks[k])
    decreases |keys|
  {
    if |keys| > 0 {
      var tail := keys[1..];
      assert forall i :: 1 <= i < |keys| ==> keys[i] == tail[i - 1];
      ConvertChunksPointwise(f, chunks, tail);
      assert forall k :: k in keys && k != keys[0] ==> k in tail;
    }
  }

  /** Every chunk of a world passed through `f` in ascending key order; nothing else of the world changes. */
  function ConvertAll(f: Chunk -> Result<Chunk>, w: World): (r: Result<World>)
    ensures r.Ok? ==> r.value == w.(chunks := r.value.chunks) && r.value.chunks.Keys == w.chunks.Keys
  {
    var chunks :- ConvertChunks(f, w.chunks, SortedKeys(w.chunks.Keys));
    Ok(w.(chunks := chunks))
  }

  /** A world converts exactly when each of its chunks does, and each chunk is replaced by its conversion. */
  lemma ConvertAllPointwise(f: Chunk -> Result<Chunk>, w: World)
    ensures ConvertAll(f, w).Ok? <==> forall k :: k in w.chunks ==> f(w.chunks[k]).Ok?
    ensures ConvertAll(f, w).Ok? ==> forall k :: k in w.chunks ==> Ok(ConvertAll(f, w).value.chunks[k]) == f(w.chunks[k])
  {
    var keys := SortedKeys(w.chunks.Keys);
    ConvertChunksPointwise(f, w.chunks, keys);
    assert forall k :: k in w.chunks ==> exists i :: 0 <= i < |keys| && keys[i] == k;
  }

  /**
   * `upgrade(world)` or `downgrade(world)`: the iteration order of the chunks
   * only decides which exception is reported.
   */
  function ConvertWorld(d: Direction, w: World): (r: Result<World>)
    ensures r.Ok? <==> forall k :: k in w.chunks ==> ConvertChunk(d, w.chunks[k]).Ok?
    ensures r.Ok? ==> r.value == w.(chunks := r.value.chunks) && r.value.chunks.Keys == w.chunks.Keys
    ensures r.Ok? ==> forall k :: k in w.chunks ==> Ok(r.value.chunks[k]) == ConvertChunk(d, w.chunks[k])
  {
    ConvertAllPointwise(ChunkStep(d), w);
    ConvertAll(ChunkStep(d), w)
  }

  /** The conversion of one chunk in a direction, as a value. */
  function ChunkStep(d: Direction): Chunk -> Result<Chunk>
  {
    c => ConvertChunk(d, c)
  }

  /** `upgrade(world)`: fails exactly when some chunk's upgrade does; the world's other fields stay. */
  function Upgrade(w: World): (r: Result<World>)
    ensures r.Ok? <==> forall k :: k in w.chunks ==> ConvertChunk(Up, w.chunks[k]).Ok?
    ensures r.Ok? ==> r.value == w.(chunks := r.value.chunks) && r.value.chunks.Keys == w.chunks.Keys
  {
    ConvertWorld(Up, w)
  }

  /** `downgrade(world)`: fails exactly when some chunk's downgrade does; the world's other fields stay. */
  function Downgrade(w: World): (r: Result<World>)
    ensures r.Ok? <==> forall k :: k in w.chunks ==> ConvertChunk(Down, w.chunks[k]).Ok?
    ensures r.Ok? ==> r.value == w.(chunks := r.value.chunks) && r.value.chunks.Keys == w.chunks.Keys
  {
    ConvertWorld(Down, w)
  }
}

=== FILE: upgrade_proofs.dfy ===
/**
 * What the 1.13/1.14 conversion preserves: a downgrade undoes an upgrade on
 * every world whose blocks and entities the two tables can carry back, the
 * villager professions survive the trip, and the corrected villager downgrade
 * keeps each compound entry under its own name.
 */
module UpgradeProofs {
  import opened Wrappers
  import opened Tags
  import opened Worlds
  import opened UpgradeTables
  import opened BlockScan
  import opened WorldUpgrade

  // ---- Palettes ----

  /** No 1.13 block is renamed to a trapped chest, so an upgrade never creates one. */
  lemma NoRenameToTrappedChest(name: string)
    ensures OldToNew(name) != Some(TRAPPED_CHEST)
  {
    RenamesInjective();
    LookupListed(RENAMES, name, TRAPPED_CHEST);
    if (name, TRAPPED_CHEST) in RENAMES {
      var i :| 0 <= i < |RENAMES| && RENAMES[i] == (name, TRAPPED_CHEST);
      NotARenameTarget(i);
    }
  }

  lemma NotARenameTarget(i: nat)
    requires i < |RENAMES|
    ensures RENAMES[i].1 != TRAPPED_CHEST
  {
    var news := [(29, 't'), (30, 'b'), (31, 'b'), (29, 'f'), (29, 'h'), (27, 's'), (18, 'o'), (23, 'o')];
    assert Signature(RENAMES[i].1) == news[i];
    assert Signature(TRAPPED_CHEST) == (23, 't');
  }

  /** A block state whose Name is a string that survives the round trip and is not a trapped chest. */
  predicate Canonical(e: Option<Tag>)
  {
    && e.Some? && e.value.CompoundTag? && StringValue(e.value.entries, "Name").Some?
    && var n := StringValue(e.value.entries, "Name").value;
       && e.value.entries["Name"] == StringTag("Name", n)
       && n != TRAPPED_CHEST && NewToOld(n).None?
  }

  /** Renaming one block state up and then down gives it back. */
  lemma EntryRoundTrip(t: Tag, n: string)
    requires t.CompoundTag? && "Name" in t.entries && t.entries["Name"] == StringTag("Name", n)
    requires NewToOld(n).None?
    ensures var up := RenameEntry(Up, t, n);
            var m := OldToNew(n).GetOr(n);
            && EntryName(Some(up)) == Ok(m)
            && RenameEntry(Down, up, m) == t
  {
    RenameRoundTrip(n);
    if OldToNew(n).Some? {
      var up := RenameEntry(Up, t, n);
      assert up.entries["Name" := StringTag("Name", n)] == t.entries;
    }
  }

  /** Without a trapped chest in the palette, converting it succeeds and leaves the tile entities alone. */
  lemma {:induction false} PaletteKeepsTiles(d: Direction, c: Chunk, sectionIndex: nat, states: seq<int>,
                                             entries: seq<Option<Tag>>, offset: nat, tiles: seq<Tag>)
    requires forall i :: 0 <= i < |entries| ==> EntryName(entries[i]).Ok? && EntryName(entries[i]).value != TRAPPED_CHEST
    ensures var r := ConvertPalette(d, c, sectionIndex, states, entries, offset, tiles);
            r.Ok? && r.value.tiles == tiles
    decreases |entries|
  {
    if |entries| > 0 {
      assert EntryName(entries[0]).Ok?;
      var tail := entries[1..];
      assert forall i :: 0 <= i < |tail| ==> tail[i] == entries[i + 1];
      PaletteKeepsTiles(d, c, sectionIndex, states, tail, offset + 1, tiles);
    }
  }

  /** A palette of canonical block states comes back from an upgrade and a downgrade unchanged, as do the tiles. */
  lemma PaletteRoundTrip(c: Chunk, c': Chunk, sectionIndex: nat, states: seq<int>, entries: seq<Option<Tag>>,
                         offset: nat, tiles: seq<Tag>)
    requires forall i :: 0 <= i < |entries| ==> Canonical(entries[i])
    ensures var up := ConvertPalette(Up, c, sectionIndex, states, entries, offset, tiles);
            && up.Ok? && up.value.tiles == tiles
            && var down := ConvertPalette(Down, c', sectionIndex, states, up.value.palette, offset, tiles);
               down.Ok? && down.value.palette == entries && down.value.tiles == tiles
  {
    PaletteKeepsTiles(Up, c, sectionIndex, states, entries, offset, tiles);
    var up := ConvertPalette(Up, c, sectionIndex, states, entries, offset, tiles).value.palette;
    forall i | 0 <= i < |entries|
      ensures var m := OldToNew(EntryName(entries[i]).value).GetOr(EntryName(entries[i]).value);
              && up[i].Some? && EntryName(up[i]) == Ok(m) && m != TRAPPED_CHEST
              && RenameEntry(Down, up[i].value, m) == entries[i].value
    {
      var n := EntryName(entries[i]).value;
      EntryRoundTrip(entries[i].value, n);
      NoRenameToTrappedChest(n);
    }
    PaletteKeepsTiles(Down, c', sectionIndex, states, up, offset, tiles);
    var down := ConvertPalette(Down, c', sectionIndex, states, up, offset, tiles).value.palette;
    assert forall i :: 0 <= i < |entries| ==> down[i] == entries[i];
  }

  // ---- Sections and chunks ----

  /** A present section has the 1.13 palette layout and only canonical block states. */
  predicate CanonicalSection(s: Option<Section>)
  {
    s.Some? ==> s.value.ModernSection? && forall j :: 0 <= j < |s.value.palette| ==> Canonical(s.value.palette[j])
  }

  /** Sections of canonical palettes come back from an upgrade and a downgrade unchanged, as do the tiles. */
  lemma {:induction false} SectionsRoundTrip(c: Chunk, c': Chunk, sections: seq<Option<Section>>, index: nat,
                                             tiles: seq<Tag>)
    requires forall i :: 0 <= i < |sections| ==> CanonicalSection(sections[i])
    ensures var up := ConvertSections(Up, c, sections, index, tiles);
            && up.Ok? && up.value.tiles == tiles
            && ConvertSections(Down, c', up.value.sections, index, tiles) == Ok(Converted(sections, tiles))
    decreases |sections|
  {
    if |sections| > 0 {
      var tail := sections[1..];
      assert forall i :: 0 <= i < |tail| ==> tail[i] == sections[i + 1];
      SectionsRoundTrip(c, c', tail, index + 1, tiles);
      var upTail := ConvertSections(Up, c, tail, index + 1, tiles).value.sections;
      var head := sections[0];
      var upHead: Option<Section>;
      if head.None? {
        upHead := None;
      } else {
        var s := head.value;
        PaletteRoundTrip(c, c', index, s.blockStates, s.palette, 0, tiles);
        var p := ConvertPalette(Up, c, index, s.blockStates, s.palette, 0, tiles).value;
        upHead := Some(ModernSection(s.blockLight, p.palette, s.blockStates, s.skyLight));
      }
      SectionsStep(Up, c, head, upHead, tail, index, tiles);
      var up := [upHead] + upTail;
      assert up[1..] == upTail;
      SectionsStep(Down, c', upHead, head, upTail, index, tiles);
      assert sections == [head] + tail;
    }
  }

  /**
   * One step of the section loop: `head` converts to `converted` without
   * touching the tiles, so the whole list converts to `converted` before the
   * converted rest.
   */
  lemma SectionsStep(d: Direction, c: Chunk, head: Option<Section>, converted: Option<Section>,
                     tail: seq<Option<Section>>, index: nat, tiles: seq<Tag>)
    requires head.None? ==> converted.None?
    requires head.Some? ==>
               && head.value.ModernSection? && converted.Some? && converted.value.ModernSection?
               && var s := head.value;
                  var p := ConvertPalette(d, c, index, s.blockStates, s.palette, 0, tiles);
                  && p.Ok? && p.value.tiles == tiles
                  && converted.value == ModernSection(s.blockLight, p.value.palette, s.blockStates, s.skyLight)
    requires ConvertSections(d, c, tail, index + 1, tiles).Ok?
    ensures var rest := ConvertSections(d, c, tail, index + 1, tiles).value;
            ConvertSections(d, c, [head] + tail, index, tiles) == Ok(Converted([converted] + rest.sections, rest.tiles))
  {
    assert ([head] + tail)[1..] == tail;
  }

  /**
   * An entity the two directions carry back: any id but a cat or a villager; an
   * ocelot of CatType 1 to 3; a banner whose custom name holds neither the
   * illager nor the ominous message.
   */
  ghost predicate CarriedBack(e: Tag)
  {
    && e.CompoundTag? && StringValue(e.entries, "id").Some?
    && var id := StringValue(e.entries, "id").value;
       && e.entries["id"] == StringTag("id", id)
       && id != CAT && id != VILLAGER && id != ZOMBIE_VILLAGER
       && (id == OCELOT ==> 0 < IntValue(e.entries, "CatType").GetOr(0) < 4)
       && (id == BANNER && StringValue(e.entries, "CustomName").Some? ==>
             var s := StringValue(e.entries, "CustomName").value;
             && e.entries["CustomName"] == StringTag("CustomName", s)
             && (forall i: nat :: !OccursAt(s, ILLAGER, i))
             && (forall i: nat :: !OccursAt(s, OMINOUS, i)))
  }

  /** Such an entity comes back from an upgrade and a downgrade unchanged. */
  lemma EntityRoundTrip(e: Tag)
    requires CarriedBack(e)
    ensures ConvertEntity(Up, e).Ok? && ConvertEntity(Down, ConvertEntity(Up, e).value) == Ok(e)
  {
    var id := StringValue(e.entries, "id").value;
    if id == OCELOT {
      var up := ConvertEntity(Up, e).value;
      assert up.entries == e.entries["id" := StringTag("id", CAT)];
      assert up.entries["id" := StringTag("id", OCELOT)] == e.entries;
    } else if id == BANNER {
      if StringValue(e.entries, "CustomName").Some? {
        var s := StringValue(e.entries, "CustomName").value;
        ReplaceAbsent(s, ILLAGER, OMINOUS);
        ReplaceAbsent(s, OMINOUS, ILLAGER);
        assert e.entries["CustomName" := StringTag("CustomName", s)] == e.entries;
      }
    }
  }

  /** When `g` undoes `f` on every entity, converting the list with `g` undoes converting it with `f`. */
  lemma EntitiesInverse(f: Tag -> Result<Tag>, g: Tag -> Result<Tag>, es: seq<Tag>)
    requires forall i :: 0 <= i < |es| ==> f(es[i]).Ok? && g(f(es[i]).value) == Ok(es[i])
    ensures ConvertEntities(f, es).Ok? && ConvertEntities(g, ConvertEntities(f, es).value) == Ok(es)
  {
    var up := ConvertEntities(f, es).value;
    assert ConvertEntities(g, up).value == es;
  }

  lemma EntitiesRoundTrip(es: seq<Tag>)
    requires forall i :: 0 <= i < |es| ==> CarriedBack(es[i])
    ensures ConvertEntities(EntityStep(Up), es).Ok?
    ensures ConvertEntities(EntityStep(Down), ConvertEntities(EntityStep(Up), es).value) == Ok(es)
  {
    forall i | 0 <= i < |es|
      ensures EntityStep(Up)(es[i]).Ok? && EntityStep(Down)(EntityStep(Up)(es[i]).value) == Ok(es[i])
    {
      EntityRoundTrip(es[i]);
    }
    EntitiesInverse(EntityStep(Up), EntityStep(Down), es);
  }

  /** A chunk of canonical sections and carried-back entities. */
  ghost predicate CanonicalChunk(c: Chunk)
  {
    && (forall i :: 0 <= i < |c.sections| ==> CanonicalSection(c.sections[i]))
    && (forall i :: 0 <= i < |c.entities| ==> CarriedBack(c.entities[i]))
  }

  /** Such a chunk comes back from an upgrade and a downgrade unchanged, tile entities included. */
  lemma ChunkRoundTrip(c: Chunk)
    requires CanonicalChunk(c)
    ensures ConvertChunk(Up, c).Ok? && ConvertChunk(Down, ConvertChunk(Up, c).value) == Ok(c)
  {
    SectionsRoundTrip(c, c, c.sections, 0, c.tileEntities);
    EntitiesRoundTrip(c.entities);
    var up := ConvertChunk(Up, c).value;
    SectionsRoundTrip(c, up, c.sections, 0, c.tileEntities);
  }

  /** When `g` undoes `f` on every chunk, converting the world with `g` undoes converting it with `f`. */
  lemma WorldsInverse(f: Chunk -> Result<Chunk>, g: Chunk -> Result<Chunk>, w: World)
    requires forall k :: k in w.chunks ==> f(w.chunks[k]).Ok? && g(f(w.chunks[k]).value) == Ok(w.chunks[k])
    ensures ConvertAll(f, w).Ok? && ConvertAll(g, ConvertAll(f, w).value) == Ok(w)
  {
    ConvertAllPointwise(f, w);
    var up := ConvertAll(f, w).value;
    ConvertAllPointwise(g, up);
    var down := ConvertAll(g, up).value;
    ChunksInverse(f, g, w.chunks, up.chunks, down.chunks);
  }

  lemma ChunksInverse(f: Chunk -> Result<Chunk>, g: Chunk -> Result<Chunk>, m: map<int, Chunk>,
                      up: map<int, Chunk>, down: map<int, Chunk>)
    requires forall k :: k in m ==> f(m[k]).Ok? && g(f(m[k]).value) == Ok(m[k])
    requires up.Keys == m.Keys && down.Keys == m.Keys
    requires forall k :: k in m ==> Ok(up[k]) == f(m[k])
    requires forall k :: k in up ==> Ok(down[k]) == g(up[k])
    ensures down == m
  {
    forall k | k in m
      ensures down[k] == m[k]
    {
      assert f(m[k]).value == up[k];
    }
  }

  /** `downgrade(upgrade(world))` gives back a world of canonical chunks. */
  lemma WorldRoundTrip(w: World)
    requires forall k :: k in w.chunks ==> CanonicalChunk(w.chunks[k])
    ensures Upgrade(w).Ok? && Downgrade(Upgrade(w).value) == Ok(w)
  {
    forall k | k in w.chunks
      ensures ChunkStep(Up)(w.chunks[k]).Ok?
      ensures ChunkStep(Down)(ChunkStep(Up)(w.chunks[k]).value) == Ok(w.chunks[k])
    {
      ChunkRoundTrip(w.chunks[k]);
    }
    WorldsInverse(ChunkStep(Up), ChunkStep(Down), w);
  }

  // ---- Villagers ----

  /**
   * A villager whose 1.13 (profession, career) is a row of the table keeps both
   * through an upgrade and a downgrade; its level comes back as 1 and every
   * field the conversion does not own is kept.
   */
  lemma VillagerRoundTrip(e: Tag, i: nat)
    requires e.CompoundTag? && i < |PROFESSIONS|
    requires IntValue(e.entries, "Profession") == Some(PROFESSIONS[i].1)
    requires IntValue(e.entries, "Career") == Some(PROFESSIONS[i].2)
    ensures var down := DowngradeVillager(UpgradeVillager(e));
            && down.Ok? && down.value.name == e.name
            && var m := down.value.entries;
               && "VillagerData" !in m
               && "Profession" in m && m["Profession"] == IntTag("Profession", PROFESSIONS[i].1)
               && "Career" in m && m["Career"] == IntTag("Career", PROFESSIONS[i].2)
               && "CareerLevel" in m && m["CareerLevel"] == IntTag("CareerLevel", 1)
               && forall k :: k in e.entries && k !in {"Profession", "Career", "CareerLevel", "VillagerData", "Xp"} ==>
                    k in m && m[k] == e.entries[k]
  {
    ProfessionsRoundTrip(i);
    var up := UpgradeVillager(e);
    assert DowngradedCodes(up) == Ok((PROFESSIONS[i].1, PROFESSIONS[i].2));
  }

  /** The upgrade stores VillagerData and Xp under their own names. */
  lemma UpgradeKeepsNames(e: Tag)
    requires e.CompoundTag? && NamesMatchKeys(e.entries)
    ensures NamesMatchKeys(UpgradeVillager(e).entries)
  {
  }

  /** The corrected downgrade stores Profession, Career and CareerLevel under their own names. */
  lemma DowngradeKeepsNames(e: Tag)
    requires e.CompoundTag? && NamesMatchKeys(e.entries)
    ensures DowngradeVillager(e).Ok? ==> NamesMatchKeys(DowngradeVillager(e).value.entries)
  {
  }

  /**
   * The downgrade as written stores a tag named "Career" under the key
   * CareerLevel, so the tag writer emits two entries named Career and none
   * named CareerLevel.
   */
  lemma CareerLevelMisnamed(e: Tag)
    requires e.CompoundTag? && DowngradedCodes(e).Ok?
    ensures DowngradeVillagerAsWritten(e).Ok?
    ensures var m := DowngradeVillagerAsWritten(e).value.entries;
            && "Career" in m && "CareerLevel" in m && m["Career"].name == m["CareerLevel"].name
            && !NamesMatchKeys(m)
  {
    var m := DowngradeVillagerAsWritten(e).value.entries;
    assert m["CareerLevel"].name != "CareerLevel";
  }

  /** Every villager an upgrade produced meets the misnamed level on the way down. */
  lemma UpgradedVillagerMisnamed(e: Tag)
    requires e.CompoundTag?
    ensures DowngradeVillagerAsWritten(UpgradeVillager(e)).Ok?
    ensures !NamesMatchKeys(DowngradeVillagerAsWritten(UpgradeVillager(e)).value.entries)
  {
    var up := UpgradeVillager(e);
    assert DowngradedCodes(up).Ok?;
    CareerLevelMisnamed(up);
  }
}

=== FILE: upgrade_tables.dfy ===
/**
 * The lookup tables of the 1.13 to 1.14 world conversion: the block renames,
 * the villager professions in both schemas, `clamp`, and the string
 * replacement the banner names go through.
 */
module UpgradeTables {
  import opened Wrappers

  // ---- Block renames ----

  /** The renamed blocks, as (1.13 name, 1.14 name) in registration order. */
  const RENAMES: seq<(string, string)> := [
    ("minecraft:tube_coral_fan", "minecraft:tube_coral_wall_fan"),
    ("minecraft:brain_coral_fan", "minecraft:brain_coral_wall_fan"),
    ("minecraft:bubble_coral_fan", "minecraft:bubble_coral_wall_fan"),
    ("minecraft:fire_coral_fan", "minecraft:fire_coral_wall_fan"),
    ("minecraft:horn_coral_fan", "minecraft:horn_coral_wall_fan"),
    ("minecraft:stone_slab", "minecraft:smooth_stone_slab"),
    ("minecraft:sign", "minecraft:oak_sign"),
    ("minecraft:wall_sign", "minecraft:oak_wall_sign")
  ]

  /** The value `put` last stored under `key` when `pairs` were put in order, as a `HashMap.get`. */
  function Lookup(pairs: seq<(string, string)>, key: string): (r: Option<string>)
    ensures r.Some? ==> (key, r.value) in pairs
    ensures r.None? <==> forall i :: 0 <= i < |pairs| ==> pairs[i].0 != key
    decreases |pairs|
  {
    if |pairs| == 0 then None
    else
      var last := pairs[|pairs| - 1];
      if last.0 == key then Some(last.1) else Lookup(pairs[..|pairs| - 1], key)
  }

  function Swapped(pairs: seq<(string, string)>): (r: seq<(string, string)>)
    ensures |r| == |pairs|
    ensures forall i :: 0 <= i < |r| ==> r[i] == (pairs[i].1, pairs[i].0)
  {
    seq(|pairs|, i requires 0 <= i < |pairs| => (pairs[i].1, pairs[i].0))
  }

  /** `oldToNewMap.get`: the 1.14 name of a renamed 1.13 block. */
  function OldToNew(name: string): Option<string>
  {
    Lookup(RENAMES, name)
  }

  /** `newToOldMap.get`: the 1.13 name of a renamed 1.14 block. */
  function NewToOld(name: string): Option<string>
  {
    Lookup(Swapped(RENAMES), name)
  }

  /** Neither column repeats a name. */
  predicate Injective(pairs: seq<(string, string)>)
  {
    && (forall i, j :: 0 <= i < j < |pairs| ==> pairs[i].0 != pairs[j].0)
    && (forall i, j :: 0 <= i < j < |pairs| ==> pairs[i].1 != pairs[j].1)
  }

  /** In a table that repeats no name on either side, a lookup finds exactly the listed pairs. */
  lemma {:induction false} LookupListed(pairs: seq<(string, string)>, a: string, b: string)
    requires Injective(pairs)
    ensures Lookup(pairs, a) == Some(b) <==> (a, b) in pairs
    decreases |pairs|
  {
    if |pairs| > 0 {
      var init := pairs[..|pairs| - 1];
      var last := pairs[|pairs| - 1];
      assert pairs == init + [last];
      LookupListed(init, a, b);
      if (a, b) in pairs && last.0 == a {
        var i :| 0 <= i < |pairs| && pairs[i] == (a, b);
        assert i == |pairs| - 1;
      }
      if (a, b) in pairs && last.0 != a {
        var i :| 0 <= i < |pairs| && pairs[i] == (a, b);
        assert init[i] == (a, b);
      }
    }
  }

  /** The length and first character after the "minecraft:" prefix: enough to tell the table's names apart. */
  function Signature(name: string): (int, char)
  {
    (|name|, if |name| > 10 then name[10] else ' ')
  }

  /** No two old names of the rename table share a new name. */
  lemma RenamesInjective()
    ensures Injective(RENAMES)
  {
    OldNamesDistinct();
    NewNamesDistinct();
  }

  lemma OldNamesDistinct()
    ensures forall i, j :: 0 <= i < j < |RENAMES| ==> RENAMES[i].0 != RENAMES[j].0
  {
    var olds := [(24, 't'), (25, 'b'), (26, 'b'), (24, 'f'), (24, 'h'), (20, 's'), (14, 's'), (19, 'w')];
    assert forall i :: 0 <= i < |RENAMES| ==> Signature(RENAMES[i].0) == olds[i];
  }

  lemma NewNamesDistinct()
    ensures forall i, j :: 0 <= i < j < |RENAMES| ==> RENAMES[i].1 != RENAMES[j].1
  {
    var news := [(29, 't'), (30, 'b'), (31, 'b'), (29, 'f'), (29, 'h'), (27, 's'), (18, 'o'), (23, 'o')];
    assert forall i :: 0 <= i < |RENAMES| ==> Signature(RENAMES[i].1) == news[i];
  }

  /** The two rename maps are mutual inverses. */
  lemma RenameInverse(a: string, b: string)
    ensures OldToNew(a) == Some(b) <==> NewToOld(b) == Some(a)
  {
    RenamesInjective();
    var s := Swapped(RENAMES);
    assert Injective(s);
    LookupListed(RENAMES, a, b);
    LookupListed(s, b, a);
    if (a, b) in RENAMES {
      var i :| 0 <= i < |RENAMES| && RENAMES[i] == (a, b);
      assert s[i] == (b, a);
    }
    if (b, a) in s {
      var i :| 0 <= i < |s| && s[i] == (b, a);
      assert RENAMES[i] == (a, b);
    }
  }

  /** Renaming one way then back restores every name that is not itself a 1.14 rename target. */
  lemma RenameRoundTrip(name: string)
    requires NewToOld(name).None?
    ensures var up := OldToNew(name).GetOr(name);
            NewToOld(up).GetOr(up) == name
  {
    if OldToNew(name).Some? {
      RenameInverse(name, OldToNew(name).value);
    }
  }

  // ---- Villager professions ----

  /** The 1.14 professions and their 1.13 (profession, career) codes. */
  const PROFESSIONS: seq<(string, int, int)> := [
    ("minecraft:farmer", 0, 1),
    ("minecraft:fisherman", 0, 2),
    ("minecraft:shepherd", 0, 3),
    ("minecraft:fletcher", 0, 4),
    ("minecraft:librarian", 1, 1),
    ("minecraft:cartographer", 1, 2),
    ("minecraft:cleric", 2, 1),
    ("minecraft:armorer", 3, 1),
    ("minecraft:weaponsmith", 3, 2),
    ("minecraft:toolsmith", 3, 3),
    ("minecraft:butcher", 4, 1),
    ("minecraft:leatherworker", 4, 2),
    ("minecraft:nitwit", 5, 1)
  ]

  const NO_PROFESSION := "minecraft:none"

  function CodesIn(table: seq<(string, int, int)>, name: string): (r: (int, int))
    ensures (forall i :: 0 <= i < |table| ==> table[i].0 != name) ==> r == (0, 0)
    decreases |table|
  {
    if |table| == 0 then (0, 0)
    else if table[0].0 == name then (table[0].1, table[0].2)
    else CodesIn(table[1..], name)
  }

  /** The 1.13 (profession, career) of a 1.14 profession name; any other name is (0, 0). */
  function ProfessionCodes(name: string): (int, int)
  {
    CodesIn(PROFESSIONS, name)
  }

  /** The 1.14 profession of a 1.13 (profession, career): unknown careers fall back to the profession's first. */
  function ProfessionName(profession: int, career: int): (r: string)
    ensures profession < 0 || profession > 5 <==> r == NO_PROFESSION
  {
    if profession == 0 then
      if career == 2 then "minecraft:fisherman"
      else if career == 3 then "minecraft:shepherd"
      else if career == 4 then "minecraft:fletcher"
      else "minecraft:farmer"
    else if profession == 1 then
      if career == 2 then "minecraft:cartographer" else "minecraft:librarian"
    else if profession == 2 then "minecraft:cleric"
    else if profession == 3 then
      if career == 2 then "minecraft:weaponsmith"
      else if career == 3 then "minecraft:toolsmith"
      else "minecraft:armorer"
    else if profession == 4 then
      if career == 2 then "minecraft:leatherworker" else "minecraft:butcher"
    else if profession == 5 then "minecraft:nitwit"
    else NO_PROFESSION
  }

  /** In a table, a name not listed earlier finds its own row. */
  lemma {:induction false} CodesInFinds(table: seq<(string, int, int)>, i: nat)
    requires i < |table|
    requires forall j :: 0 <= j < i ==> table[j].0 != table[i].0
    ensures CodesIn(table, table[i].0) == (table[i].1, table[i].2)
    decreases i
  {
    if i > 0 {
      assert table[0].0 != table[i].0;
      CodesInFinds(table[1..], i - 1);
    }
  }

  lemma ProfessionNamesDistinct()
    ensures forall i, j :: 0 <= j < i < |PROFESSIONS| ==> PROFESSIONS[j].0 != PROFESSIONS[i].0
  {
    var sigs := [(16, 'f'), (19, 'f'), (18, 's'), (18, 'f'), (19, 'l'), (22, 'c'), (16, 'c'),
                 (17, 'a'), (21, 'w'), (19, 't'), (17, 'b'), (23, 'l'), (16, 'n')];
    assert forall i :: 0 <= i < |PROFESSIONS| ==> Signature(PROFESSIONS[i].0) == sigs[i];
  }

  /** Every 1.14 profession maps to its codes and back to itself. */
  lemma ProfessionsRoundTrip(i: nat)
    requires i < |PROFESSIONS|
    ensures ProfessionCodes(PROFESSIONS[i].0) == (PROFESSIONS[i].1, PROFESSIONS[i].2)
    ensures ProfessionName(PROFESSIONS[i].1, PROFESSIONS[i].2) == PROFESSIONS[i].0
  {
    ProfessionNamesDistinct();
    CodesInFinds(PROFESSIONS, i);
    RowsWritten(i);
  }

  lemma RowsWritten(i: nat)
    requires i < |PROFESSIONS|
    ensures ProfessionName(PROFESSIONS[i].1, PROFESSIONS[i].2) == PROFESSIONS[i].0
  {
    if i < 4 {
    } else if i < 7 {
    } else if i < 10 {
    } else {
    }
  }

  /** A name that is not a 1.14 profession reads as (0, 0), which writes back as a farmer. */
  lemma UnknownProfession(name: string)
    requires forall i :: 0 <= i < |PROFESSIONS| ==> PROFESSIONS[i].0 != name
    ensures ProfessionCodes(name) == (0, 0)
    ensures ProfessionName(0, 0) == "minecraft:farmer"
  {
  }

  /** The row of the table a 1.13 (profession, career) is written as. */
  lemma NameListed(profession: int, career: int) returns (k: nat)
    requires 0 <= profession <= 5
    ensures k < |PROFESSIONS| && PROFESSIONS[k].0 == ProfessionName(profession, career)
    ensures PROFESSIONS[k].1 == profession && (PROFESSIONS[k].2 == career || PROFESSIONS[k].2 == 1)
  {
    k := if profession == 0 then (if career == 2 then 1 else if career == 3 then 2 else if career == 4 then 3 else 0)
         else if profession == 1 then (if career == 2 then 5 else 4)
         else if profession == 2 then 6
         else if profession == 3 then (if career == 2 then 8 else if career == 3 then 9 else 7)
         else if profession == 4 then (if career == 2 then 11 else 10)
         else 12;
  }

  /** The profession code of 0..5 survives the trip through the 1.14 name; the career falls back to 1 when unknown. */
  lemma ProfessionSurvives(profession: int, career: int)
    requires 0 <= profession <= 5
    ensures ProfessionCodes(ProfessionName(profession, career)).0 == profession
    ensures var back := ProfessionCodes(ProfessionName(profession, career)).1;
            back == career || back == 1
  {
    var k := NameListed(profession, career);
    ProfessionsRoundTrip(k);
  }

  // ---- clamp ----

  /** `clamp(i, lo, hi)`: below `lo` gives `lo`, otherwise the smaller of `i` and `hi`. */
  function Clamp(i: int, lo: int, hi: int): (r: int)
    ensures lo <= hi ==> lo <= r <= hi
    ensures lo <= i <= hi ==> r == i
    ensures r == lo || r == i || r == hi
  {
    if i < lo then lo else if i < hi then i else hi
  }

  // ---- String.replace ----

  predicate OccursAt(s: string, needle: string, i: nat)
  {
    i + |needle| <= |s| && s[i..i + |needle|] == needle
  }

  /**
   * `s.replace(needle, replacement)`: every occurrence of `needle`, scanning left to
   * right and resuming after each match, becomes `replacement`.
   */
  function ReplaceAll(s: string, needle: string, replacement: string): (r: string)
    requires |needle| > 0
    decreases |s|
  {
    if |s| < |needle| then s
    else if s[..|needle|] == needle then replacement + ReplaceAll(s[|needle|..], needle, replacement)
    else [s[0]] + ReplaceAll(s[1..], needle, replacement)
  }

  /** A string that does not contain the needle is left as it is. */
  lemma {:induction false} ReplaceAbsent(s: string, needle: string, replacement: string)
    requires |needle| > 0
    requires forall i: nat :: !OccursAt(s, needle, i)
    ensures ReplaceAll(s, needle, replacement) == s
    decreases |s|
  {
    if |s| >= |needle| {
      assert !OccursAt(s, needle, 0);
      assert s[..|needle|] != needle;
      forall i: nat
        ensures !OccursAt(s[1..], needle, i)
      {
        assert !OccursAt(s, needle, i + 1);
        if i + |needle| <= |s[1..]| {
          assert s[1..][i..i + |needle|] == s[i + 1..i + 1 + |needle|];
        }
      }
      ReplaceAbsent(s[1..], needle, replacement);
      assert s == [s[0]] + s[1..];
    }
  }

  /** A string whose only occurrence of the needle is at its end gets `replacement` in its place. */
  lemma {:induction false} ReplaceOne(pre: string, needle: string, replacement: string)
    requires |needle| > 0
    requires forall i: nat :: i != |pre| ==> !OccursAt(pre + needle, needle, i)
    ensures ReplaceAll(pre + needle, needle, replacement) == pre + replacement
    decreases |pre|
  {
    var s := pre + needle;
    if |pre| == 0 {
      assert s == needle;
      assert s[..|needle|] == needle;
      assert s[|needle|..] == [];
    } else {
      assert !OccursAt(s, needle, 0);
      assert s[..|needle|] != needle;
      assert s[1..] == pre[1..] + needle;
      forall i: nat
        ensures i != |pre[1..]| ==> !OccursAt(pre[1..] + needle, needle, i)
      {
        assert i + 1 != |pre| ==> !OccursAt(s, needle, i + 1);
        if i + |needle| <= |s[1..]| {
          assert s[1..][i..i + |needle|] == s[i + 1..i + 1 + |needle|];
        }
      }
      ReplaceOne(pre[1..], needle, replacement);
      assert [s[0]] + (pre[1..] + replacement) == pre + replacement;
    }
  }
}

=== FILE: vanilla.dfy ===
/**
 * What the two vanilla-world importers (the plugin's and the standalone tool)
 * share: the DataVersion table, level.dat, map files, and the normalisation of a
 * region chunk into a Slime chunk, which keeps only full chunks and only
 * sections that hold blocks.
 */
module VanillaChunks {
  import opened Wrappers
  import opened Bytes
  import opened Tags
  import opened Nibbles
  import opened Numerals
  import opened Worlds
  import opened SlimeFormat
  import opened Regions

  /** The NBT reader of a whole gzip-compressed file; None is its IOException. */
  type FileTagReader = seq<byte> -> Option<Tag>

  // ---- World version ----

  /**
   * The Slime world version of a vanilla world: 1 without a DataVersion (before
   * 1.9), then 2 (1.9), 3 (1.11), 4 (1.13), 5 (1.14) and 7 (1.16).
   */
  function WorldVersionOf(dataVersion: int): (r: int)
  {
    if dataVersion == -1 then 0x01
    else if dataVersion < 818 then 0x02
    else if dataVersion < 1501 then 0x03
    else if dataVersion < 1517 then 0x04
    else if dataVersion < 2566 then 0x05
    else 0x07
  }

  /**
   * The table is monotone from -1 up, never yields the unused version 6, and a
   * world gets the 1.13 block format exactly from DataVersion 1501 on.
   */
  lemma WorldVersionTable(d1: int, d2: int)
    requires -1 <= d1 <= d2
    ensures WorldVersionOf(d1) <= WorldVersionOf(d2)
    ensures WorldVersionOf(d1) in {1, 2, 3, 4, 5, 7}
    ensures WorldVersionOf(d1) >= MODERN <==> d1 >= 1501
  {
  }

  // ---- level.dat ----

  datatype LevelData = LevelData(gameRules: map<string, string>, spawnX: int, spawnY: int, spawnZ: int, version: int)

  /** The game rules compound: every value must be a string tag, or `.get()` throws. */
  function GameRules(rules: CompoundMap): (r: Result<map<string, string>>)
    ensures r.Ok? <==> forall k :: k in rules ==> rules[k].StringTag?
    ensures r.Fail? ==> r.error == NoSuchElement
    ensures r.Ok? ==> r.value.Keys == rules.Keys && forall k :: k in rules ==> r.value[k] == rules[k].stringValue
  {
    if exists k :: k in rules && !rules[k].StringTag? then Fail(NoSuchElement)
    else Ok(map k | k in rules :: rules[k].stringValue)
  }

  /**
   * `readLevelData`: a root that is not a compound, or one without a "Data"
   * compound, is an InvalidWorldException for the world directory; the
   * DataVersion defaults to -1 and the spawn to (0, 255, 0).
   */
  function ReadLevelData(dirName: string, file: seq<byte>, read: FileTagReader): (r: Result<LevelData>)
    ensures read(file).None? ==> r == Fail(StorageFailure)
    ensures read(file).Some? && AsCompound(Entries(read(file).value), "Data").None? ==> r == Fail(InvalidWorld(dirName))
    ensures r.Ok? ==> var data := AsCompound(Entries(read(file).value), "Data").value.entries;
                      && r.value.version == IntValue(data, "DataVersion").GetOr(-1)
                      && r.value.spawnX == IntValue(data, "SpawnX").GetOr(0)
                      && r.value.spawnY == IntValue(data, "SpawnY").GetOr(255)
                      && r.value.spawnZ == IntValue(data, "SpawnZ").GetOr(0)
  {
    match read(file)
    case None => Fail(StorageFailure)
    case Some(root) =>
      match AsCompound(Entries(root), "Data")
      case None => Fail(InvalidWorld(dirName))
      case Some(dataTag) =>
        var data := dataTag.entries;
        var rules :- match AsCompound(data, "GameRules")
                     case None => Ok(map[])
                     case Some(rulesTag) => GameRules(rulesTag.entries);
        Ok(LevelData(rules, IntValue(data, "SpawnX").GetOr(0), IntValue(data, "SpawnY").GetOr(255),
                     IntValue(data, "SpawnZ").GetOr(0), IntValue(data, "DataVersion").GetOr(-1)))
  }

  /** The extra-data compound: "gamerules" only when there are game rules, each as a string tag. */
  function ExtraData(gameRules: map<string, string>): (r: Tag)
    ensures r.CompoundTag? && r.name == ""
    ensures "gamerules" in r.entries <==> gameRules != map[]
    ensures r.entries.Keys <= {"gamerules"}
    ensures gameRules != map[] ==> r.entries["gamerules"] == CompoundTag("gamerules", RulesCompound(gameRules))
  {
    if gameRules == map[] then CompoundTag("", map[])
    else CompoundTag("", map["gamerules" := CompoundTag("gamerules", RulesCompound(gameRules))])
  }

  function RulesCompound(gameRules: map<string, string>): (r: CompoundMap)
    ensures r.Keys == gameRules.Keys
    ensures forall k :: k in r ==> r[k] == StringTag(k, gameRules[k])
  {
    map k | k in gameRules :: StringTag(k, gameRules[k])
  }

  /** The game rules a level.dat holds come back out of the extra data built from them. */
  lemma GameRulesKept(rules: CompoundMap)
    requires GameRules(rules).Ok? && rules != map[]
    ensures var extra := ExtraData(GameRules(rules).value);
            && GameRules(extra.entries["gamerules"].entries).Ok?
            && GameRules(extra.entries["gamerules"].entries).value == GameRules(rules).value
  {
    var g := GameRules(rules).value;
    assert g.Keys == rules.Keys;
    var inner := RulesCompound(g);
    assert forall k :: k in inner ==> inner[k].StringTag?;
    assert GameRules(inner).value == g;
  }

  // ---- Biomes ----

  /** `toIntArray`: the bytes as big-endian ints, any trailing partial int dropped. */
  function ToIntArray(buf: seq<byte>): (r: seq<int>)
    ensures |r| == |buf| / 4
    ensures forall i :: 0 <= i < |r| ==> IsInt(r[i])
    decreases |buf|
  {
    if |buf| < 4 then []
    else
      var head := ReadInt(buf).value;
      assert IsInt(head.value) by { assert Pow256(4) == 0x1_0000_0000; }
      [head.value] + ToIntArray(buf[4..])
  }

  /** The biome ints written big-endian come back unchanged. */
  lemma {:induction false} ToIntArrayOfInts(vs: seq<int>)
    requires forall i :: 0 <= i < |vs| ==> IsInt(vs[i])
    ensures ToIntArray(WriteInts(vs)) == vs
    decreases |vs|
  {
    if |vs| > 0 {
      var tail := WriteInts(vs[1..]);
      assert WriteInts(vs) == WriteInt(vs[0]) + tail;
      IntRoundTrip(vs[0], tail);
      assert WriteInts(vs)[4..] == tail;
      ToIntArrayOfInts(vs[1..]);
    }
  }

  // ---- Map files ----

  /** The characters Java's `.` does not match. */
  const LINE_TERMINATORS: set<char> := {'\n', '\r', '\U{0085}', '\U{2028}', '\U{2029}'}

  /**
   * `^(?:map_([0-9]*).dat)$`: "map_", any run of digits (possibly none), any one
   * character but a line terminator, then "dat".
   */
  predicate IsMapFileName(name: string)
  {
    && |name| >= 8
    && name[..4] == "map_"
    && AllDigits(name[4..|name| - 4])
    && name[|name| - 4] !in LINE_TERMINATORS
    && name[|name| - 3..] == "dat"
  }

  /**
   * `loadMap`: the id is parsed from between "map_" and the last four characters
   * before the file is read; the file's root must be a compound holding a
   * "data" compound, which is returned with an int tag "id" added.
   */
  function LoadMap(name: string, file: seq<byte>, read: FileTagReader): (r: Result<Tag>)
    requires IsMapFileName(name)
    ensures ParseInt(name[4..|name| - 4]).Fail? ==> r == Fail(NumberFormat)
    ensures r.Ok? ==> && r.value.CompoundTag?
                      && "id" in r.value.entries
                      && r.value.entries["id"] == IntTag("id", Value(name[4..|name| - 4]))
  {
    var id :- ParseInt(name[4..|name| - 4]);
    match read(file)
    case None => Fail(StorageFailure)
    case Some(root) =>
      if !root.CompoundTag? then Fail(NoSuchElement)
      else match AsCompound(root.entries, "data")
        case None => Fail(NoSuchElement)
        case Some(data) => Ok(CompoundTag(data.name, data.entries["id" := IntTag("id", id)]))
  }

  /** The file name a map id is saved under. */
  function MapFileName(id: nat): (r: string)
  {
    "map_" + Numeral(id) + ".dat"
  }

  /** Every map file name the game writes matches the pattern, and its id is read back. */
  lemma MapFileNameRoundTrip(id: nat)
    requires IsInt(id)
    ensures IsMapFileName(MapFileName(id))
    ensures MapFileName(id)[4..|MapFileName(id)| - 4] == Numeral(id)
    ensures ParseInt(Numeral(id)) == Ok(id)
  {
    var name := MapFileName(id);
    assert name[4..|name| - 4] == Numeral(id);
    assert name[|name| - 3..] == "dat";
    ParseRender(id);
  }

  /** "map_.dat" matches the pattern (the digits may be empty), and loading it fails to parse the id. */
  lemma EmptyMapIdRefused(file: seq<byte>, read: FileTagReader)
    ensures IsMapFileName("map_.dat")
    ensures LoadMap("map_.dat", file, read) == Fail(NumberFormat)
  {
    assert "map_.dat"[4..4] == "";
  }

  // ---- Sections ----

  /** Java's `isEmpty` over a byte or long array: no element is non-zero. */
  predicate AllZero(values: seq<int>)
  {
    forall i :: 0 <= i < |values| ==> values[i] == 0
  }

  /** A section tag either is skipped, or places a section at its Y index. */
  datatype SectionRead = Skipped | Placed(index: int, section: Section)

  /** A light array: absent when the key is; otherwise it must be a byte array. */
  function ReadLight(m: CompoundMap, key: string): (r: Result<Option<NibbleArray>>)
    ensures key !in m ==> r == Ok(None)
    ensures key in m && m[key].ByteArrayTag? ==> r == Ok(Some(NibbleArray(m[key].bytes)))
    ensures key in m && !m[key].ByteArrayTag? ==> r == Fail(NoSuchElement)
  {
    if key !in m then Ok(None)
    else match ByteArrayValue(m, key)
      case None => Fail(NoSuchElement)
      case Some(bytes) => Ok(Some(NibbleArray(bytes)))
  }

  /** Whether a section with a Y of zero or more holds blocks, by the world's block format. */
  predicate HoldsBlocks(m: CompoundMap, worldVersion: int)
  {
    if worldVersion < MODERN then
      ByteArrayValue(m, "Blocks").Some? && !AllZero(ByteArrayValue(m, "Blocks").value)
    else
      && AsList(m, "Palette").Some?
      && LongArrayValue(m, "BlockStates").Some?
      && !AllZero(LongArrayValue(m, "BlockStates").value)
  }

  function Wrapped(palette: seq<Tag>): (r: seq<Option<Tag>>)
    ensures |r| == |palette| && forall i :: 0 <= i < |r| ==> r[i] == Some(palette[i])
  {
    seq(|palette|, i requires 0 <= i < |palette| => Some(palette[i]))
  }

  /**
   * One element of "Sections".  It must be a compound with a byte "Y"; a
   * negative Y is skipped.  A legacy section needs a "Data" byte array and is
   * skipped when its blocks are all zero (missing blocks throw); a modern
   * section is skipped when it has no palette, no block states, or all-zero
   * states.  Light arrays are read only for kept sections.
   */
  function ReadSection(t: Tag, worldVersion: int): (r: Result<SectionRead>)
    ensures !t.CompoundTag? ==> r == Fail(ClassCast)
    ensures t.CompoundTag? && ByteValue(t.entries, "Y").None? ==> r == Fail(NoSuchElement)
    ensures t.CompoundTag? && ByteValue(t.entries, "Y").Some? && ByteValue(t.entries, "Y").value < 0 ==> r == Ok(Skipped)
    ensures r.Ok? && r.value.Placed? ==>
              && t.CompoundTag? && r.value.index == ByteValue(t.entries, "Y").value >= 0
              && HoldsBlocks(t.entries, worldVersion)
              && (worldVersion >= MODERN <==> r.value.section.ModernSection?)
    ensures t.CompoundTag? && ByteValue(t.entries, "Y").Some? && ByteValue(t.entries, "Y").value >= 0 ==>
              (r == Ok(Skipped) <==> (worldVersion < MODERN ==> ByteArrayValue(t.entries, "Data").Some?)
                                     && (worldVersion >= MODERN || ByteArrayValue(t.entries, "Blocks").Some?)
                                     && !HoldsBlocks(t.entries, worldVersion))
  {
    if !t.CompoundTag? then Fail(ClassCast)
    else
      var m := t.entries;
      match ByteValue(m, "Y")
      case None => Fail(NoSuchElement)
      case Some(y) =>
        if y < 0 then Ok(Skipped)
        else if worldVersion < MODERN then
          match ByteArrayValue(m, "Data")
          case None => Fail(NoSuchElement)
          case Some(data) =>
            match ByteArrayValue(m, "Blocks")
            case None => Fail(NullPointer)
            case Some(blocks) =>
              if AllZero(blocks) then Ok(Skipped)
              else
                var blockLight :- ReadLight(m, "BlockLight");
                var skyLight :- ReadLight(m, "SkyLight");
                Ok(Placed(y, LegacySection(blockLight, blocks, NibbleArray(data), skyLight)))
        else
          var palette := AsList(m, "Palette");
          var states := LongArrayValue(m, "BlockStates");
          if palette.None? || states.None? || AllZero(states.value) then Ok(Skipped)
          else
            var blockLight :- ReadLight(m, "BlockLight");
            var skyLight :- ReadLight(m, "SkyLight");
            Ok(Placed(y, ModernSection(blockLight, Wrapped(palette.value.items), states.value, skyLight)))
  }

  /** Section tag `t` is read as a section placed at `index`. */
  predicate PlacedAt(t: Tag, worldVersion: int, index: int)
  {
    var r := ReadSection(t, worldVersion);
    r.Ok? && r.value.Placed? && r.value.index == index
  }

  /**
   * The loop over "Sections": each placed section is stored at its Y, a later
   * one replacing an earlier one; a Y of 16 or more overflows the 16-slot array.
   */
  function ReadSections(tags: seq<Tag>, worldVersion: int, slots: seq<Option<Section>>): (r: Result<seq<Option<Section>>>)
    requires |slots| == SECTION_COUNT
    ensures r.Ok? ==> |r.value| == SECTION_COUNT
    ensures r.Ok? ==> forall i :: 0 <= i < SECTION_COUNT ==>
              (r.value[i].Some? <==> slots[i].Some? || exists j :: 0 <= j < |tags| && PlacedAt(tags[j], worldVersion, i))
    ensures r.Ok? ==> forall j :: 0 <= j < |tags| ==> ReadSection(tags[j], worldVersion).Ok?
    decreases |tags|
  {
    if |tags| == 0 then Ok(slots)
    else
      var read :- ReadSection(tags[0], worldVersion);
      var next :- match read
                  case Skipped => Ok(slots)
                  case Placed(index, section) =>
                    if index >= SECTION_COUNT then Fail(IndexOutOfBounds) else Ok(slots[index := Some(section)]);
      var r :- ReadSections(tags[1..], worldVersion, next);
      assert forall j :: 0 < j < |tags| ==> tags[j] == tags[1..][j - 1];
      assert forall i :: 0 <= i < SECTION_COUNT ==> (next[i].Some? <==> slots[i].Some? || PlacedAt(tags[0], worldVersion, i));
      Ok(r)
  }

  /** The sixteen empty slots a chunk starts with. */
  function NoSections(): (r: seq<Option<Section>>)
    ensures |r| == SECTION_COUNT && forall i :: 0 <= i < SECTION_COUNT ==> r[i].None?
  {
    seq(SECTION_COUNT, _ => None)
  }

  /** A protochunk: a Status other than "postprocessed" that does not start with "full". */
  predicate IsProtoChunk(status: Option<string>)
  {
    status.Some? && status.value != "postprocessed" && !(|status.value| >= 4 && status.value[..4] == "full")
  }

  /** "Biomes" as an int array, a byte array read as big-endian ints, or null. */
  function ReadBiomes(m: CompoundMap): (r: Option<seq<int>>)
    ensures r.Some? <==> "Biomes" in m && (m["Biomes"].IntArrayTag? || m["Biomes"].ByteArrayTag?)
  {
    if "Biomes" !in m then None
    else match m["Biomes"]
      case IntArrayTag(_, ints) => Some(ints)
      case ByteArrayTag(_, bytes) => Some(ToIntArray(bytes))
      case _ => None
  }

  /** Height maps: the "Heightmaps" compound from 1.13, else the legacy array (256 zeros when absent). */
  function ReadHeightMaps(m: CompoundMap, worldVersion: int): (r: Tag)
    ensures worldVersion >= MODERN && AsCompound(m, "Heightmaps").Some? ==> r == m["Heightmaps"]
    ensures worldVersion >= MODERN && AsCompound(m, "Heightmaps").None? ==> r == CompoundTag("", map[])
    ensures worldVersion < MODERN ==>
              IntArrayValue(Entries(r), "heightMap") == Some(IntArrayValue(m, "HeightMap").GetOr(seq(HEIGHT_MAP_SIZE, _ => 0)))
  {
    if worldVersion >= MODERN then AsCompound(m, "Heightmaps").GetOr(CompoundTag("", map[]))
    else LegacyHeightMaps(IntArrayValue(m, "HeightMap").GetOr(seq(HEIGHT_MAP_SIZE, _ => 0)))
  }

  /** A list of compounds, or the empty list when the key is missing or holds no list. */
  function ListOrEmpty(m: CompoundMap, key: string): (r: seq<Tag>)
    ensures AsList(m, key).Some? ==> r == m[key].items
    ensures AsList(m, key).None? ==> r == []
  {
    match AsList(m, key)
    case None => []
    case Some(list) => list.items
  }

  /**
   * `readChunk` over a "Level" compound.  A protochunk, or a chunk none of whose
   * sections holds blocks, yields None.  Missing coordinates or "Sections" are
   * NoSuchElementExceptions.  A kept chunk without biomes is reported as the
   * NullPointerException serialising it would raise.
   */
  function ReadChunk(m: CompoundMap, worldVersion: int): (r: Result<Option<Chunk>>)
    ensures IntValue(m, "xPos").None? || IntValue(m, "zPos").None? ==> r == Fail(NoSuchElement)
    ensures IntValue(m, "xPos").Some? && IntValue(m, "zPos").Some? && IsProtoChunk(StringValue(m, "Status")) ==>
              r == Ok(None)
    ensures r.Ok? && r.value.Some? ==>
              var c := r.value.value;
              && !IsProtoChunk(StringValue(m, "Status"))
              && c.worldName.None? && c.x == m["xPos"].intValue && c.z == m["zPos"].intValue
              && |c.sections| == SECTION_COUNT && HasSections(c)
              && Some(c.biomes) == ReadBiomes(m)
              && c.heightMaps == ReadHeightMaps(m, worldVersion)
              && c.tileEntities == ListOrEmpty(m, "TileEntities") && c.entities == ListOrEmpty(m, "Entities")
    ensures r.Ok? && r.value.None? && !IsProtoChunk(StringValue(m, "Status")) ==>
              && AsList(m, "Sections").Some?
              && forall j :: 0 <= j < |m["Sections"].items| ==> forall i :: 0 <= i < SECTION_COUNT ==>
                   !PlacedAt(m["Sections"].items[j], worldVersion, i)
  {
    if IntValue(m, "xPos").None? || IntValue(m, "zPos").None? then Fail(NoSuchElement)
    else if IsProtoChunk(StringValue(m, "Status")) then Ok(None)
    else if AsList(m, "Sections").None? then Fail(NoSuchElement)
    else
      var biomes := ReadBiomes(m);
      var sections :- ReadSections(m["Sections"].items, worldVersion, NoSections());
      if forall i :: 0 <= i < SECTION_COUNT ==> sections[i].None? then
        assert forall j, i :: 0 <= j < |m["Sections"].items| && 0 <= i < SECTION_COUNT ==>
                 !PlacedAt(m["Sections"].items[j], worldVersion, i) by {
          forall j, i | 0 <= j < |m["Sections"].items| && 0 <= i < SECTION_COUNT
            ensures !PlacedAt(m["Sections"].items[j], worldVersion, i)
          {
            assert sections[i].None?;
          }
        }
        Ok(None)
      else if biomes.None? then Fail(NullPointer)
      else
        var c := Chunk(None, m["xPos"].intValue, m["zPos"].intValue, sections, ReadHeightMaps(m, worldVersion),
                       biomes.value, ListOrEmpty(m, "TileEntities"), ListOrEmpty(m, "Entities"));
        assert HasSections(c);
        Ok(Some(c))
  }

  /** Every chunk an importer produces: a full chunk of 16 slots, at least one holding blocks. */
  predicate Imported(c: Chunk)
  {
    c.worldName.None? && |c.sections| == SECTION_COUNT && HasSections(c)
  }

  /** One header entry read down to its Level compound and normalised; None for a chunk the importer drops. */
  function LoadOne(buf: seq<byte>, e: ChunkEntry, worldVersion: int, decode: ChunkDecoder): (r: Result<Option<Chunk>>)
    ensures r.Ok? && r.value.Some? ==> Imported(r.value.value)
  {
    var level :- ReadLevel(buf, e, decode);
    ReadChunk(level.entries, worldVersion)
  }

  /**
   * `loadChunks` after the header: the entries in slot order, each read by
   * `load` before the next, the null chunks dropped.
   */
  function LoadEntries(load: ChunkEntry -> Result<Option<Chunk>>, entries: seq<ChunkEntry>): (r: Result<seq<Chunk>>)
    ensures r.Ok? ==> |r.value| <= |entries|
    decreases |entries|
  {
    if |entries| == 0 then Ok([])
    else
      var chunk :- load(entries[0]);
      var rest :- LoadEntries(load, entries[1..]);
      if chunk.Some? then Ok([chunk.value] + rest) else Ok(rest)
  }

  /** Every loaded chunk is what some entry of the header loads as. */
  lemma {:induction false} LoadedFromEntries(load: ChunkEntry -> Result<Option<Chunk>>, entries: seq<ChunkEntry>)
    requires LoadEntries(load, entries).Ok?
    ensures var cs := LoadEntries(load, entries).value;
            forall i :: 0 <= i < |cs| ==> exists j :: 0 <= j < |entries| && load(entries[j]) == Ok(Some(cs[i]))
    decreases |entries|
  {
    if |entries| > 0 {
      var cs := LoadEntries(load, entries).value;
      var chunk := load(entries[0]).value;
      var rest := LoadEntries(load, entries[1..]).value;
      LoadedFromEntries(load, entries[1..]);
      forall i | 0 <= i < |cs|
        ensures exists j :: 0 <= j < |entries| && load(entries[j]) == Ok(Some(cs[i]))
      {
        if chunk.Some? && i == 0 {
          assert load(entries[0]) == Ok(Some(cs[i]));
        } else {
          var k := if chunk.Some? then i - 1 else i;
          assert cs[i] == rest[k];
          var j :| 0 <= j < |entries[1..]| && load(entries[1..][j]) == Ok(Some(rest[k]));
          assert entries[1..][j] == entries[j + 1];
        }
      }
    }
  }

  /** The loader of one region file's entries. */
  function Loader(buf: seq<byte>, worldVersion: int, decode: ChunkDecoder): ChunkEntry -> Result<Option<Chunk>>
  {
    e => LoadOne(buf, e, worldVersion, decode)
  }

  /** `loadChunks` of one region file: a short header is an EOFException. */
  function LoadChunks(buf: seq<byte>, worldVersion: int, decode: ChunkDecoder): (r: Result<seq<Chunk>>)
    ensures |buf| < HEADER_SIZE ==> r == Fail(EndOfStream)
    ensures r.Ok? ==> forall i :: 0 <= i < |r.value| ==> Imported(r.value[i])
  {
    var entries :- RegionEntries(buf);
    var r := LoadEntries(Loader(buf, worldVersion, decode), entries);
    if r.Ok? then
      LoadedFromEntries(Loader(buf, worldVersion, decode), entries);
      r
    else r
  }
}

=== FILE: version.dfy ===
/**
 * Plugin release versions, as the update checker parses and orders them:
 * `major.minor[.patch][-tag]`, found anywhere in a string, compared on the
 * three numbers and then on whether a tag is present.
 */
module Versions {
  import opened Wrappers
  import opened Bytes
  import opened Numerals

  datatype Version = Version(major: int, minor: int, patch: int, tag: string)

  /** The groups of one match of the version pattern; an optional group that did not take part is None. */
  datatype Match = Match(major: string, minor: string, patch: Option<string>, tag: Option<string>)

  /** The tag class `[A-z0-9.-]`; `A-z` is the ASCII range from 'A' to 'z'. */
  predicate IsTagChar(c: char)
  {
    ('A' <= c <= 'z') || IsDigit(c) || c == '.' || c == '-'
  }

  /** The length of the run of digits that starts `s`. */
  function DigitRun(s: string): (n: nat)
    ensures n <= |s|
    ensures forall i :: 0 <= i < n ==> IsDigit(s[i])
    ensures n < |s| ==> !IsDigit(s[n])
  {
    if |s| > 0 && IsDigit(s[0]) then 1 + DigitRun(s[1..]) else 0
  }

  /** The length of the run of tag characters that starts `s`. */
  function TagRun(s: string): (n: nat)
    ensures n <= |s|
    ensures forall i :: 0 <= i < n ==> IsTagChar(s[i])
    ensures n < |s| ==> !IsTagChar(s[n])
  {
    if |s| > 0 && IsTagChar(s[0]) then 1 + TagRun(s[1..]) else 0
  }

  /** How much of the start of `s` the group `0|[1-9]\d*` takes, if it matches there. */
  function NumberLength(s: string): (r: Option<nat>)
    ensures r.Some? ==> 0 < r.value <= |s| && forall i :: 0 <= i < r.value ==> IsDigit(s[i])
    ensures r.Some? <==> |s| > 0 && IsDigit(s[0])
  {
    if |s| == 0 || !IsDigit(s[0]) then None
    else if s[0] == '0' then Some(1)
    else Some(1 + DigitRun(s[1..]))
  }

  /** The optional `\.(patch)` group at the start of `u`, and what follows it. */
  function PatchGroup(u: string): (r: (Option<string>, string))
    ensures r.0.Some? ==> |r.0.value| > 0 && AllDigits(r.0.value)
  {
    if |u| > 0 && u[0] == '.' then
      match NumberLength(u[1..])
      case None => (None, u)
      case Some(c) => (Some(u[1..][..c]), u[1..][c..])
    else (None, u)
  }

  /** Every number group of a match is a non-empty run of digits, as the pattern makes it. */
  predicate Shaped(m: Match)
  {
    && |m.major| > 0 && AllDigits(m.major) && |m.minor| > 0 && AllDigits(m.minor)
    && (m.patch.Some? ==> |m.patch.value| > 0 && AllDigits(m.patch.value))
  }

  /** The optional `-(tag)` group at the start of `v`. */
  function TagGroup(v: string): (r: Option<string>)
    ensures r.Some? ==> forall i :: 0 <= i < |r.value| ==> IsTagChar(r.value[i])
  {
    if |v| > 0 && v[0] == '-' then Some(v[1..][..TagRun(v[1..])]) else None
  }

  /**
   * The match of the pattern starting at the first character of `s`.  Every
   * quantifier is greedy and nothing after the minor number can fail, so the
   * longest numbers and the longest tag are taken.
   */
  function MatchAt(s: string): (r: Option<Match>)
    ensures r.Some? ==> Shaped(r.value)
  {
    match NumberLength(s)
    case None => None
    case Some(a) =>
      if a < |s| && s[a] == '.' then
        var t := s[a + 1..];
        match NumberLength(t)
        case None => None
        case Some(b) =>
          var (patch, v) := PatchGroup(t[b..]);
          Some(Match(s[..a], t[..b], patch, TagGroup(v)))
      else None
  }

  /** The first match `at` reports, trying each suffix of `s` from the longest. */
  function FirstAt(at: string -> Option<Match>, s: string): (r: Option<Match>)
    decreases |s|
  {
    match at(s)
    case Some(m) => Some(m)
    case None => if |s| == 0 then None else FirstAt(at, s[1..])
  }

  /** FirstAt reports a match exactly when some suffix has one, and then that of the leftmost. */
  lemma {:induction false} FirstAtLeftmost(at: string -> Option<Match>, s: string)
    ensures FirstAt(at, s).Some? <==> exists i :: 0 <= i <= |s| && at(s[i..]).Some?
    ensures FirstAt(at, s).Some? ==> exists i :: 0 <= i <= |s| && at(s[i..]) == FirstAt(at, s)
                                                && forall j :: 0 <= j < i ==> at(s[j..]).None?
    decreases |s|
  {
    assert s[0..] == s;
    if at(s).None? {
      if |s| == 0 {
        assert forall i :: 0 <= i <= |s| ==> s[i..] == s;
      } else {
        FirstAtLeftmost(at, s[1..]);
        assert forall i :: 1 <= i <= |s| ==> s[i..] == s[1..][i - 1..];
        if FirstAt(at, s).Some? {
          var k :| 0 <= k <= |s[1..]| && at(s[1..][k..]) == FirstAt(at, s)
                   && forall j :: 0 <= j < k ==> at(s[1..][j..]).None?;
          assert at(s[k + 1..]) == FirstAt(at, s);
        }
      }
    }
  }

  /** `Matcher.find()`: the match at the first position of `s` where the pattern matches. */
  function Find(s: string): (r: Option<Match>)
    ensures r.Some? ==> Shaped(r.value)
  {
    FirstAtLeftmost(MatchAt, s);
    FirstAt(MatchAt, s)
  }

  /** Find reports a match exactly when the pattern matches somewhere, and then the leftmost one. */
  lemma FindLeftmost(s: string)
    ensures Find(s).Some? <==> exists i :: 0 <= i <= |s| && MatchAt(s[i..]).Some?
    ensures Find(s).Some? ==> exists i :: 0 <= i <= |s| && MatchAt(s[i..]) == Find(s)
                                         && forall j :: 0 <= j < i ==> MatchAt(s[j..]).None?
  {
    FirstAtLeftmost(MatchAt, s);
  }

  /**
   * The numbers of a match through `Integer.parseInt`, which refuses a patch
   * group that did not take part (null) and a number beyond a Java int; a
   * missing tag is "".
   */
  function FromMatch(m: Match): (r: Result<Version>)
    requires Shaped(m)
    ensures m.patch.None? ==> r == Fail(NumberFormat)
    ensures r.Fail? ==> r.error == NumberFormat
    ensures r.Ok? ==> && r.value.major == Value(m.major) && r.value.minor == Value(m.minor)
                      && m.patch.Some? && AllDigits(m.patch.value) && r.value.patch == Value(m.patch.value)
                      && r.value.tag == m.tag.GetOr("")
    ensures r.Ok? ==> 0 <= r.value.major <= INT_MAX && 0 <= r.value.minor <= INT_MAX
                      && 0 <= r.value.patch <= INT_MAX
  {
    var major :- ParseInt(m.major);
    var minor :- ParseInt(m.minor);
    var patch :- if m.patch.None? then Fail(NumberFormat) else ParseInt(m.patch.value);
    Ok(Version(major, minor, patch, m.tag.GetOr("")))
  }

  /** `new Version(value)`: no match is an IllegalArgumentException; otherwise the match's numbers are read. */
  function Parse(value: string): (r: Result<Version>)
    ensures Find(value).None? <==> r.Fail? && r.error.IllegalArgument?
    ensures Find(value).Some? ==> r == FromMatch(Find(value).value)
  {
    match Find(value)
    case None => Fail(IllegalArgument("Invalid version format " + value))
    case Some(m) => FromMatch(m)
  }

  /** The numbers of a match with the evidently intended reading of an absent patch number: zero. */
  function FromMatchWithDefaultPatch(m: Match): (r: Result<Version>)
    requires Shaped(m)
    ensures m.patch.Some? ==> r == FromMatch(m)
    ensures r.Ok? && m.patch.None? ==> r.value.patch == 0
  {
    var major :- ParseInt(m.major);
    var minor :- ParseInt(m.minor);
    var patch :- if m.patch.None? then Ok(0) else ParseInt(m.patch.value);
    Ok(Version(major, minor, patch, m.tag.GetOr("")))
  }

  /** The same constructor with an absent patch number read as zero. */
  function ParseWithDefaultPatch(value: string): (r: Result<Version>)
    ensures Find(value).None? <==> r.Fail? && r.error.IllegalArgument?
    ensures Find(value).Some? ==> r == FromMatchWithDefaultPatch(Find(value).value)
  {
    match Find(value)
    case None => Fail(IllegalArgument("Invalid version format " + value))
    case Some(m) => FromMatchWithDefaultPatch(m)
  }

  /** A release written with only two numbers, "2.2", is refused as written and read as 2.2.0 as intended. */
  lemma TwoNumbersRefused()
    ensures Parse("2.2") == Fail(NumberFormat)
    ensures ParseWithDefaultPatch("2.2") == Ok(Version(2, 2, 0, ""))
  {
    var s := "2.2";
    assert DigitRun(s[1..]) == 0;
    assert NumberLength(s) == Some(1);
    assert s[2..] == "2" && s[..1] == "2";
    assert DigitRun(s[2..][1..]) == 0;
    assert NumberLength(s[2..]) == Some(1);
    assert s[2..][1..] == "";
    assert PatchGroup("") == (None, "");
    assert TagGroup("") == None;
    assert s[1] == '.' && s[2..][..1] == "2";
    assert MatchAt(s) == Some(Match("2", "2", None, None));
    assert s[0..] == s;
    assert Value("2") == 2 by {
      assert "2"[..0] == "";
    }
  }

  // ---- Writing a version ----

  function TagSuffix(tag: string): string
  {
    if tag == "" then "" else "-" + tag
  }

  /** The canonical text of a version, `major.minor.patch` with `-tag` when there is one. */
  function Format(v: Version): (r: string)
    requires v.major >= 0 && v.minor >= 0 && v.patch >= 0
  {
    Numeral(v.major) + ("." + (Numeral(v.minor) + ("." + (Numeral(v.patch) + TagSuffix(v.tag)))))
  }

  lemma Split(x: string, y: string)
    ensures (x + y)[..|x|] == x && (x + y)[|x|..] == y
  {
  }

  /** A run of digits stops where the next character is not a digit. */
  lemma {:induction false} DigitRunOf(d: string, rest: string)
    requires AllDigits(d)
    requires |rest| > 0 ==> !IsDigit(rest[0])
    ensures DigitRun(d + rest) == |d|
    decreases |d|
  {
    if |d| > 0 {
      assert (d + rest)[1..] == d[1..] + rest;
      DigitRunOf(d[1..], rest);
    } else {
      assert d + rest == rest;
    }
  }

  lemma {:induction false} TagRunOf(tag: string)
    requires forall i :: 0 <= i < |tag| ==> IsTagChar(tag[i])
    ensures TagRun(tag) == |tag|
    decreases |tag|
  {
    if |tag| > 0 {
      TagRunOf(tag[1..]);
    }
  }

  /** The number group takes exactly a canonical numeral. */
  lemma NumberOfNumeral(n: nat, rest: string)
    requires |rest| > 0 ==> !IsDigit(rest[0])
    ensures NumberLength(Numeral(n) + rest) == Some(|Numeral(n)|)
    ensures (Numeral(n) + rest)[..|Numeral(n)|] == Numeral(n)
    ensures (Numeral(n) + rest)[|Numeral(n)|..] == rest
  {
    var d := Numeral(n);
    Split(d, rest);
    if n != 0 {
      assert (d + rest)[1..] == d[1..] + rest;
      DigitRunOf(d[1..], rest);
    }
  }

  /** The tag group of a tag suffix is the tag, and none when there is no tag. */
  lemma TagOfSuffix(tag: string)
    requires forall i :: 0 <= i < |tag| ==> IsTagChar(tag[i])
    ensures TagGroup(TagSuffix(tag)).GetOr("") == tag
  {
    if tag != "" {
      assert TagSuffix(tag)[1..] == tag;
      TagRunOf(tag);
    }
  }

  /** The match found in a version's canonical text holds its three numerals and its tag. */
  lemma MatchOfFormat(v: Version)
    requires 0 <= v.major && 0 <= v.minor && 0 <= v.patch
    requires forall i :: 0 <= i < |v.tag| ==> IsTagChar(v.tag[i])
    ensures Find(Format(v)) == Some(Match(Numeral(v.major), Numeral(v.minor), Some(Numeral(v.patch)),
                                          TagGroup(TagSuffix(v.tag))))
  {
    var s := Format(v);
    MatchAtFormat(v);
    assert s[0..] == s;
  }

  lemma MatchAtFormat(v: Version)
    requires 0 <= v.major && 0 <= v.minor && 0 <= v.patch
    ensures MatchAt(Format(v)) == Some(Match(Numeral(v.major), Numeral(v.minor), Some(Numeral(v.patch)),
                                             TagGroup(TagSuffix(v.tag))))
  {
    var suffix := TagSuffix(v.tag);
    var p := Numeral(v.patch) + suffix;
    var t := Numeral(v.minor) + ("." + p);
    var s := Numeral(v.major) + ("." + t);
    assert |suffix| > 0 ==> suffix[0] == '-';
    PatchOfFormat(v.patch, suffix);
    NumberOfNumeral(v.minor, "." + p);
    NumberOfNumeral(v.major, "." + t);
    MatchAtParts(Numeral(v.major), t, Numeral(v.minor), "." + p);
  }

  /** A match is cut at the two numbers' ends: major, the dot, minor, then the patch group. */
  lemma MatchAtParts(major: string, t: string, minor: string, rest: string)
    requires NumberLength(major + ("." + t)) == Some(|major|)
    requires t == minor + rest && NumberLength(t) == Some(|minor|)
    ensures MatchAt(major + ("." + t))
            == Some(Match(major, minor, PatchGroup(rest).0, TagGroup(PatchGroup(rest).1)))
  {
    var s := major + ("." + t);
    var a := |major|;
    assert s[a] == '.' && s[a + 1..] == t;
    assert t[..|minor|] == minor && t[|minor|..] == rest;
    assert s[..a] == major;
  }

  /** The patch group of `.patch` followed by a tag suffix is the patch numeral. */
  lemma PatchOfFormat(patch: nat, suffix: string)
    requires |suffix| > 0 ==> suffix[0] == '-'
    ensures PatchGroup("." + (Numeral(patch) + suffix)) == (Some(Numeral(patch)), suffix)
  {
    var p := Numeral(patch) + suffix;
    NumberOfNumeral(patch, suffix);
    assert ("." + p)[1..] == p;
  }

  /** A version is read back from its canonical text. */
  lemma ParseFormat(v: Version)
    requires 0 <= v.major <= INT_MAX && 0 <= v.minor <= INT_MAX && 0 <= v.patch <= INT_MAX
    requires forall i :: 0 <= i < |v.tag| ==> IsTagChar(v.tag[i])
    ensures Parse(Format(v)) == Ok(v)
  {
    MatchOfFormat(v);
    ParseNumeral(v.major);
    ParseNumeral(v.minor);
    ParseNumeral(v.patch);
    TagOfSuffix(v.tag);
  }

  /**
   * The corrected constructor agrees with the code as written wherever that
   * code already answers: on every string it parses, on every string with no
   * version in it, and on every match that has a patch group; it refuses a
   * string only when the code as written does too.
   */
  lemma DefaultPatchAgrees(value: string)
    ensures Parse(value).Ok? ==> ParseWithDefaultPatch(value) == Parse(value)
    ensures Find(value).None? || Find(value).value.patch.Some? ==> ParseWithDefaultPatch(value) == Parse(value)
    ensures ParseWithDefaultPatch(value).Fail? ==> Parse(value).Fail?
  {
  }

  /** The corrected constructor reads a version back from its canonical text, as `ParseFormat` shows for the one as written. */
  lemma ParseFormatWithDefaultPatch(v: Version)
    requires 0 <= v.major <= INT_MAX && 0 <= v.minor <= INT_MAX && 0 <= v.patch <= INT_MAX
    requires forall i :: 0 <= i < |v.tag| ==> IsTagChar(v.tag[i])
    ensures ParseWithDefaultPatch(Format(v)) == Ok(v)
  {
    ParseFormat(v);
    DefaultPatchAgrees(Format(v));
  }

  /** The text of a version written with two numbers, `major.minor` and `-tag` when there is one. */
  function ShortFormat(major: nat, minor: nat, tag: string): (r: string)
    ensures |r| > 0 && IsDigit(r[0])
  {
    Numeral(major) + ("." + (Numeral(minor) + TagSuffix(tag)))
  }

  /**
   * Every two-number version is refused by the code as written and read by
   * the corrected constructor with patch 0.
   */
  lemma ParseTwoNumbers(major: nat, minor: nat, tag: string)
    requires major <= INT_MAX && minor <= INT_MAX
    requires forall i :: 0 <= i < |tag| ==> IsTagChar(tag[i])
    ensures Parse(ShortFormat(major, minor, tag)) == Fail(NumberFormat)
    ensures ParseWithDefaultPatch(ShortFormat(major, minor, tag)) == Ok(Version(major, minor, 0, tag))
  {
    var suffix := TagSuffix(tag);
    var t := Numeral(minor) + suffix;
    var s := Numeral(major) + ("." + t);
    assert |suffix| > 0 ==> suffix[0] == '-';
    assert PatchGroup(suffix) == (None, suffix);
    NumberOfNumeral(minor, suffix);
    NumberOfNumeral(major, "." + t);
    MatchAtParts(Numeral(major), t, Numeral(minor), suffix);
    assert s[0..] == s;
    assert Find(s) == Some(Match(Numeral(major), Numeral(minor), None, TagGroup(suffix)));
    ParseNumeral(major);
    ParseNumeral(minor);
    TagOfSuffix(tag);
  }

  // ---- Ordering ----

  function Parts(v: Version): seq<int>
  {
    [v.major, v.minor, v.patch]
  }

  /** The loop of `compareTo` from position `i` on: the first differing number decides. */
  function CompareParts(a: seq<int>, b: seq<int>, i: nat): (r: int)
    requires |a| == |b| && i <= |a|
    ensures r in {-1, 0, 1}
    decreases |a| - i
  {
    if i == |a| then 0
    else if a[i] > b[i] then 1
    else if a[i] < b[i] then -1
    else CompareParts(a, b, i + 1)
  }

  /**
   * `compareTo`.  The identity shortcut of the source is left to the loop,
   * which answers 0 for equal versions as well (see CompareSelf).
   */
  function Compare(a: Version, b: Version): (r: int)
    ensures r in {-1, 0, 1}
  {
    var c := CompareParts(Parts(a), Parts(b), 0);
    if c != 0 then c
    else if |a.tag| == 0 && |b.tag| > 0 then -1
    else if |a.tag| > 0 && |b.tag| == 0 then 1
    else 0
  }

  /** The intended order: lexicographic on the numbers, then a release before its tagged builds. */
  predicate Precedes(a: Version, b: Version)
  {
    || a.major < b.major
    || (a.major == b.major && a.minor < b.minor)
    || (a.major == b.major && a.minor == b.minor && a.patch < b.patch)
    || (a.major == b.major && a.minor == b.minor && a.patch == b.patch && a.tag == "" && b.tag != "")
  }

  /** Versions the order does not tell apart: the same numbers, and both tagged or both not. */
  predicate SameRank(a: Version, b: Version)
  {
    a.major == b.major && a.minor == b.minor && a.patch == b.patch && (a.tag == "" <==> b.tag == "")
  }

  lemma {:induction false} ComparePartsFirstDifference(a: seq<int>, b: seq<int>, i: nat)
    requires |a| == |b| && i <= |a|
    ensures CompareParts(a, b, i) == 0 <==> forall k :: i <= k < |a| ==> a[k] == b[k]
    ensures CompareParts(a, b, i) == -CompareParts(b, a, i)
    decreases |a| - i
  {
    if i < |a| && a[i] == b[i] {
      ComparePartsFirstDifference(a, b, i + 1);
    }
  }

  /** `compareTo` is -1, 0 or 1 exactly as the intended order says. */
  lemma CompareMeansOrder(a: Version, b: Version)
    ensures Compare(a, b) == -1 <==> Precedes(a, b)
    ensures Compare(a, b) == 1 <==> Precedes(b, a)
    ensures Compare(a, b) == 0 <==> SameRank(a, b)
  {
    var pa, pb := Parts(a), Parts(b);
    ComparePartsFirstDifference(pa, pb, 0);
    ComparePartsFirstDifference(pa, pb, 1);
    ComparePartsFirstDifference(pa, pb, 2);
  }

  /** The identity shortcut agrees with the loop: a version equals itself. */
  lemma CompareSelf(v: Version)
    ensures Compare(v, v) == 0
  {
    CompareMeansOrder(v, v);
  }

  lemma CompareAntisymmetric(a: Version, b: Version)
    ensures Compare(a, b) == -Compare(b, a)
  {
    CompareMeansOrder(a, b);
    CompareMeansOrder(b, a);
  }

  lemma CompareTransitive(a: Version, b: Version, c: Version)
    requires Compare(a, b) <= 0 && Compare(b, c) <= 0
    ensures Compare(a, c) <= 0
  {
    CompareMeansOrder(a, b);
    CompareMeansOrder(b, c);
    CompareMeansOrder(a, c);
  }

  /** The tag's text is never compared: only whether there is one. */
  lemma TagTextIgnored(a: Version, b: Version, t: string)
    requires a.tag != "" && t != ""
    ensures Compare(a.(tag := t), b) == Compare(a, b)
  {
  }
}

=== FILE: world.dfy ===
/**
 * The in-memory world: chunk sections, chunks keyed by their packed coordinates,
 * and the world record with its extra data, properties and maps.
 */
module Worlds {
  import opened Wrappers
  import opened Bytes
  import opened Nibbles
  import opened Tags
  import opened Properties

  /**
   * A 16x16x16 slice of a chunk.  Before the 1.13 format (world version < 4)
   * blocks are raw ids plus a nibble of data each; afterwards they are indices
   * into a palette of block-state compounds, packed into longs.  A palette entry
   * is None where the stored tag was empty.
   */
  datatype Section =
    | LegacySection(blockLight: Option<NibbleArray>, blocks: seq<byte>, data: NibbleArray,
                    skyLight: Option<NibbleArray>)
    | ModernSection(blockLight: Option<NibbleArray>, palette: seq<Option<Tag>>, blockStates: seq<int>,
                    skyLight: Option<NibbleArray>)

  /** A chunk; `worldName` is None for chunks made by the vanilla world importer. */
  datatype Chunk = Chunk(
    worldName: Option<string>,
    x: int,
    z: int,
    sections: seq<Option<Section>>,
    heightMaps: Tag,
    biomes: seq<int>,
    tileEntities: seq<Tag>,
    entities: seq<Tag>)

  /** `loader` names the data source a world is saved to, None when it has none. */
  datatype World = World(
    name: string,
    chunks: map<int, Chunk>,
    extraData: Tag,
    properties: PropertyMap,
    readOnly: bool,
    locked: bool,
    worldMaps: seq<Tag>,
    loader: Option<string>,
    version: int)

  const SECTION_COUNT: nat := 16

  /** `(long) z * Integer.MAX_VALUE + (long) x`, the key a chunk is stored under. */
  function ChunkKey(x: int, z: int): int
  {
    z * INT_MAX + x
  }

  function KeyOf(c: Chunk): int
  {
    ChunkKey(c.x, c.z)
  }

  /** Coordinates for which a packed key is collision-free. */
  predicate InKeyRange(v: int)
  {
    -0x3FFF_FFFF <= v <= 0x3FFF_FFFF
  }

  /** Every chunk is stored under its own key. */
  predicate KeysMatch(chunks: map<int, Chunk>)
  {
    forall k :: k in chunks ==> KeyOf(chunks[k]) == k
  }

  /** Chunks listed in ascending order of their keys. */
  predicate KeysIncreasing(cs: seq<Chunk>)
  {
    forall i, j :: 0 <= i < j < |cs| ==> KeyOf(cs[i]) < KeyOf(cs[j])
  }

  predicate HasSections(c: Chunk)
  {
    exists i :: 0 <= i < |c.sections| && c.sections[i].Some?
  }

  /** Keys are ordered by z first, then x, and so are unique, for coordinates in range. */
  lemma ChunkKeyOrder(x1: int, z1: int, x2: int, z2: int)
    requires InKeyRange(x1) && InKeyRange(x2)
    ensures ChunkKey(x1, z1) < ChunkKey(x2, z2) <==> z1 < z2 || (z1 == z2 && x1 < x2)
    ensures ChunkKey(x1, z1) == ChunkKey(x2, z2) <==> z1 == z2 && x1 == x2
  {
    if z1 < z2 {
      MulNonNegative(z2 - z1 - 1, INT_MAX);
      assert ChunkKey(x2, z2) - ChunkKey(x1, z1) == (z2 - z1 - 1) * INT_MAX + INT_MAX + x2 - x1;
    } else if z1 > z2 {
      MulNonNegative(z1 - z2 - 1, INT_MAX);
      assert ChunkKey(x1, z1) - ChunkKey(x2, z2) == (z1 - z2 - 1) * INT_MAX + INT_MAX + x1 - x2;
    }
  }

  /** Outside that range two different chunks can share a key. */
  lemma ChunkKeyCollides()
    ensures ChunkKey(-1, 1) == ChunkKey(INT_MAX - 1, 0)
  {
  }

  /** `getChunk(x, z)`. */
  function GetChunk(w: World, x: int, z: int): (r: Option<Chunk>)
    ensures r.Some? <==> ChunkKey(x, z) in w.chunks
    ensures r.Some? ==> r.value == w.chunks[ChunkKey(x, z)]
  {
    var key := ChunkKey(x, z);
    if key in w.chunks then Some(w.chunks[key]) else None
  }

  /**
   * `updateChunk(chunk)`: a chunk of another world is refused with an
   * IllegalArgumentException; a chunk with no world name fails on the comparison.
   */
  function UpdateChunk(w: World, c: Chunk): (r: Result<World>)
    ensures c.worldName.None? ==> r == Fail(NullPointer)
    ensures c.worldName.Some? && c.worldName.value != w.name ==> r.Fail? && r.error.IllegalArgument?
    ensures r.Ok? <==> c.worldName == Some(w.name)
    ensures r.Ok? ==> r.value.chunks.Keys == w.chunks.Keys + {KeyOf(c)}
    ensures r.Ok? ==> r.value == w.(chunks := r.value.chunks)
    ensures r.Ok? && KeysMatch(w.chunks) ==> KeysMatch(r.value.chunks)
  {
    match c.worldName
    case None => Fail(NullPointer)
    case Some(owner) =>
      if owner != w.name then Fail(IllegalArgument("Chunk belongs to world '" + owner + "', not to '" + w.name + "'!"))
      else Ok(w.(chunks := w.chunks[KeyOf(c) := c]))
  }

  /** A chunk read back after it is stored is that chunk; other in-range chunks are untouched. */
  lemma GetAfterUpdate(w: World, c: Chunk, x: int, z: int)
    requires c.worldName == Some(w.name)
    requires InKeyRange(c.x) && InKeyRange(x)
    ensures GetChunk(UpdateChunk(w, c).value, c.x, c.z) == Some(c)
    ensures (x, z) != (c.x, c.z) ==> GetChunk(UpdateChunk(w, c).value, x, z) == GetChunk(w, x, z)
  {
    ChunkKeyOrder(x, z, c.x, c.z);
  }
}

/** Ascending order of a finite set of keys, as a sort of the chunk list produces it. */
module Sorting {

  predicate Increasing(s: seq<int>)
  {
    forall i, j :: 0 <= i < j < |s| ==> s[i] < s[j]
  }

  lemma Pick(s: set<int>) returns (x: int)
    requires s != {}
    ensures x in s
  {
    assert exists y :: y in s by {
      if forall y :: y !in s {
        assert false;
      }
    }
    x :| x in s;
  }

  lemma {:induction false} MinWitness(s: set<int>) returns (m: int)
    requires s != {}
    ensures m in s && forall y :: y in s ==> m <= y
    decreases |s|
  {
    var x := Pick(s);
    if s == {x} {
      m := x;
    } else {
      var rest := MinWitness(s - {x});
      m := if x < rest then x else rest;
      forall y | y in s
        ensures m <= y
      {
        if y != x {
          assert y in s - {x};
        }
      }
    }
  }

  predicate IsLeast(m: int, s: set<int>)
  {
    m in s && forall y :: y in s ==> m <= y
  }

  lemma MinExists(s: set<int>)
    requires s != {}
    ensures exists m :: IsLeast(m, s)
  {
    var m := MinWitness(s);
    assert IsLeast(m, s);
  }

  function MinOf(s: set<int>): (m: int)
    requires s != {}
    ensures m in s && forall y :: y in s ==> m <= y
  {
    MinExists(s);
    var m :| IsLeast(m, s);
    m
  }

  function SortedKeys(s: set<int>): (r: seq<int>)
    ensures |r| == |s|
    ensures forall k :: k in r <==> k in s
    ensures Increasing(r)
    decreases |s|
  {
    if s == {} then []
    else
      var m := MinOf(s);
      var rest := SortedKeys(s - {m});
      assert forall i :: 0 <= i < |rest| ==> m < rest[i] by {
        forall i | 0 <= i < |rest| ensures m < rest[i] {
          assert rest[i] in rest;
        }
      }
      [m] + rest
  }

  lemma TailIncreasing(s: seq<int>)
    requires Increasing(s) && |s| > 0
    ensures Increasing(s[1..])
  {
    forall i, j | 0 <= i < j < |s[1..]|
      ensures s[1..][i] < s[1..][j]
    {
      assert s[1..][i] == s[i + 1] && s[1..][j] == s[j + 1];
    }
  }

  lemma Member(s: seq<int>, i: nat)
    requires i < |s|
    ensures s[i] in s
  {
  }

  lemma FirstIsLeast(a: seq<int>, k: int)
    requires Increasing(a) && k in a
    ensures a[0] <= k
  {
    var j :| 0 <= j < |a| && a[j] == k;
  }

  /** Two increasing sequences with the same elements are equal. */
  lemma {:induction false} IncreasingUnique(a: seq<int>, b: seq<int>)
    requires Increasing(a) && Increasing(b)
    requires forall k :: k in a <==> k in b
    ensures a == b
    decreases |a|
  {
    if |a| > 0 {
      assert a[0] in a;
      assert a[0] in b;
      FirstIsLeast(a, b[0]);
      FirstIsLeast(b, a[0]);
      assert a == [a[0]] + a[1..];
      assert b == [b[0]] + b[1..];
      forall k
        ensures k in a[1..] <==> k in b[1..]
      {
        if k in a[1..] {
          var i :| 0 <= i < |a[1..]| && a[1..][i] == k;
          assert a[0] < a[i + 1] == k;
          assert k in b;
          assert k in [b[0]] + b[1..];
        }
        if k in b[1..] {
          var i :| 0 <= i < |b[1..]| && b[1..][i] == k;
          assert b[0] < b[i + 1] == k;
          assert k in a;
          assert k in [a[0]] + a[1..];
        }
      }
      TailIncreasing(a);
      TailIncreasing(b);
      IncreasingUnique(a[1..], b[1..]);
    } else if |b| > 0 {
      Member(b, 0);
      assert false;
    }
  }
}

=== FILE: world_data.dfy ===
/**
 * The per-world entry of the worlds configuration: thirteen settings read from
 * and written to a configuration section, and turned into a property map for
 * the world they describe.
 */
module WorldConfig {
  import opened Wrappers
  import opened Numerals
  import opened Tags
  import opened Properties

  datatype WorldData = WorldData(
    allowAnimals: bool,
    allowMonsters: bool,
    defaultBiome: string,
    difficulty: string,
    dragonBattle: bool,
    environment: string,
    loadOnStartup: bool,
    pvp: bool,
    readOnly: bool,
    spawn: string,
    worldName: string,
    worldType: string,
    dataSource: string)

  /**
   * A value of a configuration section: text, a boolean, or anything else the
   * file may hold (a number, a list, a nested section), carried with the text
   * its `toString` gives.
   */
  datatype ConfigValue = Text(text: string) | Flag(flag: bool) | OtherValue(shown: string)

  /** A value's `toString`: the text itself, `true`/`false` for a boolean. */
  function Shown(v: ConfigValue): string
  {
    match v
    case Text(s) => s
    case Flag(b) => if b then "true" else "false"
    case OtherValue(s) => s
  }

  /**
   * A path of a world's section: one of the thirteen settings (named as in the
   * file: `dataSource`, `defaultBiome`, ...) or any other path.
   */
  datatype Path =
    | DataSource | DefaultBiome | Difficulty | Environment | Spawn | WorldName | WorldType
    | AllowAnimals | AllowMonsters | Pvp | ReadOnly | LoadOnStartup | DragonBattle
    | OtherPath(path: string)

  type ConfigSection = map<Path, ConfigValue>

  /**
   * `getString`: null for a missing path; otherwise whatever value is there,
   * as its `toString` (an unquoted `environment: 0` reads as "0").
   */
  function GetString(section: ConfigSection, path: Path): (r: Option<string>)
    ensures r.Some? <==> path in section
    ensures r.Some? && section[path].Text? ==> section[path] == Text(r.value)
    ensures r.Some? && section[path].Flag? ==> r.value == (if section[path].flag then "true" else "false")
    ensures r.Some? && section[path].OtherValue? ==> r.value == section[path].shown
  {
    if path in section then Some(Shown(section[path])) else None
  }

  /** `getBoolean`: the boolean under the path, false when there is none. */
  function GetBoolean(section: ConfigSection, path: Path): (r: bool)
    ensures r <==> path in section && section[path] == Flag(true)
  {
    path in section && section[path] == Flag(true)
  }

  /** The convenience constructor: a writable, peaceful, plains world loaded at startup. */
  function NewWorldData(worldName: string, dataSource: string, spawn: string): (r: WorldData)
    ensures r.worldName == worldName && r.dataSource == dataSource && r.spawn == spawn
    ensures r.allowAnimals && r.allowMonsters && r.pvp && r.loadOnStartup
    ensures !r.readOnly && !r.dragonBattle
    ensures r.defaultBiome == "minecraft:plains" && r.difficulty == "peaceful"
    ensures r.environment == "NORMAL" && r.worldType == "DEFAULT"
  {
    WorldData(true, true, "minecraft:plains", "peaceful", false, "NORMAL", true, true, false, spawn, worldName,
              "DEFAULT", dataSource)
  }

  const TEXT_PATHS: set<Path> := {DataSource, DefaultBiome, Difficulty, Environment, Spawn, WorldName, WorldType}
  const FLAG_PATHS: set<Path> := {AllowAnimals, AllowMonsters, Pvp, ReadOnly, LoadOnStartup, DragonBattle}

  /** Every text setting is present, whatever its value. */
  predicate HasTexts(section: ConfigSection)
  {
    forall k :: k in TEXT_PATHS ==> k in section
  }

  /** Every text setting is stored as text, as `serialize` writes it. */
  predicate TextsAsText(section: ConfigSection)
  {
    forall k :: k in TEXT_PATHS ==> k in section && section[k].Text?
  }

  /**
   * `deserialize`: empty when any of the seven text settings is missing; a
   * present one is read whatever its value, as its `toString`; a boolean
   * setting that is missing or not a boolean is false.
   */
  function Deserialize(section: ConfigSection): (r: Option<WorldData>)
    ensures r.Some? <==> HasTexts(section)
    ensures r.Some? ==> && r.value.dataSource == Shown(section[DataSource])
                        && r.value.defaultBiome == Shown(section[DefaultBiome])
                        && r.value.difficulty == Shown(section[Difficulty])
                        && r.value.environment == Shown(section[Environment])
                        && r.value.spawn == Shown(section[Spawn])
                        && r.value.worldName == Shown(section[WorldName])
                        && r.value.worldType == Shown(section[WorldType])
    ensures r.Some? ==> && (r.value.allowAnimals <==> GetBoolean(section, AllowAnimals))
                        && (r.value.allowMonsters <==> GetBoolean(section, AllowMonsters))
                        && (r.value.pvp <==> GetBoolean(section, Pvp))
                        && (r.value.readOnly <==> GetBoolean(section, ReadOnly))
                        && (r.value.loadOnStartup <==> GetBoolean(section, LoadOnStartup))
                        && (r.value.dragonBattle <==> GetBoolean(section, DragonBattle))
  {
    var dataSource := GetString(section, DataSource);
    var defaultBiome := GetString(section, DefaultBiome);
    var difficulty := GetString(section, Difficulty);
    var environment := GetString(section, Environment);
    var spawn := GetString(section, Spawn);
    var worldName := GetString(section, WorldName);
    var worldType := GetString(section, WorldType);
    if dataSource.None? || defaultBiome.None? || difficulty.None? || environment.None? || spawn.None?
       || worldName.None? || worldType.None? then
      None
    else
      Some(WorldData(GetBoolean(section, AllowAnimals), GetBoolean(section, AllowMonsters), defaultBiome.value,
                     difficulty.value, GetBoolean(section, DragonBattle), environment.value,
                     GetBoolean(section, LoadOnStartup), GetBoolean(section, Pvp), GetBoolean(section, ReadOnly),
                     spawn.value, worldName.value, worldType.value, dataSource.value))
  }

  /** `serialize`: the thirteen settings are set in the section; nothing else in it changes. */
  function Serialize(d: WorldData, section: ConfigSection): (r: ConfigSection)
    ensures r.Keys == section.Keys + TEXT_PATHS + FLAG_PATHS
    ensures forall k :: k in section && k !in TEXT_PATHS && k !in FLAG_PATHS ==> r[k] == section[k]
  {
    section[DataSource := Text(d.dataSource)][DefaultBiome := Text(d.defaultBiome)]
           [Difficulty := Text(d.difficulty)][Environment := Text(d.environment)][Spawn := Text(d.spawn)]
           [WorldName := Text(d.worldName)][WorldType := Text(d.worldType)]
           [AllowAnimals := Flag(d.allowAnimals)][AllowMonsters := Flag(d.allowMonsters)][Pvp := Flag(d.pvp)]
           [ReadOnly := Flag(d.readOnly)][LoadOnStartup := Flag(d.loadOnStartup)]
           [DragonBattle := Flag(d.dragonBattle)]
  }

  /** A serialised entry is read back with all thirteen settings. */
  lemma DeserializeSerialize(d: WorldData, section: ConfigSection)
    ensures Deserialize(Serialize(d, section)) == Some(d)
  {
    SerializedTexts(d, section);
    SerializedFlags(d, section);
    assert HasTexts(Serialize(d, section));
  }

  /** The seven text paths of a serialised section hold the entry's text settings. */
  lemma SerializedTexts(d: WorldData, section: ConfigSection)
    ensures var r := Serialize(d, section);
            && r[DataSource] == Text(d.dataSource) && r[DefaultBiome] == Text(d.defaultBiome)
            && r[Difficulty] == Text(d.difficulty) && r[Environment] == Text(d.environment)
            && r[Spawn] == Text(d.spawn) && r[WorldName] == Text(d.worldName) && r[WorldType] == Text(d.worldType)
  {
    TextsSet(d, section);
    FlagsKeepTexts(d, WriteTexts(d, section));
  }

  /** The section after the seven text settings are written, before the flags. */
  function WriteTexts(d: WorldData, section: ConfigSection): (texts: ConfigSection)
    ensures texts.Keys == section.Keys + TEXT_PATHS
    ensures && texts[DataSource] == Text(d.dataSource) && texts[DefaultBiome] == Text(d.defaultBiome)
            && texts[Difficulty] == Text(d.difficulty) && texts[Environment] == Text(d.environment)
            && texts[Spawn] == Text(d.spawn) && texts[WorldName] == Text(d.worldName) && texts[WorldType] == Text(d.worldType)
  {
    section[DataSource := Text(d.dataSource)][DefaultBiome := Text(d.defaultBiome)]
           [Difficulty := Text(d.difficulty)][Environment := Text(d.environment)][Spawn := Text(d.spawn)]
           [WorldName := Text(d.worldName)][WorldType := Text(d.worldType)]
  }

  /** Serialising is writing the texts, then the six flags. */
  lemma TextsSet(d: WorldData, section: ConfigSection)
    ensures Serialize(d, section)
            == WriteTexts(d, section)[AllowAnimals := Flag(d.allowAnimals)][AllowMonsters := Flag(d.allowMonsters)]
                    [Pvp := Flag(d.pvp)][ReadOnly := Flag(d.readOnly)][LoadOnStartup := Flag(d.loadOnStartup)]
                    [DragonBattle := Flag(d.dragonBattle)]
  {
  }

  /** The six flag paths of a serialised section hold the entry's boolean settings. */
  lemma SerializedFlags(d: WorldData, section: ConfigSection)
    ensures var r := Serialize(d, section);
            && r[AllowAnimals] == Flag(d.allowAnimals) && r[AllowMonsters] == Flag(d.allowMonsters)
            && r[Pvp] == Flag(d.pvp) && r[ReadOnly] == Flag(d.readOnly)
            && r[LoadOnStartup] == Flag(d.loadOnStartup) && r[DragonBattle] == Flag(d.dragonBattle)
  {
  }

  /** Setting the six flags leaves the seven text paths as they were. */
  lemma FlagsKeepTexts(d: WorldData, texts: ConfigSection)
    requires DataSource in texts && DefaultBiome in texts && Difficulty in texts && Environment in texts
    requires Spawn in texts && WorldName in texts && WorldType in texts
    ensures var r := texts[AllowAnimals := Flag(d.allowAnimals)][AllowMonsters := Flag(d.allowMonsters)][Pvp := Flag(d.pvp)]
                          [ReadOnly := Flag(d.readOnly)][LoadOnStartup := Flag(d.loadOnStartup)]
                          [DragonBattle := Flag(d.dragonBattle)];
            && r[DataSource] == texts[DataSource] && r[DefaultBiome] == texts[DefaultBiome]
            && r[Difficulty] == texts[Difficulty] && r[Environment] == texts[Environment]
            && r[Spawn] == texts[Spawn] && r[WorldName] == texts[WorldName] && r[WorldType] == texts[WorldType]
  {
  }

  /** Every boolean setting is stored as a boolean. */
  predicate HasFlags(section: ConfigSection)
  {
    forall k :: k in FLAG_PATHS ==> k in section && section[k].Flag?
  }

  /** Conversely, writing back what was read leaves a complete section as it was. */
  lemma SerializeDeserialize(section: ConfigSection)
    requires TextsAsText(section) && HasFlags(section)
    ensures Deserialize(section).Some?
    ensures Serialize(Deserialize(section).value, section) == section
  {
    var d := Deserialize(section).value;
    FlagBack(section, AllowAnimals);
    FlagBack(section, AllowMonsters);
    FlagBack(section, Pvp);
    FlagBack(section, ReadOnly);
    FlagBack(section, LoadOnStartup);
    FlagBack(section, DragonBattle);
    forall k | k in TEXT_PATHS + FLAG_PATHS
      ensures section[k := section[k]] == section
    {
      UpdateSame(section, k);
    }
  }

  /**
   * Writing back what was read turns every text setting into text: a number or
   * a boolean under a text path is stored as the text it was read as.
   */
  lemma RewriteShowsTexts(section: ConfigSection)
    requires HasTexts(section)
    ensures Deserialize(section).Some?
    ensures var r := Serialize(Deserialize(section).value, section);
            && r[DataSource] == Text(Shown(section[DataSource])) && r[DefaultBiome] == Text(Shown(section[DefaultBiome]))
            && r[Difficulty] == Text(Shown(section[Difficulty])) && r[Environment] == Text(Shown(section[Environment]))
            && r[Spawn] == Text(Shown(section[Spawn])) && r[WorldName] == Text(Shown(section[WorldName]))
            && r[WorldType] == Text(Shown(section[WorldType]))
  {
    SerializedTexts(Deserialize(section).value, section);
  }

  /** Setting a key to the value it already holds changes nothing. */
  lemma UpdateSame<K, V>(m: map<K, V>, k: K)
    requires k in m
    ensures m[k := m[k]] == m
  {
  }

  /** A boolean setting is the flag `getBoolean` reads from it. */
  lemma FlagBack(section: ConfigSection, k: Path)
    requires HasFlags(section) && k in FLAG_PATHS
    ensures section[k] == Flag(GetBoolean(section, k))
  {
    assert section[k].Flag?;
  }

  // ---- toPropertyMap ----

  /** The world properties a configuration entry sets (constants of the property catalogue). */
  datatype Catalogue = Catalogue(
    spawnX: Property<int>, spawnY: Property<int>, spawnZ: Property<int>,
    difficulty: Property<string>, allowMonsters: Property<bool>, allowAnimals: Property<bool>,
    dragonBattle: Property<bool>, pvp: Property<bool>, environment: Property<string>,
    worldType: Property<string>, defaultBiome: Property<string>)

  function Names(c: Catalogue): seq<string>
  {
    [c.spawnX.nbtName, c.spawnY.nbtName, c.spawnZ.nbtName, c.difficulty.nbtName, c.allowMonsters.nbtName,
     c.allowAnimals.nbtName, c.dragonBattle.nbtName, c.pvp.nbtName, c.environment.nbtName,
     c.worldType.nbtName, c.defaultBiome.nbtName]
  }

  predicate Distinct(names: seq<string>)
  {
    forall i, j :: 0 <= i < j < |names| ==> names[i] != names[j]
  }

  ghost predicate CoherentCatalogue(c: Catalogue)
  {
    && Coherent(c.spawnX) && Coherent(c.spawnY) && Coherent(c.spawnZ) && Coherent(c.difficulty)
    && Coherent(c.allowMonsters) && Coherent(c.allowAnimals) && Coherent(c.dragonBattle) && Coherent(c.pvp)
    && Coherent(c.environment) && Coherent(c.worldType) && Coherent(c.defaultBiome)
  }

  /** ASCII upper case, as `toUpperCase(Locale.ROOT)` treats the letters of an enum name. */
  function ToUpper(s: string): (r: string)
    ensures |r| == |s|
    ensures forall i :: 0 <= i < |s| ==> r[i] == (if 'a' <= s[i] <= 'z' then (s[i] as int - 32) as char else s[i])
  {
    if |s| == 0 then []
    else [if 'a' <= s[0] <= 'z' then (s[0] as int - 32) as char else s[0]] + ToUpper(s[1..])
  }

  const DIFFICULTIES: set<string> := {"PEACEFUL", "EASY", "NORMAL", "HARD"}
  const ENVIRONMENTS: set<string> := {"NORMAL", "NETHER", "THE_END"}

  /** `World.Environment.getEnvironment(id).name()` for the three environment ids. */
  function EnvironmentName(id: int): (r: string)
    requires -1 <= id <= 1
    ensures r in ENVIRONMENTS && ToUpper(r) == r
  {
    if id == -1 then UpperIsSelf("NETHER"); "NETHER"
    else if id == 0 then UpperIsSelf("NORMAL"); "NORMAL"
    else UpperIsSelf("THE_END"); "THE_END"
  }

  /** Text without lower-case letters is its own upper case. */
  lemma UpperIsSelf(s: string)
    requires forall i :: 0 <= i < |s| ==> !('a' <= s[i] <= 'z')
    ensures ToUpper(s) == s
  {
  }

  /**
   * The environment setting: an enum name in any case is kept as written; an
   * integer id in [-1, 1] becomes its enum name; anything else is refused.
   */
  function ResolveEnvironment(environment: string): (r: Result<string>)
    ensures ToUpper(environment) in ENVIRONMENTS ==> r == Ok(environment)
    ensures ToUpper(environment) !in ENVIRONMENTS ==>
              (r.Ok? <==> ParseInt(environment).Ok? && -1 <= ParseInt(environment).value <= 1)
    ensures r.Ok? ==> ToUpper(r.value) in ENVIRONMENTS
    ensures r.Fail? ==> r.error.IllegalArgument?
  {
    if ToUpper(environment) in ENVIRONMENTS then Ok(environment)
    else
      var id := ParseInt(environment);
      if id.Ok? && -1 <= id.value <= 1 then Ok(EnvironmentName(id.value))
      else Fail(IllegalArgument("unknown environment '" + environment + "'"))
  }

  /**
   * `String.split(", ")`: the text between separators, left to right, with
   * trailing empty strings removed; text without a separator, the empty text
   * included, is its own only piece.
   */
  function Split(s: string): (r: seq<string>)
  {
    if s == "" then [""] else DropTrailingEmpty(Pieces(s, ""))
  }

  /** The pieces of `s` between occurrences of ", ", with `current` the piece read so far. */
  function Pieces(s: string, current: string): (r: seq<string>)
    ensures |r| > 0
    decreases |s|
  {
    if |s| >= 2 && s[0] == ',' && s[1] == ' ' then [current] + Pieces(s[2..], "")
    else if |s| == 0 then [current]
    else Pieces(s[1..], current + [s[0]])
  }

  function DropTrailingEmpty(parts: seq<string>): (r: seq<string>)
    ensures |r| <= |parts| && r == parts[..|r|]
    ensures |r| > 0 ==> r[|r| - 1] != ""
    ensures forall i :: |r| <= i < |parts| ==> parts[i] == ""
  {
    if |parts| == 0 then []
    else if parts[|parts| - 1] == "" then DropTrailingEmpty(parts[..|parts| - 1])
    else parts
  }

  predicate NoComma(s: string)
  {
    forall i :: 0 <= i < |s| ==> s[i] != ','
  }

  /** Text without a comma is read into the current piece as a whole. */
  lemma {:induction false} PiecesPlain(x: string, rest: string, current: string)
    requires NoComma(x)
    ensures Pieces(x + rest, current) == Pieces(rest, current + x)
    decreases |x|
  {
    if |x| > 0 {
      assert (x + rest)[1..] == x[1..] + rest;
      PiecesPlain(x[1..], rest, current + [x[0]]);
      assert current + [x[0]] + x[1..] == current + x;
    } else {
      assert x + rest == rest;
      assert current + x == current;
    }
  }

  /** Three comma-free pieces joined by ", " are split back into those pieces when the last is not empty. */
  lemma SplitJoin(a: string, b: string, c: string)
    requires NoComma(a) && NoComma(b) && NoComma(c) && c != ""
    ensures Split(a + ", " + b + ", " + c) == [a, b, c]
  {
    var tail := b + ", " + c;
    assert a + ", " + b + ", " + c == a + (", " + tail);
    PieceThen(a, tail);
    assert tail == b + (", " + c);
    PieceThen(b, c);
    PiecesPlain(c, "", "");
    assert c + "" == c && "" + c == c;
    assert Pieces(a + (", " + tail), "") == [a, b, c];
  }

  /** A comma-free piece followed by ", " is split off as a piece of its own. */
  lemma PieceThen(x: string, rest: string)
    requires NoComma(x)
    ensures Pieces(x + (", " + rest), "") == [x] + Pieces(rest, "")
  {
    PiecesPlain(x, ", " + rest, "");
    assert (", " + rest)[2..] == rest;
    assert "" + x == x;
  }

  /**
   * The three spawn coordinates: the first three pieces, each read by
   * `parseNumber` (`Double.parseDouble` then the `(int)` cast, None for a
   * NumberFormatException).  Fewer than three pieces or an unreadable one
   * is refused.
   */
  function SpawnOf(spawn: string, parseNumber: string -> Option<int>): (r: Result<(int, int, int)>)
    ensures r.Ok? <==> (&& |Split(spawn)| >= 3 && parseNumber(Split(spawn)[0]).Some?
                        && parseNumber(Split(spawn)[1]).Some? && parseNumber(Split(spawn)[2]).Some?)
    ensures r.Ok? ==> r.value == (parseNumber(Split(spawn)[0]).value, parseNumber(Split(spawn)[1]).value,
                                  parseNumber(Split(spawn)[2]).value)
    ensures r.Fail? ==> r.error.IllegalArgument?
  {
    var parts := Split(spawn);
    if |parts| < 3 || parseNumber(parts[0]).None? || parseNumber(parts[1]).None? || parseNumber(parts[2]).None? then
      Fail(IllegalArgument("invalid spawn location '" + spawn + "'"))
    else
      Ok((parseNumber(parts[0]).value, parseNumber(parts[1]).value, parseNumber(parts[2]).value))
  }

  /** One `setValue` call: the tag name, the tag it stores, and whether the validator lets it through. */
  datatype Write = Write(name: string, tag: Tag, accepted: bool)

  function WriteOf<T>(p: Property<T>, value: T): (w: Write)
    ensures w.name == p.nbtName && (w.accepted <==> Accepts(p, value))
  {
    Write(p.nbtName, p.encode(p.nbtName, value), Accepts(p, value))
  }

  /** A sequence of `setValue` calls: the first refused value is an IllegalArgumentException. */
  function ApplyAll(m: PropertyMap, writes: seq<Write>): (r: Result<PropertyMap>)
    ensures r.Fail? ==> r.error.IllegalArgument?
    decreases |writes|
  {
    if |writes| == 0 then Ok(m)
    else if !writes[0].accepted then Fail(IllegalArgument("not a valid property value"))
    else ApplyAll(m[writes[0].name := writes[0].tag], writes[1..])
  }

  /** A single write is exactly `setValue`. */
  lemma ApplyOne<T>(m: PropertyMap, p: Property<T>, value: T)
    ensures ApplyAll(m, [WriteOf(p, value)]) == SetValue(m, p, value)
  {
  }

  /** The tag names the writes store under, in order. */
  function NameList(writes: seq<Write>): (r: seq<string>)
    ensures |r| == |writes| && forall i :: 0 <= i < |writes| ==> r[i] == writes[i].name
  {
    seq(|writes|, i requires 0 <= i < |writes| => writes[i].name)
  }

  /**
   * The writes succeed exactly when every value is accepted; then each name
   * holds its own tag (names being distinct), no other name is added, and
   * every other entry is kept.
   */
  lemma {:induction false} ApplyAllStores(m: PropertyMap, writes: seq<Write>)
    requires Distinct(NameList(writes))
    ensures ApplyAll(m, writes).Ok? <==> forall i :: 0 <= i < |writes| ==> writes[i].accepted
    ensures ApplyAll(m, writes).Ok? ==>
              && (forall k :: k in ApplyAll(m, writes).value <==> k in m || k in NameList(writes))
              && (forall k :: k in m && k !in NameList(writes) ==> ApplyAll(m, writes).value[k] == m[k])
              && forall i :: 0 <= i < |writes| ==> ApplyAll(m, writes).value[writes[i].name] == writes[i].tag
    decreases |writes|
  {
    if |writes| > 0 && writes[0].accepted {
      var rest := writes[1..];
      assert NameList(writes) == [writes[0].name] + NameList(rest);
      ApplyAllStores(m[writes[0].name := writes[0].tag], rest);
      if ApplyAll(m, writes).Ok? {
        var r := ApplyAll(m, writes).value;
        forall i | 0 <= i < |writes|
          ensures r[writes[i].name] == writes[i].tag
        {
          if i > 0 {
            assert writes[i] == rest[i - 1];
          }
        }
      }
    }
  }

  /** The eleven `setValue` calls of `toPropertyMap`, in order. */
  function Writes(c: Catalogue, spawn: (int, int, int), d: WorldData, environment: string): (ws: seq<Write>)
    ensures |ws| == 11
    ensures NameList(ws) == Names(c)
  {
    [WriteOf(c.spawnX, spawn.0), WriteOf(c.spawnY, spawn.1), WriteOf(c.spawnZ, spawn.2),
     WriteOf(c.difficulty, d.difficulty), WriteOf(c.allowMonsters, d.allowMonsters),
     WriteOf(c.allowAnimals, d.allowAnimals), WriteOf(c.dragonBattle, d.dragonBattle), WriteOf(c.pvp, d.pvp),
     WriteOf(c.environment, environment), WriteOf(c.worldType, d.worldType), WriteOf(c.defaultBiome, d.defaultBiome)]
  }

  /** A spawn written as "x, y, z" is read back as its three coordinates. */
  lemma SpawnOfJoin(x: string, y: string, z: string, parseNumber: string -> Option<int>)
    requires NoComma(x) && NoComma(y) && NoComma(z) && z != ""
    requires parseNumber(x).Some? && parseNumber(y).Some? && parseNumber(z).Some?
    ensures SpawnOf(x + ", " + y + ", " + z, parseNumber)
            == Ok((parseNumber(x).value, parseNumber(y).value, parseNumber(z).value))
  {
    SplitJoin(x, y, z);
  }

  /**
   * `toPropertyMap`: the difficulty must name a difficulty in any case, the
   * spawn must hold three numbers, the environment must resolve; then the
   * eleven properties are set on a fresh map, each through its validator.
   */
  function ToPropertyMap(d: WorldData, c: Catalogue, parseNumber: string -> Option<int>): (r: Result<PropertyMap>)
    ensures ToUpper(d.difficulty) !in DIFFICULTIES ==> r.Fail? && r.error.IllegalArgument?
    ensures SpawnOf(d.spawn, parseNumber).Fail? ==> r.Fail? && r.error.IllegalArgument?
    ensures ResolveEnvironment(d.environment).Fail? ==> r.Fail? && r.error.IllegalArgument?
    ensures r.Fail? ==> r.error.IllegalArgument?
  {
    if ToUpper(d.difficulty) !in DIFFICULTIES then Fail(IllegalArgument("unknown difficulty '" + d.difficulty + "'"))
    else
      var spawn :- SpawnOf(d.spawn, parseNumber);
      var environment :- ResolveEnvironment(d.environment);
      ApplyAll(map[], Writes(c, spawn, d, environment))
  }

  /**
   * With a catalogue of distinct, coherent properties, the conversion
   * succeeds exactly when the three checks pass and every validator accepts;
   * it then holds exactly the eleven properties, and each reads back as the
   * setting it came from (the environment as resolved).
   */
  lemma PropertyMapValues(d: WorldData, c: Catalogue, parseNumber: string -> Option<int>)
    requires CoherentCatalogue(c) && Distinct(Names(c))
    requires ToUpper(d.difficulty) in DIFFICULTIES
    requires SpawnOf(d.spawn, parseNumber).Ok? && ResolveEnvironment(d.environment).Ok?
    ensures var spawn := SpawnOf(d.spawn, parseNumber).value;
            var environment := ResolveEnvironment(d.environment).value;
            var ws := Writes(c, spawn, d, environment);
            ToPropertyMap(d, c, parseNumber).Ok? <==> forall i :: 0 <= i < |ws| ==> ws[i].accepted
    ensures ToPropertyMap(d, c, parseNumber).Ok? ==>
            var m := ToPropertyMap(d, c, parseNumber).value;
            var spawn := SpawnOf(d.spawn, parseNumber).value;
            && (forall k :: k in m <==> k in Names(c))
            && GetValue(m, c.spawnX) == spawn.0 && GetValue(m, c.spawnY) == spawn.1 && GetValue(m, c.spawnZ) == spawn.2
            && GetValue(m, c.difficulty) == d.difficulty
            && GetValue(m, c.allowMonsters) == d.allowMonsters && GetValue(m, c.allowAnimals) == d.allowAnimals
            && GetValue(m, c.dragonBattle) == d.dragonBattle && GetValue(m, c.pvp) == d.pvp
            && GetValue(m, c.environment) == ResolveEnvironment(d.environment).value
            && GetValue(m, c.worldType) == d.worldType && GetValue(m, c.defaultBiome) == d.defaultBiome
  {
    PropertyMapIsWrites(d, c, parseNumber);
    WritesValues(c, SpawnOf(d.spawn, parseNumber).value, d, ResolveEnvironment(d.environment).value);
  }

  /** The eleven writes on a fresh map succeed exactly when each is accepted, and then read back. */
  lemma WritesValues(c: Catalogue, spawn: (int, int, int), d: WorldData, environment: string)
    requires CoherentCatalogue(c) && Distinct(Names(c))
    ensures var ws := Writes(c, spawn, d, environment);
            ApplyAll(map[], ws).Ok? <==> forall i :: 0 <= i < |ws| ==> ws[i].accepted
    ensures var r := ApplyAll(map[], Writes(c, spawn, d, environment));
            r.Ok? ==>
            var m := r.value;
            && (forall k :: k in m <==> k in Names(c))
            && GetValue(m, c.spawnX) == spawn.0 && GetValue(m, c.spawnY) == spawn.1 && GetValue(m, c.spawnZ) == spawn.2
            && GetValue(m, c.difficulty) == d.difficulty
            && GetValue(m, c.allowMonsters) == d.allowMonsters && GetValue(m, c.allowAnimals) == d.allowAnimals
            && GetValue(m, c.dragonBattle) == d.dragonBattle && GetValue(m, c.pvp) == d.pvp
            && GetValue(m, c.environment) == environment
            && GetValue(m, c.worldType) == d.worldType && GetValue(m, c.defaultBiome) == d.defaultBiome
  {
    var ws := Writes(c, spawn, d, environment);
    ApplyAllStores(map[], ws);
    if ApplyAll(map[], ws).Ok? {
      var m := ApplyAll(map[], ws).value;
      SpawnReadsBack(m, c, spawn, d, environment);
      SettingsReadBack(m, c, spawn, d, environment);
    }
  }

  /** Once the three checks pass, the conversion is the eleven writes on a fresh map. */
  lemma PropertyMapIsWrites(d: WorldData, c: Catalogue, parseNumber: string -> Option<int>)
    requires ToUpper(d.difficulty) in DIFFICULTIES
    requires SpawnOf(d.spawn, parseNumber).Ok? && ResolveEnvironment(d.environment).Ok?
    ensures ToPropertyMap(d, c, parseNumber)
            == ApplyAll(map[], Writes(c, SpawnOf(d.spawn, parseNumber).value, d, ResolveEnvironment(d.environment).value))
  {
  }

  /** The three spawn coordinates of the written map read back. */
  lemma SpawnReadsBack(m: PropertyMap, c: Catalogue, spawn: (int, int, int), d: WorldData, environment: string)
    requires CoherentCatalogue(c)
    requires var ws := Writes(c, spawn, d, environment);
             forall i :: 0 <= i < |ws| ==> ws[i].name in m && m[ws[i].name] == ws[i].tag
    ensures GetValue(m, c.spawnX) == spawn.0 && GetValue(m, c.spawnY) == spawn.1 && GetValue(m, c.spawnZ) == spawn.2
  {
    var ws := Writes(c, spawn, d, environment);
    assert ws[0] == WriteOf(c.spawnX, spawn.0) && m[ws[0].name] == ws[0].tag;
    ReadsBack(m, c.spawnX, spawn.0);
    assert ws[1] == WriteOf(c.spawnY, spawn.1) && m[ws[1].name] == ws[1].tag;
    ReadsBack(m, c.spawnY, spawn.1);
    assert ws[2] == WriteOf(c.spawnZ, spawn.2) && m[ws[2].name] == ws[2].tag;
    ReadsBack(m, c.spawnZ, spawn.2);
  }

  /** The eight settings of the written map read back. */
  lemma SettingsReadBack(m: PropertyMap, c: Catalogue, spawn: (int, int, int), d: WorldData, environment: string)
    requires CoherentCatalogue(c)
    requires var ws := Writes(c, spawn, d, environment);
             forall i :: 0 <= i < |ws| ==> ws[i].name in m && m[ws[i].name] == ws[i].tag
    ensures && GetValue(m, c.difficulty) == d.difficulty
            && GetValue(m, c.allowMonsters) == d.allowMonsters && GetValue(m, c.allowAnimals) == d.allowAnimals
            && GetValue(m, c.dragonBattle) == d.dragonBattle && GetValue(m, c.pvp) == d.pvp
            && GetValue(m, c.environment) == environment
            && GetValue(m, c.worldType) == d.worldType && GetValue(m, c.defaultBiome) == d.defaultBiome
  {
    var ws := Writes(c, spawn, d, environment);
    assert ws[3] == WriteOf(c.difficulty, d.difficulty) && m[ws[3].name] == ws[3].tag;
    ReadsBack(m, c.difficulty, d.difficulty);
    assert ws[4] == WriteOf(c.allowMonsters, d.allowMonsters) && m[ws[4].name] == ws[4].tag;
    ReadsBack(m, c.allowMonsters, d.allowMonsters);
    assert ws[5] == WriteOf(c.allowAnimals, d.allowAnimals) && m[ws[5].name] == ws[5].tag;
    ReadsBack(m, c.allowAnimals, d.allowAnimals);
    assert ws[6] == WriteOf(c.dragonBattle, d.dragonBattle) && m[ws[6].name] == ws[6].tag;
    ReadsBack(m, c.dragonBattle, d.dragonBattle);
    assert ws[7] == WriteOf(c.pvp, d.pvp) && m[ws[7].name] == ws[7].tag;
    ReadsBack(m, c.pvp, d.pvp);
    assert ws[8] == WriteOf(c.environment, environment) && m[ws[8].name] == ws[8].tag;
    ReadsBack(m, c.environment, environment);
    assert ws[9] == WriteOf(c.worldType, d.worldType) && m[ws[9].name] == ws[9].tag;
    ReadsBack(m, c.worldType, d.worldType);
    assert ws[10] == WriteOf(c.defaultBiome, d.defaultBiome) && m[ws[10].name] == ws[10].tag;
    ReadsBack(m, c.defaultBiome, d.defaultBiome);
  }

  /** A property whose tag was written from a value reads back as that value. */
  lemma ReadsBack<T(!new)>(m: PropertyMap, p: Property<T>, value: T)
    requires Coherent(p) && p.nbtName in m && m[p.nbtName] == p.encode(p.nbtName, value)
    ensures GetValue(m, p) == value
  {
    assert p.decode(p.encode(p.nbtName, value)) == Some(value);
  }

  /** The default entry names a valid difficulty and environment, so only its spawn text can be refused. */
  lemma DefaultsResolve(worldName: string, dataSource: string, spawn: string)
    ensures ToUpper(NewWorldData(worldName, dataSource, spawn).difficulty) in DIFFICULTIES
    ensures ResolveEnvironment(NewWorldData(worldName, dataSource, spawn).environment) == Ok("NORMAL")
  {
    var d := NewWorldData(worldName, dataSource, spawn);
    UpperPeaceful();
    assert ToUpper(d.difficulty) == "PEACEFUL";
    NormalResolves();
  }

  /** The default environment name is a constant of its own enum. */
  lemma NormalResolves()
    ensures ResolveEnvironment("NORMAL") == Ok("NORMAL")
  {
    UpperIsSelf("NORMAL");
    assert "NORMAL" in ENVIRONMENTS;
  }

  /** The default difficulty, raised to upper case, spelled out letter by letter. */
  lemma UpperPeaceful()
    ensures ToUpper("peaceful") == "PEACEFUL"
  {
    var u := ToUpper("peaceful");
    assert u[0] == 'P';
    assert u[1] == 'E';
    assert u[2] == 'A';
    assert u[3] == 'C';
    assert u[4] == 'E';
    assert u[5] == 'F';
    assert u[6] == 'U';
    assert u[7] == 'L';
    EightChars(u, "PEACEFUL");
  }

  /** Two eight-character strings that agree at every position are equal. */
  lemma EightChars(u: string, t: string)
    requires |u| == |t| == 8
    requires u[0] == t[0] && u[1] == t[1] && u[2] == t[2] && u[3] == t[3]
    requires u[4] == t[4] && u[5] == t[5] && u[6] == t[6] && u[7] == t[7]
    ensures u == t
  {
    assert forall i :: 0 <= i < 8 ==> u[i] == t[i];
  }
}

=== FILE: world_importer.dfy ===
/**
 * The plugin's vanilla-world importer, `readFromDirectory`: a world directory
 * with level.dat, region files and map files becomes an in-memory Slime world
 * that has no data source yet.  Directory listings are given in the order the
 * file system returns them.
 */
module PluginImport {
  import opened Wrappers
  import opened Bytes
  import opened Tags
  import opened Properties
  import opened Worlds
  import opened Regions
  import opened VanillaChunks

  datatype NamedFile = NamedFile(name: string, bytes: seq<byte>)

  /** The "data" entry of a world directory. */
  datatype DataDir = NoDataDir | DataIsFile | DataFiles(files: seq<NamedFile>)

  /**
   * A world directory: `level` is None unless level.dat exists as a file,
   * `region` None unless the region directory exists as a directory.
   */
  datatype WorldDir = WorldDir(name: string, level: Option<seq<byte>>, region: Option<seq<NamedFile>>, data: DataDir)

  /** The foreign readers: gzip-compressed NBT files, and region chunk payloads. */
  datatype Readers = Readers(readFile: FileTagReader, decode: ChunkDecoder)

  /** The three spawn properties the importer sets (constants of the property catalogue). */
  datatype SpawnProperties = SpawnProperties(x: Property<int>, y: Property<int>, z: Property<int>)

  predicate IsRegionFileName(name: string)
  {
    |name| >= 4 && name[|name| - 4..] == ".mca"
  }

  /** The region files among the directory's entries, in listing order. */
  function RegionFiles(files: seq<NamedFile>): (r: seq<NamedFile>)
    ensures forall f :: f in r <==> f in files && IsRegionFileName(f.name)
  {
    if |files| == 0 then []
    else (if IsRegionFileName(files[0].name) then [files[0]] else []) + RegionFiles(files[1..])
  }

  /** Chunk keys repeat nowhere in the list. */
  predicate DistinctKeys(cs: seq<Chunk>)
  {
    forall i, j :: 0 <= i < j < |cs| ==> KeyOf(cs[i]) != KeyOf(cs[j])
  }

  /** `Collectors.toMap` keyed by the chunk key: a repeated key is an IllegalStateException. */
  function ToMap(cs: seq<Chunk>): (r: Result<map<int, Chunk>>)
    ensures r.Ok? <==> DistinctKeys(cs)
    ensures r.Fail? ==> r.error.IllegalState?
    ensures r.Ok? ==> KeysMatch(r.value)
    ensures r.Ok? ==> forall k :: k in r.value <==> exists i :: 0 <= i < |cs| && KeyOf(cs[i]) == k
    ensures r.Ok? ==> forall i :: 0 <= i < |cs| ==> r.value[KeyOf(cs[i])] == cs[i]
    decreases |cs|
  {
    if |cs| == 0 then Ok(map[])
    else
      var rest :- ToMap(cs[1..]);
      assert forall i :: 0 < i < |cs| ==> cs[i] == cs[1..][i - 1];
      if KeyOf(cs[0]) in rest then
        assert !DistinctKeys(cs);
        Fail(IllegalState("Duplicate key"))
      else
        assert DistinctKeys(cs) by {
          assert DistinctKeys(cs[1..]);
          forall i, j | 0 <= i < j < |cs| ensures KeyOf(cs[i]) != KeyOf(cs[j]) {
            if i > 0 { assert cs[i] == cs[1..][i - 1] && cs[j] == cs[1..][j - 1]; }
          }
        }
        Ok(rest[KeyOf(cs[0]) := cs[0]])
  }

  /**
   * The loop over region files: each file's chunks are collected by key and
   * added to the world's map, a later file replacing chunks of an earlier one.
   */
  function LoadRegions(files: seq<NamedFile>, worldVersion: int, decode: ChunkDecoder, acc: map<int, Chunk>): (r: Result<map<int, Chunk>>)
    ensures r.Ok? ==> acc.Keys <= r.value.Keys
    decreases |files|
  {
    if |files| == 0 then Ok(acc)
    else
      var chunks :- LoadChunks(files[0].bytes, worldVersion, decode);
      var keyed :- ToMap(chunks);
      LoadRegions(files[1..], worldVersion, decode, acc + keyed)
  }

  /** A chunk stored under its own key that the import produced. */
  predicate ImportedAt(m: map<int, Chunk>, k: int)
    requires k in m
  {
    Imported(m[k]) && KeyOf(m[k]) == k
  }

  /** Every chunk the region files add is an imported chunk stored under its own key. */
  lemma {:induction false} LoadRegionsSound(files: seq<NamedFile>, worldVersion: int, decode: ChunkDecoder, acc: map<int, Chunk>)
    requires LoadRegions(files, worldVersion, decode, acc).Ok?
    ensures var m := LoadRegions(files, worldVersion, decode, acc).value;
            forall k :: k in m ==> (k in acc && m[k] == acc[k]) || ImportedAt(m, k)
    decreases |files|
  {
    if |files| > 0 {
      var chunks := LoadChunks(files[0].bytes, worldVersion, decode).value;
      var keyed := ToMap(chunks).value;
      var next := acc + keyed;
      forall k | k in keyed ensures ImportedAt(next, k) {
        var i :| 0 <= i < |chunks| && KeyOf(chunks[i]) == k;
        assert next[k] == chunks[i];
      }
      LoadRegionsSound(files[1..], worldVersion, decode, next);
    }
  }

  /** The map files, loaded in listing order; other entries are ignored. */
  function LoadMaps(files: seq<NamedFile>, read: FileTagReader): (r: Result<seq<Tag>>)
    ensures r.Ok? ==> forall i :: 0 <= i < |r.value| ==> r.value[i].CompoundTag? && "id" in r.value[i].entries
    decreases |files|
  {
    if |files| == 0 then Ok([])
    else
      var head :- if IsMapFileName(files[0].name) then
                    var m :- LoadMap(files[0].name, files[0].bytes, read); Ok([m])
                  else Ok([]);
      var tail :- LoadMaps(files[1..], read);
      Ok(head + tail)
  }

  /** The spawn from level.dat stored in a fresh property map. */
  function SpawnMap(p: SpawnProperties, data: LevelData): (r: Result<PropertyMap>)
    ensures r.Ok? <==> Accepts(p.x, data.spawnX) && Accepts(p.y, data.spawnY) && Accepts(p.z, data.spawnZ)
    ensures r.Fail? ==> r.error.IllegalArgument?
  {
    var withX :- SetValue(map[], p.x, data.spawnX);
    var withY :- SetValue(withX, p.y, data.spawnY);
    SetValue(withY, p.z, data.spawnZ)
  }

  /**
   * `readFromDirectory`.  No level.dat, no region directory, or no chunk left
   * after normalisation is an InvalidWorldException, as is a "data" entry that
   * is not a directory.  The world is named after the directory, is locked and
   * writable, has no loader, and carries the game rules and the spawn.
   */
  function ReadFromDirectory(dir: WorldDir, io: Readers, spawn: SpawnProperties): (r: Result<World>)
    ensures dir.level.None? ==> r == Fail(InvalidWorld(dir.name))
    ensures dir.level.Some? && ReadLevelData(dir.name, dir.level.value, io.readFile).Ok? && dir.region.None? ==>
              r == Fail(InvalidWorld(dir.name))
    ensures r.Ok? ==>
              && dir.level.Some? && ReadLevelData(dir.name, dir.level.value, io.readFile).Ok?
              && var level := ReadLevelData(dir.name, dir.level.value, io.readFile).value;
              && r.value.name == dir.name
              && r.value.locked && !r.value.readOnly && r.value.loader.None?
              && r.value.version == WorldVersionOf(level.version)
              && r.value.extraData == ExtraData(level.gameRules)
              && r.value.chunks != map[] && KeysMatch(r.value.chunks)
              && (forall k :: k in r.value.chunks ==> Imported(r.value.chunks[k]))
              && SpawnMap(spawn, level) == Ok(r.value.properties)
              && dir.data != DataIsFile
  {
    if dir.level.None? then Fail(InvalidWorld(dir.name))
    else
      var level :- ReadLevelData(dir.name, dir.level.value, io.readFile);
      var version := WorldVersionOf(level.version);
      if dir.region.None? then Fail(InvalidWorld(dir.name))
      else
        var chunks :- LoadRegions(RegionFiles(dir.region.value), version, io.decode, map[]);
        LoadRegionsSound(RegionFiles(dir.region.value), version, io.decode, map[]);
        assert KeysMatch(chunks) && forall k :: k in chunks ==> Imported(chunks[k]) by {
          forall k | k in chunks ensures KeyOf(chunks[k]) == k && Imported(chunks[k]) { assert ImportedAt(chunks, k); }
        }
        if chunks == map[] then Fail(InvalidWorld(dir.name))
        else
          var maps :- match dir.data
                      case NoDataDir => Ok([])
                      case DataIsFile => Fail(InvalidWorld(dir.name))
                      case DataFiles(files) => LoadMaps(files, io.readFile);
          var properties :- SpawnMap(spawn, level);
          Ok(World(dir.name, chunks, ExtraData(level.gameRules), properties, false, true, maps, None, version))
  }

  // ---- Properties ----

  /** With distinct tag names and accepting validators, the imported world's spawn is level.dat's. */
  lemma SpawnStored(p: SpawnProperties, data: LevelData)
    requires Coherent(p.x) && Coherent(p.y) && Coherent(p.z)
    requires p.x.nbtName != p.y.nbtName && p.y.nbtName != p.z.nbtName && p.x.nbtName != p.z.nbtName
    requires Accepts(p.x, data.spawnX) && Accepts(p.y, data.spawnY) && Accepts(p.z, data.spawnZ)
    ensures var m := SpawnMap(p, data).value;
            && m.Keys == {p.x.nbtName, p.y.nbtName, p.z.nbtName}
            && GetValue(m, p.x) == data.spawnX && GetValue(m, p.y) == data.spawnY && GetValue(m, p.z) == data.spawnZ
  {
    var withX := SetValue(map[], p.x, data.spawnX).value;
    var withY := SetValue(withX, p.y, data.spawnY).value;
    GetAfterSet(map[], p.x, data.spawnX);
    GetAfterSet(withX, p.y, data.spawnY);
    GetAfterSetOther(withX, p.y, data.spawnY, p.x);
    GetAfterSet(withY, p.z, data.spawnZ);
    GetAfterSetOther(withY, p.z, data.spawnZ, p.x);
    GetAfterSetOther(withY, p.z, data.spawnZ, p.y);
  }

  /** Two region files holding the same chunk key: the later file's chunk is the one kept. */
  lemma LaterRegionWins(a: NamedFile, b: NamedFile, worldVersion: int, decode: ChunkDecoder, k: int)
    requires LoadRegions([a, b], worldVersion, decode, map[]).Ok?
    requires LoadChunks(a.bytes, worldVersion, decode).Ok? && LoadChunks(b.bytes, worldVersion, decode).Ok?
    requires ToMap(LoadChunks(a.bytes, worldVersion, decode).value).Ok?
    requires ToMap(LoadChunks(b.bytes, worldVersion, decode).value).Ok?
    requires var ka := ToMap(LoadChunks(a.bytes, worldVersion, decode).value).value;
             var kb := ToMap(LoadChunks(b.bytes, worldVersion, decode).value).value;
             k in ka && k in kb
    ensures LoadRegions([a, b], worldVersion, decode, map[]).value[k]
            == ToMap(LoadChunks(b.bytes, worldVersion, decode).value).value[k]
  {
    var ka := ToMap(LoadChunks(a.bytes, worldVersion, decode).value).value;
    var kb := ToMap(LoadChunks(b.bytes, worldVersion, decode).value).value;
    assert [a, b][1..] == [b];
    assert LoadRegions([a, b], worldVersion, decode, map[]) == LoadRegions([b], worldVersion, decode, map[] + ka);
    assert [b][1..] == [];
    assert LoadRegions([b], worldVersion, decode, map[] + ka) == Ok(map[] + ka + kb);
  }

  /** A region file whose chunks repeat a key fails the whole import. */
  lemma DuplicateKeyRefused(dir: WorldDir, io: Readers, spawn: SpawnProperties)
    requires dir.level.Some? && dir.region.Some?
    requires ReadLevelData(dir.name, dir.level.value, io.readFile).Ok?
    requires RegionFiles(dir.region.value) != []
    requires var cs := LoadChunks(RegionFiles(dir.region.value)[0].bytes,
                                  WorldVersionOf(ReadLevelData(dir.name, dir.level.value, io.readFile).value.version), io.decode);
             cs.Ok? && !DistinctKeys(cs.value)
    ensures ReadFromDirectory(dir, io, spawn).Fail? && ReadFromDirectory(dir, io, spawn).error.IllegalState?
  {
  }
}

=== FILE: wrappers.dfy ===
/** Option and Result, and the exceptions the world manager raises. */
module Wrappers {

  datatype Option<+T> = None | Some(value: T) {
    function GetOr(default: T): (r: T)
      ensures Some? ==> r == value
      ensures None? ==> r == default
    {
      match this
      case None => default
      case Some(v) => v
    }

    /** `Optional.get()`: an empty optional throws NoSuchElementException. */
    function Get(): (r: Result<T>)
      ensures Some? <==> r.Ok?
      ensures r.Ok? ==> r.value == value
      ensures r.Fail? ==> r.error == NoSuchElement
    {
      if Some? then Ok(value) else Fail(NoSuchElement)
    }
  }

  /**
   * Every way an operation of the world manager can end abnormally.  The first
   * group are the checked exceptions of the public API (`StorageFailure` is an
   * IOException raised by a storage backend or a file reader); the second are
   * the Java runtime exceptions the code lets escape, `RuntimeFailure` being a
   * bare RuntimeException the code throws itself.
   */
  datatype Error =
    | UnknownWorld(world: string)
    | WorldAlreadyExists(world: string)
    | WorldInUse(world: string)
    | CorruptedWorld(world: string)
    | NewerFormat(version: int)
    | WorldTooBig(world: string)
    | InvalidWorld(world: string)
    | NewerDatabase(current: int, stored: int)
    | StorageFailure
    | WorldLoaded(world: string)
    | IllegalArgument(message: string)
    | IllegalState(message: string)
    | EndOfStream
    | MalformedTag
    | CompressionFailure
    | NegativeArraySize
    | IndexOutOfBounds
    | NullPointer
    | ClassCast
    | NoSuchElement
    | NumberFormat
    | OutOfMemory
    | RuntimeFailure

  datatype Result<+T> = Ok(value: T) | Fail(error: Error) {
    predicate IsFailure() {
      Fail?
    }

    function PropagateFailure<U>(): Result<U>
      requires Fail?
    {
      Fail(error)
    }

    function Extract(): T
      requires Ok?
    {
      value
    }

  }
}
